=== FILE: README.md ===
# Battle Hexes rules engine in Dafny

A model of the rules engine of Battle Hexes, a two-player hex-grid wargame.
It covers the `battle_hexes_core` Python package (board, units, movement,
combat, turns, scoring, game set-up, vision and scenario loading), the
combat solver of the API service, and the road graph the web client
computes to find road junctions. Everything is written as immutable
datatypes and pure functions; the searches (reachable hexes, shortest paths,
field of view) and the ring and disk walks are methods with loop invariants.
Python exceptions become `Failure` values of `Result`, so every error path
of the source is an explicit outcome.

Modules, one per source concern:

- `Wrappers` (`wrappers.dfy`): `Option`, `Result`, and the `Error` values
  standing for the exceptions the engine raises.
- `HexGrid` (`hex.dfy`): hexes, their equality and hash by coordinates only,
  and the two parity-selected neighbour tables of the offset grid.
- `Players`, `Units` (`player.py`, `unit.py`): faction ownership, unit
  coordinates, friendliness, adjacency and the forced two-hex retreat.
- `Boards` (`board.dfy`): the board's hexes and its id-to-unit registry
  (insertion-ordered, ids distinct), bounds, add/remove/update of units,
  neighbouring hexes and the zone-of-control test `enemy_adjacent`.
  `Valid` is the invariant every board the model builds keeps: each
  in-bounds slot holds its own hex, ids are distinct and every registered
  unit is placed.
- `Routes`, `BoardSearch`, `Movement`: routes and their costs, then the
  board's breadth-first reachable set and shortest path (one point per hex)
  and the movement calculator's Dijkstra search with terrain costs. Both
  searches stop expanding at hexes next to an enemy.
- `Outcomes`, `BattleLog`, `Solver`, `Combat`: the five combat outcomes and
  the battle record, the append-only battle list, the odds and results table
  of the API's solver, and finding and resolving battles on a board.
- `Games`, `Scores`, `ObjectiveScoring`, `GameFactory`: player rotation and
  movement plans, the score tracker, hold-objective scoring before and after
  combat, and placing units at their start coordinates when a game is made.
- `HexVision`, `FieldOfView`, `FogOfWar` (`vision.py`): axial distance,
  rings and disks, the breadth-first field of view, and per-team fog of war.
- `ScenarioLoader`: converting a validated scenario file into the core
  scenario, in particular regrouping objectives into hex entries.
- `RoadGraph` (`road-drawer.js`): the road neighbour graph, its degrees and
  its junction hexes.

Randomness, callbacks and files become parameters: the die roll of each
battle is an argument in 1..6, the parsed scenario file is an argument, and
player callbacks are not called.

Some files call methods, or fill in fields, that the code they depend on
does not define. The model keeps each file's own logic and gives the missing
piece the shape its caller uses:

- The objective scorer calls `get_battle_participants()` on combat results,
  but `CombatResultData` names that method `get_participants`. The scorer
  also reads each battle as a pair of unit groups, while `find_combat`
  returns pairs of single units. The model reads participants through the
  existing getter and lifts each pair to a pair of one-unit groups.
- `resolve_combat` never records participants on the results it produces, so
  scoring after combat finds no eligible attacker and awards nothing
  (`ObjectiveScoring.NoAwardAfterResolvedCombat`).
- `combat.py` imports a solver from inside `battle_hexes_core`. The solver
  modelled is the one in `battle-hexes-api/src/combat/combatsolver.py`; its
  outcome enum is taken to be the core one.
- The scenario loader builds `ScenarioHexData` with objectives and `Scenario`
  with road types and roads, fields the dataclasses in the same package lack.
  The model gives the data types the fields the loader fills in.
- The board has no `get_objectives`, and the game has no
  `get_score_tracker`; the scorer calls both. The board's objectives are
  passed to the scorer as a list, and the score tracker as a value.
- The scenario loader imports `Objective`, `ScenarioRoad` and
  `ScenarioRoadType` from `scenario.py`, which defines none of them. The
  model declares them with the fields the loader reads and writes.
- `board.py`'s own breadth-first `get_reachable_hexes` and `shortest_path`
  count one point per hex; `movement.py`'s Dijkstra search uses terrain
  costs. Both are modelled, each as written.
- A zero defence factor and a static die roll outside the table are not
  excluded by a precondition: they are modelled as the errors they raise
  (`ZeroDivisionError`, and `IndexError` unless Python's negative indexing
  reaches a valid entry: a die of -5..0 reads the row from its end, as
  `Solver.SolveCombatReadsTable` states).
- Terrain may cost nothing to enter. Both searches refuse to expand a hex
  whose cost has reached the allowance, so a zero-cost hex next to a hex
  reached at exactly the allowance is not reachable from it. Reachability
  (`Routes.CanReach`) therefore asks that a route leave its last-but-one hex
  below the allowance; with positive costs that adds nothing
  (`Routes.ReachWithPositiveCosts`).

Lemmas whose names end in `Example` (and the `NeighbourExample` lemmas)
work one concrete case, most of them taken from the source's tests; they
illustrate the general contracts and are not general properties themselves.

## Model

| member | source | states |
|---|---|---|
| HexGrid.HexEquals | battle_hexes_core/src/battle_hexes_core/game/hex.py:22-27 | comparing with a hex or a non-tuple never fails; comparing with a tuple fails (IndexError) only when the comparison reaches a missing first or second entry |
| HexGrid.HexEqualityIgnoresTerrain | battle_hexes_core/src/battle_hexes_core/game/hex.py:22-27 | two hexes are equal exactly when their coordinates are, whatever their terrain; equality is symmetric and reflexive |
| HexGrid.HexEqualsMatchingTuple | battle_hexes_core/src/battle_hexes_core/game/hex.py:23-24 | a hex equals the pair (r, c) exactly when it stands at row r and column c |
| HexGrid.HashConsistentWithEquality | battle_hexes_core/src/battle_hexes_core/game/hex.py:22-30 | equal hexes have equal hash keys and hexes with equal hash keys are equal, so sets and dicts of hexes deduplicate by coordinate |
| HexGrid.NeighbourCandidates | battle_hexes_core/src/battle_hexes_core/game/board.py:18-36 | every hex has exactly six candidate neighbours, one per direction of its column's table |
| HexGrid.NeighbourRelation | battle_hexes_core/src/battle_hexes_core/game/board.py:18-36 | the two direction tables describe a symmetric, irreflexive adjacency, and the six candidates of a hex are pairwise distinct |
| Players.AddFaction | battle_hexes_core/src/battle_hexes_core/game/player.py:24-28 | appending a faction keeps the earlier ones in place, puts the new one last, and afterwards the player has exactly the old factions plus the new one |
| Units.SetCoordsRoundTrip | battle_hexes_core/src/battle_hexes_core/unit/unit.py:69-76 | after set_coords the unit reports the coordinates that were set, and nothing else about it changed |
| Units.FriendlinessIsEquivalence | battle_hexes_core/src/battle_hexes_core/unit/unit.py:78-80 | friendliness (same player) is reflexive, symmetric and transitive |
| Units.OwnUnits | battle_hexes_core/src/battle_hexes_core/game/player.py:30-34 | own_units keeps exactly the given units whose faction the player holds, and never more units than it was given |
| Units.OwnUnitsAppend | battle_hexes_core/src/battle_hexes_core/game/player.py:33-34 | filtering a concatenation filters each part, so own_units preserves the units' relative order |
| Units.AdjacencyMatchesBoardTables | battle_hexes_core/src/battle_hexes_core/unit/unit.py:82-95 | a unit is adjacent to another exactly when the other is placed on one of the board's six neighbours of the first unit's hex |
| Units.AdjacencySymmetric | battle_hexes_core/src/battle_hexes_core/unit/unit.py:82-95 | between two placed units, adjacency holds in both directions or in neither |
| Units.StepAwayClosedForm | battle_hexes_core/src/battle_hexes_core/unit/unit.py:109-123 | n steps of the off-column retreat loop move the unit n column gaps sideways and shift its row on alternate steps, starting with the first step exactly when it began in the anchor's row |
| Units.ForcedMoveZero | battle_hexes_core/src/battle_hexes_core/unit/unit.py:97-123 | a retreat of distance 0 leaves the unit where it stands |
| Units.ForcedMoveSameColumn | battle_hexes_core/src/battle_hexes_core/unit/unit.py:105-107 | in the attacker's column the unit keeps its column and moves `distance` times its row gap from the attacker |
| Units.ForcedMoveOffColumn | battle_hexes_core/src/battle_hexes_core/unit/unit.py:109-123 | off the attacker's column the unit ends `distance` column gaps further out, with its row shifted by the gap on every other step |
| Units.ForcedMoveExamples | battle_hexes_core/tests/combat/test_combat.py:214-244 | the three retreats checked by the combat tests land at (5, 2), (2, 8) and (5, 5) |
| Boards.NewBoard | battle_hexes_core/src/battle_hexes_core/game/board.py:38-45 | a new board has the given dimensions, one terrain-less in-bounds hex per coordinate with each coordinate at its row-major slot, and no units |
| Boards.SlotArithmetic | battle_hexes_core/src/battle_hexes_core/game/board.py:53-56 | for an in-bounds coordinate, row * columns + column lies inside the hex list and gives back the row and column by division and remainder |
| Boards.GridLaid | battle_hexes_core/src/battle_hexes_core/game/board.py:43-45 | on a freshly laid grid every in-bounds coordinate finds its own hex at its row-major slot, and every hex is in bounds and terrain-less |
| Boards.GetHex | battle_hexes_core/src/battle_hexes_core/game/board.py:53-57 | a hex comes back exactly when the coordinate is on the board, and it is the board's own hex with that coordinate |
| Boards.OnBoardMembers | battle_hexes_core/src/battle_hexes_core/game/board.py:119-124 | the bounds filter keeps exactly the candidates that lie on the board |
| Boards.OnBoardKeepsAll | battle_hexes_core/src/battle_hexes_core/game/board.py:119-124 | when every candidate is on the board, the filter drops nothing and keeps the order |
| Boards.HexesAt | battle_hexes_core/src/battle_hexes_core/game/board.py:119-124 | looking up on-board coordinates returns the board's own hexes with exactly those coordinates, in order |
| Boards.NeighbouringHexes | battle_hexes_core/src/battle_hexes_core/game/board.py:111-126 | get_neighboring_hexes returns at most six of the board's own hexes: exactly the on-board neighbours of the hex, in the order of its column's direction table |
| Boards.NeighbourCoords | battle_hexes_core/src/battle_hexes_core/game/board.py:111-126 | a coordinate is among the neighbour coordinates exactly when it is adjacent to the hex and on the board |
| Boards.NeighbourExampleEven | battle_hexes_core/src/battle_hexes_core/game/board.py:19-26 | on a 5 by 5 board, (2, 2) has all six neighbours, listed N, NE, SE, S, SW, NW by the even-column table |
| Boards.NeighbourExampleOdd | battle_hexes_core/src/battle_hexes_core/game/board.py:29-36 | on a 5 by 5 board, (1, 3) has all six neighbours, listed by the odd-column table |
| Boards.NeighbourExampleEdge | battle_hexes_core/src/battle_hexes_core/game/board.py:111-126 | on a 5 by 5 board, the top-edge hex (0, 2) has exactly three neighbours |
| Boards.NeighbourExampleCorner | battle_hexes_core/src/battle_hexes_core/game/board.py:111-126 | on a 5 by 5 board, the corner (0, 0) has exactly two neighbours |
| Boards.IndexOf | battle_hexes_core/src/battle_hexes_core/game/board.py:84-90 | the registry position of a unit id, when one is found, holds a unit with that id; none is found exactly when no registered unit has the id |
| Boards.GetUnitById | battle_hexes_core/src/battle_hexes_core/game/board.py:84-90 | get_unit_by_id succeeds exactly when a unit with that id is registered and returns that unit; otherwise it fails with KeyError |
| Boards.Put | battle_hexes_core/src/battle_hexes_core/game/board.py:67-68 | dictionary assignment keeps ids unique, registers the unit, leaves every unit with another id in place, and grows the registry only for a new id |
| Boards.AddUnit | battle_hexes_core/src/battle_hexes_core/game/board.py:63-68 | add_unit succeeds exactly when the coordinates are on the board (ValueError otherwise); the unit is then registered at those coordinates and the other units are untouched |
| Boards.WithoutMembers | battle_hexes_core/src/battle_hexes_core/game/board.py:70-79 | deleting a set of ids keeps exactly the registered units whose id is not in the set |
| Boards.WithoutTwice | battle_hexes_core/src/battle_hexes_core/game/board.py:70-79 | deleting one batch of ids and then another equals deleting their union at once |
| Boards.RemoveUnits | battle_hexes_core/src/battle_hexes_core/game/board.py:70-79 | remove_units, on success, leaves exactly the registered units whose ids were not listed and keeps the board valid; a failure is always KeyError |
| Boards.RemoveUnitsSucceeds | battle_hexes_core/src/battle_hexes_core/game/board.py:70-79 | removal succeeds exactly when every listed id is registered and no id is listed twice (the second deletion of the same key raises KeyError) |
| Boards.AddThenRemove | battle_hexes_core/src/battle_hexes_core/game/board.py:63-79 | adding a unit under a fresh id and then removing it gives back the original board |
| Boards.MoveOneKeepsIds | battle_hexes_core/src/battle_hexes_core/game/board.py:97-98 | a position update keeps the board valid and the registry's ids, order and size |
| Boards.Update | battle_hexes_core/src/battle_hexes_core/game/board.py:92-98 | update succeeds exactly when every listed id is registered (KeyError otherwise) and keeps the registry's ids and order |
| Boards.UpdateLastWins | battle_hexes_core/src/battle_hexes_core/game/board.py:92-98 | after an update, each listed unit stands where the last entry naming it puts it |
| Boards.FirstUpdateWins | battle_hexes_core/src/battle_hexes_core/game/board.py:92-98 | the first entry's position stands when no later entry names the same unit |
| Boards.UpdateUntouched | battle_hexes_core/src/battle_hexes_core/game/board.py:92-98 | a unit no entry names keeps its position |
| Boards.FindUnits | battle_hexes_core/src/battle_hexes_core/game/board.py:100-105 | find_units returns exactly the registered units whose faction is one of those given |
| Boards.UnitsForHexes | battle_hexes_core/src/battle_hexes_core/game/board.py:210-215 | get_units_for_hexes returns exactly the registered placed units whose coordinates are those of one of the hexes |
| Boards.EnemyAdjacentUsesNeighbours | battle_hexes_core/src/battle_hexes_core/game/board.py:199-208 | enemy_adjacent holds exactly when some unit on the board's neighbouring hexes is not friendly to the moving unit |
| Boards.EnemyAdjacentMeans | battle_hexes_core/src/battle_hexes_core/game/board.py:199-208 | a hex is enemy-adjacent exactly when a registered unit of another player stands on an on-board neighbour of it |
| Routes.StepCost | battle_hexes_core/src/battle_hexes_core/game/movement.py:16-21 | entering a hex costs at least one point under the board search's flat pricing and on boards whose terrain costs are positive, and never less than nothing on boards without negative terrain costs |
| Routes.RouteExtend | battle_hexes_core/src/battle_hexes_core/game/movement.py:51-53 | extending a legal route by one legal step gives a legal route whose cost grows by the entered hex's cost |
| Routes.RouteTrim | battle_hexes_core/src/battle_hexes_core/game/movement.py:51-53 | dropping the last hex of a legal route leaves a legal route ending one step before it; without negative costs it costs no more, and strictly less when every step costs a point |
| Routes.DepartsTrim | battle_hexes_core/src/battle_hexes_core/game/movement.py:43-44 | a route that leaves its last-but-one hex below the budget trims to a route that costs less than the budget and does the same |
| Routes.PositiveDeparts | battle_hexes_core/src/battle_hexes_core/game/movement.py:43-44 | when every step costs a point, a route within budget leaves its last-but-one hex below the budget |
| Routes.CheapDeparts | battle_hexes_core/src/battle_hexes_core/game/movement.py:43-44 | without negative costs, a route that costs less than the budget leaves its last-but-one hex below it |
| Routes.ReachWithPositiveCosts | battle_hexes_core/src/battle_hexes_core/game/movement.py:37-65 | when every step costs a point, a hex is reachable exactly when some legal route within budget ends there |
| Routes.TrivialRoute | battle_hexes_core/src/battle_hexes_core/game/movement.py:30-35 | the start alone is a legal route of cost zero |
| Routes.RelaxedLabelsReach | battle_hexes_core/src/battle_hexes_core/game/movement.py:37-65 | if the start is labelled 0 and every label below a bound is relaxed, every route within budget and under the bound ends at a hex labelled no worse than the route's cost |
| Routes.PrefixesReachable | battle_hexes_core/src/battle_hexes_core/game/movement.py:43-54 | every hex along a route within budget is itself reachable within budget |
| Routes.ClosedReaches | battle_hexes_core/src/battle_hexes_core/game/board.py:154-160 | a set holding the start and closed under legal steps holds every hex of every legal route |
| Routes.OnlyStartWithoutPoints | battle_hexes_core/src/battle_hexes_core/game/movement.py:43-44 | with no movement points (a budget of zero or less) nothing but the start is reachable, even across zero-cost terrain, since the start is never expanded |
| Routes.OnlyStartInZoneOfControl | battle_hexes_core/src/battle_hexes_core/game/movement.py:46-49 | a unit starting next to an enemy cannot leave its hex: nothing but the start is reachable |
| Routes.ReachInside | battle_hexes_core/src/battle_hexes_core/game/movement.py:74-77 | a hex reachable within budget is reachable through hexes that are themselves reachable, so confining the second search to them loses nothing |
| Routes.RouteInside | battle_hexes_core/src/battle_hexes_core/game/movement.py:108-110 | every hex of a route within budget is in the reachable set |
| BoardSearch.ReachableHexes | battle_hexes_core/src/battle_hexes_core/game/board.py:128-162 | Board.get_reachable_hexes returns exactly the start plus every hex that some legal route of at most the allowance reaches, at one point per entered hex and stopping in enemy zones of control; the allowance defaults to the unit's move |
| BoardSearch.ShortestPath | battle_hexes_core/src/battle_hexes_core/game/board.py:164-197 | Board.shortest_path is empty exactly when the target is neither the start nor reachable; otherwise it is a legal route from the start to the target whose every hex is the start or reachable |
| Movement.MinIndex | battle_hexes_core/src/battle_hexes_core/game/movement.py:38 | the heap pop takes an entry that precedes every other by cost, ties broken by insertion order |
| Movement.RemoveMembers | battle_hexes_core/src/battle_hexes_core/game/movement.py:38 | popping an entry leaves every other entry queued and adds none |
| Movement.PotentialDrops | battle_hexes_core/src/battle_hexes_core/game/movement.py:59-60 | lowering an on-board hex's label to a cost within budget strictly shrinks the finite set of improvements still possible, so the search terminates |
| Movement.HeadOptimal | battle_hexes_core/src/battle_hexes_core/game/movement.py:37-41 | an entry popped with its current label, ahead of every queued entry, carries the cheapest cost of any legal route to its hex within budget that leaves its last-but-one hex below the budget |
| Movement.SearchDone | battle_hexes_core/src/battle_hexes_core/game/movement.py:37-67 | when the queue runs empty, the start and every hex reachable within budget are labelled; without a target nothing else is labelled, and with one the target was never reached |
| Movement.ReachableHexes | battle_hexes_core/src/battle_hexes_core/game/movement.py:23-67 | MovementCalculator.get_reachable_hexes returns exactly the start plus every hex some legal route within the allowance reaches, paying each entered hex's terrain cost (zero included), never leaving a hex whose cost has reached the allowance, and stopping in enemy zones of control |
| Movement.PathTo | battle_hexes_core/src/battle_hexes_core/game/movement.py:139-146 | the predecessor chain from a hex ends at that hex |
| Movement.PathToRoute | battle_hexes_core/src/battle_hexes_core/game/movement.py:130-146 | the hexes spelled out by the recorded predecessors form a legal route from the start costing no more than the target's label, also when zero-cost hexes give equal labels (ties are ordered by when the label was set) |
| Movement.BuildPath | battle_hexes_core/src/battle_hexes_core/game/movement.py:130-146 | _build_path follows the predecessor links back from the target and returns them in route order |
| Movement.FoundOptimal | battle_hexes_core/src/battle_hexes_core/game/movement.py:91-102 | when the target is popped with its current label, the path built is a legal route within the allowance through reachable hexes, and no legal route to the target costs less |
| Movement.ShortestPath | battle_hexes_core/src/battle_hexes_core/game/movement.py:69-128 | MovementCalculator.shortest_path is empty exactly when the target is neither the start nor reachable; otherwise it is a legal route from the start to the target, within the allowance, through reachable hexes only, and no legal route to the target costs less; terrain may cost zero |
| Movement.ChainLabel | battle_hexes_core/src/battle_hexes_core/game/movement.py:117-126 | recording the current hex as predecessor of a neighbour whose label drops, stamped with the insertion counter, keeps the predecessor links acyclic and every link a legal step no dearer than the labels |
| Outcomes.FromCode | battle_hexes_core/src/battle_hexes_core/combat/combatresult.py:13-18 | looking an outcome up by name only ever returns the outcome bearing that name |
| Outcomes.ResultsEnumerated | battle_hexes_core/src/battle_hexes_core/combat/combatresult.py:13-18 | there are exactly five outcomes, all distinct, and every outcome is one of them |
| Outcomes.CodeRoundTrip | battle_hexes_core/src/battle_hexes_core/combat/combatresult.py:13-18 | an outcome's name leads back to it, so distinct outcomes have distinct names |
| Outcomes.SetParticipants | battle_hexes_core/src/battle_hexes_core/combat/combatresult.py:48-56 | set_participants records (attackers, defenders) and changes nothing else |
| Outcomes.ToSchema | battle_hexes_core/src/battle_hexes_core/combat/combatresult.py:58-64 | the schema's code names the battle's outcome, its text is the outcome's text, and odds and die roll are copied |
| BattleLog.Empty | battle_hexes_core/src/battle_hexes_core/combat/combatresults.py:5-7 | a new collection holds no battles |
| BattleLog.AddBattle | battle_hexes_core/src/battle_hexes_core/combat/combatresults.py:9-10 | add_battle puts the battle last and keeps the earlier ones in place |
| BattleLog.AddAllAppends | battle_hexes_core/src/battle_hexes_core/combat/combatresults.py:9-13 | adding battles in turn extends the list by exactly those battles, in order: nothing is dropped or reordered |
| BattleLog.BattlesAsResultSchema | battle_hexes_core/src/battle_hexes_core/combat/combatresults.py:15-16 | one schema per battle, in order: entry i is the schema of battle i, naming its outcome by code and text, with its odds and die roll |
| Combat.Engagements | battle_hexes_core/src/battle_hexes_core/combat/combat.py:76-84 | one unit pairs with at most as many units as it is compared against |
| Combat.EngagementsMembers | battle_hexes_core/src/battle_hexes_core/combat/combat.py:76-84 | a unit is paired with exactly the compared units it engages: it belongs to the attacking player, the other does not, and they are adjacent |
| Combat.FindCombatMembers | battle_hexes_core/src/battle_hexes_core/combat/combat.py:72-86 | find_combat returns exactly the pairs of registered units where the first belongs to the attacking player, the second does not, and they are adjacent; each pair stands on neighbouring hexes |
| Combat.NoContactNoCombat | battle_hexes_core/src/battle_hexes_core/combat/combat.py:17-24 | when no attacking unit stands next to an enemy, no battle is found and combat leaves the board unchanged with an empty result list |
| Combat.Participants | battle_hexes_core/src/battle_hexes_core/combat/combat.py:19-21 | the participant set holds both units of every battle, and nothing else |
| Combat.CurrentCoords | battle_hexes_core/src/battle_hexes_core/combat/combat.py:45-63 | a unit has current coordinates exactly while it is registered, and they are its registry entry's |
| Combat.Retreat | battle_hexes_core/src/battle_hexes_core/combat/combat.py:44-63 | a retreat fails exactly when the mover or the unit it retreats from has left the board; otherwise the mover alone changes: it stands two hexes away if that is on the board, or is removed if not |
| Combat.MovedLands | battle_hexes_core/src/battle_hexes_core/combat/combat.py:45-48 | after a registered unit is moved, its current coordinates are the new ones |
| Combat.RemoveTouches | battle_hexes_core/src/battle_hexes_core/combat/combat.py:43 | removing units leaves every other unit registered and unchanged |
| Combat.UpdateBoardForResult | battle_hexes_core/src/battle_hexes_core/combat/combat.py:36-70 | each outcome touches only the battle's two units: eliminations remove the attacker or the defender (KeyError if already gone), an exchange removes both, and retreats push the loser two hexes away |
| Combat.Eliminate | battle_hexes_core/src/battle_hexes_core/combat/combat.py:43-65 | removing listed units succeeds exactly when each is registered and listed once, and then only they are gone |
| Combat.ResolveBattles | battle_hexes_core/src/battle_hexes_core/combat/combat.py:19-34 | resolving battles in order keeps the board valid, touches only the battles' participants, records one result per battle, each the solver's answer for its attack and defense factors, leaves every unit an elimination or exchange removed off the final board, and fails if any battle's die is out of range |
| Combat.ResolveStep | battle_hexes_core/src/battle_hexes_core/combat/combat.py:19-21 | resolving the first battle and then the rest touches only the participants of all of them and records every solver answer in order |
| Combat.RemovedStep | battle_hexes_core/src/battle_hexes_core/combat/combat.py:19-21 | the units the first battle's outcome removed stay gone while the rest are resolved, so every battle's removals are gone at the end |
| Combat.RemovedGone | battle_hexes_core/src/battle_hexes_core/combat/combat.py:41-65 | applying an elimination or an exchange leaves the eliminated units unregistered |
| Combat.ResolveCombat | battle_hexes_core/src/battle_hexes_core/combat/combat.py:17-24 | resolve_combat finds all battles first, then resolves them in order: one result per battle found, each the solver's answer for it, only their participants change, and every unit an elimination or exchange removed is gone from the final board |
| Solver.FirstClosestUnique | battle-hexes-api/src/combat/combatsolver.py:124-127 | at most one position is the first of the closest standard ratios, so the choice min makes is determined |
| Solver.NearestIn | battle-hexes-api/src/combat/combatsolver.py:124-127 | the scan returns a position of least gap among those scanned, and no earlier position is as close |
| Solver.Nearest | battle-hexes-api/src/combat/combatsolver.py:124-127 | the chosen standard odds are the first closest to the ratio |
| Solver.RatioScale | battle-hexes-api/src/combat/combatsolver.py:118-123 | dividing both factors by a common non-zero amount leaves the ratio unchanged, so the gcd reduction does not move the odds |
| Solver.GcdDivides | battle-hexes-api/src/combat/combatsolver.py:118 | math.gcd is zero only for two zeros and otherwise divides both factors |
| Solver.GetOdds | battle-hexes-api/src/combat/combatsolver.py:117-128 | get_odds fails exactly when the defence factor is zero (ZeroDivisionError) or the ratio's magnitude reaches 2^1024 - 2^970, where Python's correctly rounded int true division overflows (OverflowError); otherwise it returns the standard odds first closest to attack / defence |
| Solver.NearestHigh | battle-hexes-api/src/combat/combatsolver.py:124-127 | every ratio above 6.5 snaps to 7:1 |
| Solver.OverflowExample | battle-hexes-api/src/combat/combatsolver.py:119-123 | 2^1024 against 1 raises OverflowError, while 2^1023 against 1 gives 7:1 |
| Solver.OddsScaleInvariant | battle-hexes-api/src/combat/combatsolver.py:117-128 | scaling both factors by the same non-zero amount gives the same odds |
| Solver.OddsExamples | battle_hexes_core/tests/combat/test_combatsolver.py:10-20 | 7 against 3 gives 2:1, 11 against 16 gives 1:2, and 2 against 4 gives 1:2 |
| Solver.TableCoversRolledOdds | battle-hexes-api/src/combat/combatsolver.py:7-112 | every standard odds other than 1:7 and 7:1 has a six-entry row in the results table, and those two have none |
| Solver.SolveCombat | battle-hexes-api/src/combat/combatsolver.py:130-153 | a zero defence fails with ZeroDivisionError, a ratio beyond the float range with OverflowError, and every other failure is an out-of-range die; 1:7 and 7:1 resolve without a roll (die -1) as attacker and defender eliminated |
| Solver.SolveCombatOdds | battle-hexes-api/src/combat/combatsolver.py:135 | a solved battle records the odds get_odds gives for its factors |
| Solver.SolveCombatDie | battle-hexes-api/src/combat/combatsolver.py:151-153 | away from 1:7 and 7:1, solving succeeds exactly when the die is a valid index into the row (-5..6) and records that die |
| Solver.SolveCombatReadsTable | battle-hexes-api/src/combat/combatsolver.py:151-153 | away from 1:7 and 7:1, a solved battle reads its odds' six-entry row: a die of 1..6 selects that entry, and a die of -5..0 counts from the end of the row, as Python's negative indexing does |
| Solver.SolveExchangeExample | battle_hexes_core/tests/combat/test_combatsolver.py:22-27 | 12 against 5 with a static roll of 5 is an exchange at 2:1 with die 5 |
| Solver.SolveAutoEliminationExample | battle_hexes_core/tests/combat/test_combatsolver.py:29-34 | 1 against 7 eliminates the attacker at 1:7 without a roll (die -1) |
| Games.NewGame | battle_hexes_core/src/battle_hexes_core/game/game.py:18-23 | a new game keeps its players and board, and has a current player, the first listed, exactly when there are players |
| Games.FirstIndex | battle_hexes_core/src/battle_hexes_core/game/game.py:53 | list.index finds the first position holding the player, and finds none exactly when the player is not listed |
| Games.NextPlayer | battle_hexes_core/src/battle_hexes_core/game/game.py:49-55 | with no players the answer is None; otherwise it fails exactly when the current player is missing or unlisted, and the next player is the one after the current player's first listing, wrapping to the front |
| Games.TurnIsMod | battle_hexes_core/src/battle_hexes_core/game/game.py:54 | the turn counter that wraps to zero after the last player equals k mod n |
| Games.AdvanceTurns | battle_hexes_core/src/battle_hexes_core/game/game.py:49-55 | from a new game with distinct players, k calls of next_player give the turn to the player at the wrapping turn counter, leaving players and board unchanged |
| Games.AdvanceCycles | battle_hexes_core/src/battle_hexes_core/game/game.py:49-55 | from a new game with distinct players, k calls of next_player make player k mod n current |
| Games.FullRoundReturnsToFirst | battle_hexes_core/src/battle_hexes_core/game/game.py:49-55 | after one call per player the game is back where it started, with the first player current |
| Games.PlanStepKeepsIds | battle_hexes_core/src/battle_hexes_core/game/game.py:42-46 | applying one plan keeps the board valid and the registry's ids, order and size |
| Games.ApplyMovementPlans | battle_hexes_core/src/battle_hexes_core/game/game.py:40-47 | applying plans keeps the board valid and the registry's ids, order and size |
| Games.ApplyUntouched | battle_hexes_core/src/battle_hexes_core/game/game.py:42-46 | a unit that no plan with a non-empty path names keeps its registry entry |
| Games.ApplyLastPlanWins | battle_hexes_core/src/battle_hexes_core/game/game.py:42-46 | a unit ends on the last hex of the last non-empty plan naming it, with its other fields unchanged |
| Games.PlanUpdates | battle_hexes_core/src/battle_hexes_core/game/game.py:42-46 | every position update the plans amount to names a unit some plan names |
| Games.ApplyIsUpdate | battle_hexes_core/src/battle_hexes_core/game/game.py:34-46 | applying plans for registered units equals the board's own update with the plans' end positions in plan order |
| Games.GetPlayerForFaction | battle_hexes_core/src/battle_hexes_core/game/game.py:72-76 | the owner is found exactly when some player holds the faction (ValueError otherwise), and it is the first listed player that does |
| Games.FactionsOfOthers | battle_hexes_core/src/battle_hexes_core/game/game.py:66-70 | a faction is collected exactly when some listed player other than the owner holds it; its order and repeats are those of the source's loop (Games.CollectOpposingMatches) |
| Games.CollectOpposingMatches | battle_hexes_core/src/battle_hexes_core/game/game.py:66-70 | the source's loop, extending a list with each other player's factions in turn, produces the owner-excluding factions in player order, duplicates included |
| Games.FactionsOfOthersConcat | battle_hexes_core/src/battle_hexes_core/game/game.py:66-70 | splitting the player list splits the opposing factions at the same place, so they follow player order |
| Games.GetOpposingFactions | battle_hexes_core/src/battle_hexes_core/game/game.py:64-70 | get_opposing_factions fails exactly when no player holds the faction; otherwise it returns exactly the factions of the players other than its owner, and the same list, entry for entry, as the source's loop extending a list player by player |
| Games.TwoPlayersOppose | battle_hexes_core/src/battle_hexes_core/game/game.py:64-70 | in a two-player game, each player's opponents are exactly the other player's factions |
| Scores.PlayerKey | battle_hexes_core/src/battle_hexes_core/game/scoretracker.py:17-22 | a player's points are filed under the name exactly when the name is non-empty |
| Scores.SharedKey | battle_hexes_core/src/battle_hexes_core/game/scoretracker.py:17-22 | two players share a score exactly when they have the same non-empty name or are the same player |
| Scores.NewTracker | battle_hexes_core/src/battle_hexes_core/game/scoretracker.py:11-15 | a new table has an entry for exactly the listed players, each at zero |
| Scores.GetScore | battle_hexes_core/src/battle_hexes_core/game/scoretracker.py:31-33 | a player the table has never seen scores zero |
| Scores.AddPoints | battle_hexes_core/src/battle_hexes_core/game/scoretracker.py:24-29 | a non-positive award changes nothing; a positive one leaves the table's keys as before plus the player's |
| Scores.GetScores | battle_hexes_core/src/battle_hexes_core/game/scoretracker.py:35-37 | the copy has the table's keys, and each player's entry is what get_score reports |
| Scores.NewTrackerStartsAtZero | battle_hexes_core/src/battle_hexes_core/game/scoretracker.py:11-33 | on a fresh table every player, listed or not, scores zero |
| Scores.AddPointsScores | battle_hexes_core/src/battle_hexes_core/game/scoretracker.py:24-33 | an award raises by its amount, when positive, the score of every player sharing the recipient's key, and leaves every other score as it was |
| Scores.AwardsAccumulate | battle_hexes_core/src/battle_hexes_core/game/scoretracker.py:24-33 | two positive awards to a player raise the score by their sum |
| Scores.ScoresNeverDrop | battle_hexes_core/src/battle_hexes_core/game/scoretracker.py:11-33 | scores start non-negative, awards keep them non-negative, and no award lowers any score |
| Scores.AccumulationExample | battle_hexes_core/tests/scoring/test_objective_scorer.py:14-25 | a table for one named player awarded 3 and then 2 reports 5 |
| ObjectiveScoring.EngagedIn | battle_hexes_core/src/battle_hexes_core/scoring/objective_scorer.py:87-95 | a unit id is collected exactly when some battle has a unit of the current player with that id on either side |
| ObjectiveScoring.EngagedAreAttackers | battle_hexes_core/src/battle_hexes_core/scoring/objective_scorer.py:87-95 | a unit is engaged exactly when it is a registered unit of the current player adjacent to a registered enemy unit: defenders are never the current player's |
| ObjectiveScoring.HeldBy | battle_hexes_core/src/battle_hexes_core/scoring/objective_scorer.py:116-122 | the scan finds a unit exactly when some listed unit of the current player, not engaged, stands on the objective's hex |
| ObjectiveScoring.ObjectiveIsHeld | battle_hexes_core/src/battle_hexes_core/scoring/objective_scorer.py:112-122 | an objective is held exactly when a registered unit of the current player that is not engaged stands on its hex |
| ObjectiveScoring.HeldObjectivesIn | battle_hexes_core/src/battle_hexes_core/scoring/objective_scorer.py:97-110 | the held list holds exactly the board's "hold" objectives that are held, each exactly as often as the board lists it, and no others |
| ObjectiveScoring.HeldObjectivesConcat | battle_hexes_core/src/battle_hexes_core/scoring/objective_scorer.py:97-110 | scanning two lists of objectives in turn gives the two held lists one after the other, so the held list keeps the board's order |
| ObjectiveScoring.Award | battle_hexes_core/src/battle_hexes_core/scoring/objective_scorer.py:22-30 | the total is returned; a positive total is added to the score of the current player's key and nothing else changes (a zero total skips add_points) |
| ObjectiveScoring.AwardHoldObjectives | battle_hexes_core/src/battle_hexes_core/scoring/objective_scorer.py:14-30 | award_hold_objectives returns the summed points of the held "hold" objectives and raises only the current player's score, by exactly that sum |
| ObjectiveScoring.HoldScoringRule | battle_hexes_core/src/battle_hexes_core/scoring/objective_scorer.py:87-122 | an objective scores at the end of movement exactly when it is a "hold" objective under a unit of the current player that is adjacent to no enemy, and it scores at most as often as the board lists it |
| ObjectiveScoring.AwardBounded | battle_hexes_core/src/battle_hexes_core/scoring/objective_scorer.py:22 | with objectives of non-negative value the award lies between zero and the value of all objectives |
| ObjectiveScoring.OneSideNoEngagement | battle_hexes_core/src/battle_hexes_core/scoring/objective_scorer.py:87-95 | with only the current player's units on the board, no unit is engaged |
| ObjectiveScoring.HeldObjectiveExample | battle_hexes_core/tests/scoring/test_objective_scorer.py:43-63 | one unit on the 2-point objective earns its player 2 and the other player nothing |
| ObjectiveScoring.OncePerObjectiveExample | battle_hexes_core/tests/scoring/test_objective_scorer.py:65-96 | two units on the same objective still earn its 2 points once |
| ObjectiveScoring.EngagedHolderExample | battle_hexes_core/tests/scoring/test_objective_scorer.py:98-129 | a unit on the objective but next to an enemy unit earns nothing |
| ObjectiveScoring.OwnIds | battle_hexes_core/src/battle_hexes_core/scoring/objective_scorer.py:63-66 | the ids collected from a battle are exactly those of its attackers the current player owns |
| ObjectiveScoring.EligibleAttackerIds | battle_hexes_core/src/battle_hexes_core/scoring/objective_scorer.py:52-67 | an id is eligible exactly when it belongs to an owned attacker of a recorded battle that has participants and did not end in an attacker retreat |
| ObjectiveScoring.OccupiedBy | battle_hexes_core/src/battle_hexes_core/scoring/objective_scorer.py:79-83 | the scan finds a unit exactly when an eligible unit stands on the hex |
| ObjectiveScoring.PostCombatHeld | battle_hexes_core/src/battle_hexes_core/scoring/objective_scorer.py:69-85 | the list holds exactly the "hold" objectives an eligible attacker stands on, each exactly as often as the board lists it, and none when no attacker is eligible |
| ObjectiveScoring.PostCombatHeldConcat | battle_hexes_core/src/battle_hexes_core/scoring/objective_scorer.py:69-85 | the post-combat list keeps the board's order in the same way |
| ObjectiveScoring.AwardAfterCombat | battle_hexes_core/src/battle_hexes_core/scoring/objective_scorer.py:32-50 | award_hold_objectives_after_combat returns the summed points of the objectives surviving attackers hold and raises only the current player's score, by that sum |
| ObjectiveScoring.NoAwardAfterResolvedCombat | battle_hexes_core/src/battle_hexes_core/scoring/objective_scorer.py:52-67 | the results resolve_combat records carry no participants, so scoring after a combat phase finds no eligible attacker, awards nothing and changes no score |
| GameFactory.PlacementsMembers | battle_hexes_core/src/battle_hexes_core/game/gamefactory.py:37-41 | a unit is placed exactly when it had a recorded start, and it is placed at that start |
| GameFactory.PlaceUnits | battle_hexes_core/src/battle_hexes_core/game/gamefactory.py:37-41 | placing the units keeps the board valid and leaves its size and hexes as they were |
| GameFactory.PlaceUnitsSucceeds | battle_hexes_core/src/battle_hexes_core/game/gamefactory.py:37-41 | placement succeeds exactly when every recorded start is on the board; otherwise it fails with the out-of-bounds ValueError |
| GameFactory.PlaceAppends | battle_hexes_core/src/battle_hexes_core/game/gamefactory.py:37-41 | on an empty board, such as the fresh one create_game makes, units with distinct ids are registered in list order, each at its recorded start |
| GameFactory.CreateGame | battle_hexes_core/src/battle_hexes_core/game/gamefactory.py:26-43 | create_game succeeds exactly when every recorded start lies on a fresh board of the recorded size; the game has the recorded players with the first one current |
| GameFactory.CreateGamePlacesAtStarts | battle_hexes_core/src/battle_hexes_core/game/gamefactory.py:26-43 | with distinct unit ids the new board holds exactly the units that had coordinates at construction, each at those coordinates, and no unit that had none |
| GameFactory.CreateGameIgnoresLaterMoves | battle_hexes_core/src/battle_hexes_core/game/gamefactory.py:20-24 | moving the units after the factory was built does not change the games it creates |
| HexVision.DistanceIsMetric | battle_hexes_core/src/battle_hexes_core/battle_hexes_core/vision.py:41-55 | cube distance is symmetric and is zero exactly between equal hexes |
| HexVision.NeighborAtDistanceOne | battle_hexes_core/src/battle_hexes_core/battle_hexes_core/vision.py:37-55 | a hex and any of its neighbours are exactly one apart |
| HexVision.StepDistance | battle_hexes_core/src/battle_hexes_core/battle_hexes_core/vision.py:37-55 | one step to a neighbour changes the distance to any third hex by at most one, either way |
| HexVision.NeighborCubeOffsets | battle_hexes_core/src/battle_hexes_core/battle_hexes_core/vision.py:29-46 | a step to a neighbour moves each cube coordinate by at most one |
| HexVision.Sides | battle_hexes_core/src/battle_hexes_core/battle_hexes_core/vision.py:71-76 | k complete sides of the ring of radius r hold k times r hexes |
| HexVision.RingPointDistance | battle_hexes_core/src/battle_hexes_core/battle_hexes_core/vision.py:67-76 | every hex visited along any side of the ring walk is at distance r from the centre |
| HexVision.SidesMembers | battle_hexes_core/src/battle_hexes_core/battle_hexes_core/vision.py:71-76 | a hex is among the first k sides exactly when it is some step of one of those sides |
| HexVision.OnSomeSide | battle_hexes_core/src/battle_hexes_core/battle_hexes_core/vision.py:57-77 | every hex at distance r > 0 is reached by the walk on one of the six sides |
| HexVision.RingIsCircle | battle_hexes_core/src/battle_hexes_core/battle_hexes_core/vision.py:57-77 | the ring is empty for a non-positive radius, otherwise it holds 6r hexes and they are exactly the hexes at distance r |
| HexVision.RingStep | battle_hexes_core/src/battle_hexes_core/battle_hexes_core/vision.py:67-76 | each step of the walk follows the side's direction, and the end of one side is the start of the next |
| HexVision.HexRing | battle_hexes_core/src/battle_hexes_core/battle_hexes_core/vision.py:57-77 | the loop yields the ring: nothing for radius <= 0, else 6r hexes, all at distance r and every such hex included |
| HexVision.DiskIsBall | battle_hexes_core/src/battle_hexes_core/battle_hexes_core/vision.py:79-86 | the disk starts with the centre and holds exactly the hexes within distance r, 1 + 3r(r+1) of them |
| HexVision.HexDisk | battle_hexes_core/src/battle_hexes_core/battle_hexes_core/vision.py:79-86 | the loop yields the disk: non-empty, centre first, and a hex is in it exactly when it is the centre or within the radius |
| FieldOfView.ComputeFov | battle_hexes_core/src/battle_hexes_core/battle_hexes_core/vision.py:138-174 | the origin is always visible and alone for radius <= 0; the visible hexes are exactly the ends of sight lines of at most radius steps (chains of neighbouring in-bounds hexes from the origin that vision continues through), and the breadth-first depth of each is the length of its shortest sight line; every in-bounds neighbour of the origin and of every non-opaque hex seen before the radius is visible |
| FieldOfView.Search | battle_hexes_core/src/battle_hexes_core/battle_hexes_core/vision.py:157-172 | the breadth-first loop ends with the origin seen, nothing seen outside the radius box, every seen hex sound (depth between its distance and the radius, a parent one step nearer) and every hex vision continues from, seen before the radius, surrounded |
| FieldOfView.SightLinesExactly | battle_hexes_core/src/battle_hexes_core/battle_hexes_core/vision.py:138-174 | once the search is closed, the seen hexes are exactly the ends of sight lines within the radius, each seen at the length of its shortest |
| FieldOfView.SeenOnSightLine | battle_hexes_core/src/battle_hexes_core/battle_hexes_core/vision.py:162-172 | every seen hex ends a sight line exactly as long as its recorded depth |
| FieldOfView.SightLineSeen | battle_hexes_core/src/battle_hexes_core/battle_hexes_core/vision.py:157-172 | once the search is closed, the end of every sight line of at most radius steps is seen, no deeper than the line is long |
| FieldOfView.StartSearching | battle_hexes_core/src/battle_hexes_core/battle_hexes_core/vision.py:153-155 | the search invariant holds with only the origin seen at depth 0 and queued |
| FieldOfView.ExpandFirst | battle_hexes_core/src/battle_hexes_core/battle_hexes_core/vision.py:157-172 | one turn of the breadth-first loop keeps the search invariant, never loses a seen hex, and when nothing new is seen only pops the queue |
| FieldOfView.PopLevelled | battle_hexes_core/src/battle_hexes_core/battle_hexes_core/vision.py:157-158 | popping the queue head keeps the queued depths in breadth-first order, with the lower level moved up to the head's depth |
| FieldOfView.SeeNeighbors | battle_hexes_core/src/battle_hexes_core/battle_hexes_core/vision.py:162-172 | visiting the six neighbours of a hex at the current level keeps the search invariant (breadth-first levels included) and leaves that hex surrounded |
| FieldOfView.VisitNeighbor | battle_hexes_core/src/battle_hexes_core/battle_hexes_core/vision.py:164-172 | seeing a new in-bounds neighbour one step further out keeps every seen hex sound and every queued hex expandable |
| FieldOfView.VisitKeepsClosed | battle_hexes_core/src/battle_hexes_core/battle_hexes_core/vision.py:164-172 | seeing a new neighbour (queued unless opaque) keeps every other expandable hex queued or surrounded |
| FieldOfView.VisitStep | battle_hexes_core/src/battle_hexes_core/battle_hexes_core/vision.py:164-172 | seeing the unseen in-bounds neighbour in one direction, one level deeper, keeps the inner loop's invariant and extends the handled directions by one |
| FieldOfView.SeeDirection | battle_hexes_core/src/battle_hexes_core/battle_hexes_core/vision.py:162-172 | one turn of the inner loop sees the neighbour in direction k when it is unseen and in bounds, queues it unless opaque, and keeps the invariant |
| FieldOfView.DoneVisiting | battle_hexes_core/src/battle_hexes_core/battle_hexes_core/vision.py:162-172 | once all six directions are handled the expanded hex is surrounded and the search invariant is restored |
| FieldOfView.SeenStep | battle_hexes_core/src/battle_hexes_core/battle_hexes_core/vision.py:162-167 | a neighbour that is seen or out of bounds extends the run of handled directions by one |
| FieldOfView.FovConclusions | battle_hexes_core/src/battle_hexes_core/battle_hexes_core/vision.py:138-174 | once the queue is empty the invariant yields the field of view's guarantees |
| FieldOfView.InBox | battle_hexes_core/src/battle_hexes_core/battle_hexes_core/vision.py:52-55 | a hex within distance r lies within r on both axial axes |
| FieldOfView.SeenInBox | battle_hexes_core/src/battle_hexes_core/battle_hexes_core/vision.py:157-172 | every seen hex lies in a finite box around the origin, which bounds the search |
| FieldOfView.FewerUnseen | battle_hexes_core/src/battle_hexes_core/battle_hexes_core/vision.py:157-172 | seeing a new hex of the box shrinks the unseen part of the box, so the loop terminates |
| FogOfWar.Ensure | battle_hexes_core/src/battle_hexes_core/battle_hexes_core/vision.py:193-198 | the team has a record afterwards; an existing record is returned untouched, a missing one is created empty, and no other team changes |
| FogOfWar.UpdateTeam | battle_hexes_core/src/battle_hexes_core/battle_hexes_core/vision.py:200-204 | the team's current view becomes exactly the given hexes, what it has seen gains them, other teams are unchanged |
| FogOfWar.IsVisible | battle_hexes_core/src/battle_hexes_core/battle_hexes_core/vision.py:206-208 | true exactly when the team has a record and sees the hex now; the record is ensured |
| FogOfWar.IsRevealed | battle_hexes_core/src/battle_hexes_core/battle_hexes_core/vision.py:210-212 | true exactly when the team has a record and has ever seen the hex; the record is ensured |
| FogOfWar.ClearTurn | battle_hexes_core/src/battle_hexes_core/battle_hexes_core/vision.py:214-223 | the current view of every team (or of the one team named) is emptied, nothing seen is forgotten, other teams are unchanged |
| FogOfWar.CoherenceKept | battle_hexes_core/src/battle_hexes_core/battle_hexes_core/vision.py:186-223 | every operation keeps each team's current view inside what it has seen, starting from the empty fog |
| FogOfWar.VisibleIsRevealed | battle_hexes_core/src/battle_hexes_core/battle_hexes_core/vision.py:200-212 | in a coherent fog a hex a team sees now is one it has seen |
| FogOfWar.RevealedOnlyGrows | battle_hexes_core/src/battle_hexes_core/battle_hexes_core/vision.py:193-223 | no operation drops a team's record or forgets a hex it has seen |
| FogOfWar.UpdateThenClear | battle_hexes_core/src/battle_hexes_core/battle_hexes_core/vision.py:200-223 | after an update the team sees and has seen the new hexes; clearing hides them but they stay revealed |
| ScenarioLoader.AddKeys | battle_hexes_core/src/battle_hexes_core/scenario/scenario_loader.py:138-145 | appending an objective under its coordinates adds those coordinates to the map's keys, which stay distinct |
| ScenarioLoader.AddGet | battle_hexes_core/src/battle_hexes_core/scenario/scenario_loader.py:138-145 | the objective is appended at the end of its own coordinates' list and no other list changes |
| ScenarioLoader.AddFiled | battle_hexes_core/src/battle_hexes_core/scenario/scenario_loader.py:138-145 | each append files exactly one more objective |
| ScenarioLoader.ObjectivesAt | battle_hexes_core/src/battle_hexes_core/scenario/scenario_loader.py:138-145 | the file's objectives at a coordinate all carry that coordinate |
| ScenarioLoader.AllObjectives | battle_hexes_core/src/battle_hexes_core/scenario/scenario_loader.py:138-145 | one core objective per file objective |
| ScenarioLoader.BuildObjectiveMap | battle_hexes_core/src/battle_hexes_core/scenario/scenario_loader.py:129-147 | an absent objectives section gives an empty map |
| ScenarioLoader.ObjectiveMapGroups | battle_hexes_core/src/battle_hexes_core/scenario/scenario_loader.py:129-147 | an absent or empty section and a present one are both the grouping of the section's entries |
| ScenarioLoader.GroupGet | battle_hexes_core/src/battle_hexes_core/scenario/scenario_loader.py:129-147 | under each coordinate the map holds exactly the file's objectives at that coordinate, in file order |
| ScenarioLoader.GroupKeys | battle_hexes_core/src/battle_hexes_core/scenario/scenario_loader.py:129-147 | the map's keys are distinct and are exactly the coordinates that have objectives |
| ScenarioLoader.GroupFiled | battle_hexes_core/src/battle_hexes_core/scenario/scenario_loader.py:129-147 | the map holds every objective of the file exactly once |
| ScenarioLoader.GetAbsent | battle_hexes_core/src/battle_hexes_core/scenario/scenario_loader.py:164 | a coordinate that is not a key has nothing filed under it, so popping it yields an empty list |
| ScenarioLoader.RemoveAbsent | battle_hexes_core/src/battle_hexes_core/scenario/scenario_loader.py:164 | popping a coordinate that is not a key leaves the map as it was |
| ScenarioLoader.RemoveKeys | battle_hexes_core/src/battle_hexes_core/scenario/scenario_loader.py:164 | popping drops exactly that coordinate from the keys, which stay distinct |
| ScenarioLoader.RemoveGet | battle_hexes_core/src/battle_hexes_core/scenario/scenario_loader.py:164 | after popping, nothing is filed under the coordinate and every other coordinate keeps its list |
| ScenarioLoader.RemoveFiled | battle_hexes_core/src/battle_hexes_core/scenario/scenario_loader.py:164 | with distinct keys, the popped list and the rest of the map together hold what the map held |
| ScenarioLoader.CoordsOf | battle_hexes_core/src/battle_hexes_core/scenario/scenario_loader.py:156-167 | the set holds exactly the coordinates of some hex entry |
| ScenarioLoader.HexEntries | battle_hexes_core/src/battle_hexes_core/scenario/scenario_loader.py:156-167 | the loop makes one entry per hex data entry |
| ScenarioLoader.HexEntriesAt | battle_hexes_core/src/battle_hexes_core/scenario/scenario_loader.py:156-167 | entry i keeps the file entry's coordinates, terrain and units and receives the objectives still filed at its coordinates, none if an earlier entry with the same coordinates popped them |
| ScenarioLoader.HexEntriesLeave | battle_hexes_core/src/battle_hexes_core/scenario/scenario_loader.py:156-167 | what is left of the map is the map without the hex entries' coordinates, other lists untouched |
| ScenarioLoader.HexEntriesFiled | battle_hexes_core/src/battle_hexes_core/scenario/scenario_loader.py:156-167 | popping loses no objective: the entries and the rest of the map hold what the map held |
| ScenarioLoader.SortSpec | battle_hexes_core/src/battle_hexes_core/scenario/scenario_loader.py:170 | sorting the left-over map orders it strictly by coordinates and is a permutation of it |
| ScenarioLoader.InsertPerm | battle_hexes_core/src/battle_hexes_core/scenario/scenario_loader.py:170 | inserting into the sorted list adds exactly the one item |
| ScenarioLoader.InsertSorted | battle_hexes_core/src/battle_hexes_core/scenario/scenario_loader.py:170 | inserting a new coordinate keeps the list strictly sorted |
| ScenarioLoader.FiledSort | battle_hexes_core/src/battle_hexes_core/scenario/scenario_loader.py:170 | sorting neither adds nor loses an objective |
| ScenarioLoader.Leftover | battle_hexes_core/src/battle_hexes_core/scenario/scenario_loader.py:169-176 | one entry per left-over coordinate, with no terrain and no units, carrying that coordinate's objectives and nothing else |
| ScenarioLoader.BuildHexEntries | battle_hexes_core/src/battle_hexes_core/scenario/scenario_loader.py:149-178 | the result has at least one entry per hex data entry |
| ScenarioLoader.MemberGet | battle_hexes_core/src/battle_hexes_core/scenario/scenario_loader.py:169-176 | with distinct keys, a coordinate and list form an item of the map exactly when the list is what is filed there |
| ScenarioLoader.HexDataEntryKept | battle_hexes_core/src/battle_hexes_core/scenario/scenario_loader.py:149-178 | hex entry i of the file becomes entry i with its coordinates, terrain and units and every objective of the file at those coordinates in file order; a repeated coordinate gets none the second time |
| ScenarioLoader.LeftoverMap | battle_hexes_core/src/battle_hexes_core/scenario/scenario_loader.py:156-170 | the map left after the hex loop has distinct keys that are exactly the objective coordinates with no hex entry, each with all its objectives |
| ScenarioLoader.LeftoverSorted | battle_hexes_core/src/battle_hexes_core/scenario/scenario_loader.py:169-176 | the entries after the file's hex entries are in strictly increasing coordinate order |
| ScenarioLoader.LeftoverContents | battle_hexes_core/src/battle_hexes_core/scenario/scenario_loader.py:169-176 | an entry after the file's hex entries is exactly a terrain-less, unit-less entry with all the objectives of a coordinate that has some but no hex entry, and every such coordinate gets one |
| ScenarioLoader.LeftoverMember | battle_hexes_core/src/battle_hexes_core/scenario/scenario_loader.py:169-176 | an entry built from the sorted left-over map is terrain-less and unit-less and holds exactly one (coordinates, objectives) pair of the map, and every pair gets one |
| ScenarioLoader.EveryObjectiveOnce | battle_hexes_core/src/battle_hexes_core/scenario/scenario_loader.py:149-178 | every objective of the file lands on exactly one entry |
| ScenarioLoader.BuildFactions | battle_hexes_core/src/battle_hexes_core/scenario/scenario_loader.py:180-191 | one core faction per file faction, in order, with every field kept |
| ScenarioLoader.BuildUnits | battle_hexes_core/src/battle_hexes_core/scenario/scenario_loader.py:193-207 | one core unit per file unit, in order, with every field kept |
| ScenarioLoader.BuildRoads | battle_hexes_core/src/battle_hexes_core/scenario/scenario_loader.py:235-241 | one core road per file road, in order, with type and path kept; no section gives no roads |
| ScenarioLoader.ToCore | battle_hexes_core/src/battle_hexes_core/scenario/scenario_loader.py:149-261 | identifying fields are kept; factions, units and roads are the builders' outputs and keep every field in order; terrain and road types keep exactly the file's names with their colour and edge cost, and are empty without a section; the file's hex entries come first in order with coordinates and terrain kept and their unit list kept exactly when present and non-empty; each gets all objectives at its coordinates unless an earlier entry shares them; and every objective of the file is on exactly one entry |
| ScenarioLoader.LoadScenarioData | battle_hexes_core/src/battle_hexes_core/scenario/scenario_loader.py:278-306 | the file's scenario is returned exactly when its id is the requested one; otherwise the id-mismatch error |
| ScenarioLoader.LoadScenario | battle_hexes_core/src/battle_hexes_core/scenario/scenario_loader.py:309-318 | a loaded scenario carries the requested id and is the conversion of the file; a mismatched id is an error |
| ScenarioLoader.ObjectiveWithoutHexExample | battle_hexes_core/tests/scenario/test_scenario_loader.py:59-72 | an objective at coordinates with no hex entry gets its own entry after the file's, with no terrain and no units |
| ScenarioLoader.LeftoverOrderExample | battle_hexes_core/src/battle_hexes_core/scenario/scenario_loader.py:169-176 | left-over objectives are grouped by coordinates and their entries ordered by coordinates, whatever the file order |
| RoadGraph.Normalize | battle-hexes-web/src/drawer/road-drawer.js:1-18 | an array point always yields a key, an object point only when both its row and column are numbers, anything else none |
| RoadGraph.AddNeighbor | battle-hexes-web/src/drawer/road-drawer.js:32-41 | the source hex becomes recorded, and a graph where every recorded hex has a neighbour keeps that property |
| RoadGraph.AddNeighborEdges | battle-hexes-web/src/drawer/road-drawer.js:32-41 | exactly the one directed edge is added; repeating it changes nothing |
| RoadGraph.Link | battle-hexes-web/src/drawer/road-drawer.js:49-63 | one segment step keeps every recorded hex with at least one neighbour |
| RoadGraph.LinkEdges | battle-hexes-web/src/drawer/road-drawer.js:49-63 | a segment adds an edge both ways exactly when both ends normalise and their keys differ, and nothing else |
| RoadGraph.Segments | battle-hexes-web/src/drawer/road-drawer.js:48-64 | walking a road's segments never records a hex without a neighbour |
| RoadGraph.SegmentsEdges | battle-hexes-web/src/drawer/road-drawer.js:48-64 | after n segments the edges are the earlier ones plus both directions of every valid segment among the first n |
| RoadGraph.Roads | battle-hexes-web/src/drawer/road-drawer.js:46-65 | the neighbour map never records a hex without a neighbour |
| RoadGraph.RoadsEdges | battle-hexes-web/src/drawer/road-drawer.js:46-65 | the neighbour map links exactly the pairs of hexes some road segment joins, in either direction |
| RoadGraph.StepsSplit | battle-hexes-web/src/drawer/road-drawer.js:46-65 | a segment of a list of roads is a segment of the earlier roads or of the last one |
| RoadGraph.BuildRoadGraph | battle-hexes-web/src/drawer/road-drawer.js:43-73 | the neighbour map links exactly the hexes a road segment joins, both ways; each recorded hex has degree equal to its distinct neighbours and at least one |
| RoadGraph.JunctionKeys | battle-hexes-web/src/drawer/road-drawer.js:75-86 | a hex is a junction exactly when it is on a road and has at least three distinct neighbours |
| RoadGraph.RoadsStep | battle-hexes-web/src/drawer/road-drawer.js:46-65 | adding a road to the list walks its segments on the graph of the earlier roads |
| RoadGraph.LinkPoints | battle-hexes-web/src/drawer/road-drawer.js:49-63 | linking two different integer array points records both directions |
| RoadGraph.StraightRoadGraph | battle-hexes-web/tests/drawer/road-drawer.test.js:40-49 | a straight three-hex road links each end to the middle and the middle to both ends |
| RoadGraph.StraightRoadExample | battle-hexes-web/tests/drawer/road-drawer.test.js:40-49 | a straight road has degree 1 at its ends and 2 in the middle, and no junction |
| RoadGraph.CrossroadsGraph | battle-hexes-web/tests/drawer/road-drawer.test.js:51-62 | the shared hex of two crossing roads has three neighbours |
| RoadGraph.CrossroadsExample | battle-hexes-web/tests/drawer/road-drawer.test.js:51-62 | the shared hex has degree 3 and is a junction |
| RoadGraph.RepeatedPairGraph | battle-hexes-web/tests/drawer/road-drawer.test.js:64-76 | a segment given twice in opposite directions gives one edge each way |
| RoadGraph.RepeatedGraph | battle-hexes-web/tests/drawer/road-drawer.test.js:64-76 | with a repeated segment and a segments-only road, the graph holds three hexes and their distinct links |
| RoadGraph.DeduplicationExample | battle-hexes-web/tests/drawer/road-drawer.test.js:64-76 | repeated segments do not inflate degrees: 2, 1 and 1 |

## Left out

- Movement.ReachableHexes: requires that no terrain cost be negative. The source does not check this. Its search re-labels a hex only on a strictly lower cost, so it loops forever only when a cycle of negative total cost is reachable within the allowance (two adjacent hexes of cost -1, say). The requires also excludes boards with negative costs but no such cycle, on which the source ends; the termination measure and the optimality argument used here both rest on non-negative costs. Zero costs are modelled.
- Movement.ShortestPath: requires that no terrain cost be negative, for the same reason, and so also excludes negative-cost boards without a negative cycle, on which the source ends.
- BoardSearch.ShortestPath: proves the path legal, and non-empty exactly when the end is reachable, but not that it has the fewest hexes of any such route.
- FieldOfView.ComputeFov: the breadth-first depth of each hex is ghost state kept for the proof; the source keeps no such record and returns only the set of visible hexes.
- Solver.GetOdds: the source compares Python floats when it picks the nearest standard ratio. The model compares exact rationals, so at an exact midpoint (for example 13/84, halfway between 1:7 and 1:6) float rounding could pick the other ratio.
- Boards: a board with a negative number of rows or columns is not representable; Python treats it like an empty board.
- Units: coordinates with only one of row and column set are not modelled; a unit's coordinates are either a full pair or none.
- Partial mutation before an exception is not modelled. For example, a failing `remove_units` may already have removed earlier ids. The model returns the error without the half-changed state, since every caller abandons the operation.
- Unit and game ids (UUIDs), and parsing them from strings, are abstract values.
- Player callbacks (`movement_cb`, `combat_results`, `end_game_cb`) and the game loop in `gameplayer.py` are not part of this model.
- Games.ApplyMovementPlans: the closing `movement_cb` call is not modelled, and so neither is the `AttributeError` it raises in a game made without players, whose current player was never set.
- Combat.ResolveBattles: states which units eliminations and exchanges removed, but not where retreated units end up after the whole loop, since a later battle may move or remove them again; the effect of one battle is `Combat.UpdateBoardForResult`.
- Combat.ResolveCombat: delegates to `Combat.ResolveBattles` and has the same gap: where retreated units end up after the whole loop is not stated.
- ObjectiveScoring.AwardHoldObjectives: takes the score tracker as a parameter, because the game class has no `get_score_tracker`.
- ObjectiveScoring.AwardAfterCombat: takes the score tracker as a parameter, for the same reason.
- ScenarioLoader.ToCore: builds objectives, roads and road types as data types the model declares, because the scenario module the loader imports them from does not define them.
- `Player.movement` (it raises `NotImplementedError`) and logging are not modelled.
- GameFactory.CreateGame: does not set each player's `_board` reference, because players in the model hold no board. Units are matched to their recorded start by position in the list, not by object identity. In the source the factory's units are shared objects: each new game calls `set_coords` on them through `add_unit`, so creating a game also moves those units back to their starts on the boards of games created earlier from the same factory. The model's games are independent values, and creating one leaves earlier games unchanged.
- Scores: a player's key is its name when that is a non-empty string, otherwise a value standing for `str(player)`. A name that happens to equal some other player's `str` text is not modelled as colliding.
- FogOfWar.IsVisible, FogOfWar.IsRevealed: the empty record that `ensure` creates is returned as the new fog rather than stored in place.
- `hex_line` and `line_of_sight` in `vision.py` use floating-point interpolation and rounding, and are not modelled.
- Reading scenario files, JSON decoding, pydantic validation and `iter_scenarios`/`iter_scenario_data` are file I/O. The parsed file is a parameter.
- `to_board_model`, `to_sparse_board` and `to_unit_model` are serialization to API schemas, and are not modelled.
- RoadGraph.Normalize: the entries of an array or object point are modelled as integers or missing. JavaScript's string rendering of other values (text, fractions, `NaN`) as key parts is not modelled.
- `fromCoordKey` and the `RoadDrawer` drawing code are rendering, and are not modelled.

=== FILE: board.dfy ===
/**
 * The board: a row-major grid of hexes plus a registry of placed units keyed
 * by unit id (an insertion-ordered dictionary, modelled as a sequence whose
 * ids are distinct).
 */
module Boards {
  import opened Wrappers
  import opened HexGrid
  import opened Players
  import opened Units

  datatype Board = Board(rows: int, columns: int, hexes: seq<Hex>, units: seq<Unit>)

  /** A position update for one unit, as sent by a client. */
  datatype SparseUnit = SparseUnit(id: UnitId, row: int, column: int)

  predicate InBounds(b: Board, c: Coord) {
    0 <= c.row < b.rows && 0 <= c.column < b.columns
  }

  /** Position of hex `c` in the row-major hex list. */
  function Slot(columns: int, c: Coord): int {
    c.row * columns + c.column
  }

  /** Every in-bounds coordinate has its own hex at its row-major slot. */
  ghost predicate Laid(b: Board) {
    forall c :: InBounds(b, c) ==>
      0 <= Slot(b.columns, c) < |b.hexes| && CoordOf(b.hexes[Slot(b.columns, c)]) == c
  }

  /** Terrain costs are positive, as every scenario's terrain types are. */
  predicate PositiveCosts(b: Board) {
    forall h :: h in b.hexes && h.terrain.Some? ==> h.terrain.value.moveCost >= 1
  }

  /** No terrain cost is negative: the movement searches end on such boards. */
  predicate NonNegativeCosts(b: Board) {
    forall h :: h in b.hexes && h.terrain.Some? ==> h.terrain.value.moveCost >= 0
  }

  predicate DistinctIds(us: seq<Unit>) {
    forall i, j :: 0 <= i < j < |us| ==> us[i].id != us[j].id
  }

  /** Registered units are placed: the board always gives them coordinates. */
  predicate Placed(us: seq<Unit>) {
    forall u :: u in us ==> u.coords.Some?
  }

  /** The invariant every board operation keeps. */
  ghost predicate Valid(b: Board) {
    Laid(b) && DistinctIds(b.units) && Placed(b.units)
  }

  /** Both boards have the same dimensions and hexes. */
  predicate SameGrid(b: Board, b': Board) {
    b'.rows == b.rows && b'.columns == b.columns && b'.hexes == b.hexes
  }

  lemma MulMonotone(x: int, y: int, k: int)
    requires x <= y && k >= 0
    ensures x * k <= y * k
  {
    assert y * k - x * k == (y - x) * k;
  }

  lemma MulStep(x: int, y: int, k: int)
    requires x < y && k > 0
    ensures x * k + k <= y * k
  {
    MulMonotone(x + 1, y, k);
    assert (x + 1) * k == x * k + k;
  }

  /** Row-major slots are in range and invert by division and remainder. */
  lemma SlotArithmetic(rows: int, columns: int, r: int, c: int)
    requires 0 <= r < rows && 0 <= c < columns
    ensures 0 <= r * columns + c < rows * columns
    ensures (r * columns + c) / columns == r && (r * columns + c) % columns == c
  {
    MulMonotone(0, r, columns);
    MulMonotone(r, rows - 1, columns);
    assert (rows - 1) * columns == rows * columns - columns;
    DivisionUnique(r * columns + c, columns, r, c);
  }

  lemma DivisionUnique(i: int, d: int, q: int, m: int)
    requires d > 0 && 0 <= m < d && i == q * d + m
    ensures i / d == q && i % d == m
  {
    var q', m' := i / d, i % d;
    assert i == q' * d + m' && 0 <= m' < d;
    if q' > q {
      MulStep(q, q', d);
    } else if q' < q {
      MulStep(q', q, d);
    }
  }

  function HexCount(rows: int, columns: int): nat {
    if rows > 0 && columns > 0 then rows * columns else 0
  }

  /** Slot `i` of a grid holds an in-bounds row and column. */
  lemma SlotInGrid(rows: int, columns: int, i: int)
    requires 0 <= i < HexCount(rows, columns)
    ensures 0 <= i / columns < rows && 0 <= i % columns < columns
  {
    var q := i / columns;
    if q >= rows {
      MulMonotone(rows, q, columns);
    }
    if q < 0 {
      MulMonotone(q, -1, columns);
    }
  }

  function GridHexes(rows: int, columns: int): seq<Hex>
  {
    var n := HexCount(rows, columns);
    seq(n, i requires 0 <= i < n => Hex(i / columns, i % columns, None))
  }

  /** The row-major grid is laid out: each in-bounds coordinate finds its own hex, and every hex is terrain-less and in bounds. */
  lemma GridLaid(rows: int, columns: int)
    ensures Laid(Board(rows, columns, GridHexes(rows, columns), []))
    ensures forall h :: h in GridHexes(rows, columns) ==> h.terrain.None? && 0 <= h.row < rows && 0 <= h.column < columns
  {
    var b := Board(rows, columns, GridHexes(rows, columns), []);
    forall c | InBounds(b, c)
      ensures 0 <= Slot(columns, c) < |b.hexes| && CoordOf(b.hexes[Slot(columns, c)]) == c
    {
      SlotArithmetic(rows, columns, c.row, c.column);
    }
    forall i | 0 <= i < |b.hexes|
      ensures 0 <= b.hexes[i].row < rows && 0 <= b.hexes[i].column < columns
    {
      SlotInGrid(rows, columns, i);
    }
  }

  /** A fresh board: one terrain-less hex per coordinate, in row-major order, and no units. */
  function NewBoard(rows: int, columns: int): (b: Board)
    ensures Valid(b) && b.units == []
    ensures b.rows == rows && b.columns == columns
    ensures |b.hexes| == HexCount(rows, columns)
    ensures forall h :: h in b.hexes ==> h.terrain.None? && InBounds(b, CoordOf(h))
  {
    GridLaid(rows, columns);
    Board(rows, columns, GridHexes(rows, columns), [])
  }

  /** `get_hex`: the hex at (row, column), or None off the board. */
  function GetHex(b: Board, c: Coord): (r: Option<Hex>)
    requires Laid(b)
    ensures r.Some? <==> InBounds(b, c)
    ensures r.Some? ==> CoordOf(r.value) == c && r.value in b.hexes
  {
    if InBounds(b, c) then Some(b.hexes[Slot(b.columns, c)]) else None
  }

  function Coords(hs: seq<Hex>): (r: seq<Coord>)
    ensures |r| == |hs| && forall i :: 0 <= i < |hs| ==> r[i] == CoordOf(hs[i])
  {
    seq(|hs|, i requires 0 <= i < |hs| => CoordOf(hs[i]))
  }

  /** The coordinates that lie on the board, in their original order. */
  function OnBoard(b: Board, cs: seq<Coord>): (r: seq<Coord>)
    ensures |r| <= |cs|
  {
    if |cs| == 0 then []
    else (if InBounds(b, cs[0]) then [cs[0]] else []) + OnBoard(b, cs[1..])
  }

  /** The filter keeps exactly the on-board members. */
  lemma {:induction false} OnBoardMembers(b: Board, cs: seq<Coord>)
    ensures forall x :: x in OnBoard(b, cs) <==> x in cs && InBounds(b, x)
  {
    if |cs| > 0 {
      OnBoardMembers(b, cs[1..]);
      assert cs == [cs[0]] + cs[1..];
    }
  }

  lemma {:induction false} OnBoardKeepsAll(b: Board, cs: seq<Coord>)
    requires forall x :: x in cs ==> InBounds(b, x)
    ensures OnBoard(b, cs) == cs
  {
    if |cs| > 0 {
      OnBoardKeepsAll(b, cs[1..]);
    }
  }

  /** The board's own hexes at on-board coordinates. */
  function HexesAt(b: Board, cs: seq<Coord>): (r: seq<Hex>)
    requires Laid(b) && forall x :: x in cs ==> InBounds(b, x)
    ensures Coords(r) == cs
    ensures forall h :: h in r ==> GetHex(b, CoordOf(h)) == Some(h)
  {
    seq(|cs|, i requires 0 <= i < |cs| => GetHex(b, cs[i]).value)
  }

  /** `get_neighboring_hexes`: the on-board neighbours, in the direction table's order. */
  function NeighbouringHexes(b: Board, c: Coord): (r: seq<Hex>)
    requires Laid(b)
    ensures |r| <= 6
    ensures Coords(r) == NeighbourCoords(b, c)
    ensures forall x :: x in Coords(r) <==> IsNeighbour(c, x) && InBounds(b, x)
    ensures forall h :: h in r ==> GetHex(b, CoordOf(h)) == Some(h)
  {
    OnBoardMembers(b, NeighbourCandidates(c));
    HexesAt(b, OnBoard(b, NeighbourCandidates(c)))
  }

  /** The coordinates of the on-board neighbours of `c`. */
  function NeighbourCoords(b: Board, c: Coord): (r: seq<Coord>)
    ensures |r| <= 6
    ensures forall x :: x in r <==> IsNeighbour(c, x) && InBounds(b, x)
  {
    OnBoardMembers(b, NeighbourCandidates(c));
    OnBoard(b, NeighbourCandidates(c))
  }

  /** An interior hex in an even column has all six neighbours on a 5 by 5 board. */
  lemma NeighbourExampleEven(b: Board)
    requires b.rows == 5 && b.columns == 5
    ensures NeighbourCoords(b, Coord(2, 2))
         == [Coord(1, 2), Coord(1, 3), Coord(2, 3), Coord(3, 2), Coord(2, 1), Coord(1, 1)]
  {
    var inner := [Coord(1, 2), Coord(1, 3), Coord(2, 3), Coord(3, 2), Coord(2, 1), Coord(1, 1)];
    assert NeighbourCandidates(Coord(2, 2)) == inner;
    OnBoardKeepsAll(b, inner);
  }

  /** An interior hex in an odd column has all six neighbours on a 5 by 5 board. */
  lemma NeighbourExampleOdd(b: Board)
    requires b.rows == 5 && b.columns == 5
    ensures NeighbourCoords(b, Coord(1, 3))
         == [Coord(0, 3), Coord(1, 4), Coord(2, 4), Coord(2, 3), Coord(2, 2), Coord(1, 2)]
  {
    var odd := [Coord(0, 3), Coord(1, 4), Coord(2, 4), Coord(2, 3), Coord(2, 2), Coord(1, 2)];
    assert NeighbourCandidates(Coord(1, 3)) == odd;
    OnBoardKeepsAll(b, odd);
  }

  /** Filtering a sequence built by prepending one coordinate. */
  lemma OnBoardCons(b: Board, x: Coord, rest: seq<Coord>)
    ensures OnBoard(b, [x] + rest) == (if InBounds(b, x) then [x] else []) + OnBoard(b, rest)
  {
    assert ([x] + rest)[1..] == rest;
  }

  /** An edge hex has three neighbours. */
  lemma NeighbourExampleEdge(b: Board)
    requires b.rows == 5 && b.columns == 5
    ensures NeighbourCoords(b, Coord(0, 2)) == [Coord(0, 3), Coord(1, 2), Coord(0, 1)]
  {
    assert NeighbourCandidates(Coord(0, 2))
        == [Coord(-1, 2), Coord(-1, 3), Coord(0, 3), Coord(1, 2), Coord(0, 1), Coord(-1, 1)];
    EdgeFilter(b);
  }

  lemma EdgeFilter(b: Board)
    requires b.rows == 5 && b.columns == 5
    ensures OnBoard(b, [Coord(-1, 2), Coord(-1, 3), Coord(0, 3), Coord(1, 2), Coord(0, 1), Coord(-1, 1)])
         == [Coord(0, 3), Coord(1, 2), Coord(0, 1)]
  {
    var c0, c1, c2, c3, c4, c5 := Coord(-1, 2), Coord(-1, 3), Coord(0, 3), Coord(1, 2), Coord(0, 1), Coord(-1, 1);
    OnBoardCons(b, c5, []);
    OnBoardCons(b, c4, [c5]);
    OnBoardCons(b, c3, [c4, c5]);
    OnBoardCons(b, c2, [c3, c4, c5]);
    OnBoardCons(b, c1, [c2, c3, c4, c5]);
    OnBoardCons(b, c0, [c1, c2, c3, c4, c5]);
  }

  /** A corner hex has two neighbours. */
  lemma NeighbourExampleCorner(b: Board)
    requires b.rows == 5 && b.columns == 5
    ensures NeighbourCoords(b, Coord(0, 0)) == [Coord(0, 1), Coord(1, 0)]
  {
    assert NeighbourCandidates(Coord(0, 0))
        == [Coord(-1, 0), Coord(-1, 1), Coord(0, 1), Coord(1, 0), Coord(0, -1), Coord(-1, -1)];
    CornerFilter(b);
  }

  lemma CornerFilter(b: Board)
    requires b.rows == 5 && b.columns == 5
    ensures OnBoard(b, [Coord(-1, 0), Coord(-1, 1), Coord(0, 1), Coord(1, 0), Coord(0, -1), Coord(-1, -1)])
         == [Coord(0, 1), Coord(1, 0)]
  {
    var c0, c1, c2, c3, c4, c5 := Coord(-1, 0), Coord(-1, 1), Coord(0, 1), Coord(1, 0), Coord(0, -1), Coord(-1, -1);
    OnBoardCons(b, c5, []);
    OnBoardCons(b, c4, [c5]);
    OnBoardCons(b, c3, [c4, c5]);
    OnBoardCons(b, c2, [c3, c4, c5]);
    OnBoardCons(b, c1, [c2, c3, c4, c5]);
    OnBoardCons(b, c0, [c1, c2, c3, c4, c5]);
  }

  /** Index of the unit with this id in the registry, if any. */
  function IndexOf(us: seq<Unit>, id: UnitId): (r: Option<nat>)
    ensures r.Some? ==> r.value < |us| && us[r.value].id == id
    ensures r.None? <==> forall u :: u in us ==> u.id != id
  {
    if |us| == 0 then None
    else if us[0].id == id then Some(0)
    else match IndexOf(us[1..], id)
      case Some(i) => Some(i + 1)
      case None => None
  }

  predicate HasUnit(b: Board, id: UnitId) {
    exists u :: u in b.units && u.id == id
  }

  /** `get_unit_by_id`: the registered unit, or a KeyError. */
  function GetUnitById(b: Board, id: UnitId): (r: Result<Unit, Error>)
    ensures r.Success? <==> HasUnit(b, id)
    ensures r.Success? ==> r.value in b.units && r.value.id == id
    ensures r.Failure? ==> r.error == UnknownUnit
  {
    match IndexOf(b.units, id)
      case Some(i) => Success(b.units[i])
      case None => Failure(UnknownUnit)
  }

  /** Dictionary assignment: replaces the unit with the same id in place, or appends. */
  function Put(us: seq<Unit>, u: Unit): (r: seq<Unit>)
    requires DistinctIds(us)
    ensures DistinctIds(r)
    ensures u in r
    ensures forall v :: v in r && v.id != u.id <==> v in us && v.id != u.id
    ensures |r| == if HasUnitIn(us, u.id) then |us| else |us| + 1
  {
    match IndexOf(us, u.id)
      case Some(i) =>
        var r := us[i := u];
        assert r[i] == u;
        assert forall v :: v in r && v.id != u.id ==> v in us by {
          forall v | v in r && v.id != u.id ensures v in us {
            var j :| 0 <= j < |r| && r[j] == v;
            assert j != i && us[j] == v;
          }
        }
        assert forall v :: v in us && v.id != u.id ==> v in r by {
          forall v | v in us && v.id != u.id ensures v in r {
            var j :| 0 <= j < |us| && us[j] == v;
            assert j != i && r[j] == v;
          }
        }
        r
      case None => us + [u]
  }

  predicate HasUnitIn(us: seq<Unit>, id: UnitId) {
    exists v :: v in us && v.id == id
  }

  /** `add_unit`: places the unit and registers it; off-board coordinates raise ValueError. */
  function AddUnit(b: Board, u: Unit, c: Coord): (r: Result<Board, Error>)
    requires Valid(b)
    ensures r.Success? <==> InBounds(b, c)
    ensures r.Failure? ==> r.error == OutOfBounds
    ensures r.Success? ==> Valid(r.value) && SameGrid(b, r.value)
    ensures r.Success? ==> GetUnitById(r.value, u.id) == Success(u.(coords := Some(c)))
    ensures r.Success? ==> forall v :: v in r.value.units && v.id != u.id <==> v in b.units && v.id != u.id
  {
    if !InBounds(b, c) then Failure(OutOfBounds)
    else
      var placed := u.(coords := Some(c));
      var r := b.(units := Put(b.units, placed));
      assert GetUnitById(r, u.id) == Success(placed) by {
        var w := GetUnitById(r, u.id).value;
        assert w in r.units && w.id == u.id;
        var i, j :| 0 <= i < |r.units| && 0 <= j < |r.units| && r.units[i] == w && r.units[j] == placed;
        assert i == j;
      }
      Success(r)
  }

  /** The registry without the units whose ids are listed. */
  function Without(us: seq<Unit>, ids: set<UnitId>): (r: seq<Unit>)
    ensures |r| <= |us|
  {
    if |us| == 0 then []
    else (if us[0].id in ids then [] else [us[0]]) + Without(us[1..], ids)
  }

  /** The filter keeps exactly the units whose ids are not listed. */
  lemma {:induction false} WithoutMembers(us: seq<Unit>, ids: set<UnitId>)
    ensures forall v :: v in Without(us, ids) <==> v in us && v.id !in ids
  {
    if |us| > 0 {
      WithoutMembers(us[1..], ids);
      assert us == [us[0]] + us[1..];
    }
  }

  lemma {:induction false} WithoutKeepsDistinct(us: seq<Unit>, ids: set<UnitId>)
    requires DistinctIds(us)
    ensures DistinctIds(Without(us, ids))
  {
    if |us| > 0 {
      WithoutKeepsDistinct(us[1..], ids);
      var rest := Without(us[1..], ids);
      WithoutMembers(us[1..], ids);
      assert forall v :: v in rest ==> v in us[1..] && v.id != us[0].id;
    }
  }

  lemma {:induction false} WithoutTwice(us: seq<Unit>, a: set<UnitId>, c: set<UnitId>)
    ensures Without(Without(us, a), c) == Without(us, a + c)
  {
    if |us| > 0 {
      WithoutTwice(us[1..], a, c);
      var tail := Without(us[1..], a);
      if us[0].id in a {
        assert Without(us, a) == tail;
      } else {
        assert Without(us, a) == [us[0]] + tail;
        assert Without(us, a)[1..] == tail;
      }
    }
  }

  lemma {:induction false} WithoutNothing(us: seq<Unit>, ids: set<UnitId>)
    requires forall u :: u in us ==> u.id !in ids
    ensures Without(us, ids) == us
  {
    if |us| > 0 {
      WithoutNothing(us[1..], ids);
    }
  }

  function IdSet(ids: seq<UnitId>): (r: set<UnitId>)
    ensures forall i :: i in r <==> i in ids
  {
    set i | i in ids
  }

  /**
   * `remove_units`: deletes each listed unit from the registry in turn; a unit
   * that is not (or no longer) registered raises KeyError.
   */
  function RemoveUnits(b: Board, ids: seq<UnitId>): (r: Result<Board, Error>)
    requires Valid(b)
    ensures r.Success? ==> Valid(r.value) && SameGrid(b, r.value)
    ensures r.Success? ==> r.value.units == Without(b.units, IdSet(ids))
    ensures r.Failure? ==> r.error == UnknownUnit
    decreases |ids|
  {
    if |ids| == 0 then
      WithoutNothing(b.units, IdSet(ids));
      Success(b)
    else if !HasUnit(b, ids[0]) then Failure(UnknownUnit)
    else
      RemoveOneKeepsValid(b, ids[0]);
      var once := b.(units := Without(b.units, {ids[0]}));
      match RemoveUnits(once, ids[1..])
        case Failure(e) => Failure(e)
        case Success(after) =>
          RemoveSplit(b.units, ids);
          Success(after)
  }

  lemma RemoveOneKeepsValid(b: Board, id: UnitId)
    requires Valid(b)
    ensures Valid(b.(units := Without(b.units, {id})))
  {
    WithoutKeepsDistinct(b.units, {id});
    WithoutMembers(b.units, {id});
  }

  lemma RemoveSplit(us: seq<Unit>, ids: seq<UnitId>)
    requires |ids| > 0
    ensures Without(Without(us, {ids[0]}), IdSet(ids[1..])) == Without(us, IdSet(ids))
  {
    WithoutTwice(us, {ids[0]}, IdSet(ids[1..]));
    assert {ids[0]} + IdSet(ids[1..]) == IdSet(ids);
  }

  /** Removal succeeds exactly when the ids are registered and listed once each. */
  lemma {:induction false} RemoveUnitsSucceeds(b: Board, ids: seq<UnitId>)
    requires Valid(b)
    ensures RemoveUnits(b, ids).Success?
        <==> (forall i :: i in ids ==> HasUnit(b, i)) && (forall i, j :: 0 <= i < j < |ids| ==> ids[i] != ids[j])
    decreases |ids|
  {
    if |ids| > 0 && HasUnit(b, ids[0]) {
      var once := b.(units := Without(b.units, {ids[0]}));
      WithoutKeepsDistinct(b.units, {ids[0]});
      WithoutMembers(b.units, {ids[0]});
      RemoveUnitsSucceeds(once, ids[1..]);
      assert forall i :: HasUnit(once, i) <==> HasUnit(b, i) && i != ids[0];
      assert forall k :: 0 < k < |ids| ==> ids[1..][k - 1] == ids[k];
    }
  }

  /** Adding a unit under a new id and then removing it gives the original board back. */
  lemma AddThenRemove(b: Board, u: Unit, c: Coord)
    requires Valid(b) && InBounds(b, c) && !HasUnit(b, u.id)
    ensures AddUnit(b, u, c).Success?
    ensures RemoveUnits(AddUnit(b, u, c).value, [u.id]) == Success(b)
  {
    var placed := u.(coords := Some(c));
    assert IndexOf(b.units, u.id).None?;
    var added := b.(units := b.units + [placed]);
    assert AddUnit(b, u, c) == Success(added);
    WithoutAppend(b.units, [placed], {u.id});
    WithoutNothing(b.units, {u.id});
    assert Without([placed], {u.id}) == [];
    var once := added.(units := Without(added.units, {u.id}));
    assert once == b;
    assert RemoveUnits(once, []) == Success(once);
    assert HasUnit(added, u.id);
  }

  lemma {:induction false} WithoutAppend(a: seq<Unit>, c: seq<Unit>, ids: set<UnitId>)
    ensures Without(a + c, ids) == Without(a, ids) + Without(c, ids)
  {
    if |a| > 0 {
      assert (a + c)[1..] == a[1..] + c;
      WithoutAppend(a[1..], c, ids);
    } else {
      assert a + c == c;
    }
  }

  /** The registry with one unit's coordinates replaced. */
  function Move(us: seq<Unit>, id: UnitId, c: Coord): seq<Unit>
  {
    seq(|us|, i requires 0 <= i < |us| => if us[i].id == id then us[i].(coords := Some(c)) else us[i])
  }

  /** One position update applied to the registry. */
  function MoveOne(b: Board, s: SparseUnit): Board {
    b.(units := Move(b.units, s.id, Coord(s.row, s.column)))
  }

  lemma MoveOneKeepsIds(b: Board, s: SparseUnit)
    requires Valid(b)
    ensures Valid(MoveOne(b, s)) && SameGrid(b, MoveOne(b, s)) && |MoveOne(b, s).units| == |b.units|
    ensures forall i :: 0 <= i < |b.units| ==> MoveOne(b, s).units[i].id == b.units[i].id
    ensures forall i :: HasUnit(MoveOne(b, s), i) <==> HasUnit(b, i)
  {
    var moved := MoveOne(b, s);
    forall i | HasUnit(moved, i) ensures HasUnit(b, i) {
      var u :| u in moved.units && u.id == i;
      var k :| 0 <= k < |moved.units| && moved.units[k] == u;
      assert b.units[k].id == i;
    }
    forall i | HasUnit(b, i) ensures HasUnit(moved, i) {
      var u :| u in b.units && u.id == i;
      var k :| 0 <= k < |b.units| && b.units[k] == u;
      assert moved.units[k].id == i;
    }
  }

  /**
   * `update`: applies each position update in turn; an unknown id raises
   * KeyError. Positions are not checked against the board bounds.
   */
  function Update(b: Board, updates: seq<SparseUnit>): (r: Result<Board, Error>)
    requires Valid(b)
    ensures r.Success? <==> forall s :: s in updates ==> HasUnit(b, s.id)
    ensures r.Failure? ==> r.error == UnknownUnit
    ensures r.Success? ==> Valid(r.value) && SameGrid(b, r.value) && |r.value.units| == |b.units|
    ensures r.Success? ==> forall i :: 0 <= i < |b.units| ==> r.value.units[i].id == b.units[i].id
    decreases |updates|
  {
    if |updates| == 0 then Success(b)
    else if !HasUnit(b, updates[0].id) then Failure(UnknownUnit)
    else
      MoveOneKeepsIds(b, updates[0]);
      assert forall x :: x in updates ==> x == updates[0] || x in updates[1..];
      Update(MoveOne(b, updates[0]), updates[1..])
  }

  /** After an update, each listed unit stands where the last update for it says. */
  lemma {:induction false} UpdateLastWins(b: Board, updates: seq<SparseUnit>, k: nat)
    requires Valid(b) && Update(b, updates).Success?
    requires k < |updates|
    requires forall j :: k < j < |updates| ==> updates[j].id != updates[k].id
    ensures GetUnitById(Update(b, updates).value, updates[k].id).Success?
    ensures GetUnitById(Update(b, updates).value, updates[k].id).value.coords
         == Some(Coord(updates[k].row, updates[k].column))
    decreases |updates|
  {
    var s := updates[0];
    MoveOneKeepsIds(b, s);
    var moved := MoveOne(b, s);
    assert Update(b, updates) == Update(moved, updates[1..]);
    if k == 0 {
      FirstUpdateWins(b, updates);
    } else {
      UpdateLastWins(moved, updates[1..], k - 1);
    }
  }

  /** The first update stands when no later update names the same unit. */
  lemma FirstUpdateWins(b: Board, updates: seq<SparseUnit>)
    requires Valid(b) && Update(b, updates).Success? && |updates| > 0
    requires forall j :: 0 < j < |updates| ==> updates[j].id != updates[0].id
    ensures GetUnitById(Update(b, updates).value, updates[0].id).Success?
    ensures GetUnitById(Update(b, updates).value, updates[0].id).value.coords
         == Some(Coord(updates[0].row, updates[0].column))
  {
    var s := updates[0];
    MoveOneKeepsIds(b, s);
    var moved := MoveOne(b, s);
    assert Update(b, updates) == Update(moved, updates[1..]);
    assert s in updates;
    var i := IndexOf(b.units, s.id).value;
    assert moved.units[i].coords == Some(Coord(s.row, s.column));
    LaterUpdatesSkip(updates);
    UpdateUntouched(moved, updates[1..], s.id, i);
  }

  lemma LaterUpdatesSkip(updates: seq<SparseUnit>)
    requires |updates| > 0
    requires forall j :: 0 < j < |updates| ==> updates[j].id != updates[0].id
    ensures forall x :: x in updates[1..] ==> x.id != updates[0].id
  {
    forall x | x in updates[1..] ensures x.id != updates[0].id {
      var j :| 0 <= j < |updates[1..]| && updates[1..][j] == x;
      assert updates[j + 1] == x;
    }
  }

  /** An update sequence that never names a unit leaves that unit where it was. */
  lemma {:induction false} UpdateUntouched(b: Board, updates: seq<SparseUnit>, id: UnitId, i: nat)
    requires Valid(b) && Update(b, updates).Success?
    requires i < |b.units| && b.units[i].id == id
    requires forall s :: s in updates ==> s.id != id
    ensures GetUnitById(Update(b, updates).value, id) == Success(b.units[i])
    decreases |updates|
  {
    if |updates| == 0 {
      var w := GetUnitById(b, id).value;
      var j :| 0 <= j < |b.units| && b.units[j] == w;
      assert i == j;
    } else {
      var s := updates[0];
      MoveOneKeepsIds(b, s);
      var moved := MoveOne(b, s);
      assert moved.units[i] == b.units[i];
      assert Update(b, updates) == Update(moved, updates[1..]);
      UpdateUntouched(moved, updates[1..], id, i);
    }
  }

  /** `find_units` for a collection of factions: the registered units of those factions, in order. */
  function FindUnits(b: Board, factions: seq<FactionId>): (r: seq<Unit>)
    ensures forall u :: u in r <==> u in b.units && u.faction in factions
  {
    UnitsOfFactions(b.units, factions)
  }

  function UnitsOfFactions(us: seq<Unit>, factions: seq<FactionId>): (r: seq<Unit>)
    ensures forall u :: u in r <==> u in us && u.faction in factions
  {
    if |us| == 0 then []
    else (if us[0].faction in factions then [us[0]] else []) + UnitsOfFactions(us[1..], factions)
  }

  /** `get_units_for_hexes`: registered units standing on one of the hexes, in registry order. */
  function UnitsForHexes(b: Board, hexes: seq<Hex>): (r: seq<Unit>)
    ensures forall u :: u in r <==> u in b.units && u.coords.Some? && u.coords.value in Coords(hexes)
  {
    UnitsOn(b.units, Coords(hexes))
  }

  /** Enemy adjacency reads the units on the board's neighbouring hexes. */
  lemma EnemyAdjacentUsesNeighbours(b: Board, u: Unit, c: Coord)
    requires Laid(b)
    ensures EnemyAdjacent(b, u, c) <==>
      exists v :: v in UnitsForHexes(b, NeighbouringHexes(b, c)) && !IsFriendly(v, u)
  {
    assert UnitsForHexes(b, NeighbouringHexes(b, c)) == UnitsOn(b.units, NeighbourCoords(b, c));
  }

  function UnitsOn(us: seq<Unit>, cs: seq<Coord>): (r: seq<Unit>)
    ensures forall u :: u in r <==> u in us && u.coords.Some? && u.coords.value in cs
  {
    if |us| == 0 then []
    else (if us[0].coords.Some? && us[0].coords.value in cs then [us[0]] else []) + UnitsOn(us[1..], cs)
  }

  /** `enemy_adjacent`: some unit on a neighbouring hex is not friendly to `u`. */
  predicate EnemyAdjacent(b: Board, u: Unit, c: Coord)
  {
    exists v :: v in UnitsOn(b.units, NeighbourCoords(b, c)) && !IsFriendly(v, u)
  }

  /** Zone of control: a hex is enemy-adjacent exactly when a unfriendly unit stands on a neighbouring hex of the board. */
  lemma EnemyAdjacentMeans(b: Board, u: Unit, c: Coord)
    ensures EnemyAdjacent(b, u, c) <==>
      exists v :: v in b.units && v.coords.Some? && IsNeighbour(c, v.coords.value)
                  && InBounds(b, v.coords.value) && v.player != u.player
  {
    var near := UnitsOn(b.units, NeighbourCoords(b, c));
    if EnemyAdjacent(b, u, c) {
      var v :| v in near && !IsFriendly(v, u);
      assert v.coords.value in NeighbourCoords(b, c);
    }
    if exists v :: v in b.units && v.coords.Some? && IsNeighbour(c, v.coords.value)
                   && InBounds(b, v.coords.value) && v.player != u.player {
      var v :| v in b.units && v.coords.Some? && IsNeighbour(c, v.coords.value)
               && InBounds(b, v.coords.value) && v.player != u.player;
      assert v in near && !IsFriendly(v, u);
    }
  }
}

=== FILE: board_search.dfy ===
/**
 * The board's own breadth-first movement searches: every entered hex costs
 * one point, and a unit stops on entering an enemy's zone of control.
 */
module BoardSearch {
  import opened Wrappers
  import opened HexGrid
  import opened Units
  import opened Boards
  import opened Routes

  /** All on-board coordinates. */
  function Grid(b: Board): set<Coord> {
    set r, c | 0 <= r < b.rows && 0 <= c < b.columns :: Coord(r, c)
  }

  lemma InGrid(b: Board, c: Coord)
    requires InBounds(b, c)
    ensures c in Grid(b)
  {
    assert c == Coord(c.row, c.column);
  }

  /** On-board coordinates a search has not labelled yet: shrinks with every new label. */
  function Unvisited(b: Board, visited: set<Coord>): set<Coord> {
    Grid(b) - visited
  }

  predicate Queued<T>(queue: seq<(Coord, T)>, c: Coord) {
    exists i :: 0 <= i < |queue| && queue[i].0 == c
  }

  /** The move allowance: the explicit one if given, otherwise the unit's own. */
  function Allowance(u: Unit, movePoints: Option<int>): int {
    if movePoints.Some? then movePoints.value else u.move
  }

  /** Breadth-first queue discipline: entries carry their labels; the first `m` sit at level `lo`, the rest at `lo + 1`, and no label exceeds `lo + 1`. */
  ghost predicate Levelled(queue: seq<(Coord, int)>, g: Labels, lo: int, m: int) {
    0 <= m <= |queue| &&
    (forall i :: 0 <= i < |queue| ==>
      queue[i].0 in g && g[queue[i].0] == queue[i].1 && queue[i].1 == (if i < m then lo else lo + 1)) &&
    (forall c :: c in g ==> g[c] <= lo + 1)
  }

  /** Where the level split falls after the head is popped. */
  function PoppedSplit(queue: seq<(Coord, int)>, m: int): int {
    if m > 0 then m - 1 else |queue| - 1
  }

  /** Every label is backed by a recorded route, and the start is labelled 0. */
  ghost predicate Sound(b: Board, u: Unit, pricing: Pricing, rg: Region, start: Coord, budget: int, stops: bool,
                        g: Labels, paths: map<Coord, seq<Coord>>)
    requires Laid(b)
  {
    start in g && g[start] == 0 && g.Keys <= paths.Keys &&
    forall c {:trigger Witnessed(b, u, pricing, rg, start, budget, stops, g, paths, c)} ::
      c in g ==> Witnessed(b, u, pricing, rg, start, budget, stops, g, paths, c)
  }

  /** Every labelled hex outside `skip` is relaxed or still waiting in the queue. */
  ghost predicate Pending<T>(b: Board, u: Unit, pricing: Pricing, rg: Region, budget: int,
                             g: Labels, queue: seq<(Coord, T)>, skip: set<Coord>)
    requires Laid(b)
  {
    forall c {:trigger Relaxed(b, u, pricing, rg, budget, g, c)} {:trigger Queued(queue, c)} ::
      c in g && c !in skip ==> Relaxed(b, u, pricing, rg, budget, g, c) || Queued(queue, c)
  }

  /** The breadth-first search's invariant: labels are the visited set, backed by routes, levelled in the queue, and every label outside `skip` is relaxed or queued. */
  ghost predicate FlatState(b: Board, u: Unit, start: Coord, budget: int, visited: set<Coord>,
                            queue: seq<(Coord, int)>, g: Labels, paths: map<Coord, seq<Coord>>,
                            lo: int, m: int, skip: set<Coord>)
    requires Laid(b)
  {
    visited == g.Keys && Levelled(queue, g, lo, m) && Sound(b, u, Flat, Anywhere, start, budget, true, g, paths)
    && Pending(b, u, Flat, Anywhere, budget, g, queue, skip)
  }

  /** A new label one level above `lo`, enqueued at the back, keeps the queue levelled. */
  lemma LevelledLabel(queue: seq<(Coord, int)>, g: Labels, lo: int, m: int, n: Coord)
    requires Levelled(queue, g, lo, m) && n !in g
    ensures Levelled(queue + [(n, lo + 1)], g[n := lo + 1], lo, m)
  {
  }

  /** Labelling a neighbour of a soundly labelled hex with the cost of the extended route keeps every label sound. */
  lemma SoundLabel(b: Board, u: Unit, pricing: Pricing, rg: Region, start: Coord, budget: int, stops: bool,
                   g: Labels, paths: map<Coord, seq<Coord>>, current: Coord, n: Coord)
    requires Laid(b) && Sound(b, u, pricing, rg, start, budget, stops, g, paths)
    requires current in g && Step(b, u, rg, current, n) && n != start
    requires g[current] + StepCost(b, pricing, n) <= budget && (stops ==> g[current] < budget)
    ensures Sound(b, u, pricing, rg, start, budget, stops, g[n := g[current] + StepCost(b, pricing, n)],
                  paths[n := paths[current] + [n]])
  {
    var g', paths' := g[n := g[current] + StepCost(b, pricing, n)], paths[n := paths[current] + [n]];
    assert Witnessed(b, u, pricing, rg, start, budget, stops, g, paths, current);
    RouteExtend(b, u, pricing, rg, start, paths[current], n);
    forall c | c in g'
      ensures Witnessed(b, u, pricing, rg, start, budget, stops, g', paths', c)
    {
      if c != n {
        assert Witnessed(b, u, pricing, rg, start, budget, stops, g, paths, c);
      }
    }
  }

  /** A new label that is enqueued keeps every other label relaxed or queued. */
  lemma PendingLabelFlat(b: Board, u: Unit, budget: int, g: Labels, queue: seq<(Coord, int)>,
                         skip: set<Coord>, n: Coord, k: int)
    requires Laid(b) && Pending(b, u, Flat, Anywhere, budget, g, queue, skip) && n !in g
    ensures Pending(b, u, Flat, Anywhere, budget, g[n := k], queue + [(n, k)], skip)
  {
    var g', q' := g[n := k], queue + [(n, k)];
    forall c | c in g' && c !in skip
      ensures Relaxed(b, u, Flat, Anywhere, budget, g', c) || Queued(q', c)
    {
      if c == n {
        assert q'[|q'| - 1].0 == n;
      } else if Relaxed(b, u, Flat, Anywhere, budget, g, c) {
        RelaxedStays(b, u, Flat, Anywhere, budget, g, g', c);
      } else {
        var i :| 0 <= i < |queue| && queue[i].0 == c;
        assert q'[i].0 == c;
      }
    }
  }

  /** Labelling one new neighbour of an expanded hex keeps the search invariant. */
  lemma LabelFlat(b: Board, u: Unit, start: Coord, budget: int, current: Coord, n: Coord,
                  visited: set<Coord>, queue: seq<(Coord, int)>, g: Labels, paths: map<Coord, seq<Coord>>,
                  lo: int, m: int)
    requires Laid(b) && FlatState(b, u, start, budget, visited, queue, g, paths, lo, m, {current})
    requires current in g && g[current] == lo && n !in g
    requires lo < budget && !EnemyAdjacent(b, u, current) && n in NeighbourCoords(b, current)
    ensures FlatState(b, u, start, budget, visited + {n}, queue + [(n, lo + 1)], g[n := lo + 1],
                      paths[n := paths[current] + [n]], lo, m, {current})
  {
    LevelledLabel(queue, g, lo, m, n);
    SoundLabel(b, u, Flat, Anywhere, start, budget, true, g, paths, current, n);
    PendingLabelFlat(b, u, budget, g, queue, {current}, n, lo + 1);
  }

  /**
   * What holds after the first `k` neighbours of `current` are handled: the
   * search invariant with `current` set aside, those neighbours labelled, and
   * either nothing changed yet or some new hex labelled.
   */
  ghost predicate Expanding(b: Board, u: Unit, start: Coord, budget: int, current: Coord, cost: int,
                            visited: set<Coord>, queue: seq<(Coord, int)>, lo: int, m: int,
                            neighbours: seq<Coord>, k: int, visited': set<Coord>, queue': seq<(Coord, int)>,
                            g': Labels, paths': map<Coord, seq<Coord>>, added: Option<Coord>)
    requires Laid(b)
  {
    0 <= k <= |neighbours| &&
    FlatState(b, u, start, budget, visited', queue', g', paths', lo, m, {current}) &&
    current in g' && g'[current] == cost && visited <= visited' &&
    (forall j :: 0 <= j < k ==> neighbours[j] in visited') &&
    (added.None? ==> visited' == visited && queue' == queue) &&
    (added.Some? ==> added.value in visited' && added.value !in visited && InBounds(b, added.value))
  }

  /** One step of the inner loop: label neighbour `k` unless it is already visited. */
  method VisitFlat(b: Board, u: Unit, start: Coord, budget: int, current: Coord, cost: int,
                   ghost visited: set<Coord>, ghost queue: seq<(Coord, int)>, ghost lo: int, ghost m: int,
                   neighbours: seq<Coord>, k: int, visited': set<Coord>, queue': seq<(Coord, int)>,
                   ghost g': Labels, ghost paths': map<Coord, seq<Coord>>, ghost added: Option<Coord>)
    returns (visited'': set<Coord>, queue'': seq<(Coord, int)>,
             ghost g'': Labels, ghost paths'': map<Coord, seq<Coord>>, ghost added': Option<Coord>)
    requires Laid(b) && k < |neighbours| && neighbours == NeighbourCoords(b, current)
    requires cost == lo && cost < budget && !EnemyAdjacent(b, u, current)
    requires Expanding(b, u, start, budget, current, cost, visited, queue, lo, m, neighbours, k,
                       visited', queue', g', paths', added)
    ensures Expanding(b, u, start, budget, current, cost, visited, queue, lo, m, neighbours, k + 1,
                      visited'', queue'', g'', paths'', added')
  {
    var n := neighbours[k];
    visited'', queue'', g'', paths'', added' := visited', queue', g', paths', added;
    if n !in visited' {
      LabelFlat(b, u, start, budget, current, n, visited', queue', g', paths', lo, m);
      visited'' := visited' + {n};
      queue'' := queue' + [(n, cost + 1)];
      g'' := g'[n := cost + 1];
      paths'' := paths'[n := paths'[current] + [n]];
      added' := Some(n);
    }
  }

  /** The inner loop of the breadth-first search: label and enqueue the unvisited neighbours of `current`. */
  method ExpandFlat(b: Board, u: Unit, start: Coord, budget: int, current: Coord, cost: int,
                    visited: set<Coord>, queue: seq<(Coord, int)>,
                    ghost g: Labels, ghost paths: map<Coord, seq<Coord>>, ghost lo: int, ghost m: int)
    returns (visited': set<Coord>, queue': seq<(Coord, int)>,
             ghost g': Labels, ghost paths': map<Coord, seq<Coord>>)
    requires Laid(b) && FlatState(b, u, start, budget, visited, queue, g, paths, lo, m, {current})
    requires current in g && g[current] == cost && cost == lo
    requires cost < budget && !EnemyAdjacent(b, u, current)
    ensures FlatState(b, u, start, budget, visited', queue', g', paths', lo, m, {})
    ensures Unvisited(b, visited') < Unvisited(b, visited) || (visited' == visited && queue' == queue)
  {
    visited', queue', g', paths' := visited, queue, g, paths;
    ghost var added: Option<Coord> := None;
    var neighbours := NeighbourCoords(b, current);
    var k := 0;
    while k < |neighbours|
      invariant Expanding(b, u, start, budget, current, cost, visited, queue, lo, m, neighbours, k,
                          visited', queue', g', paths', added)
    {
      visited', queue', g', paths', added :=
        VisitFlat(b, u, start, budget, current, cost, visited, queue, lo, m, neighbours, k,
                  visited', queue', g', paths', added);
      k := k + 1;
    }
    ExpandedFlat(b, u, budget, current, cost, neighbours, queue', g', lo, m);
    if added.Some? {
      UnvisitedShrinks(b, visited, visited', added.value);
    }
  }

  /** Labelling a new on-board hex shrinks the unvisited part of the grid. */
  lemma UnvisitedShrinks(b: Board, visited: set<Coord>, visited': set<Coord>, n: Coord)
    requires visited <= visited' && n in visited' && n !in visited && InBounds(b, n)
    ensures Unvisited(b, visited') < Unvisited(b, visited)
  {
    InGrid(b, n);
    assert n in Unvisited(b, visited) && n !in Unvisited(b, visited');
  }

  /** Once every neighbour is labelled, the expanded hex is relaxed. */
  lemma ExpandedFlat(b: Board, u: Unit, budget: int, current: Coord, cost: int, neighbours: seq<Coord>,
                     queue: seq<(Coord, int)>, g: Labels, lo: int, m: int)
    requires Laid(b) && neighbours == NeighbourCoords(b, current)
    requires forall j :: 0 <= j < |neighbours| ==> neighbours[j] in g
    requires Levelled(queue, g, lo, m) && lo == cost && current in g && g[current] == cost
    requires Pending(b, u, Flat, Anywhere, budget, g, queue, {current})
    ensures Pending(b, u, Flat, Anywhere, budget, g, queue, {})
  {
    forall n | n in neighbours ensures n in g && g[n] <= cost + 1 {
      var j :| 0 <= j < |neighbours| && neighbours[j] == n;
    }
    assert Relaxed(b, u, Flat, Anywhere, budget, g, current);
  }

  /** The search starts with the start hex labelled 0 and queued. */
  lemma FlatStart(b: Board, u: Unit, start: Coord, budget: int)
    requires Laid(b)
    ensures FlatState(b, u, start, budget, {start}, [(start, 0)], map[start := 0], map[start := [start]], 0, 1, {})
  {
    TrivialRoute(b, u, Flat, Anywhere, start);
    assert Witnessed(b, u, Flat, Anywhere, start, budget, true, map[start := 0], map[start := [start]], start);
    assert [(start, 0)][0].0 == start;
  }

  /** Popping the head leaves every other label relaxed or queued; a head that is over budget or in a zone of control is relaxed as it stands. */
  lemma FlatPop(b: Board, u: Unit, start: Coord, budget: int, visited: set<Coord>,
                queue: seq<(Coord, int)>, g: Labels, paths: map<Coord, seq<Coord>>, lo: int, m: int)
    requires Laid(b) && FlatState(b, u, start, budget, visited, queue, g, paths, lo, m, {}) && |queue| > 0
    ensures FlatState(b, u, start, budget, visited, queue[1..], g, paths, queue[0].1, PoppedSplit(queue, m), {queue[0].0})
    ensures queue[0].0 in g && g[queue[0].0] == queue[0].1
    ensures queue[0].1 >= budget || EnemyAdjacent(b, u, queue[0].0) ==>
      FlatState(b, u, start, budget, visited, queue[1..], g, paths, queue[0].1, PoppedSplit(queue, m), {})
  {
    var current, rest := queue[0].0, queue[1..];
    forall i | 0 <= i < |rest|
      ensures rest[i].0 in g && g[rest[i].0] == rest[i].1
      ensures rest[i].1 == (if i < PoppedSplit(queue, m) then queue[0].1 else queue[0].1 + 1)
    {
      assert rest[i] == queue[i + 1];
    }
    forall c | c in g && c != current
      ensures Relaxed(b, u, Flat, Anywhere, budget, g, c) || Queued(rest, c)
    {
      if !Relaxed(b, u, Flat, Anywhere, budget, g, c) {
        var i :| 0 <= i < |queue| && queue[i].0 == c;
        assert rest[i - 1].0 == c;
      }
    }
    if queue[0].1 >= budget || EnemyAdjacent(b, u, current) {
      assert Relaxed(b, u, Flat, Anywhere, budget, g, current);
    }
  }

  /** With the queue empty, the labels are exactly the start and the hexes reachable within budget. */
  lemma FlatDone(b: Board, u: Unit, start: Coord, budget: int, visited: set<Coord>,
                 g: Labels, paths: map<Coord, seq<Coord>>, lo: int, m: int)
    requires Laid(b) && FlatState(b, u, start, budget, visited, [], g, paths, lo, m, {})
    ensures forall c :: c in visited <==> c == start || CanReach(b, u, Flat, Anywhere, start, budget, c)
  {
    forall c | c in CanReachSet(b, u, start, budget)
      ensures c in visited
    {
      var p :| IsRoute(b, u, Anywhere, start, p) && Last(p) == c && RouteCost(b, Flat, p) <= budget &&
        Departs(b, Flat, budget, p);
      forall x | x in g && g[x] < RouteCost(b, Flat, p) + 1
        ensures Relaxed(b, u, Flat, Anywhere, budget, g, x)
      {
        assert !Queued<int>([], x);
      }
      RelaxedLabelsReach(b, u, Flat, Anywhere, start, budget, RouteCost(b, Flat, p) + 1, g, p);
    }
    forall c | c in visited && c != start
      ensures CanReach(b, u, Flat, Anywhere, start, budget, c)
    {
      assert Witnessed(b, u, Flat, Anywhere, start, budget, true, g, paths, c);
    }
  }

  /**
   * `Board.get_reachable_hexes`: breadth-first search from `start`. The result
   * is the start hex plus every hex some legal route of at most the allowance
   * reaches, where each entered hex costs one point.
   */
  method ReachableHexes(b: Board, u: Unit, start: Coord, movePoints: Option<int>) returns (r: set<Coord>)
    requires Valid(b)
    ensures forall c :: c in r <==> c == start || CanReach(b, u, Flat, Anywhere, start, Allowance(u, movePoints), c)
  {
    var budget := Allowance(u, movePoints);
    var visited: set<Coord> := {start};
    var queue: seq<(Coord, int)> := [(start, 0)];
    ghost var g: Labels := map[start := 0];
    ghost var paths: map<Coord, seq<Coord>> := map[start := [start]];
    ghost var lo, m := 0, 1;
    FlatStart(b, u, start, budget);
    while |queue| > 0
      invariant FlatState(b, u, start, budget, visited, queue, g, paths, lo, m, {})
      decreases Unvisited(b, visited), |queue|
    {
      FlatPop(b, u, start, budget, visited, queue, g, paths, lo, m);
      var current, cost := queue[0].0, queue[0].1;
      m := PoppedSplit(queue, m);
      queue := queue[1..];
      lo := cost;
      if cost >= budget || EnemyAdjacent(b, u, current) {
        continue;
      }
      visited, queue, g, paths := ExpandFlat(b, u, start, budget, current, cost, visited, queue, g, paths, lo, m);
    }
    FlatDone(b, u, start, budget, visited, g, paths, lo, m);
    r := visited;
  }

  /**
   * The path search's invariant: the start is visited, every queued entry
   * carries a route inside `area` to its hex, every visited hex outside
   * `skip` is expanded or still queued, and a visited target is still queued.
   */
  ghost predicate PathState(b: Board, u: Unit, area: set<Coord>, start: Coord, end: Coord,
                            visited: set<Coord>, queue: seq<(Coord, seq<Coord>)>, skip: set<Coord>) {
    start in visited &&
    (forall i :: 0 <= i < |queue| ==>
      queue[i].0 in visited && IsRoute(b, u, Within(area), start, queue[i].1 + [queue[i].0])) &&
    (forall x {:trigger Expanded(b, u, Within(area), visited, x)} {:trigger Queued(queue, x)} ::
      x in visited && x !in skip ==> Expanded(b, u, Within(area), visited, x) || Queued(queue, x)) &&
    (end in visited ==> Queued(queue, end))
  }

  /** Visiting a new hex one legal step beyond `route` keeps the path search's invariant. */
  lemma PathLabel(b: Board, u: Unit, area: set<Coord>, start: Coord, end: Coord, visited: set<Coord>,
                  queue: seq<(Coord, seq<Coord>)>, skip: set<Coord>, route: seq<Coord>, n: Coord)
    requires Laid(b) && PathState(b, u, area, start, end, visited, queue, skip) && n !in visited
    requires IsRoute(b, u, Within(area), start, route) && Step(b, u, Within(area), Last(route), n)
    ensures PathState(b, u, area, start, end, visited + {n}, queue + [(n, route)], skip)
  {
    var v', q' := visited + {n}, queue + [(n, route)];
    RouteExtend(b, u, Flat, Within(area), start, route, n);
    assert q'[|queue|] == (n, route);
    forall i | 0 <= i < |q'|
      ensures q'[i].0 in v' && IsRoute(b, u, Within(area), start, q'[i].1 + [q'[i].0])
    {
      if i < |queue| {
        assert q'[i] == queue[i];
      }
    }
    forall x | x in v' && x !in skip
      ensures Expanded(b, u, Within(area), v', x) || Queued(q', x)
    {
      if x == n {
        assert q'[|queue|].0 == x;
      } else if Expanded(b, u, Within(area), visited, x) {
      } else {
        var i :| 0 <= i < |queue| && queue[i].0 == x;
        assert q'[i].0 == x;
      }
    }
    if end in v' {
      if end == n {
        assert q'[|queue|].0 == end;
      } else {
        var i :| 0 <= i < |queue| && queue[i].0 == end;
        assert q'[i].0 == end;
      }
    }
  }

  /** What holds after the first `k` neighbours of `current` are handled by the path search. */
  ghost predicate PathExpanding(b: Board, u: Unit, area: set<Coord>, start: Coord, end: Coord, current: Coord,
                                visited: set<Coord>, queue: seq<(Coord, seq<Coord>)>, neighbours: seq<Coord>, k: int,
                                visited': set<Coord>, queue': seq<(Coord, seq<Coord>)>, added: Option<Coord>)
  {
    0 <= k <= |neighbours| &&
    PathState(b, u, area, start, end, visited', queue', {current}) &&
    current in visited' && visited <= visited' &&
    (forall j :: 0 <= j < k && neighbours[j] in area ==> neighbours[j] in visited') &&
    (added.None? ==> visited' == visited && queue' == queue) &&
    (added.Some? ==> added.value in visited' && added.value !in visited && InBounds(b, added.value))
  }

  /** One step of the path search's inner loop: visit neighbour `k` if it is new and inside `area`. */
  method VisitPath(b: Board, u: Unit, area: set<Coord>, start: Coord, end: Coord, current: Coord, route: seq<Coord>,
                   ghost visited: set<Coord>, ghost queue: seq<(Coord, seq<Coord>)>, neighbours: seq<Coord>, k: int,
                   visited': set<Coord>, queue': seq<(Coord, seq<Coord>)>, ghost added: Option<Coord>)
    returns (visited'': set<Coord>, queue'': seq<(Coord, seq<Coord>)>, ghost added': Option<Coord>)
    requires Laid(b) && k < |neighbours| && neighbours == NeighbourCoords(b, current)
    requires IsRoute(b, u, Within(area), start, route) && Last(route) == current && !EnemyAdjacent(b, u, current)
    requires PathExpanding(b, u, area, start, end, current, visited, queue, neighbours, k, visited', queue', added)
    ensures PathExpanding(b, u, area, start, end, current, visited, queue, neighbours, k + 1,
                          visited'', queue'', added')
  {
    var n := neighbours[k];
    visited'', queue'', added' := visited', queue', added;
    if n !in visited' && n in area {
      PathLabel(b, u, area, start, end, visited', queue', {current}, route, n);
      visited'' := visited' + {n};
      queue'' := queue' + [(n, route)];
      added' := Some(n);
    }
  }

  /** The inner loop of the path search: visit and enqueue the unvisited neighbours of `current` inside `area`. */
  method ExpandPaths(b: Board, u: Unit, area: set<Coord>, start: Coord, end: Coord, current: Coord,
                     route: seq<Coord>, visited: set<Coord>, queue: seq<(Coord, seq<Coord>)>)
    returns (visited': set<Coord>, queue': seq<(Coord, seq<Coord>)>)
    requires Laid(b) && PathState(b, u, area, start, end, visited, queue, {current})
    requires current in visited && IsRoute(b, u, Within(area), start, route) && Last(route) == current
    requires !EnemyAdjacent(b, u, current)
    ensures PathState(b, u, area, start, end, visited', queue', {})
    ensures Unvisited(b, visited') < Unvisited(b, visited) || (visited' == visited && queue' == queue)
  {
    visited', queue' := visited, queue;
    ghost var added: Option<Coord> := None;
    var neighbours := NeighbourCoords(b, current);
    var k := 0;
    while k < |neighbours|
      invariant PathExpanding(b, u, area, start, end, current, visited, queue, neighbours, k, visited', queue', added)
    {
      visited', queue', added := VisitPath(b, u, area, start, end, current, route, visited, queue, neighbours, k,
                                           visited', queue', added);
      k := k + 1;
    }
    PathExpanded(b, u, area, start, end, current, neighbours, visited', queue');
    if added.Some? {
      UnvisitedShrinks(b, visited, visited', added.value);
    }
  }

  /** Once every neighbour inside `area` is visited, the expanded hex no longer needs setting aside. */
  lemma PathExpanded(b: Board, u: Unit, area: set<Coord>, start: Coord, end: Coord, current: Coord,
                     neighbours: seq<Coord>, visited: set<Coord>, queue: seq<(Coord, seq<Coord>)>)
    requires neighbours == NeighbourCoords(b, current)
    requires forall j :: 0 <= j < |neighbours| && neighbours[j] in area ==> neighbours[j] in visited
    requires PathState(b, u, area, start, end, visited, queue, {current})
    ensures PathState(b, u, area, start, end, visited, queue, {})
  {
    forall y | Step(b, u, Within(area), current, y) ensures y in visited {
      var j :| 0 <= j < |neighbours| && neighbours[j] == y;
    }
    assert Expanded(b, u, Within(area), visited, current);
  }

  /** Popping a hex other than the target keeps the invariant with the popped hex set aside. */
  lemma PathPop(b: Board, u: Unit, area: set<Coord>, start: Coord, end: Coord, visited: set<Coord>,
                queue: seq<(Coord, seq<Coord>)>)
    requires PathState(b, u, area, start, end, visited, queue, {}) && |queue| > 0 && queue[0].0 != end
    ensures PathState(b, u, area, start, end, visited, queue[1..], {queue[0].0})
    ensures EnemyAdjacent(b, u, queue[0].0) ==> PathState(b, u, area, start, end, visited, queue[1..], {})
  {
    var current, rest := queue[0].0, queue[1..];
    forall i | 0 <= i < |rest|
      ensures rest[i].0 in visited && IsRoute(b, u, Within(area), start, rest[i].1 + [rest[i].0])
    {
      assert rest[i] == queue[i + 1];
    }
    forall x | x in visited && x != current
      ensures Expanded(b, u, Within(area), visited, x) || Queued(rest, x)
    {
      if !Expanded(b, u, Within(area), visited, x) {
        var i :| 0 <= i < |queue| && queue[i].0 == x;
        assert rest[i - 1].0 == x;
      }
    }
    if end in visited {
      var i :| 0 <= i < |queue| && queue[i].0 == end;
      assert rest[i - 1].0 == end;
    }
  }

  /** With the queue empty, every visited hex is expanded and the target was never visited. */
  lemma PathDone(b: Board, u: Unit, area: set<Coord>, start: Coord, end: Coord, visited: set<Coord>)
    requires PathState(b, u, area, start, end, visited, [], {})
    ensures start in visited && end !in visited
    ensures forall x {:trigger Expanded(b, u, Within(area), visited, x)} ::
      x in visited ==> Expanded(b, u, Within(area), visited, x)
  {
    forall x | x in visited ensures Expanded(b, u, Within(area), visited, x) {
      assert !Queued<seq<Coord>>([], x);
    }
    assert !Queued<seq<Coord>>([], end);
  }

  /**
   * `Board.shortest_path`: a breadth-first search for `end` that only enters
   * hexes the unit can reach with its own allowance. The result is empty
   * exactly when `end` is neither the start nor reachable; otherwise it is a
   * legal route from the start to `end` through reachable hexes only.
   */
  method ShortestPath(b: Board, u: Unit, start: Coord, end: Coord) returns (r: seq<Coord>)
    requires Valid(b)
    ensures |r| > 0 <==> end == start || CanReach(b, u, Flat, Anywhere, start, u.move, end)
    ensures |r| > 0 ==> IsRoute(b, u, Anywhere, start, r) && Last(r) == end
    ensures forall i :: 0 <= i < |r| ==> r[i] == start || CanReach(b, u, Flat, Anywhere, start, u.move, r[i])
  {
    var area := ReachableHexes(b, u, start, None);
    if end !in area {
      return [];
    }
    var visited: set<Coord> := {start};
    var queue: seq<(Coord, seq<Coord>)> := [(start, [])];
    assert queue[0].0 == start && queue[0].1 + [queue[0].0] == [start];
    TrivialRoute(b, u, Flat, Within(area), start);
    while |queue| > 0
      invariant PathState(b, u, area, start, end, visited, queue, {})
      decreases Unvisited(b, visited), |queue|
    {
      var current, path := queue[0].0, queue[0].1;
      var route := path + [current];
      assert IsRoute(b, u, Within(area), start, route) && Last(route) == current;
      if current == end {
        WidenRoute(b, u, start, area, route);
        forall i | 0 <= i < |route| ensures route[i] == start || route[i] in area {
          if i > 0 {
            assert Step(b, u, Within(area), route[i - 1], route[i]);
          }
        }
        return route;
      }
      PathPop(b, u, area, start, end, visited, queue);
      queue := queue[1..];
      if EnemyAdjacent(b, u, current) {
        continue;
      }
      visited, queue := ExpandPaths(b, u, area, start, end, current, route, visited, queue);
    }
    PathDone(b, u, area, start, end, visited);
    if end != start {
      ReachInside(b, u, Flat, start, u.move, area, end);
      ghost var p :| IsRoute(b, u, Within(area), start, p) && Last(p) == end && RouteCost(b, Flat, p) <= u.move;
      ClosedReaches(b, u, Within(area), start, visited, p, |p| - 1);
    }
    assert false;
    r := [];
  }

  ghost function CanReachSet(b: Board, u: Unit, start: Coord, budget: int): iset<Coord>
    requires Laid(b)
  {
    iset c | CanReach(b, u, Flat, Anywhere, start, budget, c)
  }
}

=== FILE: combat.dfy ===
/**
 * One combat phase: every attacking unit is paired with each adjacent enemy,
 * each pair is solved on the combat results table, and the board is updated
 * for each result in turn (eliminations remove units, retreats push them two
 * hexes away and remove them if that leaves the board).
 */
module Combat {
  import opened Wrappers
  import opened HexGrid
  import opened Players
  import opened Units
  import opened Boards
  import opened Outcomes
  import opened BattleLog
  import opened Solver

  /** A battle: the attacking unit and the defending unit, as found before any result applies. */
  type Battle = (Unit, Unit)

  /** `u` attacks `v`: `u` belongs to the attacking player, `v` does not, and they are adjacent. */
  predicate Engages(p: Player, u: Unit, v: Unit)
    requires u.coords.Some?
  {
    HasFaction(p, u.faction) && !HasFaction(p, v.faction) && IsAdjacent(u, v)
  }

  /** The inner loop of `find_combat`: the pairs one unit forms, in registry order. */
  function Engagements(p: Player, u: Unit, others: seq<Unit>): (r: seq<Battle>)
    requires u.coords.Some?
    ensures |r| <= |others|
  {
    if |others| == 0 then []
    else
      var rest := Engagements(p, u, others[1..]);
      if Engages(p, u, others[0]) then [(u, others[0])] + rest else rest
  }

  lemma {:induction false} EngagementsMembers(p: Player, u: Unit, others: seq<Unit>)
    requires u.coords.Some?
    ensures forall x :: x in Engagements(p, u, others) <==> x.0 == u && x.1 in others && Engages(p, u, x.1)
  {
    if |others| > 0 {
      EngagementsMembers(p, u, others[1..]);
      assert others == [others[0]] + others[1..];
    }
  }

  /** The outer loop of `find_combat` over the units in `outer`. */
  function FindCombatIn(p: Player, outer: seq<Unit>, all: seq<Unit>): seq<Battle>
    requires Placed(outer)
  {
    if |outer| == 0 then []
    else Engagements(p, outer[0], all) + FindCombatIn(p, outer[1..], all)
  }

  lemma {:induction false} FindCombatInMembers(p: Player, outer: seq<Unit>, all: seq<Unit>)
    requires Placed(outer)
    ensures forall x :: x in FindCombatIn(p, outer, all) <==>
      x.0 in outer && x.1 in all && x.0.coords.Some? && Engages(p, x.0, x.1)
  {
    if |outer| > 0 {
      FindCombatInMembers(p, outer[1..], all);
      EngagementsMembers(p, outer[0], all);
      assert outer == [outer[0]] + outer[1..];
    }
  }

  /** `find_combat`: every (attacker, defender) pair of registered units that engage, attacker-major in registry order. */
  function FindCombat(b: Board, p: Player): seq<Battle>
    requires Valid(b)
  {
    FindCombatIn(p, b.units, b.units)
  }

  /** A pair is found exactly when both units are registered, the first belongs to the attacker, the second does not, and they are adjacent. */
  lemma FindCombatMembers(b: Board, p: Player)
    requires Valid(b)
    ensures forall x :: x in FindCombat(b, p) <==>
      x.0 in b.units && x.1 in b.units && x.0.coords.Some? && Engages(p, x.0, x.1)
    ensures forall x :: x in FindCombat(b, p) ==> x.1.coords.Some? && IsNeighbour(x.0.coords.value, x.1.coords.value)
  {
    FindCombatInMembers(p, b.units, b.units);
    forall x | x in FindCombat(b, p)
      ensures x.1.coords.Some? && IsNeighbour(x.0.coords.value, x.1.coords.value)
    {
      AdjacencyMatchesBoardTables(x.0, x.1);
    }
  }

  /** Every unit that takes part in some battle. */
  function Participants(battles: seq<Battle>): (r: set<UnitId>)
    ensures forall i :: 0 <= i < |battles| ==> battles[i].0.id in r && battles[i].1.id in r
    ensures forall id :: id in r ==> exists i :: 0 <= i < |battles| && (battles[i].0.id == id || battles[i].1.id == id)
  {
    if |battles| == 0 then {}
    else
      var rest := Participants(battles[1..]);
      assert forall i :: 1 <= i < |battles| ==> battles[1..][i - 1] == battles[i];
      {battles[0].0.id, battles[0].1.id} + rest
  }

  /**
   * `b'` differs from `b` only in the units named in `ids`: every other unit is
   * still registered unchanged, and nothing new is registered.
   */
  ghost predicate OnlyTouches(b: Board, b': Board, ids: set<UnitId>) {
    (forall u :: u in b.units && u.id !in ids ==> u in b'.units) &&
    (forall v :: v in b'.units ==> HasUnit(b, v.id) && (v.id in ids || v in b.units))
  }

  lemma OnlyTouchesChain(b1: Board, b2: Board, b3: Board, s: set<UnitId>, t: set<UnitId>)
    requires OnlyTouches(b1, b2, s) && OnlyTouches(b2, b3, t)
    ensures OnlyTouches(b1, b3, s + t)
  {
  }

  lemma OnlyTouchesSelf(b: Board, s: set<UnitId>)
    ensures OnlyTouches(b, b, s)
  {
  }

  /** Removal touches only the removed units. */
  lemma RemoveTouches(b: Board, ids: seq<UnitId>)
    requires Valid(b) && RemoveUnits(b, ids).Success?
    ensures OnlyTouches(b, RemoveUnits(b, ids).value, IdSet(ids))
  {
    WithoutMembers(b.units, IdSet(ids));
  }

  /** A position update touches only the moved unit. */
  lemma MoveTouches(b: Board, s: SparseUnit)
    requires Valid(b)
    ensures OnlyTouches(b, MoveOne(b, s), {s.id})
  {
    var m := MoveOne(b, s);
    MoveOneKeepsIds(b, s);
    forall u | u in b.units && u.id != s.id
      ensures u in m.units
    {
      var k :| 0 <= k < |b.units| && b.units[k] == u;
      assert m.units[k] == u;
    }
    forall v | v in m.units
      ensures HasUnit(b, v.id) && (v.id in {s.id} || v in b.units)
    {
      var k :| 0 <= k < |m.units| && m.units[k] == v;
      assert b.units[k].id == v.id;
    }
  }

  /** The coordinates a unit currently has: its registry entry's, or None once it has been removed. */
  function CurrentCoords(b: Board, id: UnitId): (r: Option<Coord>)
    requires Valid(b)
    ensures r.Some? <==> HasUnit(b, id)
    ensures r.Some? ==> exists u :: u in b.units && u.id == id && u.coords == r
  {
    match IndexOf(b.units, id)
      case None => None
      case Some(k) =>
        assert b.units[k] in b.units;
        b.units[k].coords
  }

  /**
   * `forced_move(anchor's coordinates, 2)` followed by the bounds check: the
   * mover is pushed two hexes away from the anchor and removed from the board
   * if it lands outside it. A removed mover or anchor has no coordinates,
   * which raises.
   */
  function Retreat(b: Board, mover: UnitId, anchor: UnitId): (r: Result<Board, Error>)
    requires Valid(b)
    ensures r.Failure? <==> !HasUnit(b, mover) || !HasUnit(b, anchor)
    ensures r.Failure? ==> r.error == MissingCoords
    ensures r.Success? ==> Valid(r.value) && SameGrid(b, r.value) && OnlyTouches(b, r.value, {mover})
    ensures r.Success? ==>
      var dest := ForcedMoveCoords(CurrentCoords(b, mover).value, CurrentCoords(b, anchor).value, 2);
      (InBounds(b, dest) ==> CurrentCoords(r.value, mover) == Some(dest)) &&
      (!InBounds(b, dest) ==> !HasUnit(r.value, mover))
  {
    match (CurrentCoords(b, anchor), CurrentCoords(b, mover))
      case (None, _) => Failure(MissingCoords)
      case (_, None) => Failure(MissingCoords)
      case (Some(from), Some(pos)) =>
        var dest := ForcedMoveCoords(pos, from, 2);
        var s := SparseUnit(mover, dest.row, dest.column);
        var moved := MoveOne(b, s);
        MoveOneKeepsIds(b, s);
        MoveTouches(b, s);
        MovedLands(b, s);
        if InBounds(moved, dest) then Success(moved)
        else
          RemoveUnitsSucceeds(moved, [mover]);
          RemoveTouches(moved, [mover]);
          assert IdSet([mover]) == {mover};
          WithoutMembers(moved.units, {mover});
          OnlyTouchesChain(b, moved, RemoveUnits(moved, [mover]).value, {mover}, {mover});
          assert {mover} + {mover} == {mover};
          RemoveUnits(moved, [mover])
  }

  /** After a registered unit's position update, its current coordinates are the new ones. */
  lemma MovedLands(b: Board, s: SparseUnit)
    requires Valid(b) && HasUnit(b, s.id)
    ensures CurrentCoords(MoveOne(b, s), s.id) == Some(Coord(s.row, s.column))
  {
    var m := MoveOne(b, s);
    MoveOneKeepsIds(b, s);
    var k := IndexOf(m.units, s.id).value;
    assert b.units[k].id == s.id;
  }

  /** `__update_board_for_result`: apply one battle's result to the board. */
  function UpdateBoardForResult(b: Board, battle: Battle, result: CombatResult): (r: Result<Board, Error>)
    requires Valid(b)
    ensures r.Success? ==> Valid(r.value) && SameGrid(b, r.value)
    ensures r.Success? ==> OnlyTouches(b, r.value, {battle.0.id, battle.1.id})
    ensures result == AttackerEliminated ==>
      (r.Success? <==> HasUnit(b, battle.0.id)) &&
      (r.Success? ==> r.value.units == Without(b.units, {battle.0.id}))
    ensures result == DefenderEliminated ==>
      (r.Success? <==> HasUnit(b, battle.1.id)) &&
      (r.Success? ==> r.value.units == Without(b.units, {battle.1.id}))
    ensures result == Exchange ==>
      (r.Success? <==> HasUnit(b, battle.0.id) && HasUnit(b, battle.1.id) && battle.0.id != battle.1.id) &&
      (r.Success? ==> r.value.units == Without(b.units, {battle.0.id, battle.1.id}))
    ensures result == AttackerRetreat2 ==> r == Retreat(b, battle.0.id, battle.1.id)
    ensures result == DefenderRetreat2 ==> r == Retreat(b, battle.1.id, battle.0.id)
  {
    var both := {battle.0.id, battle.1.id};
    match result
      case AttackerEliminated =>
        assert (set i | i in [battle.0.id]) == {battle.0.id};
        Eliminate(b, [battle.0.id], both)
      case AttackerRetreat2 => Retreat(b, battle.0.id, battle.1.id)
      case DefenderEliminated =>
        assert (set i | i in [battle.1.id]) == {battle.1.id};
        Eliminate(b, [battle.1.id], both)
      case DefenderRetreat2 => Retreat(b, battle.1.id, battle.0.id)
      case Exchange =>
        assert (set i | i in [battle.0.id, battle.1.id]) == both;
        Eliminate(b, [battle.0.id, battle.1.id], both)
  }

  /** The units an outcome removes outright: the attacker, the defender, or both in an exchange. */
  function Removed(battle: Battle, result: CombatResult): set<UnitId> {
    match result
      case AttackerEliminated => {battle.0.id}
      case DefenderEliminated => {battle.1.id}
      case Exchange => {battle.0.id, battle.1.id}
      case _ => {}
  }

  /** None of `ids` is registered on `b`. */
  ghost predicate Gone(b: Board, ids: set<UnitId>) {
    forall id :: id in ids ==> !HasUnit(b, id)
  }

  /** Every battle's removals, under the result recorded for it, are gone from `b`. */
  ghost predicate AllGone(b: Board, battles: seq<Battle>, results: seq<CombatResultData>)
    requires |results| == |battles|
  {
    forall i :: 0 <= i < |battles| ==> Gone(b, Removed(battles[i], results[i].result))
  }

  /** Applying an elimination or an exchange leaves the removed units unregistered. */
  lemma RemovedGone(b: Board, battle: Battle, result: CombatResult)
    requires Valid(b) && UpdateBoardForResult(b, battle, result).Success?
    ensures Gone(UpdateBoardForResult(b, battle, result).value, Removed(battle, result))
  {
    WithoutMembers(b.units, Removed(battle, result));
  }

  /** A unit missing from a board stays missing from every later board that only touches registered units. */
  lemma GoneStays(next: Board, after: Board, touched: set<UnitId>, ids: set<UnitId>)
    requires OnlyTouches(next, after, touched) && Gone(next, ids)
    ensures Gone(after, ids)
  {
  }

  /** `remove_units` on the listed ids, which lie within `within`. */
  function Eliminate(b: Board, ids: seq<UnitId>, within: set<UnitId>): (r: Result<Board, Error>)
    requires Valid(b) && forall i :: i in ids ==> i in within
    ensures r == RemoveUnits(b, ids)
    ensures r.Success? <==>
      (forall i :: i in ids ==> HasUnit(b, i)) && (forall i, j :: 0 <= i < j < |ids| ==> ids[i] != ids[j])
    ensures r.Success? ==> r.value.units == Without(b.units, set i | i in ids)
    ensures r.Success? ==> OnlyTouches(b, r.value, within)
  {
    RemoveUnitsSucceeds(b, ids);
    var r := RemoveUnits(b, ids);
    if r.Success? then
      RemoveTouches(b, ids);
      r
    else r
  }

  /** The result the source records for a battle: the solver's answer for the pair's factors. */
  predicate Solved(battle: Battle, staticRoll: Option<int>, roll: int, data: CombatResultData)
    requires 1 <= roll <= 6
  {
    SolveCombat(battle.0.attack, battle.1.defense, staticRoll, roll) == Success(data)
  }

  predicate Rolls(rolls: seq<int>) {
    forall i :: 0 <= i < |rolls| ==> 1 <= rolls[i] <= 6
  }

  /** Every battle's result, in order, is the solver's answer for that battle. */
  predicate AllSolved(battles: seq<Battle>, staticRoll: Option<int>, rolls: seq<int>, results: seq<CombatResultData>)
    requires |rolls| == |battles| && Rolls(rolls)
  {
    |results| == |battles| &&
    forall i :: 0 <= i < |battles| ==> Solved(battles[i], staticRoll, rolls[i], results[i])
  }

  /**
   * The loop of `resolve_combat`: solve each battle, update the board, record
   * the result. Any exception ends the whole phase.
   */
  function ResolveBattles(b: Board, battles: seq<Battle>, staticRoll: Option<int>, rolls: seq<int>)
    : (r: Result<(Board, seq<CombatResultData>), Error>)
    requires Valid(b) && |rolls| == |battles| && Rolls(rolls)
    ensures r.Success? ==> Valid(r.value.0) && SameGrid(b, r.value.0)
    ensures r.Success? ==> OnlyTouches(b, r.value.0, Participants(battles))
    ensures r.Success? ==> AllSolved(battles, staticRoll, rolls, r.value.1)
    ensures r.Success? ==> |r.value.1| == |battles| && AllGone(r.value.0, battles, r.value.1)
    ensures (exists i :: 0 <= i < |battles| &&
              SolveCombat(battles[i].0.attack, battles[i].1.defense, staticRoll, rolls[i]).Failure?)
      ==> r.Failure?
    decreases |battles|
  {
    if |battles| == 0 then
      OnlyTouchesSelf(b, {});
      Success((b, []))
    else
      match SolveCombat(battles[0].0.attack, battles[0].1.defense, staticRoll, rolls[0])
        case Failure(e) => Failure(e)
        case Success(data) =>
          match UpdateBoardForResult(b, battles[0], data.result)
            case Failure(e) => Failure(e)
            case Success(next) =>
              match ResolveBattles(next, battles[1..], staticRoll, rolls[1..])
                case Failure(e) => Failure(e)
                case Success((after, results)) =>
                  ResolveStep(b, next, after, battles, staticRoll, rolls, data, results);
                  RemovedStep(b, next, after, battles, data, results);
                  Success((after, [data] + results))
  }

  /** Gluing the first battle onto the rest of the loop. */
  lemma {:induction false} ResolveStep(b: Board, next: Board, after: Board, battles: seq<Battle>, staticRoll: Option<int>,
                                       rolls: seq<int>, data: CombatResultData, results: seq<CombatResultData>)
    requires |battles| > 0 && |rolls| == |battles| && Rolls(rolls)
    requires Solved(battles[0], staticRoll, rolls[0], data)
    requires OnlyTouches(b, next, {battles[0].0.id, battles[0].1.id})
    requires OnlyTouches(next, after, Participants(battles[1..]))
    requires AllSolved(battles[1..], staticRoll, rolls[1..], results)
    ensures OnlyTouches(b, after, Participants(battles))
    ensures AllSolved(battles, staticRoll, rolls, [data] + results)
  {
    TouchesStep(b, next, after, battles);
    SolvedStep(battles, staticRoll, rolls, data, results);
  }

  /** The first battle's removals stay gone through the rest of the loop, and the rest's are gone already. */
  lemma {:induction false} RemovedStep(b: Board, next: Board, after: Board, battles: seq<Battle>,
                                       data: CombatResultData, results: seq<CombatResultData>)
    requires Valid(b) && |battles| > 0 && |results| == |battles| - 1
    requires UpdateBoardForResult(b, battles[0], data.result) == Success(next)
    requires OnlyTouches(next, after, Participants(battles[1..]))
    requires AllGone(after, battles[1..], results)
    ensures AllGone(after, battles, [data] + results)
  {
    RemovedGone(b, battles[0], data.result);
    GoneStays(next, after, Participants(battles[1..]), Removed(battles[0], data.result));
    forall i | 1 <= i < |battles|
      ensures Gone(after, Removed(battles[i], ([data] + results)[i].result))
    {
      assert Gone(after, Removed(battles[1..][i - 1], results[i - 1].result));
      assert battles[1..][i - 1] == battles[i];
      ConsAt(data, results, i);
    }
  }

  lemma {:induction false} TouchesStep(b: Board, next: Board, after: Board, battles: seq<Battle>)
    requires |battles| > 0
    requires OnlyTouches(b, next, {battles[0].0.id, battles[0].1.id})
    requires OnlyTouches(next, after, Participants(battles[1..]))
    ensures OnlyTouches(b, after, Participants(battles))
  {
    var first := {battles[0].0.id, battles[0].1.id};
    assert Participants(battles) == first + Participants(battles[1..]);
    OnlyTouchesChain(b, next, after, first, Participants(battles[1..]));
  }

  lemma {:induction false} SolvedStep(battles: seq<Battle>, staticRoll: Option<int>, rolls: seq<int>,
                                      data: CombatResultData, results: seq<CombatResultData>)
    requires |battles| > 0 && |rolls| == |battles| && Rolls(rolls)
    requires Solved(battles[0], staticRoll, rolls[0], data)
    requires AllSolved(battles[1..], staticRoll, rolls[1..], results)
    ensures AllSolved(battles, staticRoll, rolls, [data] + results)
  {
    forall i | 1 <= i < |battles|
      ensures Solved(battles[i], staticRoll, rolls[i], ([data] + results)[i])
    {
      assert Solved(battles[1..][i - 1], staticRoll, rolls[1..][i - 1], results[i - 1]);
      assert battles[1..][i - 1] == battles[i] && rolls[1..][i - 1] == rolls[i];
      ConsAt(data, results, i);
    }
  }

  lemma ConsAt<T>(x: T, s: seq<T>, i: int)
    requires 1 <= i <= |s|
    ensures ([x] + s)[i] == s[i - 1]
  {
  }

  /**
   * `resolve_combat`: find every battle up front, then resolve them in order,
   * appending each result to a new collection. `rolls[i]` stands for the die
   * the source would draw for battle `i`.
   */
  function ResolveCombat(b: Board, attacker: Player, staticRoll: Option<int>, rolls: seq<int>)
    : (r: Result<(Board, CombatResults), Error>)
    requires Valid(b) && |rolls| == |FindCombat(b, attacker)| && Rolls(rolls)
    ensures r.Success? ==> Valid(r.value.0) && SameGrid(b, r.value.0)
    ensures r.Success? ==> OnlyTouches(b, r.value.0, Participants(FindCombat(b, attacker)))
    ensures r.Success? ==> AllSolved(FindCombat(b, attacker), staticRoll, rolls, r.value.1.battles)
    ensures r.Success? ==> |r.value.1.battles| == |FindCombat(b, attacker)|
    ensures r.Success? ==> AllGone(r.value.0, FindCombat(b, attacker), r.value.1.battles)
  {
    match ResolveBattles(b, FindCombat(b, attacker), staticRoll, rolls)
      case Failure(e) => Failure(e)
      case Success((after, results)) =>
        AddAllAppends(Empty(), results);
        assert AddAll(Empty(), results).battles == results;
        Success((after, AddAll(Empty(), results)))
  }

  /** With no attacker next to an enemy, combat changes nothing and records nothing. */
  lemma {:induction false} NoContactNoCombat(b: Board, attacker: Player, staticRoll: Option<int>)
    requires Valid(b)
    requires forall u, v :: (u in b.units && v in b.units && HasFaction(attacker, u.faction) &&
      !HasFaction(attacker, v.faction)) ==> !IsNeighbour(u.coords.value, v.coords.value)
    ensures FindCombat(b, attacker) == []
    ensures ResolveCombat(b, attacker, staticRoll, []) == Success((b, Empty()))
  {
    if FindCombat(b, attacker) != [] {
      var x := FindCombat(b, attacker)[0];
      FindCombatMembers(b, attacker);
      AdjacencyMatchesBoardTables(x.0, x.1);
      assert false;
    }
  }
}

=== FILE: combat_result.dfy ===
/** The five combat outcomes and the record of one resolved battle. */
module Outcomes {
  import opened Wrappers
  import opened Units

  /** `CombatResult`: exactly five outcomes. */
  datatype CombatResult = AttackerEliminated | AttackerRetreat2 | DefenderEliminated | DefenderRetreat2 | Exchange

  const AllResults: seq<CombatResult> :=
    [AttackerEliminated, AttackerRetreat2, DefenderEliminated, DefenderRetreat2, Exchange]

  /** The enum member's name. */
  function Code(r: CombatResult): string {
    match r
      case AttackerEliminated => "ATTACKER_ELIMINATED"
      case AttackerRetreat2 => "ATTACKER_RETREAT_2"
      case DefenderEliminated => "DEFENDER_ELIMINATED"
      case DefenderRetreat2 => "DEFENDER_RETREAT_2"
      case Exchange => "EXCHANGE"
  }

  /** The enum member's value: the text shown to players. */
  function Text(r: CombatResult): string {
    match r
      case AttackerEliminated => "Attacker Eliminated"
      case AttackerRetreat2 => "Attacker Retreat 2 Hexes"
      case DefenderEliminated => "Defender Eliminated"
      case DefenderRetreat2 => "Defender Retreat 2 Hexes"
      case Exchange => "Exchange"
  }

  /** Looking an outcome up by its name, as `CombatResult[name]` does. */
  function FromCode(code: string): (r: Option<CombatResult>)
    ensures r.Some? ==> Code(r.value) == code
  {
    if code == "ATTACKER_ELIMINATED" then Some(AttackerEliminated)
    else if code == "ATTACKER_RETREAT_2" then Some(AttackerRetreat2)
    else if code == "DEFENDER_ELIMINATED" then Some(DefenderEliminated)
    else if code == "DEFENDER_RETREAT_2" then Some(DefenderRetreat2)
    else if code == "EXCHANGE" then Some(Exchange)
    else None
  }

  /** The enum has exactly the five listed members. */
  lemma ResultsEnumerated()
    ensures forall r :: r in AllResults
    ensures |AllResults| == 5
    ensures forall i, j :: 0 <= i < j < |AllResults| ==> AllResults[i] != AllResults[j]
  {
    forall r ensures r in AllResults {
      match r
        case AttackerEliminated => assert AllResults[0] == r;
        case AttackerRetreat2 => assert AllResults[1] == r;
        case DefenderEliminated => assert AllResults[2] == r;
        case DefenderRetreat2 => assert AllResults[3] == r;
        case Exchange => assert AllResults[4] == r;
    }
  }

  /** An outcome's name identifies it, so distinct outcomes have distinct names. */
  lemma CodeRoundTrip(r: CombatResult, s: CombatResult)
    ensures FromCode(Code(r)) == Some(r)
    ensures Code(r) == Code(s) ==> r == s
  {
    assert FromCode(Code(s)) == Some(s);
  }

  type Odds = (int, int)

  /** `CombatResultData`: odds, die roll (-1 when none was rolled), outcome, and optional participants. */
  datatype CombatResultData = CombatResultData(
    odds: Odds,
    dieRoll: int,
    result: CombatResult,
    participants: Option<(seq<Unit>, seq<Unit>)>)

  /** The constructor: participants, when given, are stored as (attackers, defenders). */
  function NewResultData(odds: Odds, dieRoll: int, result: CombatResult,
                         participants: Option<(seq<Unit>, seq<Unit>)>): (d: CombatResultData)
    ensures d.odds == odds && d.dieRoll == dieRoll && d.result == result
    ensures d.participants.None? <==> participants.None?
    ensures participants.Some? ==> d == SetParticipants(d, participants.value.0, participants.value.1)
  {
    CombatResultData(odds, dieRoll, result, participants)
  }

  /** `set_participants`: replaces the participants and nothing else. */
  function SetParticipants(d: CombatResultData, attackers: seq<Unit>, defenders: seq<Unit>): (r: CombatResultData)
    ensures r.participants == Some((attackers, defenders))
    ensures r.(participants := d.participants) == d
  {
    d.(participants := Some((attackers, defenders)))
  }

  /** `CombatResultSchema`: the wire form of a battle. */
  datatype CombatResultSchema = CombatResultSchema(code: string, text: string, odds: Odds, dieRoll: int)

  /** `to_schema`: the outcome's name and text, with odds and die roll copied. */
  function ToSchema(d: CombatResultData): (s: CombatResultSchema)
    ensures FromCode(s.code) == Some(d.result)
    ensures s.text == Text(d.result) && s.odds == d.odds && s.dieRoll == d.dieRoll
  {
    CodeRoundTrip(d.result, d.result);
    CombatResultSchema(Code(d.result), Text(d.result), d.odds, d.dieRoll)
  }
}

=== FILE: combat_results.dfy ===
/** The append-only list of battles one combat phase produced. */
module BattleLog {
  import opened Wrappers
  import opened Outcomes

  datatype CombatResults = CombatResults(battles: seq<CombatResultData>)

  /** A new collection holds no battles. */
  function Empty(): (r: CombatResults)
    ensures |r.battles| == 0
  {
    CombatResults([])
  }

  /** `add_battle`: the new battle goes last; earlier ones keep their positions. */
  function AddBattle(log: CombatResults, battle: CombatResultData): (r: CombatResults)
    ensures |r.battles| == |log.battles| + 1
    ensures r.battles[..|log.battles|] == log.battles && r.battles[|log.battles|] == battle
  {
    CombatResults(log.battles + [battle])
  }

  /** Adding battles one after another. */
  function AddAll(log: CombatResults, battles: seq<CombatResultData>): CombatResults
    decreases |battles|
  {
    if |battles| == 0 then log else AddAll(AddBattle(log, battles[0]), battles[1..])
  }

  /** Nothing is ever removed or reordered: adding battles in turn extends the list by exactly those battles, in order. */
  lemma {:induction false} AddAllAppends(log: CombatResults, battles: seq<CombatResultData>)
    ensures AddAll(log, battles).battles == log.battles + battles
    decreases |battles|
  {
    if |battles| > 0 {
      AddAllAppends(AddBattle(log, battles[0]), battles[1..]);
      assert log.battles + [battles[0]] + battles[1..] == log.battles + battles;
    }
  }

  /** `battles_as_result_schema`: one schema per battle, in order. */
  function BattlesAsResultSchema(log: CombatResults): (r: seq<CombatResultSchema>)
    ensures |r| == |log.battles|
    ensures forall i :: 0 <= i < |r| ==> FromCode(r[i].code) == Some(log.battles[i].result)
    ensures forall i :: 0 <= i < |r| ==> r[i].odds == log.battles[i].odds && r[i].dieRoll == log.battles[i].dieRoll
    ensures forall i :: 0 <= i < |r| ==> r[i].text == Text(log.battles[i].result)
    ensures forall i :: 0 <= i < |r| ==> r[i] == ToSchema(log.battles[i])
  {
    seq(|log.battles|, i requires 0 <= i < |log.battles| => ToSchema(log.battles[i]))
  }
}

=== FILE: combat_solver.dfy ===
/**
 * The combat results table: attack and defence factors are reduced to odds,
 * snapped to the nearest of thirteen standard ratios, and a die roll picks
 * the outcome from that ratio's row. The extreme ratios resolve without a roll.
 */
module Solver {
  import opened Wrappers
  import opened Outcomes

  /** The thirteen standard odds, from 1:7 up to 7:1. */
  const StandardOdds: seq<Odds> :=
    [(1, 7), (1, 6), (1, 5), (1, 4), (1, 3), (1, 2), (1, 1), (2, 1), (3, 1), (4, 1), (5, 1), (6, 1), (7, 1)]

  function AbsInt(x: int): nat {
    if x < 0 then -x else x
  }

  function Abs(x: real): real {
    if x < 0.0 then -x else x
  }

  /** Standard odds `i` as an exact ratio. */
  function StandardRatio(i: int): real
    requires 0 <= i < |StandardOdds|
  {
    StandardOdds[i].0 as real / StandardOdds[i].1 as real
  }

  /** How far `ratio` lies from standard odds `i`: the key `get_odds` minimises. */
  function Gap(ratio: real, i: int): real
    requires 0 <= i < |StandardOdds|
  {
    Abs(ratio - StandardRatio(i))
  }

  /** `k` is where `min` stops: a closest standard odds, and the first of several equally close. */
  predicate FirstClosest(ratio: real, k: int)
    requires 0 <= k < |StandardOdds|
  {
    forall j :: 0 <= j < |StandardOdds| ==>
      Gap(ratio, k) <= Gap(ratio, j) && (j < k ==> Gap(ratio, k) < Gap(ratio, j))
  }

  /** At most one position is the first closest, so `FirstClosest` pins down the choice. */
  lemma FirstClosestUnique(ratio: real, k: int, m: int)
    requires 0 <= k < |StandardOdds| && 0 <= m < |StandardOdds|
    requires FirstClosest(ratio, k) && FirstClosest(ratio, m)
    ensures k == m
  {
    assert Gap(ratio, k) <= Gap(ratio, m) && Gap(ratio, m) <= Gap(ratio, k);
  }

  /** The first position of least gap among the first `n` standard odds. */
  function NearestIn(ratio: real, n: int): (r: int)
    requires 1 <= n <= |StandardOdds|
    ensures 0 <= r < n
    ensures forall j :: 0 <= j < n ==> Gap(ratio, r) <= Gap(ratio, j)
    ensures forall j :: 0 <= j < r ==> Gap(ratio, r) < Gap(ratio, j)
  {
    if n == 1 then 0
    else
      var best := NearestIn(ratio, n - 1);
      if Gap(ratio, n - 1) < Gap(ratio, best) then n - 1 else best
  }

  /** The index `min` returns over all thirteen standard ratios. */
  function Nearest(ratio: real): (k: int)
    ensures 0 <= k < |StandardOdds| && FirstClosest(ratio, k)
  {
    NearestIn(ratio, |StandardOdds|)
  }

  lemma CastMul(x: int, y: int)
    ensures (x * y) as real == x as real * y as real
  {
  }

  /** Scaling both terms of a fraction by the same non-zero factor keeps its value. */
  lemma RatioScale(a: int, d: int, k: int)
    requires d != 0 && k != 0
    ensures k * d != 0
    ensures (k * a) as real / (k * d) as real == a as real / d as real
  {
    CastMul(k, a);
    CastMul(k, d);
    var x, kr, dr := a as real / d as real, k as real, d as real;
    assert x * dr == a as real;
    assert (x * (kr * dr)) == kr * (x * dr);
    assert kr * dr != 0.0;
  }

  /** Euclid's algorithm on magnitudes. */
  function GcdNat(x: nat, y: nat): nat
    decreases y
  {
    if y == 0 then x else GcdNat(y, x % y)
  }

  /** `math.gcd`: the gcd of the magnitudes, zero only for two zeros. */
  function Gcd(a: int, b: int): nat {
    GcdNat(AbsInt(a), AbsInt(b))
  }

  lemma {:induction false} MulAtLeast(g: int, t: int)
    requires g > 0
    ensures t >= 1 ==> g * t >= g
    ensures t <= -1 ==> g * t <= -g
    decreases AbsInt(t)
  {
    if t > 1 {
      MulAtLeast(g, t - 1);
      assert g * t == g * (t - 1) + g;
    } else if t < -1 {
      MulAtLeast(g, t + 1);
      assert g * t == g * (t + 1) - g;
    }
  }

  lemma MultipleMod(g: int, k: int)
    requires g > 0
    ensures (g * k) % g == 0 && (g * k) / g == k
  {
    var x := g * k;
    var q, m := x / g, x % g;
    assert x == q * g + m && 0 <= m < g;
    var t := k - q;
    assert g * t == g * k - g * q;
    MulAtLeast(g, t);
  }

  /** A common divisor of `y` and `x % y` divides `x`. */
  lemma DividesThroughRemainder(x: nat, y: nat, g: nat)
    requires y > 0 && g > 0 && y % g == 0 && (x % y) % g == 0
    ensures x % g == 0
  {
    var a, c := y / g, (x % y) / g;
    assert y == g * a && x % y == g * c;
    var n := x / y;
    assert x == n * y + x % y;
    assert n * y == g * (n * a);
    assert x == g * (n * a + c);
    MultipleMod(g, n * a + c);
  }

  /** The gcd is zero only for two zeros, and otherwise divides both arguments. */
  lemma {:induction false} GcdDivides(x: nat, y: nat)
    ensures GcdNat(x, y) == 0 <==> x == 0 && y == 0
    ensures GcdNat(x, y) > 0 ==> x % GcdNat(x, y) == 0 && y % GcdNat(x, y) == 0
    decreases y
  {
    if y > 0 {
      GcdDivides(y, x % y);
      DividesThroughRemainder(x, y, GcdNat(x, y));
    }
  }

  /** A divisor of a magnitude divides the signed value too. */
  lemma DividesSigned(a: int, g: int)
    requires g > 0 && AbsInt(a) % g == 0
    ensures a % g == 0 && a == g * (a / g)
  {
    var k := AbsInt(a) / g;
    assert AbsInt(a) == g * k;
    if a < 0 {
      assert a == g * (-k);
      MultipleMod(g, -k);
    } else {
      MultipleMod(g, k);
    }
  }

  /**
   * Half a unit in the last place above the largest finite double, 2^1024 - 2^970.
   * Integer true division rounds to nearest, ties to even, so a quotient of at
   * least this magnitude rounds to 2^1024 and raises OverflowError.
   */
  const FloatLimit: real := 179769313486231580793728971405303415079934132710037826936173778980444968292764750946649017977587207096330286416692887910946555547851940402630657488671505820681908902000708383676273854845817711531764475730270069855571366959622842914819860834936475292719074168444365510704342711559699508093042880177904174497792.0

  /** `a / d` in Python raises OverflowError: the exact quotient rounds past the float range. */
  predicate TooLarge(a: int, d: int)
    requires d != 0
  {
    Abs(a as real / d as real) >= FloatLimit
  }

  /**
   * `get_odds`: reduce both factors by their gcd, then take the standard odds
   * whose ratio is closest to the reduced ratio, the first on a tie. A zero
   * defence factor divides by zero; a ratio beyond the float range overflows.
   */
  function GetOdds(a: int, d: int): (r: Result<Odds, Error>)
    ensures r.Failure? <==> d == 0 || TooLarge(a, d)
    ensures r.Failure? ==> r.error == (if d == 0 then DivisionByZero else FloatOverflow)
    ensures r.Success? ==> r.value in StandardOdds
    ensures r.Success? ==> r.value == StandardOdds[Nearest(a as real / d as real)]
  {
    var g := Gcd(a, d);
    GcdDivides(AbsInt(a), AbsInt(d));
    if g == 0 then Failure(DivisionByZero)
    else
      DividesSigned(a, g);
      DividesSigned(d, g);
      var p, q := a / g, d / g;
      if q == 0 then
        assert d == g * q;
        Failure(DivisionByZero)
      else
        assert a == g * p && d == g * q;
        RatioScale(p, q, g);
        if Abs(p as real / q as real) >= FloatLimit then Failure(FloatOverflow)
        else Success(StandardOdds[Nearest(p as real / q as real)])
  }

  /** The odds depend only on the ratio: scaling both factors by a non-zero amount changes nothing. */
  lemma OddsScaleInvariant(a: int, d: int, k: int)
    requires k != 0
    ensures GetOdds(k * a, k * d) == GetOdds(a, d)
  {
    if d != 0 {
      RatioScale(a, d, k);
    }
  }

  /**
   * Factors far apart overflow the float ratio: 2^1024 against 1 raises, while
   * 2^1023 against 1 still snaps to 7:1.
   */
  lemma OverflowExample()
    ensures GetOdds(179769313486231590772930519078902473361797697894230657273430081157732675805500963132708477322407536021120113879871393357658789768814416622492847430639474124377767893424865485276302219601246094119453082952085005768838150682342462881473913110540827237163350510684586298239947245938479716304835356329624224137216, 1) == Failure(FloatOverflow)
    ensures GetOdds(89884656743115795386465259539451236680898848947115328636715040578866337902750481566354238661203768010560056939935696678829394884407208311246423715319737062188883946712432742638151109800623047059726541476042502884419075341171231440736956555270413618581675255342293149119973622969239858152417678164812112068608, 1) == Success((7, 1))
  {
    NearestHigh(89884656743115795386465259539451236680898848947115328636715040578866337902750481566354238661203768010560056939935696678829394884407208311246423715319737062188883946712432742638151109800623047059726541476042502884419075341171231440736956555270413618581675255342293149119973622969239858152417678164812112068608.0);
  }

  /** The documented odds: 7 against 3 is 2:1, 11 against 16 is 1:2, 2 against 4 is 1:2. */
  lemma OddsExamples()
    ensures GetOdds(7, 3) == Success((2, 1))
    ensures GetOdds(11, 16) == Success((1, 2))
    ensures GetOdds(2, 4) == Success((1, 2))
  {
    NearestSevenThirds();
    NearestElevenSixteenths();
    NearestHalf();
  }

  /** Any ratio past the 6:1 to 7:1 midpoint snaps to 7:1. */
  lemma NearestHigh(r: real)
    requires r > 6.5
    ensures Nearest(r) == 12
  {
    assert StandardRatio(12) == 7.0;
    forall j | 0 <= j < |StandardOdds|
      ensures Gap(r, 12) <= Gap(r, j) && (j < 12 ==> Gap(r, 12) < Gap(r, j))
    {
      if j < 12 {
        assert StandardOdds[j].0 <= 6 * StandardOdds[j].1 && StandardOdds[j].1 >= 1;
        assert StandardRatio(j) <= 6.0;
      }
    }
    FirstClosestUnique(r, 12, Nearest(r));
  }

  lemma NearestSevenThirds()
    ensures Nearest(7.0 / 3.0) == 7
  {
    var r := 7.0 / 3.0;
    forall j | 0 <= j < |StandardOdds|
      ensures Gap(r, 7) <= Gap(r, j) && (j < 7 ==> Gap(r, 7) < Gap(r, j))
    {
    }
    FirstClosestUnique(r, 7, Nearest(r));
  }

  lemma NearestElevenSixteenths()
    ensures Nearest(11.0 / 16.0) == 5
  {
    var r := 11.0 / 16.0;
    forall j | 0 <= j < |StandardOdds|
      ensures Gap(r, 5) <= Gap(r, j) && (j < 5 ==> Gap(r, 5) < Gap(r, j))
    {
    }
    FirstClosestUnique(r, 5, Nearest(r));
  }

  lemma NearestHalf()
    ensures Nearest(1.0 / 2.0) == 5
  {
    var r := 1.0 / 2.0;
    forall j | 0 <= j < |StandardOdds|
      ensures Gap(r, 5) <= Gap(r, j) && (j < 5 ==> Gap(r, 5) < Gap(r, j))
    {
    }
    FirstClosestUnique(r, 5, Nearest(r));
  }

  lemma NearestTwelveFifths()
    ensures Nearest(12.0 / 5.0) == 7
  {
    var r := 12.0 / 5.0;
    forall j | 0 <= j < |StandardOdds|
      ensures Gap(r, 7) <= Gap(r, j) && (j < 7 ==> Gap(r, 7) < Gap(r, j))
    {
    }
    FirstClosestUnique(r, 7, Nearest(r));
  }

  lemma NearestSeventh()
    ensures Nearest(1.0 / 7.0) == 0
  {
    var r := 1.0 / 7.0;
    forall j | 0 <= j < |StandardOdds|
      ensures Gap(r, 0) <= Gap(r, j)
    {
    }
    FirstClosestUnique(r, 0, Nearest(r));
  }

  /** The results table: one outcome per die face for every standard odds except 1:7 and 7:1. */
  const ResultsTable: map<Odds, seq<CombatResult>> := map[
    (1, 6) := [AttackerEliminated, AttackerEliminated, AttackerRetreat2, AttackerEliminated, AttackerEliminated, AttackerEliminated],
    (1, 5) := [AttackerEliminated, AttackerEliminated, AttackerRetreat2, AttackerRetreat2, AttackerEliminated, AttackerEliminated],
    (1, 4) := [AttackerRetreat2, AttackerEliminated, AttackerRetreat2, AttackerRetreat2, AttackerEliminated, AttackerEliminated],
    (1, 3) := [AttackerRetreat2, AttackerRetreat2, AttackerRetreat2, AttackerRetreat2, AttackerEliminated, AttackerEliminated],
    (1, 2) := [DefenderRetreat2, Exchange, AttackerRetreat2, AttackerRetreat2, AttackerEliminated, AttackerEliminated],
    (1, 1) := [DefenderEliminated, Exchange, AttackerRetreat2, AttackerRetreat2, AttackerEliminated, AttackerEliminated],
    (2, 1) := [DefenderEliminated, Exchange, DefenderRetreat2, AttackerRetreat2, Exchange, AttackerEliminated],
    (3, 1) := [DefenderEliminated, Exchange, DefenderRetreat2, DefenderRetreat2, Exchange, DefenderEliminated],
    (4, 1) := [DefenderEliminated, Exchange, DefenderEliminated, DefenderRetreat2, DefenderRetreat2, DefenderEliminated],
    (5, 1) := [DefenderEliminated, DefenderRetreat2, DefenderEliminated, DefenderRetreat2, DefenderEliminated, DefenderEliminated],
    (6, 1) := [DefenderEliminated, DefenderRetreat2, DefenderEliminated, DefenderEliminated, DefenderEliminated, DefenderEliminated]
  ]

  /** Every standard odds that needs a roll has a six-entry row, so the table lookup never misses. */
  lemma TableCoversRolledOdds()
    ensures forall i :: 1 <= i < |StandardOdds| - 1 ==>
      StandardOdds[i] in ResultsTable && |ResultsTable[StandardOdds[i]]| == 6
    ensures StandardOdds[0] == (1, 7) && StandardOdds[|StandardOdds| - 1] == (7, 1)
    ensures (1, 7) !in ResultsTable && (7, 1) !in ResultsTable
  {
  }

  /** `_roll_die`: a set, non-zero static roll; otherwise the random roll. */
  function RollDie(staticRoll: Option<int>, randomRoll: int): int
  {
    if staticRoll.Some? && staticRoll.value != 0 then staticRoll.value else randomRoll
  }

  /** Python tuple indexing: negative positions count from the end; anything further out raises. */
  function TupleAt<T>(row: seq<T>, i: int): Option<T>
  {
    if 0 <= i < |row| then Some(row[i])
    else if -|row| <= i < 0 then Some(row[|row| + i])
    else None
  }

  /**
   * `solve_combat`: 1:7 and 7:1 resolve at once with die -1; every other odds
   * reads the die's entry of its row. `randomRoll` stands for `randint(1, 6)`.
   */
  function SolveCombat(a: int, d: int, staticRoll: Option<int>, randomRoll: int): (r: Result<CombatResultData, Error>)
    requires 1 <= randomRoll <= 6
    ensures d == 0 ==> r == Failure(DivisionByZero)
    ensures d != 0 && TooLarge(a, d) ==> r == Failure(FloatOverflow)
    ensures r.Failure? && d != 0 && !TooLarge(a, d) ==> r.error == DieOutOfRange
    ensures r.Success? ==> r.value.participants.None?
    ensures r.Success? && r.value.odds == (1, 7) ==> r.value.dieRoll == -1 && r.value.result == AttackerEliminated
    ensures r.Success? && r.value.odds == (7, 1) ==> r.value.dieRoll == -1 && r.value.result == DefenderEliminated
  {
    match GetOdds(a, d)
      case Failure(e) => Failure(e)
      case Success(odds) =>
        if odds == (1, 7) then Success(CombatResultData(odds, -1, AttackerEliminated, None))
        else if odds == (7, 1) then Success(CombatResultData(odds, -1, DefenderEliminated, None))
        else
          TableCoversRolledOdds();
          var die := RollDie(staticRoll, randomRoll);
          match TupleAt(ResultsTable[odds], die - 1)
            case None => Failure(DieOutOfRange)
            case Some(result) => Success(CombatResultData(odds, die, result, None))
  }

  /** A solved battle records `get_odds` of the attack and defense factors. */
  lemma SolveCombatOdds(a: int, d: int, staticRoll: Option<int>, randomRoll: int)
    requires 1 <= randomRoll <= 6
    ensures var r := SolveCombat(a, d, staticRoll, randomRoll);
      r.Success? ==> Success(r.value.odds) == GetOdds(a, d)
  {
  }

  /**
   * Away from the automatic 1:7 and 7:1 results, the die must be a valid
   * Python index into the odds' six-entry row (-5..6, as tuple indexing
   * allows negative positions) and is recorded as rolled.
   */
  lemma SolveCombatDie(a: int, d: int, staticRoll: Option<int>, randomRoll: int)
    requires 1 <= randomRoll <= 6
    ensures var r := SolveCombat(a, d, staticRoll, randomRoll);
      GetOdds(a, d).Success? && GetOdds(a, d).value != (1, 7) && GetOdds(a, d).value != (7, 1) ==>
      var die := RollDie(staticRoll, randomRoll);
      (r.Success? <==> -5 <= die <= 6) && (r.Success? ==> r.value.dieRoll == die)
  {
    if GetOdds(a, d).Success? {
      TableCoversRolledOdds();
    }
  }

  /**
   * A rolled result reads the odds' six-entry row: a die of 1..6 selects that
   * entry, and a die of -5..0 counts from the end of the row, as Python's
   * negative indexing does.
   */
  lemma SolveCombatReadsTable(a: int, d: int, staticRoll: Option<int>, randomRoll: int)
    requires 1 <= randomRoll <= 6
    ensures var r := SolveCombat(a, d, staticRoll, randomRoll);
      r.Success? && r.value.odds in ResultsTable && 1 <= r.value.dieRoll <= |ResultsTable[r.value.odds]| ==>
      r.value.result == ResultsTable[r.value.odds][r.value.dieRoll - 1]
    ensures var r := SolveCombat(a, d, staticRoll, randomRoll);
      r.Success? && r.value.odds != (1, 7) && r.value.odds != (7, 1) ==>
      r.value.odds in ResultsTable && |ResultsTable[r.value.odds]| == 6 && -5 <= r.value.dieRoll <= 6 &&
      r.value.result == ResultsTable[r.value.odds][if r.value.dieRoll >= 1 then r.value.dieRoll - 1 else r.value.dieRoll + 5]
  {
    var r := SolveCombat(a, d, staticRoll, randomRoll);
    if r.Success? && r.value.odds != (1, 7) && r.value.odds != (7, 1) {
      var odds := GetOdds(a, d).value;
      var die := RollDie(staticRoll, randomRoll);
      TableCoversRolledOdds();
      var row := ResultsTable[odds];
      assert |row| == 6;
      var cell := TupleAt(row, die - 1);
      assert r == Success(CombatResultData(odds, die, cell.value, None));
      assert cell.value == row[if die >= 1 then die - 1 else die + 5];
    }
  }

  /** 12 against 5 with a static roll of 5 is 2:1, and the fifth entry of that row is an exchange. */
  lemma SolveExchangeExample(randomRoll: int)
    requires 1 <= randomRoll <= 6
    ensures SolveCombat(12, 5, Some(5), randomRoll) == Success(CombatResultData((2, 1), 5, Exchange, None))
  {
    NearestTwelveFifths();
    assert GetOdds(12, 5) == Success((2, 1));
    assert ResultsTable[(2, 1)][4] == Exchange;
  }

  /** 1 against 7 is 1:7: the attacker is eliminated without a roll, recorded as die -1. */
  lemma SolveAutoEliminationExample(randomRoll: int)
    requires 1 <= randomRoll <= 6
    ensures SolveCombat(1, 7, None, randomRoll) == Success(CombatResultData((1, 7), -1, AttackerEliminated, None))
  {
    NearestSeventh();
    assert GetOdds(1, 7) == Success((1, 7));
  }
}

=== FILE: field_of_view.dfy ===
/**
 * Breadth-first field of view: from the origin, vision spreads one hex per
 * step up to the radius; an opaque hex is seen but vision does not continue
 * past it, and an optional bounds filter hides hexes outside the map.
 */
module FieldOfView {
  import opened Wrappers
  import opened HexVision

  /** The bounds filter passes `h`, or there is no filter. */
  predicate Allowed(inBounds: Option<Axial -> bool>, h: Axial) {
    inBounds.None? || inBounds.value(h)
  }

  /** Vision continues from `h`: the origin always, any other hex when it is not opaque. */
  predicate Expandable(origin: Axial, isOpaque: Axial -> bool, h: Axial) {
    h == origin || !isOpaque(h)
  }

  /** Every in-bounds neighbour of `p` has been seen. */
  predicate Surrounded(inBounds: Option<Axial -> bool>, visible: set<Axial>, p: Axial) {
    forall k :: 0 <= k < 6 && Allowed(inBounds, HexNeighbor(p, k)) ==> HexNeighbor(p, k) in visible
  }

  /** Every in-bounds neighbour of `p` has been seen, at most one step deeper than `p`. */
  ghost predicate SeenAround(inBounds: Option<Axial -> bool>, depth: map<Axial, nat>, p: Axial)
    requires p in depth
  {
    forall k :: 0 <= k < 6 && Allowed(inBounds, HexNeighbor(p, k)) ==>
      HexNeighbor(p, k) in depth && depth[HexNeighbor(p, k)] <= depth[p] + 1
  }

  /**
   * A sight line: a chain of neighbouring hexes from the origin, each after
   * the origin passing the bounds filter, each before the last one vision
   * continues from.
   */
  ghost predicate SightLine(origin: Axial, isOpaque: Axial -> bool, inBounds: Option<Axial -> bool>, c: seq<Axial>) {
    |c| >= 1 && c[0] == origin &&
    (forall i :: 1 <= i < |c| ==> Adjacent(c[i - 1], c[i]) && Allowed(inBounds, c[i])) &&
    (forall i :: 0 <= i < |c| - 1 ==> Expandable(origin, isOpaque, c[i]))
  }

  predicate InQueue(queue: seq<(Axial, int)>, p: Axial) {
    exists i :: 0 <= i < |queue| && queue[i].0 == p
  }

  function Max0(x: int): nat {
    if x > 0 then x else 0
  }

  /** `h` was seen from a visible hex next to it that vision continued from, one step further out. */
  ghost predicate HasParent(origin: Axial, radius: int, isOpaque: Axial -> bool,
                            visible: set<Axial>, depth: map<Axial, nat>, h: Axial)
    requires h in depth
  {
    exists p :: p in visible && p in depth && Adjacent(p, h) && Expandable(origin, isOpaque, p) &&
      depth[p] < radius && depth[h] == depth[p] + 1
  }

  /**
   * What every seen hex satisfies: `depth` records the step at which it was
   * seen, which bounds its distance from the origin and never exceeds the
   * radius; each hex but the origin passes the bounds filter and has a parent.
   */
  ghost predicate Sound(origin: Axial, radius: int, isOpaque: Axial -> bool, inBounds: Option<Axial -> bool>,
                        visible: set<Axial>, depth: map<Axial, nat>)
  {
    origin in visible && visible == depth.Keys && depth[origin] == 0 &&
    InRange(origin, radius, depth) && Parented(origin, radius, isOpaque, inBounds, visible, depth)
  }

  /** Each recorded depth lies between the hex's distance from the origin and the radius. */
  ghost predicate InRange(origin: Axial, radius: int, depth: map<Axial, nat>) {
    forall h :: h in depth ==> HexDistance(h, origin) <= depth[h] <= Max0(radius)
  }

  /** Each seen hex but the origin passes the bounds filter and has a parent. */
  ghost predicate Parented(origin: Axial, radius: int, isOpaque: Axial -> bool, inBounds: Option<Axial -> bool>,
                           visible: set<Axial>, depth: map<Axial, nat>)
  {
    (forall h :: h in depth && h != origin ==> Allowed(inBounds, h)) &&
    (forall h {:trigger HasParent(origin, radius, isOpaque, visible, depth, h)} :: h in depth && h != origin ==>
      HasParent(origin, radius, isOpaque, visible, depth, h))
  }

  /** Queued hexes are seen, carry their depth, and are ones vision continues from. */
  ghost predicate QueueOk(origin: Axial, isOpaque: Axial -> bool, visible: set<Axial>, depth: map<Axial, nat>,
                          queue: seq<(Axial, int)>)
  {
    forall i :: 0 <= i < |queue| ==>
      queue[i].0 in visible && queue[i].0 in depth && depth[queue[i].0] == queue[i].1 && Expandable(origin, isOpaque, queue[i].0)
  }

  /** A hex vision continues from, seen before the radius, is still queued or has all its neighbours seen at most one step deeper. */
  ghost predicate Closed(origin: Axial, radius: int, isOpaque: Axial -> bool, inBounds: Option<Axial -> bool>,
                         visible: set<Axial>, depth: map<Axial, nat>, queue: seq<(Axial, int)>)
    requires visible == depth.Keys
  {
    forall p :: p in visible && Expandable(origin, isOpaque, p) && depth[p] < radius ==>
      InQueue(queue, p) || SeenAround(inBounds, depth, p)
  }

  /** Breadth-first levels: queued depths never decrease and lie in `lo` or `lo + 1`, and no seen hex is deeper than `lo + 1`. */
  ghost predicate Levelled(depth: map<Axial, nat>, queue: seq<(Axial, int)>, lo: int) {
    (forall i :: 0 <= i < |queue| ==> lo <= queue[i].1 <= lo + 1) &&
    (forall i, j :: 0 <= i < j < |queue| ==> queue[i].1 <= queue[j].1) &&
    (forall h :: h in depth ==> depth[h] <= lo + 1)
  }

  ghost predicate Searching(origin: Axial, radius: int, isOpaque: Axial -> bool, inBounds: Option<Axial -> bool>,
                            visible: set<Axial>, depth: map<Axial, nat>, queue: seq<(Axial, int)>, lo: int)
  {
    Sound(origin, radius, isOpaque, inBounds, visible, depth) &&
    QueueOk(origin, isOpaque, visible, depth, queue) &&
    Closed(origin, radius, isOpaque, inBounds, visible, depth, queue) &&
    Levelled(depth, queue, lo)
  }

  /** Popping the head moves the lower level up to the head's depth. */
  lemma PopLevelled(depth: map<Axial, nat>, queue: seq<(Axial, int)>, lo: int)
    requires |queue| > 0 && Levelled(depth, queue, lo)
    ensures Levelled(depth, queue[1..], queue[0].1)
  {
    var q := queue[1..];
    forall i | 0 <= i < |q| ensures queue[0].1 <= q[i].1 <= queue[0].1 + 1 {
      assert q[i] == queue[i + 1];
    }
    forall i, j | 0 <= i < j < |q| ensures q[i].1 <= q[j].1 {
      assert q[i] == queue[i + 1] && q[j] == queue[j + 1];
    }
  }

  /** Seeing a new hex one level above `lo`, and queueing it unless it is opaque, keeps the levels. */
  lemma LevelledVisit(depth: map<Axial, nat>, queue: seq<(Axial, int)>, lo: nat, n: Axial, blocks: bool)
    requires Levelled(depth, queue, lo)
    ensures Levelled(depth[n := lo + 1], if blocks then queue else queue + [(n, lo + 1)], lo)
  {
  }

  /** The square of axial coordinates within `r` of `o` on both axes. */
  function Box(o: Axial, r: nat): set<Axial> {
    set q: int, s: int | o.0 - r <= q <= o.0 + r && o.1 - r <= s <= o.1 + r :: (q, s)
  }

  lemma InBox(o: Axial, r: nat, h: Axial)
    requires HexDistance(h, o) <= r
    ensures h in Box(o, r)
  {
    assert h == (h.0, h.1);
  }

  /** Every seen hex lies in the box around the origin. */
  lemma SeenInBox(origin: Axial, radius: int, isOpaque: Axial -> bool, inBounds: Option<Axial -> bool>,
                  visible: set<Axial>, depth: map<Axial, nat>)
    requires Sound(origin, radius, isOpaque, inBounds, visible, depth)
    ensures visible <= Box(origin, Max0(radius))
  {
    forall h | h in visible ensures h in Box(origin, Max0(radius)) {
      InBox(origin, Max0(radius), h);
    }
  }

  /** Seeing more hexes of the box leaves fewer of it unseen. */
  lemma FewerUnseen<T>(box: set<T>, before: set<T>, after: set<T>)
    requires before <= after <= box && before != after
    ensures |box - after| < |box - before|
  {
    var x :| x in after && x !in before;
    var a, b := box - after, box - before;
    assert b == a + (b - a);
    assert a * (b - a) == {};
    assert x in b - a;
  }

  /**
   * One turn of the outer loop: take the first queued hex and, unless it is at
   * the radius, mark every unseen in-bounds neighbour seen and queue those that
   * are not opaque.
   */
  method ExpandFirst(origin: Axial, radius: int, isOpaque: Axial -> bool, inBounds: Option<Axial -> bool>,
                     visible: set<Axial>, ghost depth: map<Axial, nat>, queue: seq<(Axial, int)>, ghost lo: int)
    returns (visible': set<Axial>, ghost depth': map<Axial, nat>, queue': seq<(Axial, int)>, ghost lo': int)
    requires |queue| > 0 && Searching(origin, radius, isOpaque, inBounds, visible, depth, queue, lo)
    ensures Searching(origin, radius, isOpaque, inBounds, visible', depth', queue', lo')
    ensures visible <= visible'
    ensures visible' == visible ==> queue' == queue[1..]
  {
    var (h, d) := queue[0];
    visible', depth', queue', lo' := visible, depth, queue[1..], d;
    PopLevelled(depth, queue, lo);
    assert forall p :: InQueue(queue, p) && p != h ==> InQueue(queue', p) by {
      forall p | InQueue(queue, p) && p != h ensures InQueue(queue', p) {
        var i :| 0 <= i < |queue| && queue[i].0 == p;
        assert queue'[i - 1] == queue[i];
      }
    }
    if d >= radius {
      return;
    }
    visible', depth', queue' := SeeNeighbors(origin, radius, isOpaque, inBounds, visible, depth, queue', h, d);
  }

  /**
   * The inner loop of one turn: every unseen in-bounds neighbour of `h` becomes
   * seen one step further out, and is queued unless it is opaque.
   */
  method SeeNeighbors(origin: Axial, radius: int, isOpaque: Axial -> bool, inBounds: Option<Axial -> bool>,
                      visible: set<Axial>, ghost depth: map<Axial, nat>, queue: seq<(Axial, int)>, h: Axial, d: nat)
    returns (visible': set<Axial>, ghost depth': map<Axial, nat>, queue': seq<(Axial, int)>)
    requires Sound(origin, radius, isOpaque, inBounds, visible, depth)
    requires QueueOk(origin, isOpaque, visible, depth, queue) && Levelled(depth, queue, d)
    requires h in visible && depth[h] == d < radius && Expandable(origin, isOpaque, h)
    requires ClosedBut(origin, radius, isOpaque, inBounds, visible, depth, queue, h)
    ensures Searching(origin, radius, isOpaque, inBounds, visible', depth', queue', d)
    ensures visible <= visible'
    ensures visible' == visible ==> queue' == queue
  {
    visible', depth', queue' := visible, depth, queue;
    var k := 0;
    StartVisiting(origin, radius, isOpaque, inBounds, visible, depth, queue, h, d);
    while k < 6
      invariant Visiting(origin, radius, isOpaque, inBounds, visible', depth', queue', h, d, k)
      invariant visible <= visible'
      invariant visible' == visible ==> queue' == queue
    {
      visible', depth', queue' := SeeDirection(origin, radius, isOpaque, inBounds, visible', depth', queue', h, d, k);
      k := k + 1;
    }
    DoneVisiting(origin, radius, isOpaque, inBounds, visible', depth', queue', h, d);
  }

  lemma StartVisiting(origin: Axial, radius: int, isOpaque: Axial -> bool, inBounds: Option<Axial -> bool>,
                      visible: set<Axial>, depth: map<Axial, nat>, queue: seq<(Axial, int)>, h: Axial, d: nat)
    requires Sound(origin, radius, isOpaque, inBounds, visible, depth)
    requires QueueOk(origin, isOpaque, visible, depth, queue) && Levelled(depth, queue, d)
    requires h in visible && depth[h] == d < radius && Expandable(origin, isOpaque, h)
    requires ClosedBut(origin, radius, isOpaque, inBounds, visible, depth, queue, h)
    ensures Visiting(origin, radius, isOpaque, inBounds, visible, depth, queue, h, d, 0)
  {
  }

  /** With all six directions handled, `h` has all its neighbours seen and the search invariant is back. */
  lemma DoneVisiting(origin: Axial, radius: int, isOpaque: Axial -> bool, inBounds: Option<Axial -> bool>,
                     visible: set<Axial>, depth: map<Axial, nat>, queue: seq<(Axial, int)>, h: Axial, d: nat)
    requires Visiting(origin, radius, isOpaque, inBounds, visible, depth, queue, h, d, 6)
    ensures Searching(origin, radius, isOpaque, inBounds, visible, depth, queue, d)
  {
    assert SeenAround(inBounds, depth, h);
  }

  /** The inner loop's invariant after the first `k` directions: every seen hex sound, the queue in order and levelled, and closed but for `h`, whose handled neighbours are seen. */
  ghost predicate Visiting(origin: Axial, radius: int, isOpaque: Axial -> bool, inBounds: Option<Axial -> bool>,
                           visible: set<Axial>, depth: map<Axial, nat>, queue: seq<(Axial, int)>, h: Axial, d: nat, k: int)
  {
    0 <= k <= 6 && Sound(origin, radius, isOpaque, inBounds, visible, depth) &&
    QueueOk(origin, isOpaque, visible, depth, queue) && Levelled(depth, queue, d) &&
    h in visible && depth[h] == d < radius && Expandable(origin, isOpaque, h) &&
    ClosedBut(origin, radius, isOpaque, inBounds, visible, depth, queue, h) &&
    SeenUpTo(inBounds, depth, h, k)
  }

  /** One turn of the inner loop: see the neighbour in direction `k` if it is unseen and in bounds, and queue it unless it is opaque. */
  method SeeDirection(origin: Axial, radius: int, isOpaque: Axial -> bool, inBounds: Option<Axial -> bool>,
                      visible: set<Axial>, ghost depth: map<Axial, nat>, queue: seq<(Axial, int)>, h: Axial, d: nat, k: int)
    returns (visible': set<Axial>, ghost depth': map<Axial, nat>, queue': seq<(Axial, int)>)
    requires k < 6 && Visiting(origin, radius, isOpaque, inBounds, visible, depth, queue, h, d, k)
    ensures Visiting(origin, radius, isOpaque, inBounds, visible', depth', queue', h, d, k + 1)
    ensures visible <= visible'
    ensures visible' == visible ==> queue' == queue
  {
    visible', depth', queue' := visible, depth, queue;
    var n := HexNeighbor(h, k);
    if n !in visible && (inBounds.None? || inBounds.value(n)) {
      VisitStep(origin, radius, isOpaque, inBounds, visible, depth, queue, h, d, k);
      visible' := visible + {n};
      depth' := depth[n := d + 1];
      if !isOpaque(n) {
        queue' := queue + [(n, d + 1)];
      }
    } else {
      SeenStep(inBounds, depth, h, k);
    }
  }

  /** Seeing the unseen in-bounds neighbour of `h` in direction `k` keeps the inner loop's invariant. */
  lemma VisitStep(origin: Axial, radius: int, isOpaque: Axial -> bool, inBounds: Option<Axial -> bool>,
                  visible: set<Axial>, depth: map<Axial, nat>, queue: seq<(Axial, int)>, h: Axial, d: nat, k: int)
    requires Sound(origin, radius, isOpaque, inBounds, visible, depth)
    requires QueueOk(origin, isOpaque, visible, depth, queue) && Levelled(depth, queue, d)
    requires h in visible && depth[h] == d < radius && Expandable(origin, isOpaque, h) && 0 <= k < 6
    requires ClosedBut(origin, radius, isOpaque, inBounds, visible, depth, queue, h)
    requires SeenUpTo(inBounds, depth, h, k)
    requires HexNeighbor(h, k) !in visible && Allowed(inBounds, HexNeighbor(h, k))
    ensures var n := HexNeighbor(h, k);
      var v', d', q' := visible + {n}, depth[n := d + 1], if isOpaque(n) then queue else queue + [(n, d + 1)];
      Sound(origin, radius, isOpaque, inBounds, v', d') && QueueOk(origin, isOpaque, v', d', q') &&
      Levelled(d', q', d) && ClosedBut(origin, radius, isOpaque, inBounds, v', d', q', h) &&
      SeenUpTo(inBounds, d', h, k + 1) && d'[h] == d
  {
    VisitNeighbor(origin, radius, isOpaque, inBounds, visible, depth, queue, h, d, k);
    VisitKeepsClosed(origin, radius, isOpaque, inBounds, visible, depth, queue, h, d, k);
    LevelledVisit(depth, queue, d, HexNeighbor(h, k), isOpaque(HexNeighbor(h, k)));
  }

  /** Every in-bounds neighbour of `h` in the first `k` directions has been seen, at most one step deeper than `h`. */
  ghost predicate SeenUpTo(inBounds: Option<Axial -> bool>, depth: map<Axial, nat>, h: Axial, k: int)
    requires h in depth
  {
    forall j :: 0 <= j < k && Allowed(inBounds, HexNeighbor(h, j)) ==>
      HexNeighbor(h, j) in depth && depth[HexNeighbor(h, j)] <= depth[h] + 1
  }

  lemma SeenStep(inBounds: Option<Axial -> bool>, depth: map<Axial, nat>, h: Axial, k: int)
    requires 0 <= k && h in depth && SeenUpTo(inBounds, depth, h, k)
    requires (HexNeighbor(h, k) in depth && depth[HexNeighbor(h, k)] <= depth[h] + 1) || !Allowed(inBounds, HexNeighbor(h, k))
    ensures SeenUpTo(inBounds, depth, h, k + 1)
  {
  }

  /** `Closed`, except possibly for the hex `h` whose neighbours are being visited. */
  ghost predicate ClosedBut(origin: Axial, radius: int, isOpaque: Axial -> bool, inBounds: Option<Axial -> bool>,
                            visible: set<Axial>, depth: map<Axial, nat>, queue: seq<(Axial, int)>, h: Axial)
    requires visible == depth.Keys
  {
    forall p :: p in visible && Expandable(origin, isOpaque, p) && depth[p] < radius ==>
      p == h || InQueue(queue, p) || SeenAround(inBounds, depth, p)
  }

  /** Seeing a new hex keeps every hex whose neighbours were all seen in that state. */
  lemma SeenAroundGrows(inBounds: Option<Axial -> bool>, depth: map<Axial, nat>, n: Axial, dn: nat, p: Axial)
    requires p in depth && n !in depth && SeenAround(inBounds, depth, p)
    ensures SeenAround(inBounds, depth[n := dn], p)
  {
    forall k | 0 <= k < 6 && Allowed(inBounds, HexNeighbor(p, k))
      ensures HexNeighbor(p, k) in depth[n := dn] && depth[n := dn][HexNeighbor(p, k)] <= depth[n := dn][p] + 1
    {
      assert HexNeighbor(p, k) in depth;
    }
  }

  /** Seeing a new neighbour of `h` (and queueing it unless opaque) keeps the other hexes closed. */
  lemma VisitKeepsClosed(origin: Axial, radius: int, isOpaque: Axial -> bool, inBounds: Option<Axial -> bool>,
                         visible: set<Axial>, depth: map<Axial, nat>, queue: seq<(Axial, int)>,
                         h: Axial, d: nat, k: int)
    requires visible == depth.Keys && origin in visible && 0 <= k < 6
    requires h in depth && depth[h] == d
    requires ClosedBut(origin, radius, isOpaque, inBounds, visible, depth, queue, h)
    requires SeenUpTo(inBounds, depth, h, k)
    requires HexNeighbor(h, k) !in visible && Allowed(inBounds, HexNeighbor(h, k))
    ensures var n := HexNeighbor(h, k);
      var v', d', q' := visible + {n}, depth[n := d + 1], if isOpaque(n) then queue else queue + [(n, d + 1)];
      ClosedBut(origin, radius, isOpaque, inBounds, v', d', q', h) && SeenUpTo(inBounds, d', h, k + 1)
  {
    var n := HexNeighbor(h, k);
    var v', d', q' := visible + {n}, depth[n := d + 1], if isOpaque(n) then queue else queue + [(n, d + 1)];
    forall p | p in v' && Expandable(origin, isOpaque, p) && d'[p] < radius
      ensures p == h || InQueue(q', p) || SeenAround(inBounds, d', p)
    {
      if p == n {
        assert q'[|queue|].0 == n;
      } else if InQueue(queue, p) {
        var i :| 0 <= i < |queue| && queue[i].0 == p;
        assert q'[i] == queue[i];
      } else if p != h {
        SeenAroundGrows(inBounds, depth, n, d + 1, p);
      }
    }
    forall j | 0 <= j < k + 1 && Allowed(inBounds, HexNeighbor(h, j))
      ensures HexNeighbor(h, j) in d' && d'[HexNeighbor(h, j)] <= d'[h] + 1
    {
      if j < k {
        assert HexNeighbor(h, j) in depth;
      }
    }
  }

  /** Seeing a new neighbour `n` of `h` keeps every seen hex sound and the queue in order. */
  lemma VisitNeighbor(origin: Axial, radius: int, isOpaque: Axial -> bool, inBounds: Option<Axial -> bool>,
                      visible: set<Axial>, depth: map<Axial, nat>, queue: seq<(Axial, int)>,
                      h: Axial, d: int, k: int)
    requires Sound(origin, radius, isOpaque, inBounds, visible, depth)
    requires QueueOk(origin, isOpaque, visible, depth, queue)
    requires h in visible && depth[h] == d < radius && Expandable(origin, isOpaque, h) && 0 <= k < 6
    requires HexNeighbor(h, k) !in visible && Allowed(inBounds, HexNeighbor(h, k))
    ensures var n := HexNeighbor(h, k);
      var v', d' := visible + {n}, depth[n := d + 1];
      Sound(origin, radius, isOpaque, inBounds, v', d') &&
      QueueOk(origin, isOpaque, v', d', if isOpaque(n) then queue else queue + [(n, d + 1)])
  {
    var n := HexNeighbor(h, k);
    StepDistance(h, k, origin);
    assert Adjacent(h, n);
    VisitSound(origin, radius, isOpaque, inBounds, visible, depth, h, n, d);
    VisitQueue(origin, isOpaque, visible, depth, queue, HexNeighbor(h, k), d + 1);
  }

  /** A new in-bounds neighbour `n` of an expandable hex `h`, one step deeper, keeps every seen hex sound. */
  lemma VisitSound(origin: Axial, radius: int, isOpaque: Axial -> bool, inBounds: Option<Axial -> bool>,
                   visible: set<Axial>, depth: map<Axial, nat>, h: Axial, n: Axial, d: nat)
    requires Sound(origin, radius, isOpaque, inBounds, visible, depth)
    requires h in visible && depth[h] == d < radius && Expandable(origin, isOpaque, h)
    requires Adjacent(h, n) && HexDistance(n, origin) <= d + 1
    requires n !in visible && Allowed(inBounds, n)
    ensures Sound(origin, radius, isOpaque, inBounds, visible + {n}, depth[n := d + 1])
  {
    DistancesKept(origin, radius, depth, n, d + 1);
    ParentsKept(origin, radius, isOpaque, inBounds, visible, depth, h, n, d + 1);
  }

  /** Adding `n` at a depth within its distance bounds keeps every seen hex's depth within them. */
  lemma DistancesKept(origin: Axial, radius: int, depth: map<Axial, nat>, n: Axial, dn: nat)
    requires InRange(origin, radius, depth)
    requires HexDistance(n, origin) <= dn <= Max0(radius)
    ensures InRange(origin, radius, depth[n := dn])
  {
  }

  /** Adding an allowed `n` one step beyond its expandable neighbour `h` gives `n` a parent and keeps every other hex's. */
  lemma ParentsKept(origin: Axial, radius: int, isOpaque: Axial -> bool, inBounds: Option<Axial -> bool>,
                    visible: set<Axial>, depth: map<Axial, nat>, h: Axial, n: Axial, dn: nat)
    requires visible == depth.Keys && n !in visible && Allowed(inBounds, n)
    requires Parented(origin, radius, isOpaque, inBounds, visible, depth)
    requires h in visible && Adjacent(h, n) && Expandable(origin, isOpaque, h) && depth[h] < radius && dn == depth[h] + 1
    ensures Parented(origin, radius, isOpaque, inBounds, visible + {n}, depth[n := dn])
  {
    var v', d' := visible + {n}, depth[n := dn];
    forall x | x in d' && x != origin ensures Allowed(inBounds, x) && HasParent(origin, radius, isOpaque, v', d', x) {
      if x != n {
        assert x in depth && HasParent(origin, radius, isOpaque, visible, depth, x);
        var p :| p in visible && p in depth && Adjacent(p, x) && Expandable(origin, isOpaque, p) &&
          depth[p] < radius && depth[x] == depth[p] + 1;
        assert p in v' && d'[p] == depth[p] && d'[x] == depth[x];
      } else {
        assert h in v' && d'[h] == depth[h];
      }
    }
  }

  /** Seeing a new hex `n` at depth `dn`, and queueing it unless it is opaque, keeps the queue in order. */
  lemma VisitQueue(origin: Axial, isOpaque: Axial -> bool, visible: set<Axial>, depth: map<Axial, nat>,
                   queue: seq<(Axial, int)>, n: Axial, dn: nat)
    requires QueueOk(origin, isOpaque, visible, depth, queue) && n !in visible && n != origin
    ensures QueueOk(origin, isOpaque, visible + {n}, depth[n := dn], if isOpaque(n) then queue else queue + [(n, dn)])
  {
    var v', d' := visible + {n}, depth[n := dn];
    var q' := if isOpaque(n) then queue else queue + [(n, dn)];
    forall i | 0 <= i < |q'|
      ensures q'[i].0 in v' && q'[i].0 in d' && d'[q'[i].0] == q'[i].1 && Expandable(origin, isOpaque, q'[i].0)
    {
      if i < |queue| {
        assert q'[i] == queue[i];
        assert queue[i].0 != n;
      }
    }
  }

  /**
   * `compute_fov`. The visible hexes are exactly the ends of sight lines of at
   * most `radius` steps, and `depth`, recorded for the proof, is the length of
   * the shortest sight line to each.
   */
  method ComputeFov(origin: Axial, radius: int, isOpaque: Axial -> bool, inBounds: Option<Axial -> bool>)
    returns (visible: set<Axial>, ghost depth: map<Axial, nat>)
    ensures origin in visible
    ensures radius <= 0 ==> visible == {origin}
    ensures forall h :: h in visible && h != origin ==> HexDistance(h, origin) <= radius && Allowed(inBounds, h)
    ensures forall h :: h in visible && h != origin ==>
      exists p :: p in visible && Adjacent(p, h) && Expandable(origin, isOpaque, p) && HexDistance(p, origin) < radius
    ensures radius >= 1 ==> Surrounded(inBounds, visible, origin)
    ensures visible == depth.Keys
    ensures forall p :: p in visible && Expandable(origin, isOpaque, p) && depth[p] < radius ==> Surrounded(inBounds, visible, p)
    ensures Sound(origin, radius, isOpaque, inBounds, visible, depth)
    ensures forall h :: h in visible ==>
      exists c :: SightLine(origin, isOpaque, inBounds, c) && c[|c| - 1] == h && |c| - 1 == depth[h] <= Max0(radius)
    ensures forall c :: SightLine(origin, isOpaque, inBounds, c) && |c| - 1 <= radius ==>
      c[|c| - 1] in visible && depth[c[|c| - 1]] <= |c| - 1
  {
    visible, depth := Search(origin, radius, isOpaque, inBounds);
    FovConclusions(origin, radius, isOpaque, inBounds, visible, depth);
    SightLinesExactly(origin, radius, isOpaque, inBounds, visible, depth);
  }

  /** The breadth-first loop: run until the queue is empty, leaving every seen hex sound and the search closed. */
  method Search(origin: Axial, radius: int, isOpaque: Axial -> bool, inBounds: Option<Axial -> bool>)
    returns (visible: set<Axial>, ghost depth: map<Axial, nat>)
    ensures origin in visible
    ensures visible <= Box(origin, Max0(radius))
    ensures Sound(origin, radius, isOpaque, inBounds, visible, depth)
    ensures Closed(origin, radius, isOpaque, inBounds, visible, depth, [])
  {
    visible := {origin};
    depth := map[origin := 0];
    var queue := [(origin, 0)];
    ghost var lo := 0;
    StartSearching(origin, radius, isOpaque, inBounds);
    ghost var box := Box(origin, Max0(radius));
    while |queue| > 0
      invariant Searching(origin, radius, isOpaque, inBounds, visible, depth, queue, lo)
      invariant visible <= box
      decreases |box - visible|, |queue|
    {
      ghost var before := visible;
      visible, depth, queue, lo := ExpandFirst(origin, radius, isOpaque, inBounds, visible, depth, queue, lo);
      SeenInBox(origin, radius, isOpaque, inBounds, visible, depth);
      if visible != before {
        FewerUnseen(box, before, visible);
      }
    }
  }

  /** The search starts with the origin seen at depth 0 and queued. */
  lemma StartSearching(origin: Axial, radius: int, isOpaque: Axial -> bool, inBounds: Option<Axial -> bool>)
    ensures Searching(origin, radius, isOpaque, inBounds, {origin}, map[origin := 0], [(origin, 0)], 0)
  {
    assert [(origin, 0)][0].0 == origin;
    DistanceIsMetric(origin, origin);
  }

  /** With the queue empty, the search invariant gives the field of view's properties. */
  lemma FovConclusions(origin: Axial, radius: int, isOpaque: Axial -> bool, inBounds: Option<Axial -> bool>,
                       visible: set<Axial>, depth: map<Axial, nat>)
    requires Sound(origin, radius, isOpaque, inBounds, visible, depth)
    requires Closed(origin, radius, isOpaque, inBounds, visible, depth, [])
    ensures radius <= 0 ==> visible == {origin}
    ensures forall h :: h in visible && h != origin ==> HexDistance(h, origin) <= radius && Allowed(inBounds, h)
    ensures forall h :: h in visible && h != origin ==>
      exists p :: p in visible && Adjacent(p, h) && Expandable(origin, isOpaque, p) && HexDistance(p, origin) < radius
    ensures radius >= 1 ==> Surrounded(inBounds, visible, origin)
    ensures forall p :: p in visible && Expandable(origin, isOpaque, p) && depth[p] < radius ==> Surrounded(inBounds, visible, p)
  {
    forall h | h in visible && h != origin
      ensures 0 < radius && HexDistance(h, origin) <= radius
      ensures exists p :: p in visible && Adjacent(p, h) && Expandable(origin, isOpaque, p) && HexDistance(p, origin) < radius
    {
      assert HasParent(origin, radius, isOpaque, visible, depth, h);
      var p :| p in visible && p in depth && Adjacent(p, h) && Expandable(origin, isOpaque, p) &&
        depth[p] < radius && depth[h] == depth[p] + 1;
    }
    forall p | p in visible && Expandable(origin, isOpaque, p) && depth[p] < radius
      ensures Surrounded(inBounds, visible, p)
    {
      assert !InQueue([], p);
    }
  }

  /** Once the search is closed, the seen hexes are exactly the ends of sight lines within the radius, each at the depth of the shortest. */
  lemma SightLinesExactly(origin: Axial, radius: int, isOpaque: Axial -> bool, inBounds: Option<Axial -> bool>,
                          visible: set<Axial>, depth: map<Axial, nat>)
    requires Sound(origin, radius, isOpaque, inBounds, visible, depth)
    requires Closed(origin, radius, isOpaque, inBounds, visible, depth, [])
    ensures forall h :: h in visible ==>
      exists c :: SightLine(origin, isOpaque, inBounds, c) && c[|c| - 1] == h && |c| - 1 == depth[h] <= Max0(radius)
    ensures forall c :: SightLine(origin, isOpaque, inBounds, c) && |c| - 1 <= radius ==>
      c[|c| - 1] in visible && depth[c[|c| - 1]] <= |c| - 1
  {
    forall h | h in visible
      ensures exists c :: SightLine(origin, isOpaque, inBounds, c) && c[|c| - 1] == h && |c| - 1 == depth[h] <= Max0(radius)
    {
      SeenOnSightLine(origin, radius, isOpaque, inBounds, visible, depth, h);
    }
    forall c | SightLine(origin, isOpaque, inBounds, c) && |c| - 1 <= radius
      ensures c[|c| - 1] in visible && depth[c[|c| - 1]] <= |c| - 1
    {
      SightLineSeen(origin, radius, isOpaque, inBounds, visible, depth, c);
    }
  }

  /** Every seen hex ends a sight line exactly as long as its depth. */
  lemma {:induction false} SeenOnSightLine(origin: Axial, radius: int, isOpaque: Axial -> bool,
                                           inBounds: Option<Axial -> bool>, visible: set<Axial>,
                                           depth: map<Axial, nat>, h: Axial)
    requires Sound(origin, radius, isOpaque, inBounds, visible, depth) && h in visible
    ensures exists c :: SightLine(origin, isOpaque, inBounds, c) && c[|c| - 1] == h && |c| - 1 == depth[h] <= Max0(radius)
    decreases depth[h]
  {
    if h == origin {
      assert SightLine(origin, isOpaque, inBounds, [origin]);
    } else {
      assert HasParent(origin, radius, isOpaque, visible, depth, h);
      var p :| p in visible && p in depth && Adjacent(p, h) && Expandable(origin, isOpaque, p) &&
        depth[p] < radius && depth[h] == depth[p] + 1;
      SeenOnSightLine(origin, radius, isOpaque, inBounds, visible, depth, p);
      var c :| SightLine(origin, isOpaque, inBounds, c) && c[|c| - 1] == p && |c| - 1 == depth[p];
      var c' := c + [h];
      forall i | 1 <= i < |c'| ensures Adjacent(c'[i - 1], c'[i]) && Allowed(inBounds, c'[i]) {
        if i < |c| {
          assert c'[i - 1] == c[i - 1] && c'[i] == c[i];
        }
      }
      forall i | 0 <= i < |c'| - 1 ensures Expandable(origin, isOpaque, c'[i]) {
        assert c'[i] == c[i];
      }
      assert SightLine(origin, isOpaque, inBounds, c') && c'[|c'| - 1] == h;
    }
  }

  /** Once the search is closed, the end of every sight line of at most `radius` steps is seen, no deeper than the line is long. */
  lemma {:induction false} SightLineSeen(origin: Axial, radius: int, isOpaque: Axial -> bool,
                                         inBounds: Option<Axial -> bool>, visible: set<Axial>,
                                         depth: map<Axial, nat>, c: seq<Axial>)
    requires visible == depth.Keys && origin in visible && depth[origin] == 0
    requires Closed(origin, radius, isOpaque, inBounds, visible, depth, [])
    requires SightLine(origin, isOpaque, inBounds, c) && |c| - 1 <= radius
    ensures c[|c| - 1] in visible && depth[c[|c| - 1]] <= |c| - 1
    decreases |c|
  {
    if |c| > 1 {
      var c' := c[..|c| - 1];
      forall i | 1 <= i < |c'| ensures Adjacent(c'[i - 1], c'[i]) && Allowed(inBounds, c'[i]) {
        assert c'[i - 1] == c[i - 1] && c'[i] == c[i];
      }
      forall i | 0 <= i < |c'| - 1 ensures Expandable(origin, isOpaque, c'[i]) {
        assert c'[i] == c[i];
      }
      SightLineSeen(origin, radius, isOpaque, inBounds, visible, depth, c');
      var p, h := c[|c| - 2], c[|c| - 1];
      assert c'[|c'| - 1] == p && Expandable(origin, isOpaque, p);
      assert Adjacent(p, h) && Allowed(inBounds, h);
      assert !InQueue([], p);
      var k :| 0 <= k < 6 && HexNeighbor(p, k) == h;
    }
  }
}

=== FILE: fog_of_war.dfy ===
/**
 * Per-team fog of war: for every team, the hexes it sees this turn and the
 * hexes it has ever seen. Reading a team that has no record creates an empty
 * one, as the source's `ensure` does.
 */
module FogOfWar {
  import opened Wrappers
  import opened HexVision

  datatype TeamVision = TeamVision(visibleNow: set<Axial>, revealed: set<Axial>)

  const Unseen := TeamVision({}, {})

  /** The teams' records, by team id. */
  type Fog = map<int, TeamVision>

  /** Whatever a team sees now it has also seen at some point. */
  predicate Coherent(f: Fog) {
    forall t :: t in f ==> f[t].visibleNow <= f[t].revealed
  }

  /** The record of `team` as `ensure` returns it: the stored one, or an empty one. */
  function Record(f: Fog, team: int): TeamVision {
    if team in f then f[team] else Unseen
  }

  /** `ensure`: the team has a record afterwards; existing records, its own included, are untouched. */
  function Ensure(f: Fog, team: int): (r: (TeamVision, Fog))
    ensures r.1.Keys == f.Keys + {team}
    ensures r.1[team] == r.0
    ensures team in f ==> r.0 == f[team] && r.1 == f
    ensures team !in f ==> r.0.visibleNow == {} && r.0.revealed == {}
    ensures forall t :: t in f ==> r.1[t] == f[t]
  {
    if team in f then (f[team], f) else (Unseen, f[team := Unseen])
  }

  /** `update_team`: what the team sees now is replaced; what it has seen gains the new hexes. */
  function UpdateTeam(f: Fog, team: int, visible: set<Axial>): (r: Fog)
    ensures r.Keys == f.Keys + {team}
    ensures r[team].visibleNow == visible
    ensures r[team].revealed == Record(f, team).revealed + visible
    ensures forall t :: t in f && t != team ==> r[t] == f[t]
  {
    var (tv, g) := Ensure(f, team);
    g[team := TeamVision(visible, tv.revealed + visible)]
  }

  /** `is_visible`: whether the team sees `h` now, and the fog with the team's record ensured. */
  function IsVisible(f: Fog, team: int, h: Axial): (r: (bool, Fog))
    ensures r.0 <==> team in f && h in f[team].visibleNow
    ensures r.1 == Ensure(f, team).1
  {
    var (tv, g) := Ensure(f, team);
    (h in tv.visibleNow, g)
  }

  /** `is_revealed`: whether the team has ever seen `h`, and the fog with the team's record ensured. */
  function IsRevealed(f: Fog, team: int, h: Axial): (r: (bool, Fog))
    ensures r.0 <==> team in f && h in f[team].revealed
    ensures r.1 == Ensure(f, team).1
  {
    var (tv, g) := Ensure(f, team);
    (h in tv.revealed, g)
  }

  /**
   * `clear_turn`: with no team given, every team's current view is emptied;
   * otherwise only that team's, after ensuring its record. What was seen stays.
   */
  function ClearTurn(f: Fog, team: Option<int>): (r: Fog)
    ensures team.None? ==> r.Keys == f.Keys
    ensures team.Some? ==> r.Keys == f.Keys + {team.value}
    ensures forall t :: t in r ==> r[t].revealed == Record(f, t).revealed
    ensures forall t :: t in r && (team.None? || team == Some(t)) ==> r[t].visibleNow == {}
    ensures forall t :: t in f && team.Some? && t != team.value ==> r[t] == f[t]
  {
    match team
      case None => map t | t in f :: f[t].(visibleNow := {})
      case Some(id) =>
        var (tv, g) := Ensure(f, id);
        g[id := tv.(visibleNow := {})]
  }

  /** Every operation keeps the fog coherent, starting from the empty fog. */
  lemma CoherenceKept(f: Fog, team: int, visible: set<Axial>, h: Axial, which: Option<int>)
    ensures Coherent(map[])
    ensures Coherent(f) ==> Coherent(Ensure(f, team).1)
    ensures Coherent(f) ==> Coherent(UpdateTeam(f, team, visible))
    ensures Coherent(f) ==> Coherent(IsVisible(f, team, h).1) && Coherent(IsRevealed(f, team, h).1)
    ensures Coherent(f) ==> Coherent(ClearTurn(f, which))
  {
  }

  /** In a coherent fog, a hex a team sees now is a hex the team has seen. */
  lemma VisibleIsRevealed(f: Fog, team: int, h: Axial)
    requires Coherent(f)
    ensures IsVisible(f, team, h).0 ==> IsRevealed(f, team, h).0
  {
  }

  /** No operation forgets a hex a team has seen, nor drops a team's record. */
  lemma RevealedOnlyGrows(f: Fog, team: int, visible: set<Axial>, which: Option<int>, t: int)
    requires t in f
    ensures var g := UpdateTeam(f, team, visible); t in g && f[t].revealed <= g[t].revealed
    ensures var g := ClearTurn(f, which); t in g && f[t].revealed == g[t].revealed
    ensures var g := Ensure(f, team).1; t in g && f[t].revealed == g[t].revealed
  {
  }

  /**
   * After an update, the team sees exactly the given hexes and has seen them;
   * clearing the turn then hides them again but they stay revealed.
   */
  lemma UpdateThenClear(f: Fog, team: int, visible: set<Axial>, h: Axial)
    requires h in visible
    ensures IsVisible(UpdateTeam(f, team, visible), team, h).0
    ensures IsRevealed(UpdateTeam(f, team, visible), team, h).0
    ensures !IsVisible(ClearTurn(UpdateTeam(f, team, visible), Some(team)), team, h).0
    ensures IsRevealed(ClearTurn(UpdateTeam(f, team, visible), None), team, h).0
  {
  }
}

=== FILE: game.dfy ===
/**
 * The game: the list of players, whose turn it is, and the board. Turns
 * rotate through the players in list order; a movement plan moves a unit to
 * the last hex of its path.
 */
module Games {
  import opened Wrappers
  import opened HexGrid
  import opened Players
  import opened Units
  import opened Boards

  /**
   * `current` is None only when the game was created without players: the
   * constructor then never sets the current player.
   */
  datatype Game = Game(players: seq<Player>, current: Option<Player>, board: Board)

  /** A unit's movement plan: the hexes it passes through, ending where it stops. */
  datatype MovementPlan = MovementPlan(unit: Unit, path: seq<Hex>)

  /** The constructor: the first listed player moves first. */
  function NewGame(players: seq<Player>, board: Board): (g: Game)
    ensures g.players == players && g.board == board
    ensures g.current.Some? <==> |players| > 0
    ensures g.current.Some? ==> g.current.value == players[0]
  {
    Game(players, if |players| > 0 then Some(players[0]) else None, board)
  }

  /** `list.index`: the position of the first player equal to `p`. */
  function FirstIndex(players: seq<Player>, p: Player): (r: Option<nat>)
    ensures r.None? <==> p !in players
    ensures r.Some? ==> r.value < |players| && players[r.value] == p
    ensures r.Some? ==> forall j :: 0 <= j < r.value ==> players[j] != p
  {
    if |players| == 0 then None
    else if players[0] == p then Some(0)
    else match FirstIndex(players[1..], p)
      case None => None
      case Some(i) => Some(i + 1)
  }

  /**
   * `next_player`: the player after the first occurrence of the current one,
   * wrapping to the front; None when there are no players.
   */
  function NextPlayer(g: Game): (r: Result<(Game, Option<Player>), Error>)
    ensures |g.players| == 0 ==> r == Success((g, None))
    ensures |g.players| > 0 && g.current.None? ==> r == Failure(NoCurrentPlayer)
    ensures |g.players| > 0 && g.current.Some? ==>
      (r.Success? <==> g.current.value in g.players) &&
      (r.Failure? ==> r.error == PlayerNotListed)
    ensures r.Success? && |g.players| > 0 ==>
      r.value.1.Some? && r.value.0 == g.(current := r.value.1) &&
      FirstIndex(g.players, g.current.value).Some? &&
      r.value.1.value == g.players[(FirstIndex(g.players, g.current.value).value + 1) % |g.players|]
  {
    if |g.players| == 0 then Success((g, None))
    else match g.current
      case None => Failure(NoCurrentPlayer)
      case Some(p) =>
        match FirstIndex(g.players, p)
          case None => Failure(PlayerNotListed)
          case Some(i) =>
            var next := g.players[(i + 1) % |g.players|];
            Success((g.(current := Some(next)), Some(next)))
  }

  /** `k` calls of `next_player` in a row. */
  function Advance(g: Game, k: nat): Result<Game, Error> {
    if k == 0 then Success(g)
    else match Advance(g, k - 1)
      case Failure(e) => Failure(e)
      case Success(h) =>
        match NextPlayer(h)
          case Failure(e) => Failure(e)
          case Success((next, _)) => Success(next)
  }

  predicate DistinctPlayers(players: seq<Player>) {
    forall i, j :: 0 <= i < j < |players| ==> players[i] != players[j]
  }

  lemma ModSucc(k: nat, n: nat)
    requires n > 0 && k > 0
    ensures ((k - 1) % n + 1) % n == k % n
  {
    ModSuccFrom(k - 1, n);
  }

  lemma ModSuccFrom(k: nat, n: nat)
    requires n > 0
    ensures ((k % n) + 1) % n == (k + 1) % n
  {
    var q, m := k / n, k % n;
    assert k == q * n + m;
    if m + 1 < n {
      DivisionUnique(k + 1, n, q, m + 1);
      DivisionUnique(m + 1, n, 0, m + 1);
    } else {
      assert k + 1 == (q + 1) * n + 0;
      DivisionUnique(k + 1, n, q + 1, 0);
      DivisionUnique(m + 1, n, 1, 0);
    }
  }

  lemma {:induction false} FirstIndexDistinct(players: seq<Player>, i: nat)
    requires DistinctPlayers(players) && i < |players|
    ensures FirstIndex(players, players[i]) == Some(i)
  {
    var r := FirstIndex(players, players[i]);
    assert players[i] in players;
    assert r.Some? && players[r.value] == players[i];
  }

  lemma AdvanceStep(g: Game, k: nat, h: Game, next: Game, p: Option<Player>)
    requires k > 0 && Advance(g, k - 1) == Success(h) && NextPlayer(h) == Success((next, p))
    ensures Advance(g, k) == Success(next)
  {
  }

  lemma NextFromIndex(g: Game, i: nat)
    requires i < |g.players| && g.current == Some(g.players[i]) && FirstIndex(g.players, g.players[i]) == Some(i)
    ensures NextPlayer(g) == Success((g.(current := Some(g.players[(i + 1) % |g.players|])),
                                      Some(g.players[(i + 1) % |g.players|])))
  {
  }

  /** The index of the player whose turn it is after `k` advances among `n` players. */
  function Turn(k: nat, n: nat): (t: nat)
    requires n > 0
    ensures t < n
  {
    if k == 0 then 0
    else if Turn(k - 1, n) + 1 == n then 0
    else Turn(k - 1, n) + 1
  }

  lemma {:induction false} TurnIsMod(k: nat, n: nat)
    requires n > 0
    ensures Turn(k, n) == k % n
  {
    if k == 0 {
      DivisionUnique(0, n, 0, 0);
    } else {
      TurnIsMod(k - 1, n);
      ModSucc(k, n);
      var t := (k - 1) % n;
      if t + 1 == n {
        DivisionUnique(t + 1, n, 1, 0);
      } else {
        DivisionUnique(t + 1, n, 0, t + 1);
      }
    }
  }

  /** The index after `i` wraps to 0 past the last player. */
  lemma WrapNext(i: nat, n: nat)
    requires i < n
    ensures (i + 1) % n == if i + 1 == n then 0 else i + 1
  {
    if i + 1 == n {
      DivisionUnique(i + 1, n, 1, 0);
    } else {
      DivisionUnique(i + 1, n, 0, i + 1);
    }
  }

  /** With distinct players, the turn passes from player `i` to the next one in the list, wrapping after the last. */
  lemma NextTurn(players: seq<Player>, board: Board, i: nat)
    requires DistinctPlayers(players) && i < |players|
    ensures (i + 1) % |players| == if i + 1 == |players| then 0 else i + 1
    ensures NextPlayer(Game(players, Some(players[i]), board)) ==
      Success((Game(players, Some(players[(i + 1) % |players|]), board), Some(players[(i + 1) % |players|])))
  {
    var h := Game(players, Some(players[i]), board);
    FirstIndexDistinct(players, i);
    NextFromIndex(h, i);
    WrapNext(i, |players|);
  }

  lemma {:induction false} AdvanceTurns(players: seq<Player>, board: Board, k: nat)
    requires |players| > 0 && DistinctPlayers(players)
    ensures Turn(k, |players|) < |players|
    ensures Advance(NewGame(players, board), k) == Success(Game(players, Some(players[Turn(k, |players|)]), board))
  {
    var n := |players|;
    if k > 0 {
      AdvanceTurns(players, board, k - 1);
      var i := Turn(k - 1, n);
      var h := Game(players, Some(players[i]), board);
      assert Advance(NewGame(players, board), k - 1) == Success(h);
      NextTurn(players, board, i);
      var j := (i + 1) % n;
      assert Turn(k, n) == j;
      AdvanceStep(NewGame(players, board), k, h, Game(players, Some(players[j]), board), Some(players[j]));
    }
  }

  /**
   * With distinct players, the turn after `k` advances from a new game belongs
   * to player `k mod n`: the rotation visits every player in list order and
   * returns to the first after `n` turns.
   */
  lemma AdvanceCycles(players: seq<Player>, board: Board, k: nat)
    requires |players| > 0 && DistinctPlayers(players)
    ensures Advance(NewGame(players, board), k) == Success(Game(players, Some(players[k % |players|]), board))
  {
    AdvanceTurns(players, board, k);
    TurnIsMod(k, |players|);
  }

  /** After a full round of `n` turns the first player is current again. */
  lemma FullRoundReturnsToFirst(players: seq<Player>, board: Board)
    requires |players| > 0 && DistinctPlayers(players)
    ensures Advance(NewGame(players, board), |players|) == Success(NewGame(players, board))
  {
    AdvanceCycles(players, board, |players|);
  }

  /** The position update a plan makes: to the last hex of a non-empty path. */
  function PlanStep(b: Board, p: MovementPlan): Board {
    if |p.path| == 0 then b
    else MoveOne(b, SparseUnit(p.unit.id, p.path[|p.path| - 1].row, p.path[|p.path| - 1].column))
  }

  lemma PlanStepKeepsIds(b: Board, p: MovementPlan)
    requires Valid(b)
    ensures Valid(PlanStep(b, p)) && SameGrid(b, PlanStep(b, p)) && |PlanStep(b, p).units| == |b.units|
    ensures forall i :: 0 <= i < |b.units| ==> PlanStep(b, p).units[i].id == b.units[i].id
    ensures forall i :: HasUnit(PlanStep(b, p), i) <==> HasUnit(b, i)
  {
    if |p.path| > 0 {
      MoveOneKeepsIds(b, SparseUnit(p.unit.id, p.path[|p.path| - 1].row, p.path[|p.path| - 1].column));
    }
  }

  /**
   * `apply_movement_plans`: each plan with a non-empty path puts its unit on
   * the path's last hex; plans with empty paths are skipped. Positions are not
   * checked against the board.
   */
  function ApplyMovementPlans(b: Board, plans: seq<MovementPlan>): (r: Board)
    requires Valid(b)
    ensures Valid(r) && SameGrid(b, r) && |r.units| == |b.units|
    ensures forall i :: 0 <= i < |b.units| ==> r.units[i].id == b.units[i].id
    decreases |plans|
  {
    if |plans| == 0 then b
    else
      PlanStepKeepsIds(b, plans[0]);
      ApplyMovementPlans(PlanStep(b, plans[0]), plans[1..])
  }

  /** A unit that no non-empty plan names keeps its registry entry unchanged. */
  lemma {:induction false} ApplyUntouched(b: Board, plans: seq<MovementPlan>, i: nat)
    requires Valid(b) && i < |b.units|
    requires forall p :: p in plans && |p.path| > 0 ==> p.unit.id != b.units[i].id
    ensures ApplyMovementPlans(b, plans).units[i] == b.units[i]
    decreases |plans|
  {
    if |plans| > 0 {
      var next := PlanStep(b, plans[0]);
      assert plans[0] in plans;
      assert next.units[i] == b.units[i];
      assert forall p :: p in plans[1..] ==> p in plans;
      ApplyUntouched(next, plans[1..], i);
    }
  }

  /**
   * A unit ends on the last hex of its last non-empty plan; its other fields
   * are unchanged.
   */
  lemma {:induction false} ApplyLastPlanWins(b: Board, plans: seq<MovementPlan>, k: nat, i: nat)
    requires Valid(b) && k < |plans| && i < |b.units|
    requires |plans[k].path| > 0 && plans[k].unit.id == b.units[i].id
    requires forall j :: k < j < |plans| && |plans[j].path| > 0 ==> plans[j].unit.id != b.units[i].id
    ensures ApplyMovementPlans(b, plans).units[i] ==
      b.units[i].(coords := Some(CoordOf(plans[k].path[|plans[k].path| - 1])))
    decreases |plans|
  {
    var next := PlanStep(b, plans[0]);
    if k == 0 {
      var last := plans[0].path[|plans[0].path| - 1];
      assert next.units[i] == b.units[i].(coords := Some(CoordOf(last)));
      assert forall p :: p in plans[1..] && |p.path| > 0 ==> p.unit.id != next.units[i].id by {
        forall p | p in plans[1..] && |p.path| > 0 ensures p.unit.id != next.units[i].id {
          var j :| 0 <= j < |plans[1..]| && plans[1..][j] == p;
          assert plans[j + 1] == p;
        }
      }
      ApplyUntouched(next, plans[1..], i);
    } else {
      assert next.units[i].id == b.units[i].id;
      ApplyLastPlanWins(next, plans[1..], k - 1, i);
      if |plans[0].path| == 0 || plans[0].unit.id != b.units[i].id {
        assert next.units[i] == b.units[i];
      } else {
        var last := plans[0].path[|plans[0].path| - 1];
        assert next.units[i] == b.units[i].(coords := Some(CoordOf(last)));
      }
    }
  }

  /** The position updates the plans amount to, in order: one per non-empty path. */
  function PlanUpdates(plans: seq<MovementPlan>): (r: seq<SparseUnit>)
    ensures forall s :: s in r ==> exists p :: p in plans && p.unit.id == s.id
  {
    if |plans| == 0 then []
    else
      var rest := PlanUpdates(plans[1..]);
      assert forall p :: p in plans[1..] ==> p in plans;
      var p := plans[0];
      if |p.path| == 0 then rest
      else [SparseUnit(p.unit.id, p.path[|p.path| - 1].row, p.path[|p.path| - 1].column)] + rest
  }

  /**
   * Applying the plans of registered units is the board's own `update` with
   * the plans' end positions, in plan order.
   */
  lemma {:induction false} ApplyIsUpdate(b: Board, plans: seq<MovementPlan>)
    requires Valid(b)
    requires forall p :: p in plans ==> HasUnit(b, p.unit.id)
    ensures Update(b, PlanUpdates(plans)) == Success(ApplyMovementPlans(b, plans))
    decreases |plans|
  {
    if |plans| > 0 {
      var p := plans[0];
      assert p in plans;
      var next := PlanStep(b, p);
      if |p.path| > 0 {
        var s := SparseUnit(p.unit.id, p.path[|p.path| - 1].row, p.path[|p.path| - 1].column);
        MoveOneKeepsIds(b, s);
        assert PlanUpdates(plans) == [s] + PlanUpdates(plans[1..]);
        assert ([s] + PlanUpdates(plans[1..]))[1..] == PlanUpdates(plans[1..]);
      }
      assert forall q :: q in plans[1..] ==> HasUnit(next, q.unit.id) by {
        PlanStepKeepsIds(b, p);
        forall q | q in plans[1..] ensures HasUnit(next, q.unit.id) {
          assert q in plans;
        }
      }
      ApplyIsUpdate(next, plans[1..]);
    }
  }

  /** `get_player_for_faction`: the first player holding the faction, or ValueError. */
  function GetPlayerForFaction(players: seq<Player>, f: FactionId): (r: Result<Player, Error>)
    ensures r.Success? <==> exists p :: p in players && HasFaction(p, f)
    ensures r.Failure? ==> r.error == NoPlayerForFaction
    ensures r.Success? ==> exists i :: (0 <= i < |players| && players[i] == r.value && HasFaction(r.value, f) &&
      (forall j :: 0 <= j < i ==> !HasFaction(players[j], f)))
  {
    if |players| == 0 then Failure(NoPlayerForFaction)
    else if HasFaction(players[0], f) then Success(players[0])
    else
      var r := GetPlayerForFaction(players[1..], f);
      assert forall p :: p in players ==> p == players[0] || p in players[1..];
      if r.Success? then
        var i :| 0 <= i < |players[1..]| && players[1..][i] == r.value && HasFaction(r.value, f) &&
          (forall j :: 0 <= j < i ==> !HasFaction(players[1..][j], f));
        assert players[i + 1] == r.value;
        assert forall j :: 1 <= j < i + 1 ==> players[j] == players[1..][j - 1];
        r
      else r
  }

  /** The factions of every listed player other than `owner`, in list order. */
  function FactionsOfOthers(players: seq<Player>, owner: Player): (r: seq<FactionId>)
    ensures forall x :: x in r <==> exists p :: p in players && p != owner && x in p.factions
  {
    if |players| == 0 then []
    else
      var rest := FactionsOfOthers(players[1..], owner);
      assert forall p :: p in players <==> p == players[0] || p in players[1..];
      if players[0] != owner then players[0].factions + rest else rest
  }

  /** The loop of `get_opposing_factions` as written: walk the players front to back, extending `acc`. */
  function CollectOpposing(players: seq<Player>, owner: Player, acc: seq<FactionId>): seq<FactionId>
    decreases |players|
  {
    if |players| == 0 then acc
    else CollectOpposing(players[1..], owner, if players[0] != owner then acc + players[0].factions else acc)
  }

  /**
   * The loop and `FactionsOfOthers` agree entry for entry, so the result keeps
   * every faction of every other player, in player order, duplicates included.
   */
  lemma {:induction false} CollectOpposingMatches(players: seq<Player>, owner: Player, acc: seq<FactionId>)
    ensures CollectOpposing(players, owner, acc) == acc + FactionsOfOthers(players, owner)
    decreases |players|
  {
    if |players| == 0 {
      assert acc + [] == acc;
    } else {
      var next := if players[0] != owner then acc + players[0].factions else acc;
      CollectOpposingMatches(players[1..], owner, next);
      if players[0] != owner {
        assert acc + players[0].factions + FactionsOfOthers(players[1..], owner)
          == acc + (players[0].factions + FactionsOfOthers(players[1..], owner));
      }
    }
  }

  /** Splitting the player list splits the opposing factions at the same place. */
  lemma {:induction false} FactionsOfOthersConcat(a: seq<Player>, b: seq<Player>, owner: Player)
    ensures FactionsOfOthers(a + b, owner) == FactionsOfOthers(a, owner) + FactionsOfOthers(b, owner)
    decreases |a|
  {
    if |a| == 0 {
      assert a + b == b;
    } else {
      assert (a + b)[1..] == a[1..] + b;
      FactionsOfOthersConcat(a[1..], b, owner);
      if a[0] != owner {
        assert a[0].factions + (FactionsOfOthers(a[1..], owner) + FactionsOfOthers(b, owner))
          == a[0].factions + FactionsOfOthers(a[1..], owner) + FactionsOfOthers(b, owner);
      }
    }
  }

  /**
   * `get_opposing_factions`: the factions of all players other than the
   * faction's owner (compared by value). Raises when no player holds it.
   */
  function GetOpposingFactions(g: Game, f: FactionId): (r: Result<seq<FactionId>, Error>)
    ensures r.Success? <==> exists p :: p in g.players && HasFaction(p, f)
    ensures r.Failure? ==> r.error == NoPlayerForFaction
    ensures r.Success? ==> forall x :: x in r.value <==>
      exists p :: p in g.players && p != GetPlayerForFaction(g.players, f).value && x in p.factions
    ensures r.Success? ==> r.value == CollectOpposing(g.players, GetPlayerForFaction(g.players, f).value, [])
  {
    match GetPlayerForFaction(g.players, f)
      case Failure(e) => Failure(e)
      case Success(owner) =>
        CollectOpposingMatches(g.players, owner, []);
        Success(FactionsOfOthers(g.players, owner))
  }

  /** With two players, each one's opponents are exactly the other's factions. */
  lemma TwoPlayersOppose(a: Player, b: Player, board: Board, f: FactionId)
    requires a != b && HasFaction(a, f)
    ensures GetOpposingFactions(NewGame([a, b], board), f) == Success(FactionsOfOthers([a, b], a))
    ensures forall x :: x in GetOpposingFactions(NewGame([a, b], board), f).value <==> x in b.factions
  {
    assert GetPlayerForFaction([a, b], f) == Success(a);
  }
}

=== FILE: game_factory.dfy ===
/**
 * The game factory: remembers a board size, the players, the units and each
 * unit's coordinates at construction, and builds a fresh game from them on
 * every request.
 */
module GameFactory {
  import opened Wrappers
  import opened HexGrid
  import opened Players
  import opened Units
  import opened Boards
  import opened Games

  /**
   * A factory. `starts[i]` is the coordinate unit `i` had when the factory was
   * built (the source keys this record by unit object).
   */
  datatype Factory = Factory(rows: int, columns: int, players: seq<Player>, units: seq<Unit>, starts: seq<Option<Coord>>)

  predicate WellFormed(f: Factory) {
    |f.starts| == |f.units|
  }

  /** The constructor: records every unit's coordinates at this moment. */
  function NewFactory(rows: int, columns: int, players: seq<Player>, units: seq<Unit>): Factory
  {
    Factory(rows, columns, players, units, seq(|units|, i requires 0 <= i < |units| => units[i].coords))
  }

  /** The units the placement loop registers, in order: each unit with a recorded start, placed there. */
  function Placements(units: seq<Unit>, starts: seq<Option<Coord>>): (r: seq<Unit>)
    requires |starts| == |units|
    ensures |r| <= |units|
  {
    if |units| == 0 then []
    else
      var n := |units| - 1;
      Placements(units[..n], starts[..n]) + (if starts[n].Some? then [units[n].(coords := starts[n])] else [])
  }

  /** A unit is placed exactly when it had a recorded start, and it is placed there. */
  lemma {:induction false} PlacementsMembers(units: seq<Unit>, starts: seq<Option<Coord>>)
    requires |starts| == |units|
    ensures forall v :: v in Placements(units, starts) <==>
      exists j :: 0 <= j < |units| && starts[j].Some? && v == units[j].(coords := starts[j])
  {
    if |units| > 0 {
      var n := |units| - 1;
      PlacementsMembers(units[..n], starts[..n]);
      forall v | v in Placements(units, starts)
        ensures exists j :: 0 <= j < |units| && starts[j].Some? && v == units[j].(coords := starts[j])
      {
        if v in Placements(units[..n], starts[..n]) {
          var j :| 0 <= j < n && starts[..n][j].Some? && v == units[..n][j].(coords := starts[..n][j]);
          assert starts[j] == starts[..n][j] && units[j] == units[..n][j];
        } else {
          assert starts[n].Some? && v == units[n].(coords := starts[n]);
        }
      }
      forall j | 0 <= j < |units| && starts[j].Some? ensures units[j].(coords := starts[j]) in Placements(units, starts) {
        if j < n {
          assert starts[..n][j] == starts[j] && units[..n][j] == units[j];
        }
      }
    }
  }

  /** The placement loop of `create_game`: units without a recorded start are skipped; an off-board start raises. */
  function PlaceUnits(b: Board, units: seq<Unit>, starts: seq<Option<Coord>>): (r: Result<Board, Error>)
    requires Valid(b) && |starts| == |units|
    ensures r.Success? ==> Valid(r.value) && SameGrid(b, r.value)
  {
    if |units| == 0 then Success(b)
    else
      var n := |units| - 1;
      match PlaceUnits(b, units[..n], starts[..n])
        case Failure(e) => Failure(e)
        case Success(mid) =>
          if starts[n].None? then Success(mid)
          else AddUnit(mid, units[n], starts[n].value)
  }

  /** Placement succeeds exactly when every recorded start is on the board; otherwise it raises ValueError. */
  lemma {:induction false} PlaceUnitsSucceeds(b: Board, units: seq<Unit>, starts: seq<Option<Coord>>)
    requires Valid(b) && |starts| == |units|
    ensures PlaceUnits(b, units, starts).Success? <==>
      forall i :: 0 <= i < |units| && starts[i].Some? ==> InBounds(b, starts[i].value)
    ensures PlaceUnits(b, units, starts).Failure? ==> PlaceUnits(b, units, starts).error == OutOfBounds
  {
    if |units| > 0 {
      var n := |units| - 1;
      PlaceUnitsSucceeds(b, units[..n], starts[..n]);
      var pre := PlaceUnits(b, units[..n], starts[..n]);
      if pre.Success? {
        assert SameGrid(b, pre.value);
        forall i | 0 <= i < n && starts[i].Some? ensures InBounds(b, starts[i].value) {
          assert starts[..n][i] == starts[i];
        }
      } else {
        var i :| 0 <= i < n && starts[..n][i].Some? && !InBounds(b, starts[..n][i].value);
        assert starts[i] == starts[..n][i];
      }
    }
  }

  /**
   * On an empty board, such as the fresh one `create_game` makes, units with
   * distinct ids are registered in list order, each at its recorded start.
   */
  lemma {:induction false} PlaceAppends(b: Board, units: seq<Unit>, starts: seq<Option<Coord>>)
    requires Valid(b) && b.units == [] && |starts| == |units| && DistinctIds(units)
    requires PlaceUnits(b, units, starts).Success?
    ensures PlaceUnits(b, units, starts).value.units == Placements(units, starts)
  {
    if |units| > 0 {
      var n := |units| - 1;
      var us, ss := units[..n], starts[..n];
      var pre := PlaceUnits(b, us, ss);
      assert pre.Success?;
      PlaceAppends(b, us, ss);
      if starts[n].Some? {
        AppendOne(pre.value, units, starts);
      }
    }
  }

  /** Adding the last unit to the board the earlier units were placed on extends the placements by it. */
  lemma AppendOne(mid: Board, units: seq<Unit>, starts: seq<Option<Coord>>)
    requires |starts| == |units| > 0 && DistinctIds(units) && starts[|units| - 1].Some?
    requires Valid(mid) && mid.units == Placements(units[..|units| - 1], starts[..|units| - 1])
    requires AddUnit(mid, units[|units| - 1], starts[|units| - 1].value).Success?
    ensures AddUnit(mid, units[|units| - 1], starts[|units| - 1].value).value.units == Placements(units, starts)
  {
    var n := |units| - 1;
    var u, c := units[n], starts[n].value;
    FreshId(units, starts);
    AddFresh(mid, u, c);
  }

  /** No earlier placement carries the last unit's id. */
  lemma FreshId(units: seq<Unit>, starts: seq<Option<Coord>>)
    requires |starts| == |units| > 0 && DistinctIds(units)
    ensures forall v :: v in Placements(units[..|units| - 1], starts[..|units| - 1]) ==> v.id != units[|units| - 1].id
  {
    var n := |units| - 1;
    PlacementsMembers(units[..n], starts[..n]);
    forall v | v in Placements(units[..n], starts[..n]) ensures v.id != units[n].id {
      var j :| 0 <= j < n && starts[..n][j].Some? && v == units[..n][j].(coords := starts[..n][j]);
      assert units[..n][j] == units[j];
    }
  }

  /** Adding a unit whose id is not registered appends it. */
  lemma AddFresh(b: Board, u: Unit, c: Coord)
    requires Valid(b) && InBounds(b, c)
    requires forall v :: v in b.units ==> v.id != u.id
    ensures AddUnit(b, u, c).value.units == b.units + [u.(coords := Some(c))]
  {
    assert IndexOf(b.units, u.id).None?;
  }

  /**
   * `create_game`: a fresh board of the recorded size, a game over the
   * recorded players, and every unit with a recorded start placed there.
   */
  function CreateGame(f: Factory): (r: Result<Game, Error>)
    requires WellFormed(f)
    ensures r.Success? <==> forall i :: 0 <= i < |f.units| && f.starts[i].Some? ==>
      InBounds(NewBoard(f.rows, f.columns), f.starts[i].value)
    ensures r.Failure? ==> r.error == OutOfBounds
    ensures r.Success? ==> r.value.players == f.players && r.value.current == NewGame(f.players, r.value.board).current
    ensures r.Success? ==> Valid(r.value.board) && SameGrid(NewBoard(f.rows, f.columns), r.value.board)
  {
    PlaceUnitsSucceeds(NewBoard(f.rows, f.columns), f.units, f.starts);
    match PlaceUnits(NewBoard(f.rows, f.columns), f.units, f.starts)
      case Failure(e) => Failure(e)
      case Success(board) => Success(NewGame(f.players, board))
  }

  /**
   * With distinct unit ids, the new game's board holds exactly the units that
   * had coordinates when the factory was built, in list order, each at those
   * coordinates.
   */
  lemma CreateGamePlacesAtStarts(f: Factory, i: nat)
    requires WellFormed(f) && DistinctIds(f.units) && i < |f.units| && CreateGame(f).Success?
    ensures CreateGame(f).value.board.units == Placements(f.units, f.starts)
    ensures f.starts[i].Some? ==>
      GetUnitById(CreateGame(f).value.board, f.units[i].id) == Success(f.units[i].(coords := f.starts[i]))
    ensures f.starts[i].None? ==> !HasUnit(CreateGame(f).value.board, f.units[i].id)
  {
    var b := NewBoard(f.rows, f.columns);
    PlaceAppends(b, f.units, f.starts);
    var board := CreateGame(f).value.board;
    assert board.units == Placements(f.units, f.starts);
    PlacementsMembers(f.units, f.starts);
    if f.starts[i].Some? {
      var placed := f.units[i].(coords := f.starts[i]);
      assert placed in board.units;
      var g := GetUnitById(board, f.units[i].id).value;
      var x, y :| 0 <= x < |board.units| && 0 <= y < |board.units| && board.units[x] == g && board.units[y] == placed;
      assert x == y;
    } else if HasUnit(board, f.units[i].id) {
      assert false;
    }
  }

  /**
   * Moving the units after the factory was built does not change the games it
   * creates: every game starts from the recorded positions.
   */
  lemma CreateGameIgnoresLaterMoves(f: Factory, moved: seq<Unit>)
    requires WellFormed(f) && |moved| == |f.units|
    requires forall i :: 0 <= i < |moved| ==> moved[i].(coords := f.units[i].coords) == f.units[i]
    ensures CreateGame(f.(units := moved)) == CreateGame(f)
  {
    PlaceIgnoresCoords(NewBoard(f.rows, f.columns), f.units, moved, f.starts);
  }

  lemma {:induction false} PlaceIgnoresCoords(b: Board, us: seq<Unit>, vs: seq<Unit>, starts: seq<Option<Coord>>)
    requires Valid(b) && |us| == |vs| == |starts|
    requires forall i :: 0 <= i < |vs| ==> vs[i].(coords := us[i].coords) == us[i]
    ensures PlaceUnits(b, vs, starts) == PlaceUnits(b, us, starts)
  {
    if |us| > 0 {
      var n := |us| - 1;
      PlaceIgnoresCoords(b, us[..n], vs[..n], starts[..n]);
      var mid := PlaceUnits(b, us[..n], starts[..n]);
      if mid.Success? && starts[n].Some? {
        var c := starts[n].value;
        assert vs[n].(coords := Some(c)) == us[n].(coords := Some(c));
        assert AddUnit(mid.value, vs[n], c) == AddUnit(mid.value, us[n], c);
      }
    }
  }
}

=== FILE: hex.dfy ===
/**
 * Offset hex-grid geometry: coordinates, the Hex value with its coordinate-only
 * equality, and the two column-parity neighbour tables shared by the board and
 * by unit adjacency.
 */
module HexGrid {
  import opened Wrappers

  /** A (row, column) grid coordinate. */
  datatype Coord = Coord(row: int, column: int)

  /** Terrain shared by many hexes; entering a hex costs its `moveCost`. */
  datatype Terrain = Terrain(name: string, hexColor: string, moveCost: int)

  /** A board hex: coordinates plus optional terrain. */
  datatype Hex = Hex(row: int, column: int, terrain: Option<Terrain>)

  function CoordOf(h: Hex): Coord {
    Coord(h.row, h.column)
  }

  /** The right-hand operand of `Hex.__eq__`: another hex, a tuple of ints, or anything else. */
  datatype Operand = HexOperand(hex: Hex) | TupleOperand(items: seq<int>) | OtherOperand

  /**
   * `Hex.__eq__`. A tuple is compared element-wise on its first two entries with
   * Python's short-circuit `and`, so a tuple that is too short raises IndexError
   * only when the comparison reaches the missing entry.
   */
  function HexEquals(h: Hex, other: Operand): (r: Result<bool, Error>)
    ensures r.Success? <==> !other.TupleOperand? || |other.items| >= 2
                            || (|other.items| == 1 && other.items[0] != h.row)
  {
    match other
    case HexOperand(o) => Success(h.row == o.row && h.column == o.column)
    case TupleOperand(items) =>
      if |items| == 0 then Failure(TupleIndex)
      else if h.row != items[0] then Success(false)
      else if |items| == 1 then Failure(TupleIndex)
      else Success(h.column == items[1])
    case OtherOperand => Success(false)
  }

  /** The value `Hex.__hash__` hashes: the (row, column) pair alone. */
  function HashKey(h: Hex): (int, int) {
    (h.row, h.column)
  }

  /** Two hexes are equal iff their coordinates match; terrain plays no part. */
  lemma HexEqualityIgnoresTerrain(a: Hex, b: Hex)
    ensures HexEquals(a, HexOperand(b)) == Success(CoordOf(a) == CoordOf(b))
    ensures HexEquals(a, HexOperand(b)) == HexEquals(b, HexOperand(a))
    ensures HexEquals(a, HexOperand(a)) == Success(true)
  {
  }

  /** A hex equals a (row, column) tuple with the same coordinates. */
  lemma HexEqualsMatchingTuple(h: Hex, r: int, c: int)
    ensures HexEquals(h, TupleOperand([r, c])) == Success(h.row == r && h.column == c)
  {
  }

  /** The hash is consistent with equality: equal hexes hash alike, and conversely. */
  lemma HashConsistentWithEquality(a: Hex, b: Hex)
    ensures HexEquals(a, HexOperand(b)) == Success(true) <==> HashKey(a) == HashKey(b)
  {
  }

  /** Neighbour offsets (drow, dcolumn) for a hex in an even column. */
  const EvenColumnDirections: seq<(int, int)> :=
    [(-1, 0), (-1, 1), (0, 1), (1, 0), (0, -1), (-1, -1)]

  /** Neighbour offsets (drow, dcolumn) for a hex in an odd column. */
  const OddColumnDirections: seq<(int, int)> :=
    [(-1, 0), (0, 1), (1, 1), (1, 0), (1, -1), (0, -1)]

  /** The offset table for a column, chosen by `column % 2`. */
  function Directions(column: int): seq<(int, int)> {
    if column % 2 == 0 then EvenColumnDirections else OddColumnDirections
  }

  function Shift(c: Coord, d: (int, int)): Coord {
    Coord(c.row + d.0, c.column + d.1)
  }

  /** The six coordinates around `c`, in table order, before any bounds check. */
  function NeighbourCandidates(c: Coord): (r: seq<Coord>)
    ensures |r| == 6
  {
    var ds := Directions(c.column);
    [Shift(c, ds[0]), Shift(c, ds[1]), Shift(c, ds[2]),
     Shift(c, ds[3]), Shift(c, ds[4]), Shift(c, ds[5])]
  }

  predicate IsNeighbour(a: Coord, b: Coord) {
    b in NeighbourCandidates(a)
  }

  /** Adjacency on the offset grid is symmetric and irreflexive, and the six candidates are distinct. */
  lemma NeighbourRelation(a: Coord, b: Coord)
    ensures IsNeighbour(a, b) ==> IsNeighbour(b, a)
    ensures !IsNeighbour(a, a)
    ensures forall i, j :: 0 <= i < j < 6 ==> NeighbourCandidates(a)[i] != NeighbourCandidates(a)[j]
  {
    if IsNeighbour(a, b) {
      if a.column % 2 == 0 {
        assert (b.column - 1) % 2 == 0 ==> b.column % 2 == 1;
      }
    }
  }
}

=== FILE: movement.dfy ===
/**
 * The movement calculator: Dijkstra searches over terrain costs. Entering a
 * hex costs its terrain's move cost (one point without terrain), a unit stops
 * on entering an enemy's zone of control, and the priority queue is a binary
 * heap ordered by (cost, insertion counter).
 */
module Movement {
  import opened Wrappers
  import opened HexGrid
  import opened Units
  import opened Boards
  import opened Routes
  import opened BoardSearch

  /** A heap entry: cost so far, insertion counter, hex. */
  type Entry = (int, int, Coord)

  /** Heap order: by cost, ties broken by the insertion counter. */
  predicate Precedes(x: Entry, y: Entry) {
    x.0 < y.0 || (x.0 == y.0 && x.1 <= y.1)
  }

  /** Position of the entry a heap pop returns: one that precedes every other. */
  function MinIndex(q: seq<Entry>): (i: int)
    requires |q| > 0
    ensures 0 <= i < |q|
    ensures forall j :: 0 <= j < |q| ==> Precedes(q[i], q[j])
  {
    if |q| == 1 then 0
    else
      var k := MinIndex(q[1..]) + 1;
      if Precedes(q[0], q[k]) then 0 else k
  }

  /** The queue without its `i`-th entry. */
  function Remove(q: seq<Entry>, i: int): (r: seq<Entry>)
    requires 0 <= i < |q|
    ensures |r| == |q| - 1
  {
    q[..i] + q[i + 1..]
  }

  /** Removing an entry keeps every other one and adds nothing. */
  lemma RemoveMembers(q: seq<Entry>, i: int)
    requires 0 <= i < |q|
    ensures forall e :: e in Remove(q, i) ==> e in q
    ensures forall j :: 0 <= j < |q| && j != i ==> q[j] in Remove(q, i)
  {
    var r := Remove(q, i);
    forall j | 0 <= j < |q| && j != i
      ensures q[j] in r
    {
      if j < i { assert r[j] == q[j]; } else { assert r[j - 1] == q[j]; }
    }
  }

  /**
   * Pairs (hex, cost) that a label could still drop to: every improvement
   * removes at least one, so the search terminates.
   */
  ghost function Potential(b: Board, dist: Labels, budget: int): set<(Coord, int)> {
    set c, k | c in Grid(b) && 0 <= k <= budget && (c !in dist || k < dist[c]) :: (c, k)
  }

  /** Lowering the label of an on-board hex to a cost within budget shrinks the potential. */
  lemma PotentialDrops(b: Board, budget: int, dist: Labels, n: Coord, k: int)
    requires InBounds(b, n) && 0 <= k <= budget && (n !in dist || k < dist[n])
    ensures Potential(b, dist[n := k], budget) < Potential(b, dist, budget)
  {
    InGrid(b, n);
    var before, after := Potential(b, dist, budget), Potential(b, dist[n := k], budget);
    assert (n, k) in before;
    forall x | x in after ensures x in before {
      var c, j :| c in Grid(b) && 0 <= j <= budget && (c !in dist[n := k] || j < dist[n := k][c]) && x == (c, j);
    }
  }

  /** Hex `c` is labelled and an entry carrying its current label is still queued. */
  predicate Current(queue: seq<Entry>, dist: Labels, c: Coord) {
    c in dist && exists e :: e in queue && e.2 == c && e.0 == dist[c]
  }

  /** Queued entries never undercut their hex's label. */
  ghost predicate Entries(queue: seq<Entry>, dist: Labels) {
    forall e :: e in queue ==> e.2 in dist && dist[e.2] <= e.0
  }

  /** Every label outside `skip` is relaxed or still queued with its current cost. */
  ghost predicate Settled(b: Board, u: Unit, rg: Region, budget: int, dist: Labels, queue: seq<Entry>, skip: set<Coord>)
    requires Laid(b)
  {
    forall c {:trigger Relaxed(b, u, ByTerrain, rg, budget, dist, c)} {:trigger Current(queue, dist, c)} ::
      c in dist && c !in skip ==> Relaxed(b, u, ByTerrain, rg, budget, dist, c) || Current(queue, dist, c)
  }

  /** The target, once labelled, stays queued until it is popped. */
  ghost predicate TargetQueued(queue: seq<Entry>, dist: Labels, target: Option<Coord>) {
    target.Some? && target.value in dist ==> Current(queue, dist, target.value)
  }

  /**
   * The Dijkstra invariant: labels are non-negative and backed by recorded
   * routes, with `Entries`, `Settled` and `TargetQueued`. The search without
   * a target stops expanding hexes at the allowance, so its routes also depart
   * below it.
   */
  ghost predicate SearchState(b: Board, u: Unit, rg: Region, start: Coord, budget: int, dist: Labels,
                              paths: map<Coord, seq<Coord>>, queue: seq<Entry>, skip: set<Coord>,
                              target: Option<Coord>)
    requires Laid(b)
  {
    Sound(b, u, ByTerrain, rg, start, budget, target.None?, dist, paths) &&
    (forall c :: c in dist ==> dist[c] >= 0) &&
    Entries(queue, dist) && Settled(b, u, rg, budget, dist, queue, skip) && TargetQueued(queue, dist, target)
  }

  /**
   * Hex `c` other than the start steps from a labelled predecessor whose label
   * is lower by at least the step's cost, and which is strictly lower or was
   * labelled earlier: `stamp` records the insertion counter of each label.
   */
  ghost predicate Linked(b: Board, u: Unit, rg: Region, start: Coord, dist: Labels, pred: map<Coord, Option<Coord>>,
                         stamp: map<Coord, nat>, c: Coord)
    requires Laid(b) && c in dist
  {
    c in pred && c in stamp && (c != start ==>
      pred[c].Some? && pred[c].value in dist && pred[c].value in stamp && Step(b, u, rg, pred[c].value, c) &&
      dist[pred[c].value] + StepCost(b, ByTerrain, c) <= dist[c] &&
      (dist[pred[c].value] < dist[c] || stamp[pred[c].value] < stamp[c]))
  }

  /** Predecessor links: the start has none, every other labelled hex is linked, and every stamp is below the counter. */
  ghost predicate Chained(b: Board, u: Unit, rg: Region, start: Coord, dist: Labels, pred: map<Coord, Option<Coord>>,
                          stamp: map<Coord, nat>, counter: int)
    requires Laid(b)
  {
    start in pred && pred[start].None? &&
    (forall c :: c in stamp ==> stamp[c] < counter) &&
    forall c {:trigger Linked(b, u, rg, start, dist, pred, stamp, c)} :: c in dist ==>
      Linked(b, u, rg, start, dist, pred, stamp, c)
  }

  /** The initial label, route and queue entry of the start hex satisfy the invariant. */
  lemma SearchStart(b: Board, u: Unit, rg: Region, start: Coord, budget: int, target: Option<Coord>)
    requires Laid(b)
    ensures SearchState(b, u, rg, start, budget, map[start := 0], map[start := [start]], [(0, 0, start)], {}, target)
  {
    var dist, paths, queue := map[start := 0], map[start := [start]], [(0, 0, start)];
    TrivialRoute(b, u, ByTerrain, rg, start);
    assert Witnessed(b, u, ByTerrain, rg, start, budget, target.None?, dist, paths, start);
    assert queue[0] in queue;
    assert Current(queue, dist, start);
  }

  /** Lowering a neighbour's label through an expanded hex and queueing it keeps the invariant and shrinks the potential. */
  lemma SearchLabel(b: Board, u: Unit, rg: Region, start: Coord, budget: int, dist: Labels,
                    paths: map<Coord, seq<Coord>>, queue: seq<Entry>, skip: set<Coord>, target: Option<Coord>,
                    current: Coord, n: Coord, k: int, counter: int)
    requires Laid(b) && NonNegativeCosts(b)
    requires SearchState(b, u, rg, start, budget, dist, paths, queue, skip, target)
    requires current in dist && Step(b, u, rg, current, n) && (target.None? ==> dist[current] < budget)
    requires k == dist[current] + StepCost(b, ByTerrain, n) && k <= budget
    requires n !in dist || k < dist[n]
    ensures SearchState(b, u, rg, start, budget, dist[n := k], paths[n := paths[current] + [n]],
                        queue + [(k, counter, n)], skip, target)
    ensures Potential(b, dist[n := k], budget) < Potential(b, dist, budget)
  {
    assert StepCost(b, ByTerrain, n) >= 0;
    SoundLabel(b, u, ByTerrain, rg, start, budget, target.None?, dist, paths, current, n);
    SettledLabel(b, u, rg, budget, dist, queue, skip, n, k, counter);
    TargetLabel(queue, dist, target, n, k, counter);
    PotentialDrops(b, budget, dist, n, k);
  }

  /** A lowered label queued with its new cost keeps every label relaxed or current. */
  lemma SettledLabel(b: Board, u: Unit, rg: Region, budget: int, dist: Labels, queue: seq<Entry>, skip: set<Coord>,
                     n: Coord, k: int, counter: int)
    requires Laid(b) && Settled(b, u, rg, budget, dist, queue, skip) && (n !in dist || k < dist[n])
    ensures Settled(b, u, rg, budget, dist[n := k], queue + [(k, counter, n)], skip)
  {
    var dist', queue' := dist[n := k], queue + [(k, counter, n)];
    assert queue'[|queue|] in queue';
    forall c | c in dist' && c !in skip
      ensures Relaxed(b, u, ByTerrain, rg, budget, dist', c) || Current(queue', dist', c)
    {
      if c != n {
        if Relaxed(b, u, ByTerrain, rg, budget, dist, c) {
          RelaxedStays(b, u, ByTerrain, rg, budget, dist, dist', c);
        } else {
          var e :| e in queue && e.2 == c && e.0 == dist[c];
          assert e in queue';
        }
      }
    }
  }

  lemma TargetLabel(queue: seq<Entry>, dist: Labels, target: Option<Coord>, n: Coord, k: int, counter: int)
    requires TargetQueued(queue, dist, target)
    ensures TargetQueued(queue + [(k, counter, n)], dist[n := k], target)
  {
    var queue' := queue + [(k, counter, n)];
    assert queue'[|queue|] in queue';
    if target.Some? && target.value in dist && target.value != n {
      var e :| e in queue && e.2 == target.value && e.0 == dist[target.value];
      assert e in queue';
    }
  }

  /** Popping entry `i` keeps the invariant: a stale entry leaves nothing behind; a current one leaves its hex to be expanded, or relaxed already when it is over budget or in a zone of control. */
  lemma SearchPop(b: Board, u: Unit, rg: Region, start: Coord, budget: int, dist: Labels,
                  paths: map<Coord, seq<Coord>>, queue: seq<Entry>, target: Option<Coord>, i: int)
    requires Laid(b) && SearchState(b, u, rg, start, budget, dist, paths, queue, {}, target)
    requires 0 <= i < |queue|
    ensures queue[i].2 in dist && dist[queue[i].2] <= queue[i].0
    ensures queue[i].0 > dist[queue[i].2] ==>
      SearchState(b, u, rg, start, budget, dist, paths, Remove(queue, i), {}, target)
    ensures queue[i].0 == dist[queue[i].2] && target != Some(queue[i].2) ==>
      SearchState(b, u, rg, start, budget, dist, paths, Remove(queue, i), {queue[i].2}, target)
    ensures queue[i].0 == dist[queue[i].2] && target != Some(queue[i].2) &&
            (queue[i].0 >= budget || EnemyAdjacent(b, u, queue[i].2)) ==>
      SearchState(b, u, rg, start, budget, dist, paths, Remove(queue, i), {}, target)
  {
    var popped, rest := queue[i], Remove(queue, i);
    assert popped in queue;
    RemoveMembers(queue, i);
    forall c | c in dist && Current(queue, dist, c) && c != popped.2
      ensures Current(rest, dist, c)
    {
      var e :| e in queue && e.2 == c && e.0 == dist[c];
      var j :| 0 <= j < |queue| && queue[j] == e;
      assert j != i;
    }
    if popped.0 > dist[popped.2] {
      forall c | c in dist && Current(queue, dist, c) && c == popped.2
        ensures Current(rest, dist, c)
      {
        var e :| e in queue && e.2 == c && e.0 == dist[c];
        var j :| 0 <= j < |queue| && queue[j] == e;
        assert j != i;
      }
    }
  }

  /**
   * Once the queue is empty, the start and every hex reachable within budget
   * are labelled and the target is not; without a target, nothing else is
   * labelled.
   */
  lemma SearchDone(b: Board, u: Unit, rg: Region, start: Coord, budget: int, dist: Labels,
                   paths: map<Coord, seq<Coord>>, target: Option<Coord>)
    requires Laid(b) && NonNegativeCosts(b)
    requires SearchState(b, u, rg, start, budget, dist, paths, [], {}, target)
    ensures forall c :: c == start || CanReach(b, u, ByTerrain, rg, start, budget, c) ==> c in dist
    ensures target.None? ==> forall c :: c in dist ==> c == start || CanReach(b, u, ByTerrain, rg, start, budget, c)
    ensures target.Some? ==> target.value !in dist
  {
    forall c | c in dist ensures Relaxed(b, u, ByTerrain, rg, budget, dist, c) {
      assert !Current([], dist, c);
    }
    forall c | CanReach(b, u, ByTerrain, rg, start, budget, c)
      ensures c in dist
    {
      var p :| IsRoute(b, u, rg, start, p) && Last(p) == c && RouteCost(b, ByTerrain, p) <= budget &&
        Departs(b, ByTerrain, budget, p);
      RelaxedLabelsReach(b, u, ByTerrain, rg, start, budget, budget + 1, dist, p);
    }
    if target.None? {
      forall c | c in dist && c != start
        ensures CanReach(b, u, ByTerrain, rg, start, budget, c)
      {
        assert Witnessed(b, u, ByTerrain, rg, start, budget, true, dist, paths, c);
      }
    }
  }

  /** A current entry that precedes the whole queue carries the cheapest cost of any route to its hex within budget that departs below it. */
  lemma HeadOptimal(b: Board, u: Unit, rg: Region, start: Coord, budget: int, dist: Labels,
                    paths: map<Coord, seq<Coord>>, queue: seq<Entry>, target: Option<Coord>, i: int, p: seq<Coord>)
    requires Laid(b) && NonNegativeCosts(b)
    requires SearchState(b, u, rg, start, budget, dist, paths, queue, {}, target)
    requires 0 <= i < |queue| && forall j :: 0 <= j < |queue| ==> Precedes(queue[i], queue[j])
    requires queue[i].2 in dist && queue[i].0 == dist[queue[i].2]
    requires IsRoute(b, u, rg, start, p) && Last(p) == queue[i].2 && RouteCost(b, ByTerrain, p) <= budget
    requires Departs(b, ByTerrain, budget, p)
    ensures dist[queue[i].2] <= RouteCost(b, ByTerrain, p)
  {
    var head := queue[i];
    forall c | c in dist && dist[c] < head.0
      ensures Relaxed(b, u, ByTerrain, rg, budget, dist, c)
    {
    }
    if RouteCost(b, ByTerrain, p) < head.0 {
      RelaxedLabelsReach(b, u, ByTerrain, rg, start, budget, head.0, dist, p);
    }
  }

  /**
   * What holds after the first `k` neighbours of `current` are handled: the
   * invariant with `current` set aside, `current`'s label untouched (and
   * below the allowance in the search without a target), either a smaller
   * potential or nothing changed, and every handled allowed neighbour over
   * budget or labelled no worse than through `current`.
   */
  ghost predicate Relaxing(b: Board, u: Unit, rg: Region, start: Coord, budget: int, target: Option<Coord>,
                           current: Coord, neighbours: seq<Coord>, k: int, dist0: Labels, queue0: seq<Entry>,
                           dist: Labels, paths: map<Coord, seq<Coord>>, queue: seq<Entry>)
    requires Laid(b)
  {
    0 <= k <= |neighbours| && neighbours == NeighbourCoords(b, current) && !EnemyAdjacent(b, u, current) &&
    SearchState(b, u, rg, start, budget, dist, paths, queue, {current}, target) &&
    current in dist0 && current in dist && dist[current] == dist0[current] &&
    (target.None? ==> dist[current] < budget) &&
    (Potential(b, dist, budget) < Potential(b, dist0, budget) || (dist == dist0 && queue == queue0)) &&
    Handled(b, rg, budget, dist, current, neighbours, k)
  }

  /** Every allowed neighbour among the first `k` is too dear to enter or labelled no worse than through `current`. */
  ghost predicate Handled(b: Board, rg: Region, budget: int, dist: Labels, current: Coord, neighbours: seq<Coord>, k: int)
    requires Laid(b) && current in dist
  {
    forall j :: 0 <= j < k && j < |neighbours| && Allows(rg, neighbours[j]) ==>
      dist[current] + StepCost(b, ByTerrain, neighbours[j]) > budget ||
      (neighbours[j] in dist && dist[neighbours[j]] <= dist[current] + StepCost(b, ByTerrain, neighbours[j]))
  }

  /** Lowering one neighbour's label keeps what the earlier neighbours achieved. */
  lemma RelaxingLabel(b: Board, u: Unit, rg: Region, start: Coord, budget: int, target: Option<Coord>,
                      current: Coord, neighbours: seq<Coord>, k: int, dist0: Labels, queue0: seq<Entry>,
                      dist: Labels, paths: map<Coord, seq<Coord>>, queue: seq<Entry>, n: Coord, cost: int, counter: int)
    requires Laid(b) && NonNegativeCosts(b) && 0 <= k < |neighbours| && neighbours[k] == n
    requires Relaxing(b, u, rg, start, budget, target, current, neighbours, k, dist0, queue0, dist, paths, queue)
    requires Allows(rg, n) && cost == dist[current] + StepCost(b, ByTerrain, n) && cost <= budget
    requires n !in dist || cost < dist[n]
    ensures Relaxing(b, u, rg, start, budget, target, current, neighbours, k + 1, dist0, queue0,
                     dist[n := cost], paths[n := paths[current] + [n]], queue + [(cost, counter, n)])
  {
    assert n in neighbours;
    SearchLabel(b, u, rg, start, budget, dist, paths, queue, {current}, target, current, n, cost, counter);
    var dist' := dist[n := cost];
    assert StepCost(b, ByTerrain, n) >= 0;
    assert n != current && dist'[current] == dist[current];
    forall j | 0 <= j < k + 1 && j < |neighbours| && Allows(rg, neighbours[j])
      ensures dist'[current] + StepCost(b, ByTerrain, neighbours[j]) > budget ||
              (neighbours[j] in dist' && dist'[neighbours[j]] <= dist'[current] + StepCost(b, ByTerrain, neighbours[j]))
    {
    }
    if Potential(b, dist, budget) < Potential(b, dist0, budget) {
      assert Potential(b, dist', budget) < Potential(b, dist0, budget);
    }
  }

  /** After every neighbour is handled, `current` is relaxed and the full invariant is back. */
  lemma RelaxingDone(b: Board, u: Unit, rg: Region, start: Coord, budget: int, target: Option<Coord>,
                     current: Coord, neighbours: seq<Coord>, dist0: Labels, queue0: seq<Entry>,
                     dist: Labels, paths: map<Coord, seq<Coord>>, queue: seq<Entry>)
    requires Laid(b)
    requires Relaxing(b, u, rg, start, budget, target, current, neighbours, |neighbours|, dist0, queue0, dist, paths, queue)
    requires target != Some(current)
    ensures SearchState(b, u, rg, start, budget, dist, paths, queue, {}, target)
  {
    forall n | n in NeighbourCoords(b, current) && Allows(rg, n)
      ensures dist[current] + StepCost(b, ByTerrain, n) > budget ||
              (n in dist && dist[n] <= dist[current] + StepCost(b, ByTerrain, n))
    {
      var j :| 0 <= j < |neighbours| && neighbours[j] == n;
    }
    assert Relaxed(b, u, ByTerrain, rg, budget, dist, current);
  }

  /** One step of `get_reachable_hexes`' inner loop: label neighbour `k` when entering it fits the allowance and beats its label. */
  method VisitReach(b: Board, u: Unit, start: Coord, budget: int, current: Coord, cost: int,
                    neighbours: seq<Coord>, k: int, ghost dist0: Labels, ghost queue0: seq<Entry>,
                    dist: Labels, ghost paths: map<Coord, seq<Coord>>, queue: seq<Entry>, counter: int)
    returns (dist': Labels, ghost paths': map<Coord, seq<Coord>>, queue': seq<Entry>, counter': int)
    requires Laid(b) && NonNegativeCosts(b) && k < |neighbours|
    requires Relaxing(b, u, Anywhere, start, budget, None, current, neighbours, k, dist0, queue0, dist, paths, queue)
    requires cost == dist[current]
    ensures Relaxing(b, u, Anywhere, start, budget, None, current, neighbours, k + 1, dist0, queue0, dist', paths', queue')
  {
    var n := neighbours[k];
    dist', paths', queue', counter' := dist, paths, queue, counter;
    var newCost := cost + StepCost(b, ByTerrain, n);
    if newCost > budget {
      return;
    }
    if n !in dist || newCost < dist[n] {
      RelaxingLabel(b, u, Anywhere, start, budget, None, current, neighbours, k, dist0, queue0,
                    dist, paths, queue, n, newCost, counter);
      dist', paths' := dist[n := newCost], paths[n := paths[current] + [n]];
      queue', counter' := queue + [(newCost, counter, n)], counter + 1;
    }
  }

  /** Expanding a current hex that is below the allowance and outside every zone of control: relax each neighbour in turn. */
  method ExpandReach(b: Board, u: Unit, start: Coord, budget: int, current: Coord, cost: int,
                     dist: Labels, ghost paths: map<Coord, seq<Coord>>, queue: seq<Entry>, counter: int)
    returns (dist': Labels, ghost paths': map<Coord, seq<Coord>>, queue': seq<Entry>, counter': int)
    requires Laid(b) && NonNegativeCosts(b)
    requires SearchState(b, u, Anywhere, start, budget, dist, paths, queue, {current}, None)
    requires current in dist && cost == dist[current] && cost < budget && !EnemyAdjacent(b, u, current)
    ensures SearchState(b, u, Anywhere, start, budget, dist', paths', queue', {}, None)
    ensures Potential(b, dist', budget) < Potential(b, dist, budget) || (dist' == dist && queue' == queue)
  {
    var neighbours := NeighbourCoords(b, current);
    dist', paths', queue', counter' := dist, paths, queue, counter;
    var k := 0;
    while k < |neighbours|
      invariant Relaxing(b, u, Anywhere, start, budget, None, current, neighbours, k, dist, queue, dist', paths', queue')
      decreases |neighbours| - k
    {
      dist', paths', queue', counter' := VisitReach(b, u, start, budget, current, cost, neighbours, k, dist, queue,
                                                   dist', paths', queue', counter');
      k := k + 1;
    }
    RelaxingDone(b, u, Anywhere, start, budget, None, current, neighbours, dist, queue, dist', paths', queue');
  }

  /**
   * `MovementCalculator.get_reachable_hexes`: Dijkstra from `start` over
   * terrain costs. The result is the start hex plus every hex some legal
   * route within the allowance reaches, leaving its last-but-one hex below
   * the allowance; every labelled hex is in the result.
   */
  method ReachableHexes(b: Board, u: Unit, start: Coord, movePoints: Option<int>) returns (r: set<Coord>)
    requires Valid(b) && NonNegativeCosts(b)
    ensures forall c :: c in r <==> c == start || CanReach(b, u, ByTerrain, Anywhere, start, Allowance(u, movePoints), c)
  {
    var budget := Allowance(u, movePoints);
    var dist: Labels := map[start := 0];
    var queue: seq<Entry> := [(0, 0, start)];
    var counter := 1;
    ghost var paths: map<Coord, seq<Coord>> := map[start := [start]];
    SearchStart(b, u, Anywhere, start, budget, None);
    while |queue| > 0
      invariant SearchState(b, u, Anywhere, start, budget, dist, paths, queue, {}, None)
      decreases Potential(b, dist, budget), |queue|
    {
      var i := MinIndex(queue);
      var cost, current := queue[i].0, queue[i].2;
      SearchPop(b, u, Anywhere, start, budget, dist, paths, queue, None, i);
      queue := Remove(queue, i);
      if cost > dist[current] {
        continue;
      }
      if cost >= budget {
        continue;
      }
      if EnemyAdjacent(b, u, current) {
        continue;
      }
      dist, paths, queue, counter := ExpandReach(b, u, start, budget, current, cost, dist, paths, queue, counter);
    }
    SearchDone(b, u, Anywhere, start, budget, dist, paths, None);
    r := dist.Keys;
  }

  /** Label-then-stamp order: `p` has a lower label than `c`, or the same label stamped earlier. */
  ghost predicate Before(dist: Labels, stamp: map<Coord, nat>, p: Coord, c: Coord)
    requires p in dist && p in stamp && c in dist && c in stamp
  {
    dist[p] < dist[c] || (dist[p] == dist[c] && stamp[p] < stamp[c])
  }

  /** Predecessor links lead to hexes `Before` them with non-negative labels, so following them terminates. */
  ghost predicate Descending(dist: Labels, pred: map<Coord, Option<Coord>>, stamp: map<Coord, nat>) {
    forall c :: c in dist ==>
      c in pred && c in stamp && dist[c] >= 0 &&
      (pred[c].Some? ==> pred[c].value in dist && pred[c].value in stamp && Before(dist, stamp, pred[c].value, c))
  }

  lemma ChainedDescends(b: Board, u: Unit, rg: Region, start: Coord, dist: Labels, pred: map<Coord, Option<Coord>>,
                        stamp: map<Coord, nat>, counter: int)
    requires Laid(b) && NonNegativeCosts(b) && Chained(b, u, rg, start, dist, pred, stamp, counter)
    requires forall x :: x in dist ==> dist[x] >= 0
    ensures Descending(dist, pred, stamp)
  {
    forall c | c in dist
      ensures c in pred && c in stamp &&
        (pred[c].Some? ==> pred[c].value in dist && pred[c].value in stamp && Before(dist, stamp, pred[c].value, c))
    {
      assert Linked(b, u, rg, start, dist, pred, stamp, c);
      assert StepCost(b, ByTerrain, c) >= 0;
    }
  }

  /** The hexes the predecessor links spell out, from the first hex without a predecessor to `c`. */
  ghost function PathTo(dist: Labels, pred: map<Coord, Option<Coord>>, stamp: map<Coord, nat>, c: Coord): (r: seq<Coord>)
    requires Descending(dist, pred, stamp) && c in dist
    ensures |r| >= 1 && Last(r) == c
    decreases dist[c], stamp[c]
  {
    match pred[c]
      case None => [c]
      case Some(p) => PathTo(dist, pred, stamp, p) + [c]
  }

  /** Chained links spell out a legal route from the start that costs no more than the label. */
  lemma {:induction false} PathToRoute(b: Board, u: Unit, rg: Region, start: Coord, dist: Labels,
                                       pred: map<Coord, Option<Coord>>, stamp: map<Coord, nat>, counter: int, c: Coord)
    requires Laid(b) && NonNegativeCosts(b) && Chained(b, u, rg, start, dist, pred, stamp, counter)
    requires (forall x :: x in dist ==> dist[x] >= 0) && c in dist
    ensures Descending(dist, pred, stamp)
    ensures IsRoute(b, u, rg, start, PathTo(dist, pred, stamp, c))
    ensures RouteCost(b, ByTerrain, PathTo(dist, pred, stamp, c)) <= dist[c]
    decreases dist[c], if c in stamp then stamp[c] else 0
  {
    ChainedDescends(b, u, rg, start, dist, pred, stamp, counter);
    assert Linked(b, u, rg, start, dist, pred, stamp, c);
    match pred[c]
      case None =>
        TrivialRoute(b, u, ByTerrain, rg, c);
      case Some(p) =>
        PathToRoute(b, u, rg, start, dist, pred, stamp, counter, p);
        RouteExtend(b, u, ByTerrain, rg, start, PathTo(dist, pred, stamp, p), c);
  }

  /** `_build_path`: follow predecessor links from `end` back to the start; prepending here stands for appending and reversing at the end. */
  method BuildPath(dist: Labels, pred: map<Coord, Option<Coord>>, ghost stamp: map<Coord, nat>, end: Coord)
    returns (path: seq<Coord>)
    requires Descending(dist, pred, stamp) && end in dist
    ensures path == PathTo(dist, pred, stamp, end)
  {
    var c: Option<Coord> := Some(end);
    path := [];
    while c.Some?
      invariant c.Some? ==> c.value in dist && PathTo(dist, pred, stamp, c.value) + path == PathTo(dist, pred, stamp, end)
      invariant c.None? ==> path == PathTo(dist, pred, stamp, end)
      decreases if c.Some? then dist[c.value] + 1 else 0, if c.Some? then stamp[c.value] else 0
    {
      var x := c.value;
      if pred[x].Some? {
        assert PathTo(dist, pred, stamp, pred[x].value) + ([x] + path) == PathTo(dist, pred, stamp, x) + path;
      }
      path := [x] + path;
      c := pred[x];
    }
  }

  /** Recording `current` as the predecessor of a neighbour whose label drops to the cost through it, stamped with the counter, keeps the links chained. */
  lemma ChainLabel(b: Board, u: Unit, rg: Region, start: Coord, dist: Labels, pred: map<Coord, Option<Coord>>,
                   stamp: map<Coord, nat>, counter: nat, current: Coord, n: Coord, cost: int)
    requires Laid(b) && NonNegativeCosts(b) && Chained(b, u, rg, start, dist, pred, stamp, counter)
    requires start in dist && dist[start] == 0 && (forall x :: x in dist ==> dist[x] >= 0)
    requires current in dist && Step(b, u, rg, current, n)
    requires cost == dist[current] + StepCost(b, ByTerrain, n) && (n !in dist || cost < dist[n])
    ensures Chained(b, u, rg, start, dist[n := cost], pred[n := Some(current)], stamp[n := counter], counter + 1)
  {
    var dist', pred', stamp' := dist[n := cost], pred[n := Some(current)], stamp[n := counter];
    assert StepCost(b, ByTerrain, n) >= 0;
    assert Linked(b, u, rg, start, dist, pred, stamp, current);
    assert current != n && current in stamp && stamp[current] < counter;
    assert Linked(b, u, rg, start, dist', pred', stamp', n);
    forall c | c in dist'
      ensures Linked(b, u, rg, start, dist', pred', stamp', c)
    {
      if c != n {
        LinkedKept(b, u, rg, start, dist, pred, stamp, counter, current, n, cost, c);
      }
    }
  }

  /** Relabelling `n` more cheaply keeps the link of every other labelled hex, including one whose predecessor is `n`. */
  lemma LinkedKept(b: Board, u: Unit, rg: Region, start: Coord, dist: Labels, pred: map<Coord, Option<Coord>>,
                   stamp: map<Coord, nat>, counter: nat, current: Coord, n: Coord, cost: int, c: Coord)
    requires Laid(b) && NonNegativeCosts(b) && Chained(b, u, rg, start, dist, pred, stamp, counter)
    requires c in dist && c != n && (n !in dist || cost < dist[n])
    ensures Linked(b, u, rg, start, dist[n := cost], pred[n := Some(current)], stamp[n := counter], c)
  {
    assert Linked(b, u, rg, start, dist, pred, stamp, c);
    if c != start && pred[c].value == n {
      assert StepCost(b, ByTerrain, c) >= 0;
      assert cost < dist[n] <= dist[c];
    }
  }

  /** One step of `shortest_path`'s inner loop: like `VisitReach`, confined to `area`, and recording predecessors. */
  method VisitRoute(b: Board, u: Unit, start: Coord, end: Coord, budget: int, area: set<Coord>, current: Coord,
                    cost: int, neighbours: seq<Coord>, k: int, ghost dist0: Labels, ghost queue0: seq<Entry>,
                    dist: Labels, ghost paths: map<Coord, seq<Coord>>, queue: seq<Entry>, counter: nat,
                    pred: map<Coord, Option<Coord>>, ghost stamp: map<Coord, nat>)
    returns (dist': Labels, ghost paths': map<Coord, seq<Coord>>, queue': seq<Entry>, counter': nat,
             pred': map<Coord, Option<Coord>>, ghost stamp': map<Coord, nat>)
    requires Laid(b) && NonNegativeCosts(b) && k < |neighbours|
    requires Relaxing(b, u, Within(area), start, budget, Some(end), current, neighbours, k, dist0, queue0, dist, paths, queue)
    requires Chained(b, u, Within(area), start, dist, pred, stamp, counter)
    requires cost == dist[current]
    ensures Relaxing(b, u, Within(area), start, budget, Some(end), current, neighbours, k + 1, dist0, queue0,
                     dist', paths', queue')
    ensures Chained(b, u, Within(area), start, dist', pred', stamp', counter')
  {
    var n := neighbours[k];
    dist', paths', queue', counter', pred', stamp' := dist, paths, queue, counter, pred, stamp;
    if n !in area {
      return;
    }
    var newCost := cost + StepCost(b, ByTerrain, n);
    if newCost > budget {
      return;
    }
    if n !in dist || newCost < dist[n] {
      assert n in neighbours;
      ChainLabel(b, u, Within(area), start, dist, pred, stamp, counter, current, n, newCost);
      RelaxingLabel(b, u, Within(area), start, budget, Some(end), current, neighbours, k, dist0, queue0,
                    dist, paths, queue, n, newCost, counter);
      dist', paths' := dist[n := newCost], paths[n := paths[current] + [n]];
      pred', stamp' := pred[n := Some(current)], stamp[n := counter];
      queue', counter' := queue + [(newCost, counter, n)], counter + 1;
    }
  }

  /** Expanding a current hex other than the target in the second search. */
  method ExpandRoute(b: Board, u: Unit, start: Coord, end: Coord, budget: int, area: set<Coord>, current: Coord,
                     cost: int, dist: Labels, ghost paths: map<Coord, seq<Coord>>, queue: seq<Entry>, counter: nat,
                     pred: map<Coord, Option<Coord>>, ghost stamp: map<Coord, nat>)
    returns (dist': Labels, ghost paths': map<Coord, seq<Coord>>, queue': seq<Entry>, counter': nat,
             pred': map<Coord, Option<Coord>>, ghost stamp': map<Coord, nat>)
    requires Laid(b) && NonNegativeCosts(b)
    requires SearchState(b, u, Within(area), start, budget, dist, paths, queue, {current}, Some(end))
    requires Chained(b, u, Within(area), start, dist, pred, stamp, counter)
    requires current in dist && cost == dist[current] && current != end && !EnemyAdjacent(b, u, current)
    ensures SearchState(b, u, Within(area), start, budget, dist', paths', queue', {}, Some(end))
    ensures Chained(b, u, Within(area), start, dist', pred', stamp', counter')
    ensures Potential(b, dist', budget) < Potential(b, dist, budget) || (dist' == dist && queue' == queue)
  {
    var neighbours := NeighbourCoords(b, current);
    dist', paths', queue', counter', pred', stamp' := dist, paths, queue, counter, pred, stamp;
    var k := 0;
    while k < |neighbours|
      invariant Relaxing(b, u, Within(area), start, budget, Some(end), current, neighbours, k, dist, queue,
                         dist', paths', queue')
      invariant Chained(b, u, Within(area), start, dist', pred', stamp', counter')
      decreases |neighbours| - k
    {
      dist', paths', queue', counter', pred', stamp' :=
        VisitRoute(b, u, start, end, budget, area, current, cost, neighbours, k,
                   dist, queue, dist', paths', queue', counter', pred', stamp');
      k := k + 1;
    }
    RelaxingDone(b, u, Within(area), start, budget, Some(end), current, neighbours, dist, queue, dist', paths', queue');
  }

  /**
   * When the target is popped with its current label ahead of every queued
   * entry, the route its predecessor links spell out is legal, within the
   * allowance, passes only reachable hexes, and no legal route to the target
   * costs less.
   */
  lemma FoundOptimal(b: Board, u: Unit, start: Coord, end: Coord, budget: int, area: set<Coord>, dist: Labels,
                     paths: map<Coord, seq<Coord>>, queue: seq<Entry>, pred: map<Coord, Option<Coord>>,
                     stamp: map<Coord, nat>, counter: int, i: int, r: seq<Coord>)
    requires Laid(b) && NonNegativeCosts(b)
    requires forall x :: x in area <==> x == start || CanReach(b, u, ByTerrain, Anywhere, start, budget, x)
    requires SearchState(b, u, Within(area), start, budget, dist, paths, queue, {}, Some(end))
    requires Chained(b, u, Within(area), start, dist, pred, stamp, counter)
    requires 0 <= i < |queue| && forall j :: 0 <= j < |queue| ==> Precedes(queue[i], queue[j])
    requires queue[i].2 == end && end in dist && queue[i].0 == dist[end]
    requires Descending(dist, pred, stamp) && r == PathTo(dist, pred, stamp, end)
    ensures IsRoute(b, u, Anywhere, start, r) && Last(r) == end
    ensures end != start ==> RouteCost(b, ByTerrain, r) <= budget
    ensures forall p :: IsRoute(b, u, Anywhere, start, p) && Last(p) == end ==>
      RouteCost(b, ByTerrain, r) <= RouteCost(b, ByTerrain, p)
    ensures forall j :: 0 <= j < |r| ==> r[j] == start || CanReach(b, u, ByTerrain, Anywhere, start, budget, r[j])
  {
    PathToRoute(b, u, Within(area), start, dist, pred, stamp, counter, end);
    WidenRoute(b, u, start, area, r);
    assert Witnessed(b, u, ByTerrain, Within(area), start, budget, false, dist, paths, end);
    forall p | IsRoute(b, u, Anywhere, start, p) && Last(p) == end
      ensures RouteCost(b, ByTerrain, r) <= RouteCost(b, ByTerrain, p)
    {
      RouteCostNonnegative(b, ByTerrain, p);
      if RouteCost(b, ByTerrain, p) < budget {
        CheapDeparts(b, u, ByTerrain, Anywhere, start, budget, p);
        RouteInside(b, u, ByTerrain, start, budget, area, p);
        HeadOptimal(b, u, Within(area), start, budget, dist, paths, queue, Some(end), i, p);
      }
    }
    forall j | 1 <= j < |r| ensures r[j] in area {
      assert Step(b, u, Within(area), r[j - 1], r[j]);
    }
  }

  /**
   * `MovementCalculator.shortest_path`: empty unless the target is the start
   * or reachable within the unit's allowance; otherwise a cheapest legal route
   * from the start to the target, found by a second Dijkstra search confined
   * to the reachable hexes.
   */
  method ShortestPath(b: Board, u: Unit, start: Coord, end: Coord) returns (r: seq<Coord>)
    requires Valid(b) && NonNegativeCosts(b)
    ensures |r| > 0 <==> end == start || CanReach(b, u, ByTerrain, Anywhere, start, u.move, end)
    ensures |r| > 0 ==> IsRoute(b, u, Anywhere, start, r) && Last(r) == end
    ensures |r| > 0 && end != start ==> RouteCost(b, ByTerrain, r) <= u.move
    ensures |r| > 0 ==> forall p :: IsRoute(b, u, Anywhere, start, p) && Last(p) == end ==>
      RouteCost(b, ByTerrain, r) <= RouteCost(b, ByTerrain, p)
    ensures forall j :: 0 <= j < |r| ==> r[j] == start || CanReach(b, u, ByTerrain, Anywhere, start, u.move, r[j])
  {
    var budget := u.move;
    var area := ReachableHexes(b, u, start, Some(budget));
    if end !in area {
      return [];
    }
    var dist: Labels := map[start := 0];
    var pred: map<Coord, Option<Coord>> := map[start := None];
    var queue: seq<Entry> := [(0, 0, start)];
    var counter: nat := 1;
    ghost var paths: map<Coord, seq<Coord>> := map[start := [start]];
    ghost var stamp: map<Coord, nat> := map[start := 0];
    SearchStart(b, u, Within(area), start, budget, Some(end));
    while |queue| > 0
      invariant SearchState(b, u, Within(area), start, budget, dist, paths, queue, {}, Some(end))
      invariant Chained(b, u, Within(area), start, dist, pred, stamp, counter)
      decreases Potential(b, dist, budget), |queue|
    {
      var i := MinIndex(queue);
      var cost, current := queue[i].0, queue[i].2;
      SearchPop(b, u, Within(area), start, budget, dist, paths, queue, Some(end), i);
      if cost > dist[current] {
        queue := Remove(queue, i);
        continue;
      }
      if current == end {
        ChainedDescends(b, u, Within(area), start, dist, pred, stamp, counter);
        r := BuildPath(dist, pred, stamp, end);
        FoundOptimal(b, u, start, end, budget, area, dist, paths, queue, pred, stamp, counter, i, r);
        return;
      }
      queue := Remove(queue, i);
      if EnemyAdjacent(b, u, current) {
        continue;
      }
      dist, paths, queue, counter, pred, stamp := ExpandRoute(b, u, start, end, budget, area, current, cost,
                                                              dist, paths, queue, counter, pred, stamp);
    }
    SearchDone(b, u, Within(area), start, budget, dist, paths, Some(end));
    if end != start {
      ReachInside(b, u, ByTerrain, start, budget, area, end);
    }
    assert false;
    r := [];
  }
}

=== FILE: objective_scorer.dfy ===
/**
 * Objective scoring: at the end of movement the current player earns the
 * points of every "hold" objective occupied by one of their units that is not
 * in contact with the enemy; after combat, surviving attackers that did not
 * retreat earn the objectives they stand on.
 */
module ObjectiveScoring {
  import opened Wrappers
  import opened HexGrid
  import opened Players
  import opened Units
  import opened Boards
  import opened Outcomes
  import opened BattleLog
  import opened Solver
  import opened Combat
  import opened Scores

  /** An objective: the hex it sits on, the points it is worth, and its type ("hold" is the one scored). */
  datatype Objective = Objective(coords: Coord, points: int, kind: string)

  const Hold: string := "hold"

  /** The current player's units among the battles' participants, collected by id. */
  function EngagedIn(p: Player, battles: seq<Battle>): (r: set<UnitId>)
    ensures forall id :: id in r <==> exists i :: (0 <= i < |battles| &&
      ((battles[i].0.id == id && Owns(p, battles[i].0)) || (battles[i].1.id == id && Owns(p, battles[i].1))))
  {
    if |battles| == 0 then {}
    else
      var x := battles[0];
      var rest := EngagedIn(p, battles[1..]);
      assert forall i :: 1 <= i < |battles| ==> battles[1..][i - 1] == battles[i];
      (if Owns(p, x.0) then {x.0.id} else {}) + (if Owns(p, x.1) then {x.1.id} else {}) + rest
  }

  /**
   * `_get_engaged_unit_ids`: the ids of the current player's units that take
   * part in a battle `find_combat` reports for that player.
   */
  function EngagedUnitIds(b: Board, p: Player): (r: set<UnitId>)
    requires Valid(b)
  {
    EngagedIn(p, FindCombat(b, p))
  }

  /**
   * A unit id is engaged exactly when it belongs to a registered unit of the
   * current player standing next to a registered enemy unit: defenders are
   * never the current player's, so only attackers contribute.
   */
  lemma EngagedAreAttackers(b: Board, p: Player, id: UnitId)
    requires Valid(b)
    ensures id in EngagedUnitIds(b, p) <==>
      exists u, v :: u in b.units && v in b.units && u.id == id && u.coords.Some? && Engages(p, u, v)
  {
    if id in EngagedUnitIds(b, p) {
      EngagedIsAttacker(b, p, id);
    }
    if exists u, v :: u in b.units && v in b.units && u.id == id && u.coords.Some? && Engages(p, u, v) {
      var u, v :| u in b.units && v in b.units && u.id == id && u.coords.Some? && Engages(p, u, v);
      AttackerIsEngaged(b, p, u, v);
    }
  }

  lemma EngagedIsAttacker(b: Board, p: Player, id: UnitId)
    requires Valid(b) && id in EngagedUnitIds(b, p)
    ensures exists u, v :: u in b.units && v in b.units && u.id == id && u.coords.Some? && Engages(p, u, v)
  {
    var battles := FindCombat(b, p);
    var i :| 0 <= i < |battles| &&
      ((battles[i].0.id == id && Owns(p, battles[i].0)) || (battles[i].1.id == id && Owns(p, battles[i].1)));
    FindCombatMembers(b, p);
    assert battles[i] in battles;
  }

  lemma AttackerIsEngaged(b: Board, p: Player, u: Unit, v: Unit)
    requires Valid(b) && u in b.units && v in b.units && u.coords.Some? && Engages(p, u, v)
    ensures u.id in EngagedUnitIds(b, p)
  {
    var battles := FindCombat(b, p);
    FindCombatMembers(b, p);
    assert (u, v) in battles;
    var i :| 0 <= i < |battles| && battles[i] == (u, v);
  }

  /** The `any(...)` scan of `_objective_is_held` over a list of units. */
  function HeldBy(us: seq<Unit>, c: Coord, p: Player, engaged: set<UnitId>): (r: bool)
    ensures r <==> exists i :: 0 <= i < |us| && us[i].coords == Some(c) && Owns(p, us[i]) && us[i].id !in engaged
  {
    if |us| == 0 then false
    else
      assert forall i :: 1 <= i < |us| ==> us[1..][i - 1] == us[i];
      (us[0].coords == Some(c) && Owns(p, us[0]) && us[0].id !in engaged) || HeldBy(us[1..], c, p, engaged)
  }

  /** `_objective_is_held`: some unit of the current player, not engaged, stands on the objective. */
  function ObjectiveIsHeld(b: Board, o: Objective, p: Player, engaged: set<UnitId>): (r: bool)
    ensures r <==> exists u :: u in b.units && u.coords == Some(o.coords) && Owns(p, u) && u.id !in engaged
  {
    var r := HeldBy(b.units, o.coords, p, engaged);
    assert r ==> exists u :: u in b.units && u.coords == Some(o.coords) && Owns(p, u) && u.id !in engaged by {
      if r {
        var i :| 0 <= i < |b.units| && b.units[i].coords == Some(o.coords) && Owns(p, b.units[i]) && b.units[i].id !in engaged;
        assert b.units[i] in b.units;
      }
    }
    r
  }

  /** The elements of `xs` that `keep` accepts, in order: the shape of both objective scans. */
  function Filter<T(!new)>(xs: seq<T>, keep: T -> bool): (r: seq<T>)
    ensures forall x :: x in r <==> x in xs && keep(x)
    ensures forall x :: multiset(r)[x] == (if keep(x) then multiset(xs)[x] else 0)
    decreases |xs|
  {
    if |xs| == 0 then []
    else
      var rest := Filter(xs[1..], keep);
      assert xs == [xs[0]] + xs[1..];
      assert multiset(xs) == multiset{xs[0]} + multiset(xs[1..]);
      if keep(xs[0]) then [xs[0]] + rest else rest
  }

  /** Filtering keeps list order: filtering two lists in turn gives the two results one after the other. */
  lemma {:induction false} FilterConcat<T(!new)>(xs: seq<T>, ys: seq<T>, keep: T -> bool)
    ensures Filter(xs + ys, keep) == Filter(xs, keep) + Filter(ys, keep)
    decreases |xs|
  {
    if |xs| == 0 {
      assert xs + ys == ys;
    } else {
      assert (xs + ys)[0] == xs[0] && (xs + ys)[1..] == xs[1..] + ys;
      FilterConcat(xs[1..], ys, keep);
    }
  }

  /** The loop of `_get_held_objectives`: the held "hold" objectives of `os`, in order. */
  function HeldObjectivesIn(b: Board, p: Player, engaged: set<UnitId>, os: seq<Objective>): (r: seq<Objective>)
    ensures forall o :: o in r <==> o in os && o.kind == Hold && ObjectiveIsHeld(b, o, p, engaged)
    ensures multiset(r) <= multiset(os)
    ensures forall o :: (multiset(r)[o] ==
      if o.kind == Hold && ObjectiveIsHeld(b, o, p, engaged) then multiset(os)[o] else 0)
  {
    Filter(os, (o: Objective) => o.kind == Hold && ObjectiveIsHeld(b, o, p, engaged))
  }

  /** The scan keeps list order: scanning two lists in turn gives the two results one after the other. */
  lemma HeldObjectivesConcat(b: Board, p: Player, engaged: set<UnitId>, xs: seq<Objective>, ys: seq<Objective>)
    ensures HeldObjectivesIn(b, p, engaged, xs + ys) ==
      HeldObjectivesIn(b, p, engaged, xs) + HeldObjectivesIn(b, p, engaged, ys)
  {
    FilterConcat(xs, ys, (o: Objective) => o.kind == Hold && ObjectiveIsHeld(b, o, p, engaged));
  }

  function SumPoints(os: seq<Objective>): int {
    if |os| == 0 then 0 else os[0].points + SumPoints(os[1..])
  }

  /** `score_tracker.add_points` is called only for a non-zero total; either way the total is returned. */
  function Award(t: ScoreTracker, p: Player, total: int): (r: (int, ScoreTracker))
    ensures r.0 == total
    ensures forall q :: (GetScore(r.1, q) ==
      GetScore(t, q) + (if total > 0 && PlayerKey(q) == PlayerKey(p) then total else 0))
  {
    forall q ensures GetScore(AddPoints(t, p, total), q) ==
      GetScore(t, q) + (if total > 0 && PlayerKey(q) == PlayerKey(p) then total else 0)
    {
      AddPointsScores(t, p, total, q);
    }
    (total, if total != 0 then AddPoints(t, p, total) else t)
  }

  /**
   * `award_hold_objectives`: the board's objectives are `objectives` (in the
   * order the board lists them) and the game's score tracker is `t`; the
   * result is the points awarded and the updated tracker.
   */
  function AwardHoldObjectives(b: Board, p: Player, objectives: seq<Objective>, t: ScoreTracker): (r: (int, ScoreTracker))
    requires Valid(b)
    ensures r.0 == SumPoints(HeldObjectivesIn(b, p, EngagedUnitIds(b, p), objectives))
    ensures forall q :: (GetScore(r.1, q) ==
      GetScore(t, q) + (if r.0 > 0 && PlayerKey(q) == PlayerKey(p) then r.0 else 0))
  {
    var held := HeldObjectivesIn(b, p, EngagedUnitIds(b, p), objectives);
    Award(t, p, SumPoints(held))
  }

  /**
   * An objective scores at the end of movement exactly when it is a "hold"
   * objective under one of the current player's units that is not adjacent to
   * an enemy unit; how many such units stand there does not matter, since the
   * scored list never holds an objective more often than the board does.
   */
  lemma HoldScoringRule(b: Board, p: Player, objectives: seq<Objective>, o: Objective)
    requires Valid(b)
    ensures o in HeldObjectivesIn(b, p, EngagedUnitIds(b, p), objectives) <==>
      o in objectives && o.kind == Hold &&
      exists u :: u in b.units && u.coords == Some(o.coords) && Owns(p, u) &&
        !(exists v :: v in b.units && Engages(p, u, v))
    ensures multiset(HeldObjectivesIn(b, p, EngagedUnitIds(b, p), objectives)) <= multiset(objectives)
  {
    var engaged := EngagedUnitIds(b, p);
    forall u | u in b.units
      ensures u.id in engaged <==> u.coords.Some? && exists v :: v in b.units && Engages(p, u, v)
    {
      EngagedAreAttackers(b, p, u.id);
      if u.id in engaged {
        var u', v :| u' in b.units && v in b.units && u'.id == u.id && u'.coords.Some? && Engages(p, u', v);
        assert u' == u by {
          var i, j :| 0 <= i < |b.units| && 0 <= j < |b.units| && b.units[i] == u && b.units[j] == u';
          assert i == j;
        }
      }
    }
  }

  /** With objectives of non-negative value, the award never exceeds the value of all "hold" objectives. */
  lemma {:induction false} AwardBounded(b: Board, p: Player, engaged: set<UnitId>, os: seq<Objective>)
    requires forall i :: 0 <= i < |os| ==> os[i].points >= 0
    ensures 0 <= SumPoints(HeldObjectivesIn(b, p, engaged, os)) <= SumPoints(os)
  {
    if |os| > 0 {
      AwardBounded(b, p, engaged, os[1..]);
    }
  }

  /** With only the current player's units on the board, no unit is engaged. */
  lemma OneSideNoEngagement(b: Board, p: Player)
    requires Valid(b) && forall u :: u in b.units ==> Owns(p, u)
    ensures EngagedUnitIds(b, p) == {}
  {
    if id :| id in EngagedUnitIds(b, p) {
      EngagedIsAttacker(b, p, id);
      assert false;
    }
  }

  /** The players and units of the scorer's unit tests: Alice owns faction f1, Bob owns f2. */
  predicate TestCast(alice: Player, bob: Player, u1: Unit, u2: Unit, enemy: Unit) {
    alice == Player("Alice", Human, ["f1"]) && bob == Player("Bob", Cpu, ["f2"]) &&
    u1 == Unit("u1", "Unit", "f1", alice, "Inf", 1, 1, 1, None) &&
    u2 == Unit("u2", "Unit Two", "f1", alice, "Inf", 1, 1, 1, None) &&
    enemy == Unit("u2", "Enemy", "f2", bob, "Inf", 1, 1, 1, None)
  }

  /** On a 4x4 board, one unit of the current player on the 2-point objective at (1, 1) earns 2. */
  lemma HeldObjectiveExample(alice: Player, bob: Player, u1: Unit, u2: Unit, enemy: Unit)
    requires TestCast(alice, bob, u1, u2, enemy)
    ensures var b := AddUnit(NewBoard(4, 4), u1, Coord(1, 1)).value;
      var r := AwardHoldObjectives(b, alice, [Objective(Coord(1, 1), 2, Hold)], NewTracker([alice, bob]));
      r.0 == 2 && GetScore(r.1, alice) == 2 && GetScore(r.1, bob) == 0
  {
    var o := Objective(Coord(1, 1), 2, Hold);
    var b := AddUnit(NewBoard(4, 4), u1, Coord(1, 1)).value;
    assert b.units == [u1.(coords := Some(Coord(1, 1)))];
    var engaged := EngagedUnitIds(b, alice);
    assert b.units[0] in b.units;
    OneSideNoEngagement(b, alice);
    assert ObjectiveIsHeld(b, o, alice, engaged);
    assert HeldObjectivesIn(b, alice, engaged, [o]) == [o];
    assert SumPoints([o]) == 2 by { assert [o][1..] == []; }
  }

  /** Two units on the same objective: the objective still earns its 2 points once. */
  lemma OncePerObjectiveExample(alice: Player, bob: Player, u1: Unit, u2: Unit, enemy: Unit)
    requires TestCast(alice, bob, u1, u2, enemy)
    ensures var b := AddUnit(AddUnit(NewBoard(4, 4), u1, Coord(1, 1)).value, u2, Coord(1, 1)).value;
      AwardHoldObjectives(b, alice, [Objective(Coord(1, 1), 2, Hold)], NewTracker([alice, bob])).0 == 2
  {
    var o := Objective(Coord(1, 1), 2, Hold);
    var b1 := AddUnit(NewBoard(4, 4), u1, Coord(1, 1)).value;
    assert b1.units == [u1.(coords := Some(Coord(1, 1)))];
    var b := AddUnit(b1, u2, Coord(1, 1)).value;
    assert b.units == b1.units + [u2.(coords := Some(Coord(1, 1)))];
    var engaged := EngagedUnitIds(b, alice);
    assert b.units[0] in b.units;
    OneSideNoEngagement(b, alice);
    assert ObjectiveIsHeld(b, o, alice, engaged);
    assert HeldObjectivesIn(b, alice, engaged, [o]) == [o];
    assert SumPoints([o]) == 2 by { assert [o][1..] == []; }
  }

  /** A unit on the objective but next to an enemy unit is engaged, so nothing is earned. */
  lemma EngagedHolderExample(alice: Player, bob: Player, u1: Unit, u2: Unit, enemy: Unit)
    requires TestCast(alice, bob, u1, u2, enemy)
    ensures var b := AddUnit(AddUnit(NewBoard(4, 4), u1, Coord(1, 1)).value, enemy, Coord(2, 1)).value;
      var r := AwardHoldObjectives(b, alice, [Objective(Coord(1, 1), 2, Hold)], NewTracker([alice, bob]));
      r.0 == 0 && GetScore(r.1, alice) == 0
  {
    var o := Objective(Coord(1, 1), 2, Hold);
    var b1 := AddUnit(NewBoard(4, 4), u1, Coord(1, 1)).value;
    assert b1.units == [u1.(coords := Some(Coord(1, 1)))];
    var b := AddUnit(b1, enemy, Coord(2, 1)).value;
    assert b.units == b1.units + [enemy.(coords := Some(Coord(2, 1)))];
    var engaged := EngagedUnitIds(b, alice);
    assert Shift(Coord(1, 1), AdjacencyOffsets(1)[0]) == Coord(2, 1);
    assert Engages(alice, b.units[0], b.units[1]);
    AttackerIsEngaged(b, alice, b.units[0], b.units[1]);
    assert !ObjectiveIsHeld(b, o, alice, engaged);
    assert HeldObjectivesIn(b, alice, engaged, [o]) == [];
  }

  // ----- after combat -----

  /** The current player's attackers, by id. */
  function OwnIds(p: Player, attackers: seq<Unit>): (r: set<UnitId>)
    ensures forall id :: id in r <==> exists u :: u in attackers && u.id == id && Owns(p, u)
  {
    set u | u in attackers && Owns(p, u) :: u.id
  }

  /**
   * `_get_eligible_attacker_ids`: over every recorded battle that has
   * participants and did not end in an attacker retreat, the ids of the
   * current player's attackers.
   */
  function EligibleAttackerIds(battles: seq<CombatResultData>, p: Player): (r: set<UnitId>)
    ensures forall id :: id in r <==> exists i :: (0 <= i < |battles| &&
      battles[i].participants.Some? && battles[i].result != AttackerRetreat2 &&
      id in OwnIds(p, battles[i].participants.value.0))
  {
    if |battles| == 0 then {}
    else
      var x := battles[0];
      assert forall i :: 1 <= i < |battles| ==> battles[1..][i - 1] == battles[i];
      (if x.participants.Some? && x.result != AttackerRetreat2 then OwnIds(p, x.participants.value.0) else {})
        + EligibleAttackerIds(battles[1..], p)
  }

  /** The `any(...)` scan of `_get_post_combat_held_objectives`. */
  function OccupiedBy(us: seq<Unit>, c: Coord, eligible: set<UnitId>): (r: bool)
    ensures r <==> exists i :: 0 <= i < |us| && us[i].id in eligible && us[i].coords == Some(c)
  {
    if |us| == 0 then false
    else
      assert forall i :: 1 <= i < |us| ==> us[1..][i - 1] == us[i];
      (us[0].id in eligible && us[0].coords == Some(c)) || OccupiedBy(us[1..], c, eligible)
  }

  /** `_get_post_combat_held_objectives`: the "hold" objectives some eligible attacker stands on. */
  function PostCombatHeld(b: Board, eligible: set<UnitId>, os: seq<Objective>): (r: seq<Objective>)
    ensures forall o :: o in r <==> o in os && o.kind == Hold && OccupiedBy(b.units, o.coords, eligible)
    ensures multiset(r) <= multiset(os)
    ensures forall o :: (multiset(r)[o] ==
      if o.kind == Hold && OccupiedBy(b.units, o.coords, eligible) then multiset(os)[o] else 0)
    ensures eligible == {} ==> r == []
  {
    Filter(os, (o: Objective) => o.kind == Hold && OccupiedBy(b.units, o.coords, eligible))
  }

  /** The post-combat scan keeps list order, as the end-of-movement one does. */
  lemma PostCombatHeldConcat(b: Board, eligible: set<UnitId>, xs: seq<Objective>, ys: seq<Objective>)
    ensures PostCombatHeld(b, eligible, xs + ys) == PostCombatHeld(b, eligible, xs) + PostCombatHeld(b, eligible, ys)
  {
    FilterConcat(xs, ys, (o: Objective) => o.kind == Hold && OccupiedBy(b.units, o.coords, eligible));
  }

  /** `award_hold_objectives_after_combat`. */
  function AwardAfterCombat(b: Board, p: Player, log: CombatResults, objectives: seq<Objective>, t: ScoreTracker)
    : (r: (int, ScoreTracker))
    ensures r.0 == SumPoints(PostCombatHeld(b, EligibleAttackerIds(log.battles, p), objectives))
    ensures forall q :: (GetScore(r.1, q) ==
      GetScore(t, q) + (if r.0 > 0 && PlayerKey(q) == PlayerKey(p) then r.0 else 0))
  {
    var held := PostCombatHeld(b, EligibleAttackerIds(log.battles, p), objectives);
    Award(t, p, SumPoints(held))
  }

  /**
   * The results `resolve_combat` records carry no participants, so scoring
   * after a combat phase awards nothing and leaves every score as it was.
   */
  lemma {:induction false} NoAwardAfterResolvedCombat(b: Board, attacker: Player, staticRoll: Option<int>,
                                                      rolls: seq<int>, objectives: seq<Objective>, t: ScoreTracker)
    requires Valid(b) && |rolls| == |FindCombat(b, attacker)| && Rolls(rolls)
    requires ResolveCombat(b, attacker, staticRoll, rolls).Success?
    ensures var (after, log) := ResolveCombat(b, attacker, staticRoll, rolls).value;
      EligibleAttackerIds(log.battles, attacker) == {} &&
      AwardAfterCombat(after, attacker, log, objectives, t).0 == 0 &&
      forall q :: GetScore(AwardAfterCombat(after, attacker, log, objectives, t).1, q) == GetScore(t, q)
  {
    var (after, log) := ResolveCombat(b, attacker, staticRoll, rolls).value;
    var battles := FindCombat(b, attacker);
    forall i | 0 <= i < |log.battles| ensures log.battles[i].participants.None? {
      assert Solved(battles[i], staticRoll, rolls[i], log.battles[i]);
    }
  }
}

=== FILE: player.dfy ===
/** Players and the factions they control. */
module Players {

  /** Factions compare by id, so a faction is modelled by its id alone. */
  type FactionId = string

  datatype PlayerType = Human | Cpu

  /** A player; structural equality matches the dataclass's generated `__eq__`. */
  datatype Player = Player(name: string, kind: PlayerType, factions: seq<FactionId>)

  /** The dataclass constructor: the factions are stored as a list copy of the input. */
  function NewPlayer(name: string, kind: PlayerType, factions: seq<FactionId>): Player
  {
    Player(name, kind, factions)
  }

  predicate HasFaction(p: Player, f: FactionId) {
    f in p.factions
  }

  /** Appends a faction; earlier factions keep their positions. */
  function AddFaction(p: Player, f: FactionId): (r: Player)
    ensures r.name == p.name && r.kind == p.kind
    ensures |r.factions| == |p.factions| + 1 && r.factions[|p.factions|] == f
    ensures r.factions[..|p.factions|] == p.factions
    ensures forall g :: HasFaction(r, g) <==> HasFaction(p, g) || g == f
  {
    Player(p.name, p.kind, p.factions + [f])
  }
}

=== FILE: road_graph.dfy ===
/**
 * The road graph the web client draws from: consecutive points of each road
 * become an undirected edge between their hex keys, a hex's degree is its
 * number of distinct road neighbours, and a junction is a hex of degree at
 * least three.
 */
module RoadGraph {
  import opened Wrappers

  /**
   * A hex key `"row,column"`. Rendering an integer pair (or a missing entry,
   * `undefined`) as text is injective, so the key is modelled by the pair
   * itself; `None` stands for `undefined`.
   */
  type HexKey = (Option<int>, Option<int>)

  /**
   * A road point as the client receives it: an array of numbers, an object
   * whose `row` and `column` may or may not be numbers, or anything else.
   */
  datatype PathPoint =
    | ArrayPoint(items: seq<int>)
    | RecordPoint(row: Option<int>, column: Option<int>)
    | NoPoint

  /** A road: `path` and `segments` are `None` when the field is not an array. */
  datatype Road = Road(path: Option<seq<PathPoint>>, segments: Option<seq<PathPoint>>)

  /**
   * `normalizePathPoint` followed by `toCoordKey`: any array is accepted, its
   * first two entries (possibly missing) giving the key; an object needs a
   * numeric row and column; anything else is rejected.
   */
  function Normalize(p: PathPoint): (r: Option<HexKey>)
    ensures p.NoPoint? ==> r.None?
    ensures p.ArrayPoint? ==> r.Some?
    ensures p.RecordPoint? ==> (r.Some? <==> p.row.Some? && p.column.Some?)
  {
    match p
      case ArrayPoint(items) =>
        Some((if |items| > 0 then Some(items[0]) else None, if |items| > 1 then Some(items[1]) else None))
      case RecordPoint(row, column) =>
        if row.Some? && column.Some? then Some((row, column)) else None
      case NoPoint => None
  }

  /** `getRoadPoints`: the path when it is an array, else the segments when they are, else nothing. */
  function Points(road: Road): seq<PathPoint>
  {
    if road.path.Some? then road.path.value
    else if road.segments.Some? then road.segments.value
    else []
  }

  /** Segment `i` of `pts` goes from key `a` to a different key `b`. */
  predicate Step(pts: seq<PathPoint>, i: int, a: HexKey, b: HexKey) {
    0 <= i < |pts| - 1 && Normalize(pts[i]) == Some(a) && Normalize(pts[i + 1]) == Some(b) && a != b
  }

  /** Reference: some road has a segment from `a` to `b`. */
  ghost predicate RoadStep(roads: seq<Road>, a: HexKey, b: HexKey) {
    exists r, i :: 0 <= r < |roads| && Step(Points(roads[r]), i, a, b)
  }

  /** Reference: `a` and `b` are joined by a road segment, in either direction. */
  ghost predicate Linked(roads: seq<Road>, a: HexKey, b: HexKey) {
    RoadStep(roads, a, b) || RoadStep(roads, b, a)
  }

  type Graph = map<HexKey, set<HexKey>>

  /** `b` is recorded as a neighbour of `a`. */
  predicate Edge(g: Graph, a: HexKey, b: HexKey) {
    a in g && b in g[a]
  }

  /** Every recorded hex has at least one neighbour. */
  predicate NoIsolated(g: Graph) {
    forall a :: a in g ==> g[a] != {}
  }

  /** `addNeighbor`. */
  function AddNeighbor(g: Graph, from: HexKey, to: HexKey): (r: Graph)
    ensures r.Keys == g.Keys + {from}
    ensures NoIsolated(g) ==> NoIsolated(r)
  {
    if from in g then g[from := g[from] + {to}] else g[from := {to}]
  }

  /** Adding a neighbour records exactly that one directed edge more. */
  lemma AddNeighborEdges(g: Graph, from: HexKey, to: HexKey, a: HexKey, b: HexKey)
    ensures Edge(AddNeighbor(g, from, to), a, b) <==> Edge(g, a, b) || (a == from && b == to)
  {
  }

  /** One iteration of the segment loop: a valid segment between different keys links both ends. */
  function Link(g: Graph, p: PathPoint, q: PathPoint): (r: Graph)
    ensures NoIsolated(g) ==> NoIsolated(r)
  {
    var start, end := Normalize(p), Normalize(q);
    if start.None? || end.None? || start == end then g
    else AddNeighbor(AddNeighbor(g, start.value, end.value), end.value, start.value)
  }

  /** The graph after the first `n` segments of `pts`. */
  function Segments(g: Graph, pts: seq<PathPoint>, n: nat): (r: Graph)
    requires n <= |pts| - 1 || n == 0
    ensures NoIsolated(g) ==> NoIsolated(r)
  {
    if n == 0 then g else Link(Segments(g, pts, n - 1), pts[n - 1], pts[n])
  }

  function SegmentCount(pts: seq<PathPoint>): nat {
    if |pts| > 0 then |pts| - 1 else 0
  }

  /** The graph after the first roads, each contributing all its segments. */
  function Roads(roads: seq<Road>): (r: Graph)
    ensures NoIsolated(r)
  {
    if |roads| == 0 then map[]
    else
      var pts := Points(roads[|roads| - 1]);
      Segments(Roads(roads[..|roads| - 1]), pts, SegmentCount(pts))
  }

  lemma LinkEdges(g: Graph, p: PathPoint, q: PathPoint, a: HexKey, b: HexKey)
    ensures Edge(Link(g, p, q), a, b) <==>
      Edge(g, a, b) || (exists i :: Step([p, q], i, a, b)) || (exists i :: Step([p, q], i, b, a))
  {
    assert [p, q][0] == p && [p, q][1] == q;
    var start, end := Normalize(p), Normalize(q);
    if start.Some? && end.Some? && start != end {
      AddNeighborEdges(g, start.value, end.value, a, b);
      AddNeighborEdges(AddNeighbor(g, start.value, end.value), end.value, start.value, a, b);
      if a == start.value && b == end.value {
        assert Step([p, q], 0, a, b);
      }
      if a == end.value && b == start.value {
        assert Step([p, q], 0, b, a);
      }
    }
  }

  /** After `n` segments, the recorded edges are the earlier ones plus both directions of each valid segment. */
  lemma {:induction false} SegmentsEdges(g: Graph, pts: seq<PathPoint>, n: nat, a: HexKey, b: HexKey)
    requires n <= |pts| - 1 || n == 0
    ensures Edge(Segments(g, pts, n), a, b) <==>
      Edge(g, a, b) || (exists i :: i < n && Step(pts, i, a, b)) || (exists i :: i < n && Step(pts, i, b, a))
  {
    if n > 0 {
      SegmentsEdges(g, pts, n - 1, a, b);
      LinkEdges(Segments(g, pts, n - 1), pts[n - 1], pts[n], a, b);
      var pq := [pts[n - 1], pts[n]];
      if exists i :: Step(pq, i, a, b) {
        assert Step(pts, n - 1, a, b);
      }
      if exists i :: Step(pq, i, b, a) {
        assert Step(pts, n - 1, b, a);
      }
      if Step(pts, n - 1, a, b) {
        assert Step(pq, 0, a, b);
      }
      if Step(pts, n - 1, b, a) {
        assert Step(pq, 0, b, a);
      }
    }
  }

  /** The graph links exactly the hexes some road segment joins. */
  lemma {:induction false} RoadsEdges(roads: seq<Road>, a: HexKey, b: HexKey)
    ensures Edge(Roads(roads), a, b) <==> Linked(roads, a, b)
  {
    if |roads| > 0 {
      var k := |roads| - 1;
      var pts := Points(roads[k]);
      RoadsEdges(roads[..k], a, b);
      SegmentsEdges(Roads(roads[..k]), pts, SegmentCount(pts), a, b);
      StepsSplit(roads, a, b);
      StepsSplit(roads, b, a);
    }
  }

  /** A segment of the roads is a segment of the earlier roads or of the last one. */
  lemma StepsSplit(roads: seq<Road>, a: HexKey, b: HexKey)
    requires |roads| > 0
    ensures var k := |roads| - 1;
      RoadStep(roads, a, b) <==>
        RoadStep(roads[..k], a, b) || exists i :: i < SegmentCount(Points(roads[k])) && Step(Points(roads[k]), i, a, b)
  {
    var k := |roads| - 1;
    if RoadStep(roads, a, b) {
      var r, i :| 0 <= r < |roads| && Step(Points(roads[r]), i, a, b);
      if r < k {
        assert roads[..k][r] == roads[r];
      }
    }
    if RoadStep(roads[..k], a, b) {
      var r, i :| 0 <= r < k && Step(Points(roads[..k][r]), i, a, b);
      assert roads[..k][r] == roads[r];
    }
  }

  /** `degreesByHexKey`: each recorded hex with its number of distinct neighbours. */
  function Degrees(g: Graph): map<HexKey, nat>
  {
    map a | a in g :: |g[a]|
  }

  /**
   * `buildRoadGraph`. The neighbour map records, for every hex on a road, the
   * hexes a road segment joins it to, in both directions; degrees count
   * distinct neighbours, so repeated segments do not inflate them.
   */
  method BuildRoadGraph(roads: seq<Road>) returns (neighbours: Graph, degrees: map<HexKey, nat>)
    ensures forall a, b :: Edge(neighbours, a, b) <==> Linked(roads, a, b)
    ensures NoIsolated(neighbours)
    ensures degrees.Keys == neighbours.Keys
    ensures forall a :: a in degrees ==> degrees[a] == |neighbours[a]| && degrees[a] >= 1
    ensures neighbours == Roads(roads)
  {
    neighbours := map[];
    for r := 0 to |roads|
      invariant neighbours == Roads(roads[..r])
    {
      var pts := Points(roads[r]);
      var i := 0;
      while i < |pts| - 1
        invariant 0 <= i <= SegmentCount(pts)
        invariant neighbours == Segments(Roads(roads[..r]), pts, i)
      {
        var start, end := Normalize(pts[i]), Normalize(pts[i + 1]);
        if start.Some? && end.Some? && start != end {
          neighbours := AddNeighbor(neighbours, start.value, end.value);
          neighbours := AddNeighbor(neighbours, end.value, start.value);
        }
        i := i + 1;
      }
      assert roads[..r + 1][..r] == roads[..r];
    }
    assert roads[..|roads|] == roads;
    forall a, b ensures Edge(neighbours, a, b) <==> Linked(roads, a, b) {
      RoadsEdges(roads, a, b);
    }
    degrees := map a | a in neighbours :: |neighbours[a]|;
    forall a | a in degrees ensures degrees[a] >= 1 {
      assert neighbours[a] != {};
    }
  }

  /** `getJunctionHexKeys`: the hexes with at least three distinct road neighbours. */
  function JunctionKeys(roads: seq<Road>): (j: set<HexKey>)
    ensures forall a :: a in j <==> a in Roads(roads) && |Roads(roads)[a]| >= 3
  {
    var d := Degrees(Roads(roads));
    set a | a in d && d[a] >= 3
  }

  lemma RoadsStep(roads: seq<Road>, road: Road)
    ensures Roads(roads + [road]) == Segments(Roads(roads), Points(road), SegmentCount(Points(road)))
  {
    assert (roads + [road])[..|roads|] == roads;
  }

  /** Linking two integer array points that differ adds both directions. */
  lemma LinkPoints(g: Graph, r1: int, c1: int, r2: int, c2: int)
    requires (r1, c1) != (r2, c2)
    ensures var a, b := (Some(r1), Some(c1)), (Some(r2), Some(c2));
      Link(g, ArrayPoint([r1, c1]), ArrayPoint([r2, c2])) == AddNeighbor(AddNeighbor(g, a, b), b, a)
  {
  }

  function Key(row: int, column: int): HexKey {
    (Some(row), Some(column))
  }

  function Straight(): seq<Road> {
    [Road(Some([ArrayPoint([2, 3]), ArrayPoint([2, 4]), ArrayPoint([2, 5])]), None)]
  }

  lemma StraightRoadGraph()
    ensures Roads(Straight()) == map[Key(2, 3) := {Key(2, 4)}, Key(2, 4) := {Key(2, 3), Key(2, 5)}, Key(2, 5) := {Key(2, 4)}]
  {
    var k23, k24, k25 := Key(2, 3), Key(2, 4), Key(2, 5);
    var pts := [ArrayPoint([2, 3]), ArrayPoint([2, 4]), ArrayPoint([2, 5])];
    var road := Road(Some(pts), None);
    RoadsStep([], road);
    assert [] + [road] == Straight();
    LinkPoints(map[], 2, 3, 2, 4);
    var g1 := map[k23 := {k24}, k24 := {k23}];
    assert Segments(map[], pts, 1) == g1;
    LinkPoints(g1, 2, 4, 2, 5);
    assert {k23} + {k25} == {k23, k25};
  }

  /** A straight road: degree 1 at both ends and 2 in the middle, and no junction. */
  lemma StraightRoadExample()
    ensures var d := Degrees(Roads(Straight()));
      d.Keys == {Key(2, 3), Key(2, 4), Key(2, 5)} && d[Key(2, 3)] == 1 && d[Key(2, 4)] == 2 && d[Key(2, 5)] == 1
    ensures JunctionKeys(Straight()) == {}
  {
    StraightRoadGraph();
    assert |{Key(2, 3), Key(2, 5)}| == 2;
  }

  function Crossroads(): seq<Road> {
    [Road(Some([ArrayPoint([4, 4]), ArrayPoint([4, 5]), ArrayPoint([4, 6])]), None),
     Road(Some([ArrayPoint([3, 5]), ArrayPoint([4, 5])]), None)]
  }

  lemma CrossroadsGraph()
    ensures Roads(Crossroads())[Key(4, 5)] == {Key(4, 4), Key(4, 6), Key(3, 5)}
  {
    var k44, k45, k46, k35 := Key(4, 4), Key(4, 5), Key(4, 6), Key(3, 5);
    var p1 := [ArrayPoint([4, 4]), ArrayPoint([4, 5]), ArrayPoint([4, 6])];
    var p2 := [ArrayPoint([3, 5]), ArrayPoint([4, 5])];
    var r1, r2 := Road(Some(p1), None), Road(Some(p2), None);
    RoadsStep([], r1);
    RoadsStep([r1], r2);
    assert [] + [r1] == [r1];
    assert [r1] + [r2] == Crossroads();
    LinkPoints(map[], 4, 4, 4, 5);
    var g0 := map[k44 := {k45}, k45 := {k44}];
    assert Segments(map[], p1, 1) == g0;
    LinkPoints(g0, 4, 5, 4, 6);
    var g1 := map[k44 := {k45}, k45 := {k44, k46}, k46 := {k45}];
    assert {k44} + {k46} == {k44, k46};
    assert Segments(map[], p1, 2) == g1;
    LinkPoints(g1, 3, 5, 4, 5);
    assert {k44, k46} + {k35} == {k44, k46, k35};
  }

  /** Two roads crossing at a shared hex give it degree 3, which makes it a junction. */
  lemma CrossroadsExample()
    ensures var d := Degrees(Roads(Crossroads())); Key(4, 5) in d && d[Key(4, 5)] == 3
    ensures Key(4, 5) in JunctionKeys(Crossroads())
  {
    CrossroadsGraph();
    assert |{Key(4, 4), Key(4, 6), Key(3, 5)}| == 3;
  }

  function Repeated(): seq<Road> {
    [Road(Some([ArrayPoint([1, 1]), ArrayPoint([1, 2])]), None),
     Road(Some([ArrayPoint([1, 2]), ArrayPoint([1, 1])]), None),
     Road(None, Some([ArrayPoint([1, 1]), ArrayPoint([2, 1])]))]
  }

  /** The first two roads of `Repeated` are the same segment in both directions. */
  lemma RepeatedPairGraph()
    ensures Roads(Repeated()[..2]) == map[Key(1, 1) := {Key(1, 2)}, Key(1, 2) := {Key(1, 1)}]
  {
    var k11, k12 := Key(1, 1), Key(1, 2);
    var p1 := [ArrayPoint([1, 1]), ArrayPoint([1, 2])];
    var p2 := [ArrayPoint([1, 2]), ArrayPoint([1, 1])];
    var r1, r2 := Road(Some(p1), None), Road(Some(p2), None);
    RoadsStep([], r1);
    RoadsStep([r1], r2);
    assert [] + [r1] == [r1];
    assert [r1] + [r2] == Repeated()[..2];
    LinkPoints(map[], 1, 1, 1, 2);
    var g := map[k11 := {k12}, k12 := {k11}];
    assert Segments(map[], p1, 1) == g;
    LinkPoints(g, 1, 2, 1, 1);
    assert {k12} + {k12} == {k12} && {k11} + {k11} == {k11};
  }

  lemma RepeatedGraph()
    ensures Roads(Repeated()) == map[Key(1, 1) := {Key(1, 2), Key(2, 1)}, Key(1, 2) := {Key(1, 1)}, Key(2, 1) := {Key(1, 1)}]
  {
    var k11, k12, k21 := Key(1, 1), Key(1, 2), Key(2, 1);
    var p3 := [ArrayPoint([1, 1]), ArrayPoint([2, 1])];
    var r3 := Road(None, Some(p3));
    RepeatedPairGraph();
    RoadsStep(Repeated()[..2], r3);
    assert Repeated()[..2] + [r3] == Repeated();
    LinkPoints(map[k11 := {k12}, k12 := {k11}], 1, 1, 2, 1);
    assert {k12} + {k21} == {k12, k21};
  }

  /** The same segment given twice, in either direction, counts once. */
  lemma DeduplicationExample()
    ensures var d := Degrees(Roads(Repeated()));
      Key(1, 1) in d && Key(1, 2) in d && Key(2, 1) in d && d[Key(1, 1)] == 2 && d[Key(1, 2)] == 1 && d[Key(2, 1)] == 1
  {
    RepeatedGraph();
    assert |{Key(1, 2), Key(2, 1)}| == 2;
  }
}

=== FILE: routes.dfy ===
/**
 * Legal movement routes, the reference definition every search is measured
 * against. A unit moves hex by hex to on-board neighbours, pays the cost of
 * each hex it enters, and must stop on entering a hex next to an enemy unit
 * (zone of control): such a hex may end a route but not continue it.
 */
module Routes {
  import opened HexGrid
  import opened Units
  import opened Boards

  /** The board's breadth-first search charges one point per hex; movement charges terrain costs. */
  datatype Pricing = Flat | ByTerrain

  /** Searches may be confined to a set of hexes (the second pass of a shortest-path search). */
  datatype Region = Anywhere | Within(area: set<Coord>)

  predicate Allows(rg: Region, c: Coord) {
    rg.Anywhere? || c in rg.area
  }

  /** `move_cost`: a hex without terrain costs one point, otherwise its terrain's cost. */
  function MoveCost(h: Hex): int {
    match h.terrain
      case None => 1
      case Some(t) => t.moveCost
  }

  /** Every step costs at least one point: always under flat pricing, and on boards with positive terrain costs. */
  predicate CostsPositive(b: Board, pricing: Pricing) {
    pricing.Flat? || PositiveCosts(b)
  }

  /** No step costs less than nothing: always under flat pricing, and on boards without negative terrain costs. */
  predicate CostsNonNegative(b: Board, pricing: Pricing) {
    pricing.Flat? || NonNegativeCosts(b)
  }

  /** Cost of entering hex `c`. */
  function StepCost(b: Board, pricing: Pricing, c: Coord): (r: int)
    requires Laid(b)
    ensures CostsPositive(b, pricing) ==> r >= 1
    ensures CostsNonNegative(b, pricing) ==> r >= 0
  {
    match pricing
      case Flat => 1
      case ByTerrain => if InBounds(b, c) then MoveCost(GetHex(b, c).value) else 1
  }

  /** One legal step: `y` is an allowed on-board neighbour of `x`, and `x` is not in an enemy's zone of control. */
  predicate Step(b: Board, u: Unit, rg: Region, x: Coord, y: Coord) {
    y in NeighbourCoords(b, x) && Allows(rg, y) && !EnemyAdjacent(b, u, x)
  }

  ghost predicate IsRoute(b: Board, u: Unit, rg: Region, s: Coord, p: seq<Coord>) {
    |p| >= 1 && p[0] == s &&
    forall i :: 0 <= i < |p| - 1 ==> Step(b, u, rg, p[i], p[i + 1])
  }

  function Last(p: seq<Coord>): Coord
    requires |p| >= 1
  {
    p[|p| - 1]
  }

  /** Total cost of the hexes entered after the first. */
  function RouteCost(b: Board, pricing: Pricing, p: seq<Coord>): int
    requires Laid(b)
    decreases |p|
  {
    if |p| <= 1 then 0 else RouteCost(b, pricing, p[..|p| - 1]) + StepCost(b, pricing, Last(p))
  }

  /**
   * The route leaves its last-but-one hex with points to spare. The searches
   * never expand a hex whose cost has reached the budget, so this matters
   * once a step can cost nothing: a zero-cost hex next to a hex reached at
   * exactly the budget is not entered from it.
   */
  ghost predicate Departs(b: Board, pricing: Pricing, budget: int, p: seq<Coord>)
    requires Laid(b)
  {
    |p| <= 1 || RouteCost(b, pricing, p[..|p| - 1]) < budget
  }

  /** Some legal route from `s` ends at `c`, costs at most `budget`, and departs its last-but-one hex below the budget. */
  ghost predicate CanReach(b: Board, u: Unit, pricing: Pricing, rg: Region, s: Coord, budget: int, c: Coord)
    requires Laid(b)
  {
    exists p :: IsRoute(b, u, rg, s, p) && Last(p) == c && RouteCost(b, pricing, p) <= budget &&
      Departs(b, pricing, budget, p)
  }

  /** Extending a route by one legal step adds the entered hex's cost. */
  lemma RouteExtend(b: Board, u: Unit, pricing: Pricing, rg: Region, s: Coord, p: seq<Coord>, n: Coord)
    requires Laid(b) && IsRoute(b, u, rg, s, p) && Step(b, u, rg, Last(p), n)
    ensures IsRoute(b, u, rg, s, p + [n]) && Last(p + [n]) == n && (p + [n])[..|p|] == p
    ensures RouteCost(b, pricing, p + [n]) == RouteCost(b, pricing, p) + StepCost(b, pricing, n)
  {
    assert (p + [n])[..|p|] == p;
  }

  /** Dropping the last hex of a route leaves a route that costs no more, and strictly less when every step costs a point. */
  lemma RouteTrim(b: Board, u: Unit, pricing: Pricing, rg: Region, s: Coord, p: seq<Coord>)
    requires Laid(b) && CostsNonNegative(b, pricing) && IsRoute(b, u, rg, s, p) && |p| >= 2
    ensures IsRoute(b, u, rg, s, p[..|p| - 1])
    ensures Step(b, u, rg, Last(p[..|p| - 1]), Last(p))
    ensures RouteCost(b, pricing, p[..|p| - 1]) + StepCost(b, pricing, Last(p)) == RouteCost(b, pricing, p)
    ensures RouteCost(b, pricing, p[..|p| - 1]) <= RouteCost(b, pricing, p)
    ensures CostsPositive(b, pricing) ==> RouteCost(b, pricing, p[..|p| - 1]) < RouteCost(b, pricing, p)
  {
    var q := p[..|p| - 1];
    forall i | 0 <= i < |q| - 1
      ensures Step(b, u, rg, q[i], q[i + 1])
    {
      assert q[i] == p[i] && q[i + 1] == p[i + 1];
    }
    assert Step(b, u, rg, p[|p| - 2], p[|p| - 1]);
  }

  /** A route that departs below the budget trims to one that does too, and that costs less than the budget. */
  lemma DepartsTrim(b: Board, u: Unit, pricing: Pricing, rg: Region, s: Coord, budget: int, p: seq<Coord>)
    requires Laid(b) && CostsNonNegative(b, pricing) && IsRoute(b, u, rg, s, p) && |p| >= 2
    requires Departs(b, pricing, budget, p)
    ensures RouteCost(b, pricing, p[..|p| - 1]) < budget && Departs(b, pricing, budget, p[..|p| - 1])
  {
    var q := p[..|p| - 1];
    if |q| >= 2 {
      RouteTrim(b, u, pricing, rg, s, p);
      RouteTrim(b, u, pricing, rg, s, q);
    }
  }

  /** With every step costing a point, a route within budget departs below it. */
  lemma PositiveDeparts(b: Board, u: Unit, pricing: Pricing, rg: Region, s: Coord, budget: int, p: seq<Coord>)
    requires Laid(b) && CostsPositive(b, pricing) && IsRoute(b, u, rg, s, p) && RouteCost(b, pricing, p) <= budget
    ensures Departs(b, pricing, budget, p)
  {
    if |p| >= 2 {
      RouteTrim(b, u, pricing, rg, s, p);
    }
  }

  /** A route that costs less than the budget departs below it. */
  lemma CheapDeparts(b: Board, u: Unit, pricing: Pricing, rg: Region, s: Coord, budget: int, p: seq<Coord>)
    requires Laid(b) && CostsNonNegative(b, pricing) && IsRoute(b, u, rg, s, p) && RouteCost(b, pricing, p) < budget
    ensures Departs(b, pricing, budget, p)
  {
    if |p| >= 2 {
      RouteTrim(b, u, pricing, rg, s, p);
    }
  }

  /** With every step costing a point, reaching a hex means no more than some legal route within budget ending there. */
  lemma ReachWithPositiveCosts(b: Board, u: Unit, pricing: Pricing, rg: Region, s: Coord, budget: int, c: Coord)
    requires Laid(b) && CostsPositive(b, pricing)
    ensures CanReach(b, u, pricing, rg, s, budget, c) <==>
      exists p :: IsRoute(b, u, rg, s, p) && Last(p) == c && RouteCost(b, pricing, p) <= budget
  {
    if exists p :: IsRoute(b, u, rg, s, p) && Last(p) == c && RouteCost(b, pricing, p) <= budget {
      var p :| IsRoute(b, u, rg, s, p) && Last(p) == c && RouteCost(b, pricing, p) <= budget;
      PositiveDeparts(b, u, pricing, rg, s, budget, p);
    }
  }

  /** A single hex is a route of cost zero. */
  lemma TrivialRoute(b: Board, u: Unit, pricing: Pricing, rg: Region, s: Coord)
    requires Laid(b)
    ensures IsRoute(b, u, rg, s, [s]) && Last([s]) == s && RouteCost(b, pricing, [s]) == 0
  {
  }

  /** The labels a search has assigned: the best cost found so far per coordinate. */
  type Labels = map<Coord, int>

  /**
   * A labelled hex is relaxed when none of its neighbours can be improved
   * through it: it is over budget, in a zone of control, or every allowed
   * neighbour is either too expensive to enter or already labelled at least
   * as cheaply.
   */
  ghost predicate Relaxed(b: Board, u: Unit, pricing: Pricing, rg: Region, budget: int, dist: Labels, c: Coord)
    requires Laid(b) && c in dist
  {
    dist[c] >= budget || EnemyAdjacent(b, u, c) ||
    forall n :: n in NeighbourCoords(b, c) && Allows(rg, n) ==>
      dist[c] + StepCost(b, pricing, n) > budget ||
      (n in dist && dist[n] <= dist[c] + StepCost(b, pricing, n))
  }

  /**
   * Label `dist[c]` is the cost of a recorded legal route to `c`, within
   * budget unless `c` is the start; when the search `stops` expanding hexes
   * whose cost has reached the budget, the route also departs below it.
   */
  ghost predicate Witnessed(b: Board, u: Unit, pricing: Pricing, rg: Region, s: Coord, budget: int, stops: bool,
                            dist: Labels, paths: map<Coord, seq<Coord>>, c: Coord)
    requires Laid(b) && c in dist
  {
    c in paths && IsRoute(b, u, rg, s, paths[c]) && Last(paths[c]) == c
    && RouteCost(b, pricing, paths[c]) == dist[c] && (c == s || dist[c] <= budget)
    && (stops ==> Departs(b, pricing, budget, paths[c]))
  }

  /** `dist'` labels everything `dist` does, no worse. */
  ghost predicate Improves(dist: Labels, dist': Labels) {
    forall c :: c in dist ==> c in dist' && dist'[c] <= dist[c]
  }

  /** Lowering other labels keeps a hex relaxed. */
  lemma RelaxedStays(b: Board, u: Unit, pricing: Pricing, rg: Region, budget: int,
                     dist: Labels, dist': Labels, c: Coord)
    requires Laid(b) && c in dist && Improves(dist, dist') && dist'[c] == dist[c]
    requires Relaxed(b, u, pricing, rg, budget, dist, c)
    ensures Relaxed(b, u, pricing, rg, budget, dist', c)
  {
  }

  /**
   * Completeness of label-correcting search: if the start is labelled 0 and
   * every label below `bound` is relaxed, every route costing less than
   * `bound`, within budget and departing below it, ends at a labelled hex,
   * labelled no worse than the route's cost.
   */
  lemma {:induction false} RelaxedLabelsReach(b: Board, u: Unit, pricing: Pricing, rg: Region, s: Coord,
                                              budget: int, bound: int, dist: Labels, p: seq<Coord>)
    requires Laid(b) && CostsNonNegative(b, pricing)
    requires s in dist && dist[s] <= 0
    requires forall c :: c in dist && dist[c] < bound ==> Relaxed(b, u, pricing, rg, budget, dist, c)
    requires IsRoute(b, u, rg, s, p) && RouteCost(b, pricing, p) <= budget && RouteCost(b, pricing, p) < bound
    requires Departs(b, pricing, budget, p)
    ensures Last(p) in dist && dist[Last(p)] <= RouteCost(b, pricing, p)
    decreases |p|
  {
    if |p| >= 2 {
      var q := p[..|p| - 1];
      RouteTrim(b, u, pricing, rg, s, p);
      DepartsTrim(b, u, pricing, rg, s, budget, p);
      RelaxedLabelsReach(b, u, pricing, rg, s, budget, bound, dist, q);
      var x, n := Last(q), Last(p);
      assert n in NeighbourCoords(b, x) && Allows(rg, n) && !EnemyAdjacent(b, u, x);
      assert dist[x] < budget;
      assert Relaxed(b, u, pricing, rg, budget, dist, x);
    }
  }

  /** A route that stays inside a region is a route anywhere. */
  lemma WidenRoute(b: Board, u: Unit, s: Coord, area: set<Coord>, p: seq<Coord>)
    requires IsRoute(b, u, Within(area), s, p)
    ensures IsRoute(b, u, Anywhere, s, p)
  {
    assert forall i :: 0 <= i < |p| - 1 ==> Step(b, u, Within(area), p[i], p[i + 1]);
  }

  /** A route whose hexes after the first all lie in a region is a route within it. */
  lemma NarrowRoute(b: Board, u: Unit, s: Coord, area: set<Coord>, p: seq<Coord>)
    requires IsRoute(b, u, Anywhere, s, p)
    requires forall i :: 1 <= i < |p| ==> p[i] in area
    ensures IsRoute(b, u, Within(area), s, p)
  {
    forall i | 0 <= i < |p| - 1
      ensures Step(b, u, Within(area), p[i], p[i + 1])
    {
      assert Step(b, u, Anywhere, p[i], p[i + 1]);
      assert p[i + 1] in area;
    }
  }

  /** Every hex along a route within budget that departs below it is itself reachable within budget. */
  lemma {:induction false} PrefixesReachable(b: Board, u: Unit, pricing: Pricing, rg: Region, s: Coord,
                                             budget: int, p: seq<Coord>, k: nat)
    requires Laid(b) && CostsNonNegative(b, pricing)
    requires IsRoute(b, u, rg, s, p) && RouteCost(b, pricing, p) <= budget && Departs(b, pricing, budget, p)
    requires 1 <= k <= |p|
    ensures IsRoute(b, u, rg, s, p[..k]) && RouteCost(b, pricing, p[..k]) <= budget && Departs(b, pricing, budget, p[..k])
    ensures CanReach(b, u, pricing, rg, s, budget, p[k - 1])
    decreases |p| - k
  {
    if k == |p| {
      assert p[..k] == p;
    } else {
      RouteTrim(b, u, pricing, rg, s, p);
      DepartsTrim(b, u, pricing, rg, s, budget, p);
      PrefixesReachable(b, u, pricing, rg, s, budget, p[..|p| - 1], k);
      assert p[..|p| - 1][..k] == p[..k];
    }
    assert Last(p[..k]) == p[k - 1];
  }

  /** Every legal step out of `x` lands inside `visited`. */
  ghost predicate Expanded(b: Board, u: Unit, rg: Region, visited: set<Coord>, x: Coord) {
    forall y {:trigger Step(b, u, rg, x, y)} :: Step(b, u, rg, x, y) ==> y in visited
  }

  /** A set that holds the start and is closed under legal steps holds every hex of every route. */
  lemma {:induction false} ClosedReaches(b: Board, u: Unit, rg: Region, s: Coord, visited: set<Coord>,
                                         p: seq<Coord>, k: nat)
    requires s in visited && IsRoute(b, u, rg, s, p) && k < |p|
    requires forall x {:trigger Expanded(b, u, rg, visited, x)} :: x in visited ==> Expanded(b, u, rg, visited, x)
    ensures p[k] in visited
    decreases k
  {
    if k > 0 {
      ClosedReaches(b, u, rg, s, visited, p, k - 1);
      assert Expanded(b, u, rg, visited, p[k - 1]);
      assert Step(b, u, rg, p[k - 1], p[k]);
    }
  }

  /** With no step costing less than nothing, no route does. */
  lemma {:induction false} RouteCostNonnegative(b: Board, pricing: Pricing, p: seq<Coord>)
    requires Laid(b) && CostsNonNegative(b, pricing)
    ensures RouteCost(b, pricing, p) >= 0
    decreases |p|
  {
    if |p| > 1 {
      RouteCostNonnegative(b, pricing, p[..|p| - 1]);
    }
  }

  /** With a budget below one point, only the start itself can be reached. */
  lemma OnlyStartWithoutPoints(b: Board, u: Unit, pricing: Pricing, rg: Region, s: Coord, budget: int)
    requires Laid(b) && CostsNonNegative(b, pricing) && budget < 1
    ensures forall c :: CanReach(b, u, pricing, rg, s, budget, c) ==> c == s
  {
    forall c | CanReach(b, u, pricing, rg, s, budget, c) ensures c == s {
      var p :| IsRoute(b, u, rg, s, p) && Last(p) == c && RouteCost(b, pricing, p) <= budget &&
        Departs(b, pricing, budget, p);
      if |p| >= 2 {
        RouteCostNonnegative(b, pricing, p[..|p| - 1]);
        assert false;
      }
    }
  }

  /** A start in an enemy's zone of control cannot be left: nothing else is reachable from it. */
  lemma OnlyStartInZoneOfControl(b: Board, u: Unit, pricing: Pricing, rg: Region, s: Coord, budget: int)
    requires Laid(b) && EnemyAdjacent(b, u, s)
    ensures forall c :: CanReach(b, u, pricing, rg, s, budget, c) ==> c == s
  {
    forall c | CanReach(b, u, pricing, rg, s, budget, c) ensures c == s {
      var p :| IsRoute(b, u, rg, s, p) && Last(p) == c && RouteCost(b, pricing, p) <= budget &&
        Departs(b, pricing, budget, p);
      assert |p| == 1 || Step(b, u, rg, p[0], p[1]);
    }
  }

  /** A hex reachable within budget is reachable through hexes that are themselves reachable within budget. */
  lemma ReachInside(b: Board, u: Unit, pricing: Pricing, s: Coord, budget: int, area: set<Coord>, c: Coord)
    requires Laid(b) && CostsNonNegative(b, pricing)
    requires forall x :: x in area <==> x == s || CanReach(b, u, pricing, Anywhere, s, budget, x)
    requires CanReach(b, u, pricing, Anywhere, s, budget, c)
    ensures CanReach(b, u, pricing, Within(area), s, budget, c)
  {
    var p :| IsRoute(b, u, Anywhere, s, p) && Last(p) == c && RouteCost(b, pricing, p) <= budget &&
      Departs(b, pricing, budget, p);
    RouteInside(b, u, pricing, s, budget, area, p);
  }

  /** A route within budget that departs below it stays inside the set of hexes reachable within budget. */
  lemma RouteInside(b: Board, u: Unit, pricing: Pricing, s: Coord, budget: int, area: set<Coord>, p: seq<Coord>)
    requires Laid(b) && CostsNonNegative(b, pricing)
    requires forall x :: x in area <==> x == s || CanReach(b, u, pricing, Anywhere, s, budget, x)
    requires IsRoute(b, u, Anywhere, s, p) && RouteCost(b, pricing, p) <= budget && Departs(b, pricing, budget, p)
    ensures IsRoute(b, u, Within(area), s, p)
  {
    forall i | 1 <= i < |p| ensures p[i] in area {
      PrefixesReachable(b, u, pricing, Anywhere, s, budget, p, i + 1);
    }
    NarrowRoute(b, u, s, area, p);
  }
}

=== FILE: scenario_loader.dfy ===
/**
 * The scenario loader's conversion of a parsed scenario file into core
 * scenario data: objectives are grouped by coordinates and handed to the hex
 * entries at those coordinates; objectives with no hex entry become entries
 * of their own, in coordinate order; every other part is copied field by
 * field. Reading and parsing the file is not modelled: the parsed payload is
 * a parameter.
 */
module ScenarioLoader {
  import opened Wrappers
  import opened HexGrid
  import opened ObjectiveScoring

  // ---------------------------------------------------------------------------
  // The parsed file

  datatype FactionData = FactionData(id: string, name: string, color: string, player: string)

  datatype UnitData = UnitData(id: string, name: string, faction: string, kind: string,
                               attack: int, defense: int, movement: int)

  datatype HexDataEntry = HexDataEntry(coords: Coord, terrain: Option<string>, units: Option<seq<string>>)

  datatype ObjectiveEntry = ObjectiveEntry(coords: Coord, points: int, kind: string)

  datatype RoadEntry = RoadEntry(kind: string, path: seq<Coord>)

  /** A validated scenario file; absent optional sections are `None`. */
  datatype ScenarioData = ScenarioData(
    version: string, id: string, name: string, description: string, boardSize: (int, int),
    factions: seq<FactionData>, units: seq<UnitData>, terrainDefault: Option<string>,
    terrainTypes: Option<map<string, string>>, roadTypes: Option<map<string, real>>,
    roads: Option<seq<RoadEntry>>, hexData: Option<seq<HexDataEntry>>, objectives: Option<seq<ObjectiveEntry>>)

  // ---------------------------------------------------------------------------
  // The core scenario

  datatype ScenarioFaction = ScenarioFaction(id: string, name: string, color: string, player: string)

  datatype ScenarioUnit = ScenarioUnit(id: string, name: string, faction: string, kind: string,
                                       attack: int, defense: int, movement: int)

  datatype ScenarioHexData = ScenarioHexData(coords: Coord, terrain: Option<string>, units: Option<seq<string>>,
                                             objectives: seq<Objective>)

  datatype ScenarioTerrainType = ScenarioTerrainType(color: string)

  datatype ScenarioRoadType = ScenarioRoadType(edgeMoveCost: real)

  datatype ScenarioRoad = ScenarioRoad(kind: string, path: seq<Coord>)

  datatype Scenario = Scenario(
    id: string, name: string, description: Option<string>, boardSize: Option<(int, int)>,
    factions: seq<ScenarioFaction>, units: seq<ScenarioUnit>, terrainDefault: Option<string>,
    terrainTypes: map<string, ScenarioTerrainType>, roadTypes: map<string, ScenarioRoadType>,
    roads: seq<ScenarioRoad>, hexData: seq<ScenarioHexData>)

  // ---------------------------------------------------------------------------
  // The objective map: an insertion-ordered dictionary from coordinates to the
  // objectives there, as an association list

  type ObjMap = seq<(Coord, seq<Objective>)>

  function Keys(m: ObjMap): set<Coord> {
    set i | 0 <= i < |m| :: m[i].0
  }

  predicate DistinctKeys(m: ObjMap) {
    forall i, j :: 0 <= i < j < |m| ==> m[i].0 != m[j].0
  }

  /** The objectives filed under `c`; none when `c` is not a key. */
  function Get(m: ObjMap, c: Coord): seq<Objective> {
    if |m| == 0 then []
    else if m[0].0 == c then m[0].1
    else Get(m[1..], c)
  }

  /** All objectives filed in the map, counted with multiplicity. */
  function Filed(m: ObjMap): multiset<Objective> {
    if |m| == 0 then multiset{} else multiset(m[0].1) + Filed(m[1..])
  }

  /** `setdefault(c, []).append(o)`. */
  function Add(m: ObjMap, c: Coord, o: Objective): ObjMap {
    if |m| == 0 then [(c, [o])]
    else if m[0].0 == c then [(c, m[0].1 + [o])] + m[1..]
    else [m[0]] + Add(m[1..], c, o)
  }

  lemma {:induction false} KeysCons(x: (Coord, seq<Objective>), m: ObjMap)
    ensures Keys([x] + m) == {x.0} + Keys(m)
  {
    forall c | c in Keys([x] + m) ensures c in {x.0} + Keys(m) {
      var i :| 0 <= i < |[x] + m| && ([x] + m)[i].0 == c;
      if i > 0 {
        assert m[i - 1].0 == c;
      }
    }
    forall c | c in Keys(m) ensures c in Keys([x] + m) {
      var i :| 0 <= i < |m| && m[i].0 == c;
      assert ([x] + m)[i + 1].0 == c;
    }
    assert ([x] + m)[0].0 == x.0;
  }

  lemma {:induction false} DistinctCons(x: (Coord, seq<Objective>), m: ObjMap)
    ensures DistinctKeys([x] + m) <==> x.0 !in Keys(m) && DistinctKeys(m)
  {
    var xm := [x] + m;
    if DistinctKeys(xm) {
      forall i, j | 0 <= i < j < |m| ensures m[i].0 != m[j].0 {
        assert xm[i + 1] == m[i] && xm[j + 1] == m[j];
      }
      forall i | 0 <= i < |m| ensures m[i].0 != x.0 {
        assert xm[i + 1] == m[i] && xm[0] == x;
      }
    }
    if x.0 !in Keys(m) && DistinctKeys(m) {
      forall i, j | 0 <= i < j < |xm| ensures xm[i].0 != xm[j].0 {
        assert xm[j] == m[j - 1];
        if i > 0 {
          assert xm[i] == m[i - 1];
        }
      }
    }
  }

  /** A key outside the map has nothing filed under it. */
  lemma {:induction false} GetAbsent(m: ObjMap, c: Coord)
    requires c !in Keys(m)
    ensures Get(m, c) == []
  {
    if |m| > 0 {
      KeysCons(m[0], m[1..]);
      assert [m[0]] + m[1..] == m;
      GetAbsent(m[1..], c);
    }
  }

  /** Appending an objective adds its coordinates to the keys, which stay distinct. */
  lemma {:induction false} AddKeys(m: ObjMap, c: Coord, o: Objective)
    ensures Keys(Add(m, c, o)) == Keys(m) + {c}
    ensures DistinctKeys(m) ==> DistinctKeys(Add(m, c, o))
  {
    if |m| > 0 {
      assert [m[0]] + m[1..] == m;
      KeysCons(m[0], m[1..]);
      DistinctCons(m[0], m[1..]);
      if m[0].0 == c {
        KeysCons((c, m[0].1 + [o]), m[1..]);
        DistinctCons((c, m[0].1 + [o]), m[1..]);
      } else {
        AddKeys(m[1..], c, o);
        KeysCons(m[0], Add(m[1..], c, o));
        DistinctCons(m[0], Add(m[1..], c, o));
      }
    } else {
      KeysCons((c, [o]), []);
    }
  }

  /** Appending an objective files it at the end of its coordinates' list and nowhere else. */
  lemma {:induction false} AddGet(m: ObjMap, c: Coord, o: Objective, x: Coord)
    ensures Get(Add(m, c, o), x) == Get(m, x) + (if x == c then [o] else [])
  {
    if |m| > 0 && m[0].0 != c && m[0].0 != x {
      AddGet(m[1..], c, o, x);
    }
  }

  /** Appending an objective files it once more. */
  lemma {:induction false} AddFiled(m: ObjMap, c: Coord, o: Objective)
    ensures Filed(Add(m, c, o)) == Filed(m) + multiset{o}
  {
    if |m| > 0 && m[0].0 != c {
      AddFiled(m[1..], c, o);
    }
  }

  /** The objective a file entry describes. */
  function ToObjective(e: ObjectiveEntry): Objective {
    Objective(e.coords, e.points, e.kind)
  }

  /** Reference: the file's objectives at `c`, in file order. */
  function ObjectivesAt(es: seq<ObjectiveEntry>, c: Coord): (r: seq<Objective>)
    ensures forall o :: o in r ==> o.coords == c
  {
    if |es| == 0 then []
    else
      var n := |es| - 1;
      ObjectivesAt(es[..n], c) + (if es[n].coords == c then [ToObjective(es[n])] else [])
  }

  /** All of the file's objectives, in file order. */
  function AllObjectives(es: seq<ObjectiveEntry>): (r: seq<Objective>)
    ensures |r| == |es|
  {
    if |es| == 0 then [] else AllObjectives(es[..|es| - 1]) + [ToObjective(es[|es| - 1])]
  }

  /** The grouping loop of `_build_objective_map`. */
  function Group(es: seq<ObjectiveEntry>): ObjMap {
    if |es| == 0 then []
    else
      var n := |es| - 1;
      Add(Group(es[..n]), es[n].coords, ToObjective(es[n]))
  }

  /** `_build_objective_map`: no objectives section, or an empty one, gives an empty map. */
  function BuildObjectiveMap(objectives: Option<seq<ObjectiveEntry>>): (m: ObjMap)
    ensures objectives.None? ==> m == []
  {
    if objectives.None? then [] else Group(objectives.value)
  }

  /** The map files, under each coordinate, exactly the file's objectives there, in file order. */
  lemma {:induction false} GroupGet(es: seq<ObjectiveEntry>, c: Coord)
    ensures Get(Group(es), c) == ObjectivesAt(es, c)
  {
    if |es| > 0 {
      var n := |es| - 1;
      GroupGet(es[..n], c);
      AddGet(Group(es[..n]), es[n].coords, ToObjective(es[n]), c);
    }
  }

  /** The map's keys are distinct, and are the coordinates that have objectives. */
  lemma {:induction false} GroupKeys(es: seq<ObjectiveEntry>)
    ensures DistinctKeys(Group(es))
    ensures forall c :: c in Keys(Group(es)) <==> ObjectivesAt(es, c) != []
  {
    if |es| > 0 {
      var n := |es| - 1;
      var m, e := Group(es[..n]), es[n];
      GroupKeys(es[..n]);
      AddKeys(m, e.coords, ToObjective(e));
      assert Group(es) == Add(m, e.coords, ToObjective(e));
      forall c ensures c in Keys(Group(es)) <==> ObjectivesAt(es, c) != [] {
        assert ObjectivesAt(es, c) == ObjectivesAt(es[..n], c) + (if e.coords == c then [ToObjective(e)] else []);
      }
    }
  }

  /** The map holds every objective of the file exactly once. */
  lemma {:induction false} GroupFiled(es: seq<ObjectiveEntry>)
    ensures Filed(Group(es)) == multiset(AllObjectives(es))
  {
    if |es| > 0 {
      var n := |es| - 1;
      GroupFiled(es[..n]);
      AddFiled(Group(es[..n]), es[n].coords, ToObjective(es[n]));
    }
  }

  // ---------------------------------------------------------------------------
  // `pop`: taking a coordinate's objectives out of the map

  /** The map without the entry for `c`. */
  function Remove(m: ObjMap, c: Coord): ObjMap {
    if |m| == 0 then []
    else if m[0].0 == c then Remove(m[1..], c)
    else [m[0]] + Remove(m[1..], c)
  }

  lemma {:induction false} RemoveAbsent(m: ObjMap, c: Coord)
    requires c !in Keys(m)
    ensures Remove(m, c) == m
  {
    if |m| > 0 {
      KeysCons(m[0], m[1..]);
      assert [m[0]] + m[1..] == m;
      RemoveAbsent(m[1..], c);
    }
  }

  /** Popping `c` drops exactly that key; distinct keys stay distinct. */
  lemma {:induction false} RemoveKeys(m: ObjMap, c: Coord)
    ensures Keys(Remove(m, c)) == Keys(m) - {c}
    ensures DistinctKeys(m) ==> DistinctKeys(Remove(m, c))
  {
    if |m| > 0 {
      assert [m[0]] + m[1..] == m;
      KeysCons(m[0], m[1..]);
      DistinctCons(m[0], m[1..]);
      RemoveKeys(m[1..], c);
      if m[0].0 != c {
        KeysCons(m[0], Remove(m[1..], c));
        DistinctCons(m[0], Remove(m[1..], c));
      }
    }
  }

  /** After popping `c`, nothing is filed under it and every other key keeps its objectives. */
  lemma {:induction false} RemoveGet(m: ObjMap, c: Coord, x: Coord)
    ensures Get(Remove(m, c), x) == if x == c then [] else Get(m, x)
  {
    if x == c {
      RemoveKeys(m, c);
      GetAbsent(Remove(m, c), c);
    } else if |m| > 0 && m[0].0 != x {
      RemoveGet(m[1..], c, x);
    }
  }

  /** With distinct keys, the popped list and the rest of the map together hold what the map held. */
  lemma {:induction false} RemoveFiled(m: ObjMap, c: Coord)
    requires DistinctKeys(m)
    ensures Filed(m) == multiset(Get(m, c)) + Filed(Remove(m, c))
  {
    if |m| > 0 {
      assert [m[0]] + m[1..] == m;
      DistinctCons(m[0], m[1..]);
      if m[0].0 == c {
        RemoveAbsent(m[1..], c);
      } else {
        RemoveFiled(m[1..], c);
      }
    }
  }

  // ---------------------------------------------------------------------------
  // The hex entries of the file

  /** `tuple(units) if units else None`: an absent or empty unit list becomes `None`. */
  function UnitsTuple(units: Option<seq<string>>): Option<seq<string>>
  {
    if units.Some? && units.value != [] then units else None
  }

  /**
   * A file hex entry carried into the core: same coordinates and terrain, and
   * its unit list, kept exactly when it is present and non-empty.
   */
  predicate KeptEntry(e: HexDataEntry, h: ScenarioHexData) {
    h.coords == e.coords && h.terrain == e.terrain &&
    (h.units.Some? <==> e.units.Some? && e.units.value != []) &&
    (h.units.Some? ==> h.units == e.units)
  }

  function ToHexData(e: HexDataEntry, objectives: seq<Objective>): ScenarioHexData {
    ScenarioHexData(e.coords, e.terrain, UnitsTuple(e.units), objectives)
  }

  /** The coordinates of the file's hex entries. */
  function CoordsOf(hd: seq<HexDataEntry>): (r: set<Coord>)
    ensures forall c :: c in r <==> exists i :: 0 <= i < |hd| && hd[i].coords == c
  {
    if |hd| == 0 then {}
    else
      var rest := CoordsOf(hd[1..]);
      assert forall c :: c in rest <==> exists i :: 1 <= i < |hd| && hd[i].coords == c by {
        forall c | c in rest ensures exists i :: 1 <= i < |hd| && hd[i].coords == c {
          var i :| 0 <= i < |hd[1..]| && hd[1..][i].coords == c;
          assert hd[i + 1].coords == c;
        }
        forall c | (exists i :: 1 <= i < |hd| && hd[i].coords == c) ensures c in rest {
          var i :| 1 <= i < |hd| && hd[i].coords == c;
          assert hd[1..][i - 1].coords == c;
        }
      }
      {hd[0].coords} + rest
  }

  /** An earlier hex entry has the same coordinates as entry `i`. */
  predicate SeenBefore(hd: seq<HexDataEntry>, i: int)
    requires 0 <= i < |hd|
  {
    exists j :: 0 <= j < i && hd[j].coords == hd[i].coords
  }

  /**
   * The hex-data loop of `_build_hex_entries`: each entry, in order, pops the
   * objectives at its coordinates. Returns the entries and what is left of
   * the map.
   */
  function HexEntries(hd: seq<HexDataEntry>, m: ObjMap): (r: (seq<ScenarioHexData>, ObjMap))
    ensures |r.0| == |hd|
  {
    if |hd| == 0 then ([], m)
    else
      var rest := HexEntries(hd[1..], Remove(m, hd[0].coords));
      ([ToHexData(hd[0], Get(m, hd[0].coords))] + rest.0, rest.1)
  }

  /**
   * Entry `i` keeps its coordinates, terrain and units, and receives the
   * objectives at its coordinates, unless an earlier entry with the same
   * coordinates popped them already.
   */
  lemma {:induction false} HexEntriesAt(hd: seq<HexDataEntry>, m: ObjMap, i: int)
    requires 0 <= i < |hd|
    ensures HexEntries(hd, m).0[i] == ToHexData(hd[i], if SeenBefore(hd, i) then [] else Get(m, hd[i].coords))
  {
    if i > 0 {
      var m' := Remove(m, hd[0].coords);
      HexEntriesAt(hd[1..], m', i - 1);
      RemoveGet(m, hd[0].coords, hd[i].coords);
      assert hd[1..][i - 1] == hd[i];
      if SeenBefore(hd[1..], i - 1) {
        var j :| 0 <= j < i - 1 && hd[1..][j].coords == hd[1..][i - 1].coords;
        assert hd[j + 1].coords == hd[i].coords;
      }
      if SeenBefore(hd, i) && hd[0].coords != hd[i].coords {
        var j :| 0 <= j < i && hd[j].coords == hd[i].coords;
        assert hd[1..][j - 1].coords == hd[1..][i - 1].coords;
      }
    }
  }

  /** What is left of the map is the map without the hex entries' coordinates. */
  lemma {:induction false} HexEntriesLeave(hd: seq<HexDataEntry>, m: ObjMap)
    ensures Keys(HexEntries(hd, m).1) == Keys(m) - CoordsOf(hd)
    ensures DistinctKeys(m) ==> DistinctKeys(HexEntries(hd, m).1)
    ensures forall x :: x !in CoordsOf(hd) ==> Get(HexEntries(hd, m).1, x) == Get(m, x)
  {
    if |hd| > 0 {
      var m' := Remove(m, hd[0].coords);
      HexEntriesLeave(hd[1..], m');
      RemoveKeys(m, hd[0].coords);
      forall x | x !in CoordsOf(hd) ensures Get(HexEntries(hd, m).1, x) == Get(m, x) {
        RemoveGet(m, hd[0].coords, x);
      }
    }
  }

  /** All objectives carried by a list of hex entries, with multiplicity. */
  function Carried(entries: seq<ScenarioHexData>): multiset<Objective> {
    if |entries| == 0 then multiset{} else multiset(entries[0].objectives) + Carried(entries[1..])
  }

  lemma {:induction false} CarriedAppend(a: seq<ScenarioHexData>, b: seq<ScenarioHexData>)
    ensures Carried(a + b) == Carried(a) + Carried(b)
  {
    if |a| > 0 {
      assert (a + b)[1..] == a[1..] + b;
      CarriedAppend(a[1..], b);
    } else {
      assert a + b == b;
    }
  }

  /** Popping loses nothing: the entries and the rest of the map hold what the map held. */
  lemma {:induction false} HexEntriesFiled(hd: seq<HexDataEntry>, m: ObjMap)
    requires DistinctKeys(m)
    ensures Carried(HexEntries(hd, m).0) + Filed(HexEntries(hd, m).1) == Filed(m)
  {
    if |hd| > 0 {
      var m' := Remove(m, hd[0].coords);
      RemoveKeys(m, hd[0].coords);
      RemoveFiled(m, hd[0].coords);
      HexEntriesFiled(hd[1..], m');
      var r := HexEntries(hd, m);
      assert r.0[1..] == HexEntries(hd[1..], m').0;
    }
  }

  // ---------------------------------------------------------------------------
  // The left-over objectives, in coordinate order

  /** Tuple order on coordinates: by row, then by column. */
  predicate Before(a: Coord, b: Coord) {
    a.row < b.row || (a.row == b.row && a.column < b.column)
  }

  predicate SortedByCoords(s: ObjMap) {
    forall i, j :: 0 <= i < j < |s| ==> Before(s[i].0, s[j].0)
  }

  function Insert(x: (Coord, seq<Objective>), s: ObjMap): ObjMap {
    if |s| == 0 then [x]
    else if Before(x.0, s[0].0) then [x] + s
    else [s[0]] + Insert(x, s[1..])
  }

  /** `sorted(objective_map.items())`; keys are distinct, so only the coordinates are compared. */
  function SortByCoords(s: ObjMap): ObjMap {
    if |s| == 0 then [] else Insert(s[0], SortByCoords(s[1..]))
  }

  /** A sorted list stays sorted under a new head that comes before all its entries. */
  lemma SortedCons(y: (Coord, seq<Objective>), t: ObjMap)
    requires SortedByCoords(t)
    requires forall z :: z in t ==> Before(y.0, z.0)
    ensures SortedByCoords([y] + t)
  {
    forall i, j | 0 <= i < j < |[y] + t| ensures Before(([y] + t)[i].0, ([y] + t)[j].0) {
      assert ([y] + t)[j] == t[j - 1];
      assert t[j - 1] in t;
      if i > 0 {
        assert ([y] + t)[i] == t[i - 1];
      }
    }
  }

  lemma {:induction false} InsertPerm(x: (Coord, seq<Objective>), s: ObjMap)
    ensures multiset(Insert(x, s)) == multiset(s) + multiset{x}
  {
    if |s| > 0 && !Before(x.0, s[0].0) {
      assert s == [s[0]] + s[1..];
      InsertPerm(x, s[1..]);
    }
  }

  lemma {:induction false} InsertSorted(x: (Coord, seq<Objective>), s: ObjMap)
    requires SortedByCoords(s)
    requires forall y :: y in s ==> y.0 != x.0
    ensures SortedByCoords(Insert(x, s))
  {
    if |s| > 0 {
      assert s == [s[0]] + s[1..];
      assert forall z :: z in s[1..] ==> Before(s[0].0, z.0) by {
        forall z | z in s[1..] ensures Before(s[0].0, z.0) {
          var k :| 0 <= k < |s[1..]| && s[1..][k] == z;
          assert s[k + 1] == z;
        }
      }
      if Before(x.0, s[0].0) {
        SortedCons(x, s);
      } else {
        InsertSorted(x, s[1..]);
        var t := Insert(x, s[1..]);
        InsertPerm(x, s[1..]);
        assert s[0] in s;
        forall y | y in t ensures Before(s[0].0, y.0) {
          assert y in multiset(t);
        }
        SortedCons(s[0], t);
      }
    }
  }

  /** Sorting a map with distinct keys orders it strictly by coordinates and only reorders it. */
  lemma {:induction false} SortSpec(s: ObjMap)
    requires DistinctKeys(s)
    ensures SortedByCoords(SortByCoords(s))
    ensures multiset(SortByCoords(s)) == multiset(s)
  {
    if |s| > 0 {
      assert s == [s[0]] + s[1..];
      DistinctCons(s[0], s[1..]);
      SortSpec(s[1..]);
      forall y | y in SortByCoords(s[1..]) ensures y.0 != s[0].0 {
        assert y in multiset(SortByCoords(s[1..]));
        var k :| 0 <= k < |s[1..]| && s[1..][k] == y;
      }
      InsertSorted(s[0], SortByCoords(s[1..]));
      InsertPerm(s[0], SortByCoords(s[1..]));
    }
  }

  lemma {:induction false} FiledInsert(x: (Coord, seq<Objective>), s: ObjMap)
    ensures Filed(Insert(x, s)) == multiset(x.1) + Filed(s)
  {
    if |s| > 0 && !Before(x.0, s[0].0) {
      FiledInsert(x, s[1..]);
    }
  }

  lemma {:induction false} FiledSort(s: ObjMap)
    ensures Filed(SortByCoords(s)) == Filed(s)
  {
    if |s| > 0 {
      FiledSort(s[1..]);
      FiledInsert(s[0], SortByCoords(s[1..]));
    }
  }

  /** The entries made for left-over objectives: coordinates and objectives only. */
  function Leftover(s: ObjMap): (r: seq<ScenarioHexData>)
    ensures |r| == |s|
    ensures forall i :: 0 <= i < |s| ==> r[i] == ScenarioHexData(s[i].0, None, None, s[i].1)
    ensures Carried(r) == Filed(s)
  {
    if |s| == 0 then []
    else
      var rest := Leftover(s[1..]);
      var r := [ScenarioHexData(s[0].0, None, None, s[0].1)] + rest;
      assert r[1..] == rest;
      r
  }

  /** The hex data entries, when the section is present and non-empty. */
  function HexDataList(hexData: Option<seq<HexDataEntry>>): seq<HexDataEntry> {
    if hexData.Some? then hexData.value else []
  }

  /** `_build_hex_entries`. */
  function BuildHexEntries(hexData: Option<seq<HexDataEntry>>, m: ObjMap): (r: seq<ScenarioHexData>)
    ensures |r| >= |HexDataList(hexData)|
  {
    var (front, rest) := HexEntries(HexDataList(hexData), m);
    front + Leftover(SortByCoords(rest))
  }

  // ---------------------------------------------------------------------------
  // What `_build_hex_entries` delivers for the file's objectives

  /** The objective entries, when the section is present. */
  function ObjectiveList(objectives: Option<seq<ObjectiveEntry>>): seq<ObjectiveEntry> {
    if objectives.Some? then objectives.value else []
  }

  lemma ObjectiveMapGroups(objectives: Option<seq<ObjectiveEntry>>)
    ensures BuildObjectiveMap(objectives) == Group(ObjectiveList(objectives))
  {
  }

  /** With distinct keys, a pair is in the map exactly when it is a key with its filed objectives. */
  lemma {:induction false} MemberGet(m: ObjMap, c: Coord, os: seq<Objective>)
    requires DistinctKeys(m)
    ensures (c, os) in m <==> c in Keys(m) && os == Get(m, c)
  {
    if |m| > 0 {
      assert m == [m[0]] + m[1..];
      KeysCons(m[0], m[1..]);
      DistinctCons(m[0], m[1..]);
      MemberGet(m[1..], c, os);
    }
  }

  /**
   * Hex entry `i` of the file becomes entry `i` of the result, with its
   * coordinates, terrain and units, and with every objective of the file at
   * its coordinates, in file order; a later entry with the same coordinates
   * gets none.
   */
  lemma HexDataEntryKept(hexData: Option<seq<HexDataEntry>>, objectives: Option<seq<ObjectiveEntry>>, i: int)
    requires 0 <= i < |HexDataList(hexData)|
    ensures var hd, es := HexDataList(hexData), ObjectiveList(objectives);
      BuildHexEntries(hexData, BuildObjectiveMap(objectives))[i] ==
        ToHexData(hd[i], if SeenBefore(hd, i) then [] else ObjectivesAt(es, hd[i].coords))
  {
    var hd, es := HexDataList(hexData), ObjectiveList(objectives);
    HexEntriesAt(hd, Group(es), i);
    GroupGet(es, hd[i].coords);
  }

  /** The left-over state of the map: distinct keys, each an objective coordinate without a hex entry. */
  lemma LeftoverMap(hd: seq<HexDataEntry>, es: seq<ObjectiveEntry>)
    ensures var rest := HexEntries(hd, Group(es)).1;
      DistinctKeys(rest) &&
      (forall c :: c in Keys(rest) <==> ObjectivesAt(es, c) != [] && c !in CoordsOf(hd)) &&
      (forall c :: c in Keys(rest) ==> Get(rest, c) == ObjectivesAt(es, c))
  {
    var rest := HexEntries(hd, Group(es)).1;
    GroupKeys(es);
    HexEntriesLeave(hd, Group(es));
    forall c | c in Keys(rest) ensures Get(rest, c) == ObjectivesAt(es, c) {
      GroupGet(es, c);
    }
  }

  /** The entries after the file's hex entries are in strictly increasing coordinate order. */
  lemma LeftoverSorted(hexData: Option<seq<HexDataEntry>>, objectives: Option<seq<ObjectiveEntry>>)
    ensures var r, n := BuildHexEntries(hexData, BuildObjectiveMap(objectives)), |HexDataList(hexData)|;
      forall i, j :: n <= i < j < |r| ==> Before(r[i].coords, r[j].coords)
  {
    var hd, es := HexDataList(hexData), ObjectiveList(objectives);
    var (front, rest) := HexEntries(hd, Group(es));
    LeftoverDistinct(hd, es);
    SortSpec(rest);
    LeftoverInOrder(SortByCoords(rest));
    ShiftedOrder(front, Leftover(SortByCoords(rest)));
  }

  lemma LeftoverDistinct(hd: seq<HexDataEntry>, es: seq<ObjectiveEntry>)
    ensures DistinctKeys(HexEntries(hd, Group(es)).1)
  {
    GroupKeys(es);
    HexEntriesLeave(hd, Group(es));
  }

  lemma LeftoverInOrder(s: ObjMap)
    requires SortedByCoords(s)
    ensures forall i, j :: 0 <= i < j < |Leftover(s)| ==> Before(Leftover(s)[i].coords, Leftover(s)[j].coords)
  {
  }

  lemma ShiftedOrder(a: seq<ScenarioHexData>, b: seq<ScenarioHexData>)
    requires forall i, j :: 0 <= i < j < |b| ==> Before(b[i].coords, b[j].coords)
    ensures forall i, j :: |a| <= i < j < |a + b| ==> Before((a + b)[i].coords, (a + b)[j].coords)
  {
    forall i, j | |a| <= i < j < |a + b| ensures Before((a + b)[i].coords, (a + b)[j].coords) {
      assert (a + b)[i] == b[i - |a|] && (a + b)[j] == b[j - |a|];
    }
  }

  /**
   * An entry after the file's hex entries is exactly a terrain-less, unit-less
   * entry carrying all the objectives at a coordinate that has objectives but
   * no hex entry; every such coordinate gets one.
   */
  lemma LeftoverContents(hexData: Option<seq<HexDataEntry>>, objectives: Option<seq<ObjectiveEntry>>, e: ScenarioHexData)
    ensures var hd, es := HexDataList(hexData), ObjectiveList(objectives);
      var r := BuildHexEntries(hexData, BuildObjectiveMap(objectives));
      e in r[|hd|..] <==>
        e.terrain.None? && e.units.None? && e.objectives == ObjectivesAt(es, e.coords) &&
        e.objectives != [] && e.coords !in CoordsOf(hd)
  {
    var hd, es := HexDataList(hexData), ObjectiveList(objectives);
    var (front, rest) := HexEntries(hd, Group(es));
    var sorted := SortByCoords(rest);
    var r := BuildHexEntries(hexData, BuildObjectiveMap(objectives));
    assert r[|hd|..] == Leftover(sorted);
    LeftoverMap(hd, es);
    SortSpec(rest);
    MemberGet(rest, e.coords, e.objectives);
    LeftoverMember(sorted, e);
    assert (e.coords, e.objectives) in sorted <==> (e.coords, e.objectives) in multiset(rest);
  }

  /** A bare entry built from the map holds exactly a pair of the map. */
  lemma LeftoverMember(s: ObjMap, e: ScenarioHexData)
    ensures e in Leftover(s) <==> e.terrain.None? && e.units.None? && (e.coords, e.objectives) in s
  {
    if e in Leftover(s) {
      var k :| 0 <= k < |s| && Leftover(s)[k] == e;
      assert s[k] == (e.coords, e.objectives);
    }
    if e.terrain.None? && e.units.None? && (e.coords, e.objectives) in s {
      var k :| 0 <= k < |s| && s[k] == (e.coords, e.objectives);
      assert Leftover(s)[k] == e;
    }
  }

  /** Every objective of the file appears exactly once across all the entries. */
  lemma EveryObjectiveOnce(hexData: Option<seq<HexDataEntry>>, objectives: Option<seq<ObjectiveEntry>>)
    ensures Carried(BuildHexEntries(hexData, BuildObjectiveMap(objectives))) ==
      multiset(AllObjectives(ObjectiveList(objectives)))
  {
    var hd, es := HexDataList(hexData), ObjectiveList(objectives);
    var (front, rest) := HexEntries(hd, Group(es));
    GroupKeys(es);
    GroupFiled(es);
    HexEntriesFiled(hd, Group(es));
    FiledSort(rest);
    CarriedAppend(front, Leftover(SortByCoords(rest)));
  }

  // ---------------------------------------------------------------------------
  // The other sections, copied field by field

  function FactionBack(f: ScenarioFaction): FactionData {
    FactionData(f.id, f.name, f.color, f.player)
  }

  /** `_build_factions`: one core faction per file faction, in order, losing no field. */
  function BuildFactions(fs: seq<FactionData>): (r: seq<ScenarioFaction>)
    ensures |r| == |fs|
    ensures forall i :: 0 <= i < |fs| ==> FactionBack(r[i]) == fs[i]
  {
    seq(|fs|, i requires 0 <= i < |fs| => ScenarioFaction(fs[i].id, fs[i].name, fs[i].color, fs[i].player))
  }

  function UnitBack(u: ScenarioUnit): UnitData {
    UnitData(u.id, u.name, u.faction, u.kind, u.attack, u.defense, u.movement)
  }

  /** `_build_units`: one core unit per file unit, in order, losing no field. */
  function BuildUnits(us: seq<UnitData>): (r: seq<ScenarioUnit>)
    ensures |r| == |us|
    ensures forall i :: 0 <= i < |us| ==> UnitBack(r[i]) == us[i]
  {
    seq(|us|, i requires 0 <= i < |us| =>
      ScenarioUnit(us[i].id, us[i].name, us[i].faction, us[i].kind, us[i].attack, us[i].defense, us[i].movement))
  }

  /** `_build_terrain_types`: the same names, each with its colour; no section gives no types. */
  function BuildTerrainTypes(tt: Option<map<string, string>>): map<string, ScenarioTerrainType>
  {
    if tt.None? then map[] else map k | k in tt.value :: ScenarioTerrainType(tt.value[k])
  }

  /** `_build_road_types`: the same names, each with its edge movement cost; no section gives no types. */
  function BuildRoadTypes(rt: Option<map<string, real>>): map<string, ScenarioRoadType>
  {
    if rt.None? then map[] else map k | k in rt.value :: ScenarioRoadType(rt.value[k])
  }

  function RoadBack(r: ScenarioRoad): RoadEntry {
    RoadEntry(r.kind, r.path)
  }

  /** `_build_roads`: one core road per file road, in order; no section gives no roads. */
  function BuildRoads(roads: Option<seq<RoadEntry>>): (r: seq<ScenarioRoad>)
    ensures roads.None? ==> r == []
    ensures roads.Some? ==> |r| == |roads.value| && forall i :: 0 <= i < |r| ==> RoadBack(r[i]) == roads.value[i]
  {
    var rs := if roads.Some? then roads.value else [];
    seq(|rs|, i requires 0 <= i < |rs| => ScenarioRoad(rs[i].kind, rs[i].path))
  }

  /**
   * `to_core`: the identifying fields are kept, factions, units, types and
   * roads are carried over field by field, the hex entries come first in file
   * order with their terrain and units, and every objective of the file lands
   * on exactly one entry.
   */
  function ToCore(d: ScenarioData): (s: Scenario)
    ensures s.id == d.id && s.name == d.name && s.description == Some(d.description)
    ensures s.boardSize == Some(d.boardSize) && s.terrainDefault == d.terrainDefault
    ensures s.factions == BuildFactions(d.factions) && s.units == BuildUnits(d.units) && s.roads == BuildRoads(d.roads)
    ensures |s.factions| == |d.factions| && forall i :: 0 <= i < |d.factions| ==> FactionBack(s.factions[i]) == d.factions[i]
    ensures |s.units| == |d.units| && forall i :: 0 <= i < |d.units| ==> UnitBack(s.units[i]) == d.units[i]
    ensures d.terrainTypes.None? ==> s.terrainTypes == map[]
    ensures d.terrainTypes.Some? ==> (s.terrainTypes.Keys == d.terrainTypes.value.Keys &&
      forall k :: k in s.terrainTypes ==> s.terrainTypes[k].color == d.terrainTypes.value[k])
    ensures d.roadTypes.None? ==> s.roadTypes == map[]
    ensures d.roadTypes.Some? ==> (s.roadTypes.Keys == d.roadTypes.value.Keys &&
      forall k :: k in s.roadTypes ==> s.roadTypes[k].edgeMoveCost == d.roadTypes.value[k])
    ensures d.roads.None? ==> s.roads == []
    ensures d.roads.Some? ==> |s.roads| == |d.roads.value| && forall i :: 0 <= i < |s.roads| ==> RoadBack(s.roads[i]) == d.roads.value[i]
    ensures |s.hexData| >= |HexDataList(d.hexData)|
    ensures forall i :: 0 <= i < |HexDataList(d.hexData)| ==> KeptEntry(HexDataList(d.hexData)[i], s.hexData[i])
    ensures forall i :: 0 <= i < |HexDataList(d.hexData)| ==>
      s.hexData[i].objectives ==
        if SeenBefore(HexDataList(d.hexData), i) then [] else ObjectivesAt(ObjectiveList(d.objectives), HexDataList(d.hexData)[i].coords)
    ensures Carried(s.hexData) == multiset(AllObjectives(ObjectiveList(d.objectives)))
  {
    var hd := HexDataList(d.hexData);
    var entries := BuildHexEntries(d.hexData, BuildObjectiveMap(d.objectives));
    EveryObjectiveOnce(d.hexData, d.objectives);
    forall i | 0 <= i < |hd|
      ensures KeptEntry(hd[i], entries[i])
      ensures entries[i].objectives == if SeenBefore(hd, i) then [] else ObjectivesAt(ObjectiveList(d.objectives), hd[i].coords)
    {
      HexDataEntryKept(d.hexData, d.objectives, i);
    }
    Scenario(d.id, d.name, Some(d.description), Some(d.boardSize), BuildFactions(d.factions), BuildUnits(d.units),
             d.terrainDefault, BuildTerrainTypes(d.terrainTypes), BuildRoadTypes(d.roadTypes),
             BuildRoads(d.roads), entries)
  }

  /**
   * `load_scenario_data` after reading and validating the file: the file must
   * describe the requested scenario.
   */
  function LoadScenarioData(requested: string, parsed: ScenarioData): (r: Result<ScenarioData, Error>)
    ensures r.Success? <==> parsed.id == requested
    ensures r.Success? ==> r.value == parsed
    ensures r.Failure? ==> r.error == ScenarioIdMismatch
  {
    if parsed.id != requested then Failure(ScenarioIdMismatch) else Success(parsed)
  }

  /** `load_scenario`: a loaded scenario always carries the requested id. */
  function LoadScenario(requested: string, parsed: ScenarioData): (r: Result<Scenario, Error>)
    ensures r.Success? <==> parsed.id == requested
    ensures r.Success? ==> r.value.id == requested && r.value == ToCore(parsed)
    ensures r.Failure? ==> r.error == ScenarioIdMismatch
  {
    match LoadScenarioData(requested, parsed)
      case Failure(e) => Failure(e)
      case Success(data) => Success(ToCore(data))
  }

  /**
   * An objective whose coordinates have no hex entry gets an entry of its own,
   * after the file's entries, with no terrain and no units.
   */
  lemma ObjectiveWithoutHexExample()
    ensures var hd := [HexDataEntry(Coord(5, 5), Some("open"), Some(["red_unit_1"]))];
      var os := [ObjectiveEntry(Coord(2, 3), 1, Hold)];
      BuildHexEntries(Some(hd), BuildObjectiveMap(Some(os))) ==
        [ScenarioHexData(Coord(5, 5), Some("open"), Some(["red_unit_1"]), []),
         ScenarioHexData(Coord(2, 3), None, None, [Objective(Coord(2, 3), 1, Hold)])]
  {
    var hd := [HexDataEntry(Coord(5, 5), Some("open"), Some(["red_unit_1"]))];
    var os := [ObjectiveEntry(Coord(2, 3), 1, Hold)];
    var x := (Coord(2, 3), [Objective(Coord(2, 3), 1, Hold)]);
    assert os[..0] == [];
    assert Group(os[..0]) == [];
    assert Group(os) == Add([], Coord(2, 3), Objective(Coord(2, 3), 1, Hold));
    assert BuildObjectiveMap(Some(os)) == [x];
    assert hd[1..] == [];
    assert Remove([x], Coord(5, 5)) == [x];
    assert Get([x], Coord(5, 5)) == [];
    assert HexEntries(hd[1..], [x]) == ([], [x]);
    assert UnitsTuple(hd[0].units) == Some(["red_unit_1"]);
    assert ToHexData(hd[0], []) == ScenarioHexData(Coord(5, 5), Some("open"), Some(["red_unit_1"]), []);
    var step := HexEntries(hd[1..], Remove([x], hd[0].coords));
    assert HexEntries(hd, [x]) == ([ToHexData(hd[0], Get([x], hd[0].coords))] + step.0, step.1);
    assert step == ([], [x]);
    assert [ToHexData(hd[0], [])] + [] == [ToHexData(hd[0], [])];
    assert HexEntries(hd, [x]) == ([ScenarioHexData(Coord(5, 5), Some("open"), Some(["red_unit_1"]), [])], [x]);
    assert SortByCoords([x]) == [x];
  }

  /** Left-over objectives are grouped and ordered by coordinates, whatever the file order. */
  lemma LeftoverOrderExample()
    ensures var a, b := Coord(3, 1), Coord(1, 2);
      var os := [ObjectiveEntry(a, 2, Hold), ObjectiveEntry(b, 1, Hold), ObjectiveEntry(a, 5, Hold)];
      BuildHexEntries(None, BuildObjectiveMap(Some(os))) ==
        [ScenarioHexData(b, None, None, [Objective(b, 1, Hold)]),
         ScenarioHexData(a, None, None, [Objective(a, 2, Hold), Objective(a, 5, Hold)])]
  {
    var a, b := Coord(3, 1), Coord(1, 2);
    var os := [ObjectiveEntry(a, 2, Hold), ObjectiveEntry(b, 1, Hold), ObjectiveEntry(a, 5, Hold)];
    assert os[..2][..1] == [os[0]];
    assert os[..2] == [os[0], os[1]];
    assert os[..2][..1][..0] == [];
    var xa := (a, [Objective(a, 2, Hold), Objective(a, 5, Hold)]);
    var xb := (b, [Objective(b, 1, Hold)]);
    assert Group(os[..2][..1][..0]) == [];
    assert Group(os[..1]) == [(a, [Objective(a, 2, Hold)])];
    assert Group(os[..2]) == Add([(a, [Objective(a, 2, Hold)])], b, Objective(b, 1, Hold));
    assert Add([(a, [Objective(a, 2, Hold)])], b, Objective(b, 1, Hold)) == [(a, [Objective(a, 2, Hold)])] + Add([], b, Objective(b, 1, Hold));
    assert Group(os[..2]) == [(a, [Objective(a, 2, Hold)]), xb];
    assert Group(os) == Add([(a, [Objective(a, 2, Hold)]), xb], a, Objective(a, 5, Hold));
    assert [Objective(a, 2, Hold)] + [Objective(a, 5, Hold)] == xa.1;
    assert BuildObjectiveMap(Some(os)) == [xa, xb];
    assert SortByCoords([xb]) == [xb];
    assert SortByCoords([xa, xb]) == Insert(xa, [xb]) == [xb, xa];
  }
}

=== FILE: score_tracker.dfy ===
/**
 * The score table of a game: one running total per player, keyed by the
 * player's name (or the player's printed form when the name is empty).
 */
module Scores {
  import opened Players

  /**
   * The key a player's points are filed under: the name when it is a
   * non-empty string, otherwise the printed form of the whole player, which
   * is modelled by the player value itself.
   */
  datatype Key = Named(name: string) | Described(player: Player)

  function PlayerKey(p: Player): (k: Key)
    ensures k.Named? <==> p.name != ""
  {
    if p.name != "" then Named(p.name) else Described(p)
  }

  /** Two players share a score exactly when they have the same non-empty name or are equal. */
  lemma SharedKey(p: Player, q: Player)
    ensures PlayerKey(p) == PlayerKey(q) <==> (p.name != "" && p.name == q.name) || p == q
  {
  }

  datatype ScoreTracker = ScoreTracker(scores: map<Key, int>)

  /** Keys of the listed players, in any order. */
  predicate Listed(players: seq<Player>, k: Key) {
    exists i :: 0 <= i < |players| && PlayerKey(players[i]) == k
  }

  /** `ScoreTracker(players)`: every listed player starts at zero and nobody else has an entry. */
  function NewTracker(players: seq<Player>): (t: ScoreTracker)
    ensures forall k :: k in t.scores <==> Listed(players, k)
    ensures forall k :: k in t.scores ==> t.scores[k] == 0
  {
    if |players| == 0 then ScoreTracker(map[])
    else
      var rest := NewTracker(players[1..]);
      assert forall k :: Listed(players, k) <==> k == PlayerKey(players[0]) || Listed(players[1..], k) by {
        forall k ensures Listed(players, k) <==> k == PlayerKey(players[0]) || Listed(players[1..], k) {
          if Listed(players[1..], k) {
            var i :| 0 <= i < |players[1..]| && PlayerKey(players[1..][i]) == k;
            assert PlayerKey(players[i + 1]) == k;
          }
          if Listed(players, k) && k != PlayerKey(players[0]) {
            var i :| 0 <= i < |players| && PlayerKey(players[i]) == k;
            assert players[1..][i - 1] == players[i];
          }
        }
      }
      ScoreTracker(rest.scores[PlayerKey(players[0]) := 0])
  }

  /** `get_score`: the player's total, zero for a player the table has never seen. */
  function GetScore(t: ScoreTracker, p: Player): (r: int)
    ensures PlayerKey(p) !in t.scores ==> r == 0
  {
    if PlayerKey(p) in t.scores then t.scores[PlayerKey(p)] else 0
  }

  /** `add_points`: a non-positive award is ignored; otherwise the points go to the player's key. */
  function AddPoints(t: ScoreTracker, p: Player, points: int): (r: ScoreTracker)
    ensures points <= 0 ==> r == t
    ensures points > 0 ==> r.scores.Keys == t.scores.Keys + {PlayerKey(p)}
  {
    if points <= 0 then t
    else
      var k := PlayerKey(p);
      ScoreTracker(t.scores[k := (if k in t.scores then t.scores[k] else 0) + points])
  }

  /** `get_scores`: a copy of the whole table; each player's entry is what `get_score` reports. */
  function GetScores(t: ScoreTracker): (r: map<Key, int>)
    ensures forall p :: PlayerKey(p) in r ==> r[PlayerKey(p)] == GetScore(t, p)
    ensures r.Keys == t.scores.Keys
  {
    t.scores
  }

  /** A fresh table reports zero for every player, listed or not. */
  lemma NewTrackerStartsAtZero(players: seq<Player>, p: Player)
    ensures GetScore(NewTracker(players), p) == 0
  {
  }

  /**
   * An award raises the score of every player sharing the recipient's key by
   * the award, when positive, and leaves every other score unchanged.
   */
  lemma AddPointsScores(t: ScoreTracker, p: Player, points: int, q: Player)
    ensures GetScore(AddPoints(t, p, points), q) ==
      GetScore(t, q) + (if points > 0 && PlayerKey(q) == PlayerKey(p) then points else 0)
  {
  }

  /** Successive positive awards accumulate: the score grows by their sum. */
  lemma AwardsAccumulate(t: ScoreTracker, p: Player, a: int, c: int)
    requires a > 0 && c > 0
    ensures GetScore(AddPoints(AddPoints(t, p, a), p, c), p) == GetScore(t, p) + a + c
  {
    AddPointsScores(t, p, a, p);
    AddPointsScores(AddPoints(t, p, a), p, c, p);
  }

  /** All scores are non-negative. */
  predicate NonNegative(t: ScoreTracker) {
    forall k :: k in t.scores ==> t.scores[k] >= 0
  }

  /** Scores start non-negative and awards keep them so: no score ever drops. */
  lemma ScoresNeverDrop(players: seq<Player>, t: ScoreTracker, p: Player, points: int, q: Player)
    ensures NonNegative(NewTracker(players))
    ensures NonNegative(t) ==> NonNegative(AddPoints(t, p, points))
    ensures GetScore(AddPoints(t, p, points), q) >= GetScore(t, q)
  {
    AddPointsScores(t, p, points, q);
  }

  /** A tracker for one named player, awarded 3 and then 2, reports 5. */
  lemma AccumulationExample(p: Player)
    requires p.name == "Alice"
    ensures GetScore(AddPoints(AddPoints(NewTracker([p]), p, 3), p, 2), p) == 5
  {
    AwardsAccumulate(NewTracker([p]), p, 3, 2);
  }
}

=== FILE: unit.dfy ===
/**
 * Units: identity, combat factors, nullable coordinates, friendliness,
 * even-q adjacency and the forced-retreat displacement.
 */
module Units {
  import opened Wrappers
  import opened HexGrid
  import opened Players

  type UnitId = string

  /** A unit; `coords` is None while the unit is not on the board. */
  datatype Unit = Unit(
    id: UnitId,
    name: string,
    faction: FactionId,
    player: Player,
    kind: string,
    attack: int,
    defense: int,
    move: int,
    coords: Option<Coord>)

  function SetCoords(u: Unit, c: Option<Coord>): Unit {
    u.(coords := c)
  }

  /** `set_coords` followed by `get_coords` returns what was set and changes nothing else. */
  lemma SetCoordsRoundTrip(u: Unit, c: Option<Coord>)
    ensures SetCoords(u, c).coords == c
    ensures SetCoords(u, c).(coords := u.coords) == u
  {
  }

  /** Friendliness: both units belong to the same (structurally equal) player. */
  predicate IsFriendly(u: Unit, v: Unit) {
    u.player == v.player
  }

  /** Friendliness is an equivalence relation. */
  lemma FriendlinessIsEquivalence(u: Unit, v: Unit, w: Unit)
    ensures IsFriendly(u, u)
    ensures IsFriendly(u, v) <==> IsFriendly(v, u)
    ensures IsFriendly(u, v) && IsFriendly(v, w) ==> IsFriendly(u, w)
  {
  }

  /** `Player.owns`: the unit's faction is one of the player's factions. */
  predicate Owns(p: Player, u: Unit) {
    u.faction in p.factions
  }

  /** `Player.own_units`: the owned units, in their original order. */
  function OwnUnits(p: Player, units: seq<Unit>): (r: seq<Unit>)
    ensures forall u :: u in r <==> u in units && Owns(p, u)
    ensures |r| <= |units|
  {
    if |units| == 0 then []
    else (if Owns(p, units[0]) then [units[0]] else []) + OwnUnits(p, units[1..])
  }

  /** The filter commutes with concatenation, so relative order is preserved. */
  lemma {:induction false} OwnUnitsAppend(p: Player, a: seq<Unit>, b: seq<Unit>)
    ensures OwnUnits(p, a + b) == OwnUnits(p, a) + OwnUnits(p, b)
  {
    if |a| == 0 {
      assert a + b == b;
    } else {
      assert (a + b)[1..] == a[1..] + b;
      OwnUnitsAppend(p, a[1..], b);
    }
  }

  /** Offsets checked by `is_adjacent` for a unit in an even column (even-q layout). */
  const EvenQOffsets: seq<(int, int)> := [(-1, 0), (-1, 1), (0, 1), (1, 0), (0, -1), (-1, -1)]

  /** Offsets checked by `is_adjacent` for a unit in an odd column. */
  const OddQOffsets: seq<(int, int)> := [(1, 0), (1, 1), (0, 1), (-1, 0), (0, -1), (1, -1)]

  function AdjacencyOffsets(column: int): seq<(int, int)> {
    if column % 2 == 0 then EvenQOffsets else OddQOffsets
  }

  /**
   * `Unit.is_adjacent`. The receiver must be placed (its column is read with `%`);
   * an unplaced other unit is never adjacent.
   */
  predicate IsAdjacent(u: Unit, v: Unit)
    requires u.coords.Some?
  {
    var c := u.coords.value;
    v.coords.Some? &&
    exists i :: 0 <= i < 6 && Shift(c, AdjacencyOffsets(c.column)[i]) == v.coords.value
  }

  /** Unit adjacency uses the same offsets, per column parity, as the board's neighbour tables. */
  lemma AdjacencyMatchesBoardTables(u: Unit, v: Unit)
    requires u.coords.Some?
    ensures IsAdjacent(u, v) <==> v.coords.Some? && IsNeighbour(u.coords.value, v.coords.value)
  {
    var c := u.coords.value;
    if v.coords.Some? {
      var n := NeighbourCandidates(c);
      if IsAdjacent(u, v) {
        var i :| 0 <= i < 6 && Shift(c, AdjacencyOffsets(c.column)[i]) == v.coords.value;
        if c.column % 2 == 0 {
          assert v.coords.value == n[i];
        } else {
          assert v.coords.value == n[[3, 2, 1, 0, 5, 4][i]];
        }
      }
      if IsNeighbour(c, v.coords.value) {
        var j :| 0 <= j < 6 && n[j] == v.coords.value;
        if c.column % 2 == 0 {
          assert Shift(c, AdjacencyOffsets(c.column)[j]) == v.coords.value;
        } else {
          var i := [3, 2, 1, 0, 5, 4][j];
          assert Shift(c, AdjacencyOffsets(c.column)[i]) == v.coords.value;
        }
      }
    }
  }

  /** Adjacency between placed units is symmetric. */
  lemma AdjacencySymmetric(u: Unit, v: Unit)
    requires u.coords.Some? && v.coords.Some?
    ensures IsAdjacent(u, v) ==> IsAdjacent(v, u)
  {
    AdjacencyMatchesBoardTables(u, v);
    AdjacencyMatchesBoardTables(v, u);
    NeighbourRelation(u.coords.value, v.coords.value);
  }

  /**
   * The loop of `forced_move` for a unit not in the anchor's column: each step
   * moves `dcol` columns, and moves the row by `-dcol` only when the unit is in
   * the current anchor's row; the position before the step becomes the next anchor.
   */
  function StepAway(pos: Coord, anchor: Coord, dcol: int, steps: int): Coord
    decreases if steps > 0 then steps else 0
  {
    if steps <= 0 then pos
    else
      var drow := if pos.row == anchor.row then -dcol else 0;
      StepAway(Coord(pos.row + drow, pos.column + dcol), pos, dcol, steps - 1)
  }

  /** `Unit.forced_move` on coordinates: move `distance` hexes away from `from`. */
  function ForcedMoveCoords(pos: Coord, from: Coord, distance: int): Coord {
    if pos.column == from.column then
      Coord(pos.row + (pos.row - from.row) * distance, pos.column)
    else
      StepAway(pos, from, pos.column - from.column, distance)
  }

  /** How many of `n` steps shift the row when the first step does (`first`) or not: they alternate. */
  function RowShifts(first: bool, n: nat): nat {
    if first then (n + 1) / 2 else n / 2
  }

  /** Closed form of the off-column retreat: the row shifts on alternate steps. */
  lemma {:induction false} StepAwayClosedForm(pos: Coord, anchor: Coord, dcol: int, n: nat)
    requires dcol != 0
    decreases n
    ensures StepAway(pos, anchor, dcol, n)
         == Coord(pos.row - dcol * RowShifts(pos.row == anchor.row, n), pos.column + n * dcol)
  {
    if n > 0 {
      var first := pos.row == anchor.row;
      var drow := if first then -dcol else 0;
      var next := Coord(pos.row + drow, pos.column + dcol);
      StepAwayClosedForm(next, pos, dcol, n - 1);
      assert (next.row == pos.row) == !first;
      if first {
        assert RowShifts(first, n) == 1 + RowShifts(false, n - 1);
      } else {
        assert RowShifts(first, n) == RowShifts(true, n - 1);
      }
      assert (n - 1) * dcol + dcol == n * dcol;
    }
  }

  /** A retreat of distance 0 leaves the unit where it is. */
  lemma ForcedMoveZero(pos: Coord, from: Coord)
    ensures ForcedMoveCoords(pos, from, 0) == pos
  {
  }

  /** A retreat along a column keeps the column and moves the row `distance` times the gap. */
  lemma ForcedMoveSameColumn(pos: Coord, from: Coord, distance: int)
    requires pos.column == from.column
    ensures ForcedMoveCoords(pos, from, distance).column == pos.column
    ensures ForcedMoveCoords(pos, from, distance).row - pos.row == (pos.row - from.row) * distance
  {
  }

  /** Off the anchor's column, each step moves `column - from.column` columns; rows shift on alternate steps. */
  lemma ForcedMoveOffColumn(pos: Coord, from: Coord, distance: nat)
    requires pos.column != from.column
    ensures ForcedMoveCoords(pos, from, distance).column == pos.column + distance * (pos.column - from.column)
    ensures ForcedMoveCoords(pos, from, distance).row
         == pos.row - (pos.column - from.column) * RowShifts(pos.row == from.row, distance)
  {
    StepAwayClosedForm(pos, from, pos.column - from.column, distance);
  }

  /** The retreats exercised by the combat tests: (4,4) from (3,5), (3,6) from (3,5), (3,5) from (2,5). */
  lemma ForcedMoveExamples()
    ensures ForcedMoveCoords(Coord(4, 4), Coord(3, 5), 2) == Coord(5, 2)
    ensures ForcedMoveCoords(Coord(3, 6), Coord(3, 5), 2) == Coord(2, 8)
    ensures ForcedMoveCoords(Coord(3, 5), Coord(2, 5), 2) == Coord(5, 5)
  {
  }
}

=== FILE: vision.dfy ===
/**
 * Axial hex geometry for line of sight: the six axial directions, the
 * neighbour in a direction, cube distance, and the ring and disk of hexes
 * around a centre.
 */
module HexVision {

  /** An axial coordinate (q, r). */
  type Axial = (int, int)

  /** The axial directions, in the order the ring walk uses them. */
  const HexDirections: seq<Axial> := [(1, 0), (1, -1), (0, -1), (-1, 0), (-1, 1), (0, 1)]

  /** `hex_neighbor`: any integer direction is taken modulo 6 (never negative, as in Python). */
  function HexNeighbor(h: Axial, direction: int): Axial {
    var d := HexDirections[direction % 6];
    (h.0 + d.0, h.1 + d.1)
  }

  /** `p` and `h` are neighbours: `h` is `p`'s neighbour in one of the six directions. */
  predicate Adjacent(p: Axial, h: Axial) {
    exists k :: 0 <= k < 6 && HexNeighbor(p, k) == h
  }

  function Abs(x: int): nat {
    if x < 0 then -x else x
  }

  function Max3(a: nat, b: nat, c: nat): nat {
    if a >= b && a >= c then a else if b >= c then b else c
  }

  /** `axial_to_cube`: x = q, z = r, y = -x - z. */
  function Cube(h: Axial): (int, int, int) {
    (h.0, -h.0 - h.1, h.1)
  }

  /** `hex_distance`: the largest cube-coordinate difference. */
  function HexDistance(a: Axial, b: Axial): nat {
    CubeDistance(Cube(a), Cube(b))
  }

  function CubeDistance(a: (int, int, int), b: (int, int, int)): nat {
    Max3(Abs(a.0 - b.0), Abs(a.1 - b.1), Abs(a.2 - b.2))
  }

  /** Distance is symmetric and is zero exactly between equal hexes. */
  lemma DistanceIsMetric(a: Axial, b: Axial)
    ensures HexDistance(a, b) == HexDistance(b, a)
    ensures HexDistance(a, b) == 0 <==> a == b
  {
  }

  /** Every neighbour is at distance one. */
  lemma NeighborAtDistanceOne(h: Axial, direction: int)
    ensures HexDistance(h, HexNeighbor(h, direction)) == 1
  {
    var k := direction % 6;
    assert 0 <= k < 6;
  }

  /** One step changes the distance to any hex by at most one. */
  lemma StepDistance(p: Axial, direction: int, o: Axial)
    ensures HexDistance(HexNeighbor(p, direction), o) <= HexDistance(p, o) + 1
    ensures HexDistance(p, o) <= HexDistance(HexNeighbor(p, direction), o) + 1
  {
    var n := HexNeighbor(p, direction);
    NeighborCubeOffsets(p, direction);
    CubeStep(Cube(p), Cube(n), Cube(o));
  }

  /** A step moves each cube coordinate by at most one. */
  lemma NeighborCubeOffsets(p: Axial, direction: int)
    ensures var cp, cn := Cube(p), Cube(HexNeighbor(p, direction));
      -1 <= cn.0 - cp.0 <= 1 && -1 <= cn.1 - cp.1 <= 1 && -1 <= cn.2 - cp.2 <= 1
  {
    var k := direction % 6;
    assert 0 <= k < 6;
  }

  lemma CubeStep(cp: (int, int, int), cn: (int, int, int), co: (int, int, int))
    requires -1 <= cn.0 - cp.0 <= 1 && -1 <= cn.1 - cp.1 <= 1 && -1 <= cn.2 - cp.2 <= 1
    ensures CubeDistance(cn, co) <= CubeDistance(cp, co) + 1
    ensures CubeDistance(cp, co) <= CubeDistance(cn, co) + 1
  {
    Max3Near(Abs(cp.0 - co.0), Abs(cp.1 - co.1), Abs(cp.2 - co.2), Abs(cn.0 - co.0), Abs(cn.1 - co.1), Abs(cn.2 - co.2));
  }

  lemma Max3Near(a: nat, b: nat, c: nat, x: nat, y: nat, z: nat)
    requires a <= x + 1 && b <= y + 1 && c <= z + 1
    requires x <= a + 1 && y <= b + 1 && z <= c + 1
    ensures Max3(x, y, z) <= Max3(a, b, c) + 1 && Max3(a, b, c) <= Max3(x, y, z) + 1
  {
  }

  // ----- rings -----

  /**
   * The hex `t` steps along side `s` of the ring of radius `r`: the walk
   * starts `r` steps from the centre in direction 4 and follows direction
   * `s` along side `s`.
   */
  function RingPoint(c: Axial, r: int, s: int, t: int): Axial
    requires 0 <= s < 6
  {
    match s
      case 0 => (c.0 - r + t, c.1 + r)
      case 1 => (c.0 + t, c.1 + r - t)
      case 2 => (c.0 + r, c.1 - t)
      case 3 => (c.0 + r - t, c.1 - r)
      case 4 => (c.0 - t, c.1 - r + t)
      case _ => (c.0 - r, c.1 + t)
  }

  /** The first `n` hexes of side `s`. */
  function SidePrefix(c: Axial, r: int, s: int, n: nat): (p: seq<Axial>)
    requires 0 <= s < 6
    ensures |p| == n
    ensures forall t :: 0 <= t < n ==> p[t] == RingPoint(c, r, s, t)
  {
    seq(n, t requires 0 <= t < n => RingPoint(c, r, s, t))
  }

  /** The first `k` complete sides of the ring of radius `r`. */
  function Sides(c: Axial, r: nat, k: nat): (p: seq<Axial>)
    requires k <= 6
    ensures |p| == k * r
  {
    if k == 0 then [] else Sides(c, r, k - 1) + SidePrefix(c, r, k - 1, r)
  }

  /** `hex_ring` as a value: nothing for a non-positive radius, otherwise the six sides in order. */
  function Ring(c: Axial, r: int): seq<Axial> {
    if r <= 0 then [] else Sides(c, r, 6)
  }

  /** Every hex of a side lies at distance `r`. */
  lemma RingPointDistance(c: Axial, r: nat, s: int, t: int)
    requires 0 <= s < 6 && 0 <= t <= r
    ensures HexDistance(RingPoint(c, r, s, t), c) == r
  {
  }

  lemma {:induction false} SidesMembers(c: Axial, r: nat, k: nat)
    requires k <= 6
    ensures forall x :: x in Sides(c, r, k) <==> exists s, t :: 0 <= s < k && 0 <= t < r && x == RingPoint(c, r, s, t)
  {
    if k > 0 {
      SidesMembers(c, r, k - 1);
      var p := SidePrefix(c, r, k - 1, r);
      forall x | x in p ensures exists s, t :: 0 <= s < k && 0 <= t < r && x == RingPoint(c, r, s, t) {
        var t :| 0 <= t < r && p[t] == x;
        assert x == RingPoint(c, r, k - 1, t);
      }
      forall s, t | 0 <= s < k && 0 <= t < r && s == k - 1 ensures RingPoint(c, r, s, t) in p {
        assert p[t] == RingPoint(c, r, s, t);
      }
    }
  }

  /** A hex at distance `r > 0` lies on one of the six sides. */
  lemma OnSomeSide(c: Axial, r: int, x: Axial)
    requires r > 0 && HexDistance(x, c) == r
    ensures exists s, t :: 0 <= s < 6 && 0 <= t < r && x == RingPoint(c, r, s, t)
  {
    var dq, dr := x.0 - c.0, x.1 - c.1;
    if dr == r && -r <= dq < 0 {
      assert x == RingPoint(c, r, 0, dq + r);
    } else if 0 <= dq < r && dq + dr == r {
      assert x == RingPoint(c, r, 1, dq);
    } else if dq == r && -r < dr <= 0 {
      assert x == RingPoint(c, r, 2, -dr);
    } else if dr == -r && 0 < dq <= r {
      assert x == RingPoint(c, r, 3, r - dq);
    } else if dq + dr == -r && -r < dq <= 0 {
      assert x == RingPoint(c, r, 4, -dq);
    } else {
      assert x == RingPoint(c, r, 5, dr);
    }
  }

  /**
   * The ring of radius `r > 0` lists exactly the hexes at distance `r`, six
   * per unit of radius; a non-positive radius gives no hexes.
   */
  lemma RingIsCircle(c: Axial, r: int)
    ensures r <= 0 ==> Ring(c, r) == []
    ensures r > 0 ==> |Ring(c, r)| == 6 * r
    ensures r > 0 ==> forall x :: x in Ring(c, r) <==> HexDistance(x, c) == r
  {
    if r > 0 {
      SidesMembers(c, r, 6);
      forall x ensures x in Ring(c, r) <==> HexDistance(x, c) == r {
        if x in Ring(c, r) {
          var s, t :| 0 <= s < 6 && 0 <= t < r && x == RingPoint(c, r, s, t);
          RingPointDistance(c, r, s, t);
        }
        if HexDistance(x, c) == r {
          OnSomeSide(c, r, x);
        }
      }
    }
  }

  /** Walking one step along side `s` reaches the next hex of that side. */
  lemma RingStep(c: Axial, r: int, s: int, t: int)
    requires 0 <= s < 6
    ensures RingPoint(c, r, s, t + 1) == (RingPoint(c, r, s, t).0 + HexDirections[s].0, RingPoint(c, r, s, t).1 + HexDirections[s].1)
    ensures s < 5 ==> RingPoint(c, r, s, r) == RingPoint(c, r, s + 1, 0)
  {
  }

  /** `hex_ring`: the walk around the six sides, one hex per step. */
  method HexRing(center: Axial, radius: int) returns (results: seq<Axial>)
    ensures results == Ring(center, radius)
    ensures radius <= 0 ==> results == []
    ensures radius > 0 ==> |results| == 6 * radius
    ensures forall x :: x in results ==> HexDistance(x, center) == radius
    ensures radius > 0 ==> forall x :: HexDistance(x, center) == radius ==> x in results
  {
    RingIsCircle(center, radius);
    if radius <= 0 {
      return [];
    }
    results := [];
    var (dq, dr) := HexDirections[4];
    var cq, cr := center.0 + dq * radius, center.1 + dr * radius;
    var side := 0;
    while side < 6
      invariant 0 <= side <= 6
      invariant results == Sides(center, radius, side)
      invariant side < 6 ==> (cq, cr) == RingPoint(center, radius, side, 0)
    {
      var (eq, er) := HexDirections[side];
      var step := 0;
      while step < radius
        invariant 0 <= step <= radius
        invariant results == Sides(center, radius, side) + SidePrefix(center, radius, side, step)
        invariant (cq, cr) == RingPoint(center, radius, side, step)
      {
        assert SidePrefix(center, radius, side, step + 1) ==
          SidePrefix(center, radius, side, step) + [RingPoint(center, radius, side, step)];
        results := results + [(cq, cr)];
        RingStep(center, radius, side, step);
        cq, cr := cq + eq, cr + er;
        step := step + 1;
      }
      RingStep(center, radius, side, radius);
      side := side + 1;
    }
  }

  // ----- disks -----

  /** `hex_disk` as a value: the centre, then the rings of radius 1 to `r` in turn. */
  function Disk(c: Axial, r: int): seq<Axial>
    decreases r
  {
    if r <= 0 then [c] else Disk(c, r - 1) + Ring(c, r)
  }

  /**
   * The disk starts at the centre and lists exactly the hexes within
   * distance `r` (only the centre for a negative radius), 1 + 3r(r+1) of them.
   */
  lemma {:induction false} DiskIsBall(c: Axial, r: int)
    ensures Disk(c, r)[0] == c
    ensures forall x :: x in Disk(c, r) <==> x == c || HexDistance(x, c) <= r
    ensures r >= 0 ==> |Disk(c, r)| == 1 + 3 * r * (r + 1)
    decreases r
  {
    if r <= 0 {
      forall x ensures x in Disk(c, r) <==> x == c || HexDistance(x, c) <= r {
        DistanceIsMetric(x, c);
      }
    } else {
      DiskIsBall(c, r - 1);
      RingIsCircle(c, r);
      assert 3 * r * (r + 1) == 3 * (r - 1) * r + 6 * r;
    }
  }

  /** `hex_disk`: the centre, then each ring outward. */
  method HexDisk(center: Axial, radius: int) returns (out: seq<Axial>)
    ensures out == Disk(center, radius)
    ensures |out| > 0 && out[0] == center
    ensures forall x :: x in out <==> x == center || HexDistance(x, center) <= radius
  {
    out := [center];
    var r := 1;
    while r <= radius
      invariant 1 <= r && (radius >= 1 ==> r <= radius + 1) && (radius < 1 ==> r == 1)
      invariant out == Disk(center, r - 1)
    {
      var ring := HexRing(center, r);
      out := out + ring;
      r := r + 1;
    }
    assert radius >= 1 ==> r - 1 == radius;
    assert radius < 1 ==> Disk(center, radius) == [center] == Disk(center, r - 1);
    DiskIsBall(center, radius);
  }
}

=== FILE: wrappers.dfy ===
/** Failure-compatible result types shared by the rules-engine model. */
module Wrappers {

  /** A nullable value: Python's `None` or a present value. */
  datatype Option<+T> = None | Some(value: T)

  /** The outcome of an operation that may raise: either a value or the error it raises. */
  datatype Result<+T, +E> = Success(value: T) | Failure(error: E) {
    predicate IsFailure() {
      Failure?
    }

    function PropagateFailure<U>(): Result<U, E>
      requires Failure?
    {
      Failure(error)
    }

    function Extract(): T
      requires Success?
    {
      value
    }
  }

  /** The exceptions the engine raises, named after the Python exception and its cause. */
  datatype Error =
    | OutOfBounds          // ValueError("Unit is out of bounds")
    | UnknownUnit          // KeyError: no unit registered under the id
    | MissingCoords        // TypeError: arithmetic on a removed unit's None coordinates
    | DivisionByZero       // ZeroDivisionError in the odds ratio
    | FloatOverflow        // OverflowError: the odds ratio is too large for a float
    | NoPlayerForFaction   // ValueError("No player found for faction ...")
    | NoCurrentPlayer      // AttributeError: a game built without players has no current player
    | ScenarioIdMismatch   // ValueError("Scenario ... does not match file contents")
    | TupleIndex           // IndexError: a tuple too short for Hex equality
    | DieOutOfRange        // IndexError: a static die roll that indexes past a results-table row
    | PlayerNotListed      // ValueError from `list.index`: the current player is not in the player list
}
